=== FILE: README.md ===
# Hack It education backend: a verified model of its decision logic

The backend serves an education platform: students, teachers and admins
hold accounts; courses carry sessions (videos) and exams; exams and
question banks are built from groups of questions; admins sell courses
through one-time payment codes; students receive public notifications.
The parts of it that can be stated precisely are modelled here in Dafny
and proved.

- **Video delivery.** The HLS access token is modelled as a JWT-style
  codec (`HlsToken`) with a `type: "hls"` discriminator and an expiry
  claim. The gateway (`HlsGateway`) issues playlist URLs and re-checks
  the live account, device and enrolment state on every playlist, key
  and segment request. The media playlist rewrite (`Playlist`) sends
  segment lines and `EXT-X-KEY` URIs back through the gateway. It is
  modelled character by character, as the two regular-expression
  replacements behave (the second one expanding the `$` patterns of its
  replacement string), and related to a line-by-line reading.
  `JsNumber` reads the token lifetime setting as JavaScript's `Number`
  does. The one-time video tickets (`VideoTickets`) can be created,
  redeemed once, listed and deleted. The Bunny player-link signer is
  `BunnySigner`.
- **Accounts.**
  - Student, teacher and admin registration, activation by OTP, login
    and the three-step password reset are in `Accounts`, `Students`,
    `Teachers` and `Admins`.
  - So are the suspension guards and the device lock.
  - Registration and update are proved to keep e-mails, phones and
    user names unique.
  - `Favorites` holds the favourite toggles and the bank and content
    grants.
- **Payments.** `Payments` covers code generation and the redemption
  check chain. Redemption is a first-match loop over the candidate
  codes, followed by the enrolment writes and the compensating revert.
- **Courses and sessions.**
  - `Courses` covers the price and discount rules, the enrolment gate
    and the merged session and exam list ordered by creation time.
  - `Sessions` covers the like and dislike mutual exclusion and the
    signed-video view.
- **Exams and banks.**
  - The Fisher–Yates shuffle (`Shuffle`) is an in-place array loop
    proved to produce a permutation.
  - `Groups`, `Questions`, `GroupBanks`, `Exams` and `Contents` cover
    the create and update rules, the per-group truncation and the
    one-level delete cascades.
- **Notifications and versions.** `Notifications` covers 12-hour time
  and date formatting (each proved to read back), paged listings, the
  settings defaults and the push fan-out in batches of 500
  (`PushBatches`). `Paging` holds the shared page arithmetic.
  `Versions` covers the app-version table.
- **Shared pieces.** `Validators` holds the phone, e-mail and
  `HH:MM[:SS]` duration grammars, each decided by a function and proved
  equal to a declarative description. `Text`, `Tables`, `Lists`,
  `Crypto`, `Records`, `Store` and `Wrappers` are shared helpers.

## How the model is built

- **The database.** It is a class, `Store.Db`, with one field per
  collection. A collection is a `Table<T>`: a sequence of id/value rows
  in insertion order, so Mongo's `findOne` is the first match.
- **Service operations.** Each one is a pure function returning the
  result together with the new table. The service method of the same
  name applies it to `Store.Db` and its `ensures` ties the new state to
  that function. The properties are lemmas about the functions.
- **Clocks, randomness and primitives.** Clocks are integer parameters.
  Random draws are oracle parameters. SHA-256, `encodeURIComponent` and
  the object-storage presigner are function parameters.
- **bcrypt.** It is a symbolic hash of the password's key: its UTF-8
  bytes, of which only the first 72 count, as in the native `$2b$`
  binding. `compare` accepts exactly the passwords with the same key.
- **JWT.** It is a concrete length-prefixed encoding with a symbolic
  MAC, so decoding a signed token is proved, not assumed.
- **Absent values.** The empty string stands for an absent query value,
  environment value or file. `BASE_URL` is the exception: it is an
  option, because an unset one is rendered as `undefined`.
- **Malformed ids.** Ids are opaque strings, and a lookup by an id
  that names no record finds nothing. Where the source checks an id
  with `isValidObjectId` first, the model makes the same check. In
  `Sessions.Like` and the notification token and settings updates the
  model returns the `Internal` failure of Mongoose's `CastError`.
  Everywhere else an id that is not an ObjectId is treated as an
  unknown one; see "Left out".

## Model

| member | source | states |
|---|---|---|
| HlsToken.DecodeEncode | utils/hlsToken.ts:28-33 | decoding an encoded claim set gives it back unchanged, so what `jwt.verify` returns is what `jwt.sign` was given |
| HlsToken.PartsCompact | utils/hlsToken.ts:28 | a signed token is never empty and splits into its encoded payload and that payload's MAC under the signing key |
| HlsToken.MacInjective | utils/hlsToken.ts:5-6 | the MAC fixes its key: a signature made with one secret is never the signature under a different secret |
| HlsToken.Verify | utils/hlsToken.ts:33 | `jwt.verify` only ever fails with a token error, and it succeeds only strictly before the `exp` claim (section 4.1.4 of RFC 7519) |
| HlsToken.VerifyHlsToken | utils/hlsToken.ts:32-40 | a verified token has `type "hls"` and has not expired; any other outcome is a token error or `Forbidden("Invalid token type")` |
| HlsToken.AssertValidHlsToken | utils/hlsToken.ts:43-73 | an empty token is `BadRequest` before any verification; every verification failure becomes one `Forbidden`; success holds exactly when the token verifies and all four claims match, and the decoded payload is then returned unchanged |
| HlsToken.SignStampsType | utils/hlsToken.ts:19-29 | signing stamps `type "hls"` onto the claims, with `iat` = now and `exp` = now + lifetime |
| HlsToken.VerifySigned | utils/hlsToken.ts:19-40 | round trip: verifying a freshly signed token before expiry returns the same `sub`, `courseId`, `sessionId` and `deviceId` with `type "hls"` |
| HlsToken.SignedTokenExpires | utils/hlsToken.ts:19-40 | once the lifetime has passed, verification of the same token fails with the expiry error |
| HlsToken.ForeignSecretRejected | utils/hlsToken.ts:5-33 | a token signed under one secret (`HLS_TOKEN_SECRET`, else `JWT_SECRET`) never verifies under a different secret |
| HlsToken.ForeignTypeForbidden | utils/hlsToken.ts:32-40 | a validly signed, unexpired token whose `type` is not `"hls"` is refused with `Forbidden("Invalid token type")` |
| HlsToken.AssertValidOnSigned | utils/hlsToken.ts:43-73 | a freshly signed token passes the assertion exactly when its claims are the expected ones; a mismatch in any claim is `Forbidden` |
| Playlist.SegmentMatchEnd | services/hls/Hls.service.ts:220-223 | where `^(.*\.ts)\s*$` matches at a line start, the match covers the whole line and ends inside the text |
| Playlist.CopyStep | services/hls/Hls.service.ts:220-223 | a character where no match starts is copied unchanged, and the next character is at a line start exactly when this one ends a line |
| Playlist.MatchStep | services/hls/Hls.service.ts:220-223 | a match is replaced by the segment prefix, the trimmed match and the token query, and scanning resumes after the match |
| Playlist.SegmentsCopyRun | services/hls/Hls.service.ts:220-223 | text after the start of a line and before its end is copied unchanged by the segment pass |
| Playlist.SegmentsOneSegmentLine | services/hls/Hls.service.ts:220-223 | a segment line followed by a non-blank line is rewritten alone and its line break is kept |
| Playlist.SegmentsEmptyLine | services/hls/Hls.service.ts:220-223 | an empty line is kept by the segment pass |
| Playlist.SegmentsOtherLine | services/hls/Hls.service.ts:220-223 | a line that does not end in `.ts` is kept unchanged, with its line break |
| Playlist.SegmentsLastLine | services/hls/Hls.service.ts:220-223 | the last line of the text is rewritten exactly as the line-level rule says |
| Playlist.SegmentsFirstLine | services/hls/Hls.service.ts:220-223 | on a joined list of lines, the first line is rewritten by the line-level rule and the rest are rewritten on their own |
| Playlist.SegmentsByLine | services/hls/Hls.service.ts:220-223 | when no segment line is followed by a blank line, the character-level pass equals rewriting each line on its own |
| Playlist.SegmentLines | services/hls/Hls.service.ts:220-223 | the line-level segment rewrite keeps the number of lines and rewrites each line independently |
| Playlist.KeyMatchEnd | services/hls/Hls.service.ts:225-229 | a match of the key pattern covers the tag and runs to the first line feed, or to the end of the text |
| Playlist.ExpandLiteral | services/hls/Hls.service.ts:225-229 | a replacement string holding no `$` is inserted as written |
| Playlist.DollarAmpersandExpands | services/hls/Hls.service.ts:225-229 | `$&` in the replacement string stands for the matched text (section 22.1.3.19.1 of ECMA-262) |
| Playlist.KeysLiteral | services/hls/Hls.service.ts:225-229 | with a replacement string holding no `$`, the key pass is the literal replacement of every key tag up to its line feed |
| Playlist.KeyLineNoDollar | services/hls/Hls.service.ts:225-229 | the gateway key tag holds no `$` when the ids and the encoded token hold none |
| Playlist.KeyCopyStep | services/hls/Hls.service.ts:225-229 | a position where `#EXT-X-KEY:METHOD=AES-128,` does not start is copied by the key pass (with a replacement holding no `$`, the pass inserted as written) |
| Playlist.KeysCopyRun | services/hls/Hls.service.ts:225-229 | text in which the key tag never starts is copied unchanged by the key pass |
| Playlist.KeysLineFeed | services/hls/Hls.service.ts:225-229 | the key replacement never crosses a line feed (`[^\n]*`) |
| Playlist.KeysTagLine | services/hls/Hls.service.ts:225-229 | an AES-128 key line is replaced in full by the gateway key line, up to its line feed |
| Playlist.KeysOneLine | services/hls/Hls.service.ts:225-229 | a line in which the tag can only appear at its start is rewritten by the line-level key rule |
| Playlist.KeysLastLine | services/hls/Hls.service.ts:225-229 | the last line is rewritten by the line-level key rule |
| Playlist.KeysByLine | services/hls/Hls.service.ts:225-229 | with a replacement inserted as written, the character-level key pass equals replacing each AES-128 key line and keeping every other line |
| Playlist.KeyLines | services/hls/Hls.service.ts:225-229 | the line-level key rewrite keeps the number of lines and rewrites each line independently |
| Playlist.RewriteLine | services/hls/Hls.service.ts:216-229 | a segment line becomes `/api/hackit/hls/segment/{courseId}/{sessionId}/…?hlsToken=…`; otherwise an AES-128 key line becomes the gateway key line; any other line is unchanged |
| Playlist.RewriteLines | services/hls/Hls.service.ts:216-229 | the manifest keeps its number of lines and each line is rewritten by the line rule |
| Playlist.RewrittenSegmentLineIsPlain | services/hls/Hls.service.ts:219-229 | a rewritten segment line contains no `#` and no line break, so the key pass that follows leaves it alone |
| Playlist.RewritePlaylistByLine | services/hls/Hls.service.ts:216-229 | on a manifest with no blank line after a segment line, and ids and token holding no `#`, line break or `$`, the two regex passes equal rewriting every line independently |
| Playlist.BlankLineAfterSegmentIsDropped | services/hls/Hls.service.ts:220-223 | as written, `\s*` swallows the blank line after a segment line: `"a.ts\n\nb"` loses one line break |
| Playlist.FinalLineFeedAfterSegmentIsDropped | services/hls/Hls.service.ts:220-223 | as written, a final line feed after a segment line is swallowed |
| Playlist.CommentEndingInTsIsRewritten | services/hls/Hls.service.ts:220-223 | as written, a `#` line that ends in `.ts` is rewritten as a segment |
| HlsGateway.SessionOf | services/hls/Hls.service.ts:85-86 | the session is found exactly when it exists and belongs to the course |
| HlsGateway.ExpiresIn | services/hls/Hls.service.ts:88 | an unset or empty `HLS_TOKEN_EXPIRES_IN` gives 600 s; any other text is read as `Number` reads it, and only an integer is a lifetime jsonwebtoken accepts |
| HlsGateway.ExpiresInDigits | services/hls/Hls.service.ts:88 | a setting made of decimal digits, leading zeros included, is that many seconds |
| HlsGateway.ExpiresInForms | services/hls/Hls.service.ts:88 | a padded number, `m` + `e` + `k`, a `0x` hexadecimal literal and a negative number are all lifetimes (`m·10^k`, the hexadecimal value, a negative lifetime); a number with a non-zero fraction digit is refused |
| JsNumber.SpacesAround | services/hls/Hls.service.ts:88 | white space before or after the text does not change what `Number` reads |
| JsNumber.ReadsDigits | services/hls/Hls.service.ts:88 | a run of decimal digits reads as its decimal value |
| JsNumber.ReadsDecimal | services/hls/Hls.service.ts:88 | `Number(String(n))` is `n` |
| JsNumber.ReadsNegative | services/hls/Hls.service.ts:88 | a `-` before the digits of `n` reads as `-n` |
| JsNumber.ReadsExponent | services/hls/Hls.service.ts:88 | `m` + `e` + `k` in decimal reads as `m·10^k` |
| JsNumber.FractionIsNotInteger | services/hls/Hls.service.ts:88 | digits, `.` and a non-zero digit read as a number that is not an integer, so no lifetime |
| JsNumber.ReadsHex | services/hls/Hls.service.ts:88 | `0x` followed by hexadecimal digits reads as their value |
| JsNumber.Scaled | services/hls/Hls.service.ts:88 | a mantissa with a non-negative exponent is `m·10^e`; with a negative exponent and a last digit other than 0 it is not an integer |
| HlsToken.ReadIntText | utils/hlsToken.ts:19-29 | a NumericDate written as a JSON integer, negative ones included, reads back as the same integer |
| HlsGateway.IssueChecks | services/hls/Hls.service.ts:69-86 | issuing succeeds exactly when the student exists, is available, is not suspended, is enrolled and the session belongs to the course; a missing student or session is `NotFound`, the other failures are `BadRequest` |
| HlsGateway.BaseUrlText | services/hls/Hls.service.ts:100-103 | an unset `BASE_URL` is rendered in the URL as `undefined`, a set one as its value |
| HlsGateway.GeneratePlaylistUrl | services/hls/Hls.service.ts:64-106 | a failed check stops the call with its error; then an empty signing secret fails before the lifetime is looked at, and a lifetime jsonwebtoken refuses fails next; otherwise the URL is `${BASE_URL}/api/hackit/hls/playlist/{courseId}/{sessionId}?hlsToken=<encoded token>` and `expiresIn` is the lifetime read from `HLS_TOKEN_EXPIRES_IN` |
| HlsGateway.IssuedParts | services/hls/Hls.service.ts:88-97 | an issued token is the one `signHlsToken` makes for the student's id, course, session and device with the given lifetime, and that lifetime is reported |
| HlsGateway.Gate | services/hls/Hls.service.ts:114-139 | a gated request passes exactly when the token is present and verifies, names the requested course and session, and the student still exists, is available, is not suspended, uses the token's device and is enrolled |
| HlsGateway.GetEncryptionKey | services/hls/Hls.service.ts:109-156 | the key is returned exactly when the gate passes and `{courseId}-{sessionId}.key` exists; a missing key file is `NotFound` |
| HlsGateway.ManifestKey | services/hls/Hls.service.ts:198-201 | the manifest key is the stored `video` of the session of that course; a missing session is `NotFound` |
| HlsGateway.GetPlaylist | services/hls/Hls.service.ts:159-232 | the gate's failure is the result; a manifest missing from storage fails as the storage client's `NoSuchKey`; on success the stored manifest is returned with its segment and key lines rewritten to carry the same token |
| HlsGateway.BasePrefix | services/hls/Hls.service.ts:272 | a trailing `index.m3u8` is removed from the manifest key; a key without that suffix is kept whole |
| HlsGateway.GetSegment | services/hls/Hls.service.ts:235-286 | the segment is read from the manifest's directory plus `segmentName`, and only after the gate passes; a missing object fails as `NoSuchKey` |
| HlsGateway.IssuedTokenOpensGate | services/hls/Hls.service.ts:88-139 | a token issued for a student opens the gate for that course and session until it expires, as long as the store is unchanged |
| HlsGateway.SignedOpensGate | services/hls/Hls.service.ts:109-139 | a token signed for an entitled student's registered device opens the gate for its course and session before it expires |
| HlsGateway.IssuedTokenExpires | services/hls/Hls.service.ts:88-122 | once its lifetime has passed, an issued token is refused whatever the store now holds |
| HlsGateway.RevokedStudentLockedOut | services/hls/Hls.service.ts:124-139 | a student who was deleted, deactivated, suspended, moved to another device or unenrolled is refused key, playlist and segment, even with an unexpired token |
| HlsGateway.SegmentBesideManifest | services/hls/Hls.service.ts:271-273 | a segment's storage key is the manifest's directory followed by the segment name |
| HlsGateway.KeyFileNameInjective | services/hls/Hls.service.ts:145 | for ObjectId course ids the key file name determines the course and the session |
| BunnySigner.SignedIframeUrl | utils/bunnySignedURL.ts:6-33 | fails exactly when the URL does not parse; otherwise the output is `https://iframe.mediadelivery.net/play/{seg1}/{seg2}?expires={e}&token={SHA256_hex(key + seg2 + e)}`, with the segments taken after dropping empty ones |
| BunnySigner.ExpiresWindow | utils/bunnySignedURL.ts:22 | `floor(now / 1000) + 2` seconds lies more than 1 s and at most 2 s after now |
| BunnySigner.Pathname | utils/bunnySignedURL.ts:10 | a parsed pathname always starts with `/` |
| BunnySigner.HttpsPathname | utils/bunnySignedURL.ts:10 | the pathname of `https://host/path` is `/path` |
| BunnySigner.PlayUrlPathname | utils/bunnySignedURL.ts:10-13 | the pathname of a player URL is `/play/{libraryId}/{videoId}` |
| BunnySigner.PlayPathSegments | utils/bunnySignedURL.ts:13-19 | the non-empty segments of `/play/{libraryId}/{videoId}` are `play`, the library id and the video id |
| BunnySigner.SignPlayUrl | utils/bunnySignedURL.ts:6-33 | signing a player URL keeps its library and video ids and appends the expiry and the token computed from the video id |
| VideoTickets.NewTicket | models/courses/session/token/Token.model.ts:25-41 | a new ticket is unused and expires 24 h (86,400,000 ms) after its creation, holding the given fields |
| VideoTickets.DeclaredSchemaRejectsEveryTicket | models/courses/session/token/Token.model.ts:29-33 | the schema as declared requires a field `id` that the service never writes, so no ticket the service creates validates |
| VideoTickets.TicketSchemaAcceptsCompleteTickets | models/courses/session/token/Token.model.ts:9-41 | with the session reference named `sessionId`, a ticket validates exactly when `videoId` and `libraryId` are present |
| VideoTickets.AcceptsTicket | models/courses/session/token/Token.model.ts:9-18 | the executable validation agrees with the corrected schema |
| VideoTickets.Create | services/courses/session/token/Token.service.ts:17-48 | an unparsable URL fails first and a non-ObjectId `sessionId` is `BadRequest`; nothing is stored on failure; a token that trims to nothing fails validation and one whose trim is already stored hits the unique index; on success one ticket with library and video from path segments 1 and 2 and the trimmed token is appended and the result is `https://hackerha.cloud/api/video/play/<token>` |
| VideoTickets.CreateVideoToken | services/courses/session/token/Token.service.ts:17-48 | the ticket table afterwards and the result are those of `Create`, with the token the hex text of the 32 random bytes |
| VideoTickets.CreateKeepsUniqueTokens | models/courses/session/token/Token.model.ts:19-24 | creating a ticket keeps every token unique |
| VideoTickets.CreateKeepsChronological | services/courses/session/token/Token.service.ts:42 | a ticket created now keeps the table in creation order |
| VideoTickets.Redeem | services/courses/session/token/Token.service.ts:51-84 | an empty token is `BadRequest`; the lookup uses the token trimmed, as the schema's `trim` setter casts the `findOne` filter, and a token whose trim is unknown is `NotFound`; success holds exactly when the ticket is unused and `now <= expiresAt`; success sets only its `used` to true and returns the signed player URL and the session; failures change nothing |
| VideoTickets.SameTrimRedeemsAlike | services/courses/session/token/Token.service.ts:52-56 | two non-empty tokens with the same trim give the same redemption result and ticket table |
| VideoTickets.PaddedTokenRedeemsAlike | models/courses/session/token/Token.model.ts:19-24 | a token sent with white space before and after it gives the same result and ticket table as the bare token |
| VideoTickets.VerifyAndUseToken | services/courses/session/token/Token.service.ts:51-84 | the ticket table afterwards and the result are those of `Redeem` |
| VideoTickets.RedeemOnce | services/courses/session/token/Token.service.ts:62-73 | a redeemed ticket cannot be redeemed again: the second attempt is "already used" at any time |
| VideoTickets.RedeemSignsStoredVideo | services/courses/session/token/Token.service.ts:75-83 | the returned URL is the Bunny signer applied to the stored library and video of the ticket |
| VideoTickets.RedeemKeepsUniqueTokens | models/courses/session/token/Token.model.ts:19-24 | redemption keeps every token unique |
| VideoTickets.CreatedTicketRedeems | services/courses/session/token/Token.service.ts:17-84 | a freshly created ticket redeems within 24 h and reports its session |
| VideoTickets.TokensBySession | services/courses/session/token/Token.service.ts:87-97 | a non-ObjectId session id is `BadRequest`; otherwise the result holds exactly the tickets of that session |
| VideoTickets.TokensBySessionNewestFirst | services/courses/session/token/Token.service.ts:92-94 | the session's tickets come newest first |
| VideoTickets.DeleteToken | services/courses/session/token/Token.service.ts:100-109 | a non-ObjectId id is `BadRequest`, an unknown one `NotFound`; success removes that ticket and no other |
| VideoTickets.DeleteTokensBySessionId | services/courses/session/token/Token.service.ts:112-123 | removes exactly the session's tickets and reports how many were removed |
| Crypto.ReadFieldsOfFields | utils/hlsToken.ts:28-33 | a sequence of length-prefixed fields reads back as the same sequence, which makes the token's claim encoding decodable |
| Crypto.FieldInjective | utils/hlsToken.ts:28-33 | two encodings that agree are encodings of the same field followed by the same rest |
| Crypto.BcryptCompareHash | models/users/teachers/Teacher.model.ts:106-110 | `compare(c, hash(p))` holds exactly when `c` and `p` have the same first 72 UTF-8 bytes, so the stored hash accepts its own password and those agreeing with it on those bytes |
| Crypto.CharUtf8Decodes | models/users/teachers/Teacher.model.ts:93-110 | a character's UTF-8 encoding announces its own length and decodes back to the character (RFC 3629) |
| Crypto.Utf8Append | models/users/teachers/Teacher.model.ts:93-110 | the encoding of a concatenation is the concatenation of the encodings |
| Crypto.Utf8Ascii | models/users/teachers/Teacher.model.ts:93-110 | text below U+0080 takes one byte per character |
| Crypto.Utf8Injective | models/users/teachers/Teacher.model.ts:93-110 | different strings have different UTF-8 encodings |
| Crypto.BcryptKey | models/users/teachers/Teacher.model.ts:93-110 | the bcrypt key is a prefix of the UTF-8 encoding of at most 72 bytes, the whole encoding when it is shorter |
| Crypto.KeyExactWithin | models/users/teachers/Teacher.model.ts:106-110 | for a password under 72 bytes, or two of at most 72, the keys agree exactly when the passwords are equal |
| Crypto.LongPasswordsCollide | models/users/teachers/Teacher.model.ts:106-110 | two passwords sharing their first 72 bytes verify against each other's hash, whatever follows |
| Crypto.DoubleHashBreaksCompare | models/users/teachers/Teacher.model.ts:93-103 | for a password under 72 bytes, hashing a hash again would lock the password out, which is why the save hook rehashes only a modified password |
| Lists.Position | services/users/students/Student.service.ts:457-470 | `indexOf`: the first position of the id, or the length when it is absent |
| Lists.AddToSet | services/users/students/Student.service.ts:626-647 | `$addToSet`: the id is present afterwards, nothing else is added, and a list without duplicates stays so |
| Lists.AddToSetIdempotent | services/users/students/Student.service.ts:626-647 | adding the same id twice is the same as adding it once |
| Lists.Pull | services/users/teachers/Teacher.service.ts:400-426 | `$pull`: removes every occurrence of the id and keeps every other element |
| Accounts.Guard | services/users/students/Student.service.ts:29-41 | the account guard rejects a missing account, then an inactive one, then a suspended one, and passes exactly the live ones |
| Accounts.Activate | services/users/students/Auth.service.ts:101-124 | activation succeeds exactly for an inactive account with the right OTP; an active account or a wrong OTP is `BadRequest`; success sets `available` and clears the OTP |
| Accounts.CheckResetOtp | services/users/students/Student.service.ts:185-195 | a correct reset OTP clears the OTP and sets `resetPass`, keeping the password; a wrong one is `BadRequest` |
| Accounts.ChangePassword | services/users/students/Student.service.ts:220-246 | a change needs `resetPass` and a password that does not verify against the stored hash, that is one differing from the old in its first 72 bytes; afterwards the new password logs in and `resetPass` is false |
| Accounts.ActivationOnce | services/users/students/Auth.service.ts:101-124 | an account activates once with its OTP, and a second activation is refused as already active |
| Accounts.SpentOtpMatchesNothing | services/users/students/Auth.service.ts:120-122 | once the stored OTP is cleared no candidate matches it, so an OTP works only once |
| Accounts.ResetCycle | services/users/students/Student.service.ts:139-246 | request, OTP check and change in sequence succeed; afterwards the new password matches and a previous one differing from it in the first 72 bytes does not, and the contact and status fields are unchanged |
| Accounts.ChangeNeedsOtpCheck | services/users/students/Student.service.ts:153-157 | straight after a reset request (`resetPass` false) a password change is refused |
| Accounts.ChangeOnce | services/users/students/Student.service.ts:237-246 | one verified OTP allows one password change; a second change is refused |
| Accounts.WrongResetOtp | services/users/students/Student.service.ts:185-190 | a reset OTP that differs from the sent one (as bcrypt reads it) is refused |
| Students.DeleteFirst | services/users/students/Auth.service.ts:26-40 | `findOneAndDelete`: removes at most the first matching record and nothing else |
| Students.Register | services/users/students/Auth.service.ts:20-91 | invalid input is refused unchanged; otherwise the unverified accounts with the same e-mail and phone are purged first; an active duplicate phone (checked first) or e-mail is `BadRequest`; a failed mail leaves no new record; success appends the new inactive student |
| Students.UniqueContactsSub | services/users/students/Auth.service.ts:26-56 | removing records keeps e-mails and phones unique |
| Students.PurgedLeavesOnlyActive | services/users/students/Auth.service.ts:26-40 | after the purge, every record with the new e-mail or phone is an active one |
| Students.RegisterKeepsUnique | services/users/students/Auth.service.ts:20-91 | registration keeps ids, e-mails and phones unique |
| Students.RegisterRefusesActiveDuplicate | services/users/students/Auth.service.ts:42-56 | an active account holding the e-mail or the phone makes registration fail |
| Students.VerifyOtp | services/users/students/Auth.service.ts:95-125 | unknown student is `NotFound`, an active one or a wrong OTP is `BadRequest`, failures change nothing; success activates the account and returns a student token |
| Students.RegisteredStudentActivates | services/users/students/Auth.service.ts:20-125 | a registered student activates with the mailed OTP, and a second activation is refused |
| Students.Login | services/users/students/Auth.service.ts:128-172 | only active accounts are considered; unknown e-mail is `NotFound`, wrong password `BadRequest`; a right password from another device suspends the account and fails; success returns a student token and changes nothing |
| Students.OtherDeviceLocksAccount | services/users/students/Auth.service.ts:150-164 | after a login from another device the account guard refuses the account as restricted, while its password and courses are kept |
| Students.CredOf | services/users/students/Student.service.ts:29-41 | the credentials are found exactly for a known student id |
| Students.Profile | services/users/students/Student.service.ts:29-54 | the profile is returned exactly for a live account, otherwise the guard's error; the whole record stands for the `select`ed fields |
| Students.ResendOtp | services/users/students/Auth.service.ts:175-213 | unknown student is `NotFound`; a failed mail deletes the student; success replaces only the stored OTP hash |
| Students.DeleteAfterPut | services/users/students/Auth.service.ts:198-210 | deleting after an update leaves the same table as deleting straight away |
| Students.ResendReplacesOtp | services/users/students/Auth.service.ts:175-213 | after a resend the new OTP activates the account and an earlier one that bcrypt tells apart from it no longer does |
| Students.RequestPasswordReset | services/users/students/Student.service.ts:117-163 | an unknown active e-mail is `BadRequest`, a suspended account is refused; a failed mail deletes the student; success stores the OTP hash with `resetPass` false |
| Students.VerifyResetOtp | services/users/students/Student.service.ts:166-198 | guarded by the account guard; a correct OTP sets `resetPass` and clears the OTP; failures change nothing |
| Students.ResetPassword | services/users/students/Student.service.ts:201-253 | guarded; needs `resetPass` and a new password; success stores it and clears `resetPass`; failures change nothing |
| Students.ResetFlowThenLogin | services/users/students/Student.service.ts:117-253 | after the three reset steps the new password logs in from the bound device and a previous one differing in its first 72 bytes is refused |
| Students.RegisterStudent | services/users/students/Auth.service.ts:20-91 | the student table afterwards and the result are those of `Register` |
| Students.VerifyStudentOtp | services/users/students/Auth.service.ts:95-125 | the student table afterwards and the result are those of `VerifyOtp` |
| Students.LoginStudent | services/users/students/Auth.service.ts:128-172 | the student table afterwards and the result are those of `Login` |
| Students.ResendStudentOtp | services/users/students/Auth.service.ts:175-213 | the student table afterwards and the result are those of `ResendOtp` |
| Students.SendEmailForPasswordStudent | services/users/students/Student.service.ts:117-163 | the student table afterwards and the result are those of `RequestPasswordReset` |
| Students.ForgetPasswordStudent | services/users/students/Student.service.ts:166-198 | the student table afterwards and the result are those of `VerifyResetOtp` |
| Students.ChangePasswordStudent | services/users/students/Student.service.ts:201-253 | the student table afterwards and the result are those of `ResetPassword` |
| Favorites.WithFavs | services/users/students/Student.service.ts:457-470 | replacing one favourites list leaves the other lists, the credentials and the courses unchanged |
| Favorites.Toggle | services/users/students/Student.service.ts:457-470 | an absent id is appended and reported `added`; a present id loses its first occurrence and is reported `removed` |
| Favorites.ToggleTwiceRestores | services/users/students/Student.service.ts:457-470 | toggling an absent id twice restores the list exactly |
| Favorites.ToggleTwiceKeepsIds | services/users/students/Student.service.ts:457-470 | on a list without duplicates, toggling twice keeps the same ids |
| Favorites.ToggleDistinct | services/users/students/Student.service.ts:457-470 | a toggle keeps a list free of duplicates, and the id is present afterwards exactly when it was absent before |
| Favorites.ToggleFavorite | services/users/students/Student.service.ts:447-481 | unknown student or item is `NotFound` and changes nothing; success toggles the matching favourites list and reports the action |
| Favorites.Chosen | services/users/students/Student.service.ts:741-747 | exactly one of courseId, sessionId or bankId must be given, and that one is checked |
| Favorites.CheckFavorite | services/users/students/Student.service.ts:735-798 | not exactly one id is `BadRequest`; an unknown student or item is `NotFound`; otherwise the result is membership in the matching favourites list |
| Favorites.ToggleThenCheck | services/users/students/Student.service.ts:447-798 | after a toggle, checking the same item reports favourite exactly when the toggle added it |
| Favorites.AddBankAndContent | services/users/students/Student.service.ts:614-652 | unknown student, bank or content is `NotFound`; content of another bank is `BadRequest`; success adds bank and content with set semantics |
| Favorites.AddBankAndContentIdempotent | services/users/students/Student.service.ts:626-647 | repeating a successful call changes nothing |
| Favorites.CheckExistence | services/users/students/Student.service.ts:564-611 | no field is `BadRequest`; a bad phone or e-mail is `BadRequest`; only the provided fields appear in the result, each reporting whether an active student holds it |
| Favorites.ToggleFavoriteItem | services/users/students/Student.service.ts:447-561 | the student table afterwards and the result are those of `ToggleFavorite` |
| Favorites.AddBankAndContentForStudent | services/users/students/Student.service.ts:614-652 | the student table afterwards and the result are those of `AddBankAndContent` |
| Teachers.Document | models/users/teachers/Teacher.model.ts:15-81 | the document `Teacher.create` builds has `available`, `suspended` and `resetPass` false, keeps a valid phone number, the gender and the birth date as given, and stores `about` trimmed or "" |
| Teachers.ValidCreateMeetsSchema | models/users/teachers/Teacher.model.ts:15-56 | for a form joi accepts (which already fixes the gender and a readable birth date), the schema's validators on the trimmed values pass exactly when the user name trims to something, the e-mail to 3 characters and the password to 8 |
| Teachers.PaddedPasswordPassesJoi | models/users/teachers/Teacher.model.ts:51-56 | seven spaces and a letter are 8 characters for joi but fewer than 8 once trimmed |
| Teachers.BlankUserNamePassesJoi | models/users/teachers/Teacher.model.ts:15-19 | a user name of spaces is non-empty for joi but empty once trimmed |
| Teachers.NewTeacher | models/users/teachers/Teacher.model.ts:66-81 | a new teacher starts inactive, unsuspended and without `resetPass`, and stores the hash of the trimmed password |
| Teachers.SaveHook | models/users/teachers/Teacher.model.ts:93-103 | a modified password is stored hashed; an unmodified document is saved unchanged; no other field changes |
| Teachers.SaveKeepsPassword | models/users/teachers/Teacher.model.ts:93-103 | saving without touching the password keeps login working, where a second hash would break it for a password under 72 bytes |
| Teachers.ComparePasswordExact | models/users/teachers/Teacher.model.ts:106-110 | after the hook, `comparePassword(c)` holds exactly when `c` has the first 72 bytes of the password that was set, and so exactly when `c` is that password when it is under 72 bytes |
| Teachers.PaddedPasswordAsTyped | models/users/teachers/Teacher.model.ts:51-56 | a padded password is stored trimmed, so for a trimmed password under 72 bytes the password as typed does not match; a candidate matches exactly when its bcrypt key is that of the trimmed form |
| Teachers.Register | services/users/teachers/Auth.service.ts:16-52 | invalid input (name, phone, e-mail, password, a gender other than the two listed, a birth date `Date` cannot read, a blank `about`) is `BadRequest`; an existing phone (checked first) or e-mail of any status is `BadRequest`; then the schema's validation of the trimmed document fails with an internal error; failures change nothing; success appends the new teacher |
| Teachers.RegisteredProfile | services/users/teachers/Auth.service.ts:36-44 | a registered teacher holds the gender and birth date sent, each of the kinds the schema lists, and the description trimmed or "" |
| Teachers.RegisterKeepsUnique | services/users/teachers/Auth.service.ts:22-33 | registration keeps ids, e-mails and phones unique |
| Teachers.Login | services/users/teachers/Auth.service.ts:55-93 | unknown e-mail is `NotFound`; a suspended teacher is refused with the reason before the password is checked; a wrong password is `BadRequest` with the same text as an unknown e-mail; success returns a teacher token |
| Teachers.RegisteredTeacherLogsIn | services/users/teachers/Auth.service.ts:16-93 | a registered teacher logs in with the trimmed password, which the schema made sure is 8 characters or more |
| Teachers.NewTeacherFound | services/users/teachers/Auth.service.ts:36-44 | the new teacher is the last row and is the one login finds for its e-mail |
| Teachers.TrimmedValueRefused | models/users/teachers/Teacher.model.ts:15-56 | a form joi accepts whose user name trims to nothing or whose password trims below 8 characters fails at `Teacher.create` and stores nothing |
| Teachers.RegisteredTeacherIsGuarded | services/users/teachers/Auth.service.ts:36-44 | registration never activates a teacher, so the account guard refuses the new account as inactive |
| Teachers.CredOf | services/users/teachers/Teacher.service.ts:29-40 | credentials are found exactly for a known teacher id |
| Teachers.Profile | services/users/teachers/Teacher.service.ts:28-47 | the profile is returned exactly for a live account, otherwise the guard's error; the whole record stands for the `select`ed fields |
| Teachers.RequestPasswordReset | services/users/teachers/Teacher.service.ts:50-96 | unknown active e-mail is `BadRequest`; a suspended account is refused; a failed mail deletes the teacher; success stores the OTP hash with `resetPass` false and the password untouched |
| Teachers.DeleteAfterPut | services/users/teachers/Teacher.service.ts:78-90 | deleting after the save leaves the same table as deleting straight away |
| Teachers.VerifyResetOtp | services/users/teachers/Teacher.service.ts:99-131 | an OTP input not of 5 characters is `BadRequest`; guarded; a valid OTP sets `resetPass` and clears the OTP; an invalid one changes nothing |
| Teachers.ResetPassword | services/users/teachers/Teacher.service.ts:134-186 | a password shorter than 8 is `BadRequest`; guarded; needs `resetPass` and a password the stored hash does not accept; afterwards `resetPass` is false |
| Teachers.ResetStepsKeepPassword | models/users/teachers/Teacher.model.ts:93-103 | the reset request and the OTP check save the document without touching the password, so the old password still works until it is changed |
| Teachers.SetSuspension | services/users/teachers/Teacher.service.ts:227-265 | guarded by the account guard; success writes the suspension flag and reason; failures change nothing |
| Teachers.SuspensionNeverLifted | services/users/teachers/Teacher.service.ts:245-258 | the guard refuses a suspended account, so the suspension update can never lift a suspension |
| Teachers.RemoveStudent | services/users/teachers/Teacher.service.ts:378-427 | missing teacher, course or student is `NotFound` in that order; a course of another teacher or a student not enrolled is `BadRequest`; success pulls the course from the student and the student from the course together; failures change nothing |
| Teachers.RemoveStudentKeepsPaired | services/users/teachers/Teacher.service.ts:400-426 | the paired enrolment invariant (course in the student's list exactly when the student is in the course's list) is kept, and afterwards neither side lists the other |
| Teachers.CreateNewTeacher | services/users/teachers/Auth.service.ts:16-52 | the teacher table afterwards and the result are those of `Register` |
| Teachers.SendEmailForPasswordTeacher | services/users/teachers/Teacher.service.ts:50-96 | the teacher table afterwards and the result are those of `RequestPasswordReset` |
| Teachers.ForgetPasswordTeacher | services/users/teachers/Teacher.service.ts:99-131 | the teacher table afterwards and the result are those of `VerifyResetOtp` |
| Teachers.ChangePasswordTeacher | services/users/teachers/Teacher.service.ts:134-186 | the teacher table afterwards and the result are those of `ResetPassword` |
| Teachers.UpdateProfileSuspendedTeacher | services/users/teachers/Teacher.service.ts:227-265 | the teacher table afterwards and the result are those of `SetSuspension` |
| Teachers.RemoveStudentFromCourse | services/users/teachers/Teacher.service.ts:378-427 | the student and course tables afterwards and the result are those of `RemoveStudent`, as one atomic step |
| Admins.Normalize | models/users/admins/Admin.model.ts:25-35 | the stored e-mail is the trimmed, lower-cased input; a valid phone is stored as given |
| Admins.SaveHook | models/users/admins/Admin.model.ts:49-59 | a modified password is stored hashed; an unmodified document is saved unchanged; no other field changes |
| Admins.Create | services/users/admin/Admin.service.ts:30-79 | invalid input is `BadRequest`; a taken phone, e-mail or userName is `BadRequest`, checked in that order; failures change nothing; success appends the admin with its password hashed and returns an admin token |
| Admins.CreateKeepsUnique | services/users/admin/Admin.service.ts:36-59 | creation keeps ids, phones, e-mails and userNames unique |
| Admins.Login | services/users/admin/Auth.service.ts:15-49 | an invalid body is `BadRequest` before any lookup; an unknown e-mail and a wrong password give the same `Unauthorized`; success returns an admin token |
| Admins.CreatedAdminLogsIn | services/users/admin/Auth.service.ts:15-49 | a created admin logs in with exactly the passwords whose first 72 bytes are those of the trimmed password it was created with |
| Admins.LoginAt | services/users/admin/Auth.service.ts:21-38 | login with the record found for the e-mail succeeds exactly when the password matches its hash |
| Admins.Patched | services/users/admin/Admin.service.ts:141-152 | a supplied password is stored hashed, a supplied e-mail normalised, and the fields not supplied are kept |
| Admins.Conflict | services/users/admin/Admin.service.ts:106-138 | a conflict is reported exactly when a supplied e-mail, phone or userName is held by another admin, the e-mail first |
| Admins.Update | services/users/admin/Admin.service.ts:100-158 | invalid input is `BadRequest`, an unknown admin `NotFound`; values held by other admins are refused; success writes the patched record and returns it without the password; failures change nothing |
| Admins.UpdateKeepsUnique | services/users/admin/Admin.service.ts:106-138 | update keeps ids, phones, e-mails and userNames unique |
| Admins.ResubmitOwnValues | services/users/admin/Admin.service.ts:106-138 | re-submitting one's own userName, phone and e-mail succeeds and changes nothing |
| Admins.OwnValuesFree | services/users/admin/Admin.service.ts:106-138 | in a table with unique admins, no other admin holds an admin's own e-mail, phone or userName |
| Admins.Remove | services/users/admin/Admin.service.ts:161-166 | an unknown admin is `NotFound` and changes nothing; otherwise that admin is removed |
| Admins.ChangePassword | services/users/admin/Admin.service.ts:169-198 | unknown admin is `NotFound`; a wrong current password is `BadRequest`; success stores the hash of the new password and nothing else |
| Admins.ChangePasswordTakesEffect | services/users/admin/Admin.service.ts:169-198 | after a change the new password is the current one and an old one differing from it in the first 72 bytes is refused |
| Admins.Profile | services/users/admin/Admin.service.ts:16-27 | an empty id is `BadRequest`, an unknown one `NotFound`; otherwise the admin without its password |
| Admins.CreateNewAdmin | services/users/admin/Admin.service.ts:30-79 | the admin table afterwards and the result are those of `Create` |
| Admins.UpdateAdmin | services/users/admin/Admin.service.ts:100-158 | the admin table afterwards and the result are those of `Update` |
| Admins.DeleteAdmin | services/users/admin/Admin.service.ts:161-166 | the admin table afterwards and the result are those of `Remove` |
| Admins.ChangeAdminPassword | services/users/admin/Admin.service.ts:169-198 | the admin table afterwards and the result are those of `ChangePassword` |
| Validators.PhoneShape | models/users/admins/Admin.model.ts:19-23 | `/^09[0-9]{8}$/` accepts exactly "09" followed by eight digits |
| Validators.PhoneIsTrimmed | models/users/teachers/Teacher.model.ts:25-29 | a phone number the pattern accepts has no surrounding white space, so the schema's trim never changes it |
| Validators.IsEmail | models/users/admins/Admin.model.ts:25-35 | the decision procedure accepts exactly the strings `/^[^\s@]+@[^\s@]+\.[^\s@]+$/` describes: a non-empty run without white space or `@`, one `@`, then such a run containing a dot with something on both sides |
| Validators.Lower | models/users/admins/Admin.model.ts:30 | lower-casing keeps the length and maps every character through the ASCII lower-case map |
| Validators.LowerIdempotent | models/users/admins/Admin.model.ts:30 | lower-casing twice is lower-casing once |
| Validators.NormalEmail | models/users/admins/Admin.model.ts:28-30 | the stored e-mail (trimmed, lower-cased) has no upper-case ASCII letter |
| Validators.LowerKeepsEmail | models/users/admins/Admin.model.ts:25-35 | lower-casing a valid e-mail leaves it valid |
| Validators.HourTextValue | models/courses/exam/Exam.model.ts:24-27 | `([0-1]?[0-9]\|2[0-3])` accepts exactly one or two digits whose value is at most 23 |
| Validators.SixtyTextValue | models/courses/exam/Exam.model.ts:24-27 | `[0-5][0-9]` accepts exactly two digits whose value is at most 59 |
| Validators.DurationDecision | models/courses/exam/Exam.model.ts:24-27 | the duration check accepts exactly an hour of value at most 23, a colon, two minute digits and an optional `:`-seconds part, both at most 59 |
| Validators.ClockReadingIsDuration | models/banks/content/Content.model.ts:24-27 | every clock reading from 0:00 to 23:59:59, written `H:MM` or `HH:MM:SS`, is accepted |
| Validators.DurationFields | models/banks/content/Content.model.ts:24-27 | an accepted duration has an hour field of at most 23 and a minute field of at most 59 |
| Validators.DurationExamples | models/courses/exam/Exam.model.ts:24-27 | "24:00" and "1:5" are refused, "9:05" and "23:59:59" accepted |
| Payments.RawCode | services/payment/Payment.service.ts:73 | `randomInt(100000, 999999)` draws from 100000 to 999998: the upper bound is excluded |
| Payments.IssuedCodeShape | services/payment/Payment.service.ts:73-88 | the issued code is six decimal digits and the stored record matches exactly that code |
| Payments.CodeSaveHook | models/payment/paymentCode/PaymentCode.model.ts:57-67 | a modified code is stored hashed; an unmodified record is saved unchanged; no other field changes |
| Payments.NewCode | services/payment/Payment.service.ts:76-88 | a new code is unused, bound to the student, expires 24 hours after issue and matches the trimmed raw code |
| Payments.GenerateCode | services/payment/Payment.service.ts:35-38 | a body the create validator refuses is `BadRequest` and stores nothing; a valid one goes on to `Generate` with its university number, course and student number |
| Payments.CreateNeedsEveryKey | models/payment/paymentCode/PaymentCode.model.ts:87-108 | a create body missing the university number, course id, admin name or student number is `BadRequest` before any lookup, with nothing stored |
| Payments.AdminNameIgnored | services/payment/Payment.service.ts:40-86 | the `adminName` the validator requires does not affect the outcome; a new code and the result carry the logged-in admin's user name |
| Payments.Generate | services/payment/Payment.service.ts:40-99 | once the body is valid: missing admin, then missing course are `NotFound`; a free course is `BadRequest`; success needs the student with both numbers and the course not yet enrolled, appends the new code and returns the raw code, expiry and admin name; failures change nothing |
| Payments.Enrol | services/payment/Payment.service.ts:169-209 | the write sequence succeeds exactly when no step fails; any failed step ends in the single enrolment-failed `BadRequest` |
| Payments.Reverted | services/payment/Payment.service.ts:203-207 | after the revert the chosen code is unused and bound to no student |
| Payments.VerifyPayment | services/payment/Payment.service.ts:102-106 | a body the redemption validator refuses is `BadRequest` and changes nothing; a valid one goes on to `Redeem` with its code, university number, student and course |
| Payments.UseNeedsEveryKey | models/payment/paymentCode/PaymentCode.model.ts:111-132 | a redemption body missing the code, university number, student id or course id is `BadRequest` before any lookup, with nothing changed |
| Payments.Redeem | services/payment/Payment.service.ts:108-211 | once the body is valid: success needs every write to succeed; every refusal other than a failed write leaves all four collections unchanged |
| Payments.FirstMatch | services/payment/Payment.service.ts:137-148 | the loop over the candidates stops at the first code whose hash matches, or reports none |
| Payments.Chosen | services/payment/Payment.service.ts:126-148 | the chosen code is stored, matches the submitted code, is unused, unexpired and of the student's university number |
| Payments.RedeemIsEnrol | services/payment/Payment.service.ts:102-167 | when all the checks pass, the student exists and is not enrolled, the course exists and the chosen code is for that course, and what follows is exactly the write sequence |
| Payments.RedeemSuccess | services/payment/Payment.service.ts:169-192 | a successful redemption marks the code used by the student, adds the course to the student and the student to the course, and appends one enrolment holding the student, the course, the submitted code as typed (not its hash), the time and the code's admin name |
| Payments.RedeemRefusesEnrolled | services/payment/Payment.service.ts:160-167 | a student already enrolled in the course is refused and nothing changes |
| Payments.RedeemOnce | services/payment/Payment.service.ts:126-167 | after a successful redemption, any further redemption for that student and course, with any code at any later time, fails and changes nothing |
| Payments.RedeemKeepsPaired | services/payment/Payment.service.ts:182-190 | a successful redemption keeps the paired enrolment invariant between students and courses |
| Payments.CourseFaultLeavesHalfEnrolment | services/payment/Payment.service.ts:182-209 | when the course update fails the code is reverted to unused and unbound, but the student keeps the course and the pairing is broken |
| Payments.StudentSideOnly | services/payment/Payment.service.ts:182-185 | adding the course on the student side alone breaks the pairing |
| Payments.VerifyPaymentCode | services/payment/Payment.service.ts:102-211 | the four collections afterwards and the result are those of `VerifyPayment` |
| Payments.EnrolWrites | services/payment/Payment.service.ts:169-209 | the write sequence, step by step, leaves the collections and the result of `Enrol` |
| Payments.GeneratePaymentCode | services/payment/Payment.service.ts:31-99 | the code collection afterwards and the result are those of `GenerateCode` |
| Payments.Sweep | models/payment/paymentCode/PaymentCode.model.ts:43-47 | the expiry index removes only expired codes: what remains has not expired |
| Payments.SweepKeepsCandidates | models/payment/paymentCode/PaymentCode.model.ts:43-47 | an earlier sweep never changes which codes a later redemption can consider |
| Payments.Counts | services/payment/Payment.service.ts:272-276 | used and active codes are disjoint parts of the admin's codes, which are at most all codes |
| Courses.NewCourse | services/courses/Course.service.ts:32-49 | a free course is priced 0 whatever was sent; a course without a discount has rate 0; the rest is taken from the form, with the uploaded image and no students or comments |
| Courses.Create | services/courses/Course.service.ts:18-56 | invalid input and a missing image are `BadRequest`; an existing name is `BadRequest`, a missing teacher `NotFound`; success appends the new course; failures change nothing |
| Courses.CreateKeepsInvariants | services/courses/Course.service.ts:27-49 | creation keeps course names unique and keeps every course priced consistently (free at 0, discount rate only with a discount) |
| Courses.Patched | services/courses/Course.service.ts:210-215 | the patch overwrites exactly the supplied fields; students, comments and image are kept |
| Courses.Update | services/courses/Course.service.ts:196-220 | invalid input is `BadRequest`; a paid course at price 0 and a discount without a rate are refused; an unknown id fails; a free course is forced to price 0; success writes the patched course; failures change nothing |
| Courses.UpdatePromises | services/courses/Course.service.ts:200-208 | after an update, a course set free costs 0, a course set paid with a price has a non-zero price, and a discount sent with the flag has a non-zero rate |
| Courses.UpdateCanBreakPricing | services/courses/Course.service.ts:200-208 | the rules look only at the request: switching a free course to paid without sending a price leaves a paid course at price 0 |
| Courses.Remove | services/courses/Course.service.ts:223-227 | deleting an unknown id fails and changes nothing; otherwise exactly that course is gone |
| Courses.SetImage | services/courses/Course.service.ts:230-242 | a missing file is `BadRequest`, an unknown course fails; success replaces the image only |
| Courses.InsertByTime | services/courses/Course.service.ts:123-138 | inserting into a list ascending by creation time keeps it ascending, adds exactly the new activity, and puts it ahead of the activities of its own time |
| Courses.SortByTime | services/courses/Course.service.ts:123-138 | the combined sessions and exams are sorted ascending by creation time, are a permutation of the input, and the activities of any one time keep their input order (a stable sort) |
| Courses.EqualTimesKeepOrder | services/courses/Course.service.ts:133-138 | two activities created at the same time stay in the order given |
| Courses.TagSessions | services/courses/Course.service.ts:123-129 | each session is tagged as a session activity, in order |
| Courses.TagExams | services/courses/Course.service.ts:123-129 | each exam is tagged as an exam activity, in order |
| Courses.View | services/courses/Course.service.ts:123-156 | the counts are those of the course's sessions, exams, students and comments; the activities are the course's sessions and exams, sorted by time, and at equal times the sessions come first, each in stored order |
| Courses.GetCourse | services/courses/Course.service.ts:59-159 | a malformed id and an unknown course are `NotFound`; a student sees the course only when enrolled; for other roles the course is shown exactly when its teacher still exists, and a deleted teacher fails as reading `_id` of null; the result is the course's view |
| Courses.StudentGate | services/courses/Course.service.ts:87-119 | for a student: no id is `BadRequest`, an unknown student `NotFound`; the course is shown exactly when the student is enrolled and the teacher still exists; not enrolled is the must-buy refusal, a deleted teacher the internal error |
| Courses.ActivitiesCount | services/courses/Course.service.ts:123-156 | the activities list holds exactly as many entries as the session and exam counts together |
| Courses.SessionsListed | services/courses/Course.service.ts:116-138 | every session of the course appears among its activities |
| Courses.ExamsListed | services/courses/Course.service.ts:116-138 | every exam of the course appears among its activities |
| Courses.OnlyTheCourses | services/courses/Course.service.ts:116-138 | every activity listed is a stored session or exam of that course |
| Courses.CreateCourse | services/courses/Course.service.ts:18-56 | the course table afterwards and the result are those of `Create` |
| Courses.UpdateCourse | services/courses/Course.service.ts:196-220 | the course table afterwards and the result are those of `Update` |
| Courses.DeleteCourse | services/courses/Course.service.ts:223-227 | the course table afterwards and the result are those of `Remove` |
| Courses.UpdateCourseImage | services/courses/Course.service.ts:230-242 | the course table afterwards and the result are those of `SetImage` |
| Sessions.RemoveAt | services/courses/session/Session.service.ts:133-134 | `splice(k, 1)` removes exactly the one entry at `k` |
| Sessions.Liked | services/courses/session/Session.service.ts:128-145 | a student who liked loses the like and nothing else changes; otherwise the student is removed from the dislikes and appended to the likes |
| Sessions.Disliked | services/courses/session/Session.service.ts:155-170 | a student who disliked loses the dislike; otherwise the student is removed from the likes and appended to the dislikes |
| Sessions.LikeKeepsInvariants | services/courses/session/Session.service.ts:128-145 | liking keeps the likes and dislikes disjoint and without repeats |
| Sessions.DislikeKeepsInvariants | services/courses/session/Session.service.ts:155-170 | disliking keeps the likes and dislikes disjoint and without repeats |
| Sessions.LikeToggles | services/courses/session/Session.service.ts:128-145 | liking toggles the student's like, and a student who now likes no longer dislikes |
| Sessions.LikeThenUnlikeLosesDislike | services/courses/session/Session.service.ts:128-145 | liking twice is not the identity: a student who disliked ends with neither a like nor a dislike |
| Sessions.Like | services/courses/session/Session.service.ts:122-146 | an unknown session is `NotFound`; a malformed student id is an error; otherwise the session is replaced by its liked form and the message says whether the like was added or removed |
| Sessions.Dislike | services/courses/session/Session.service.ts:149-171 | an unknown session is `NotFound`; a malformed student id is an error; otherwise the session is replaced by its disliked form and the message says which way it went |
| Sessions.ReactionsKeepWellFormed | services/courses/session/Session.service.ts:122-171 | every like and dislike keeps every session's reaction lists disjoint and without repeats |
| Sessions.LikeSession | services/courses/session/Session.service.ts:122-146 | the session table afterwards and the result are those of `Like`, computed with the first-index search and splice of the source |
| Sessions.DislikeSession | services/courses/session/Session.service.ts:149-171 | the session table afterwards and the result are those of `Dislike` |
| Sessions.GetSession | services/courses/session/Session.service.ts:52-75 | an unknown session is `NotFound`; a session with a video key is returned without the key and with a URL signed for 600 seconds; one without is returned as stored |
| Sessions.KeyOrLinkNotBoth | services/courses/session/Session.service.ts:60-74 | a returned session never carries both a video key and a signed URL |
| Shuffle.Pick | services/courses/exam/question/Question.service.ts:230 | the index drawn at step `i` is at most `i` |
| Shuffle.Swap | services/courses/exam/question/Question.service.ts:231 | the swap exchanges the two positions and keeps every other one |
| Shuffle.SwapPermutes | services/courses/exam/question/Question.service.ts:231 | a swap is a permutation |
| Shuffle.FisherYatesPermutes | services/courses/exam/question/Question.service.ts:228-234 | the shuffle keeps the length and is a permutation of its input |
| Shuffle.ShuffleArray | services/courses/exam/question/Question.service.ts:228-234 | the in-place loop from the last index down to 1 leaves the array holding the Fisher-Yates shuffle of its old contents |
| Shuffle.Shuffled | services/courses/exam/group/Group.service.ts:145-151 | the shuffled copy is a permutation of the list |
| Exams.UpdateNeedsDuration | models/courses/exam/Exam.model.ts:93-101 | the update validator refuses a body without a duration |
| Exams.Stored | models/courses/exam/Exam.model.ts:14-19 | the stored exam has the trimmed title, the duration, course and creation time as given |
| Exams.CreateAcceptedIsStored | models/courses/exam/Exam.model.ts:9-19 | a body the create validator accepts is stored exactly when its title is not blank and its `courseId` casts to an ObjectId (joi asks only for a string) |
| Exams.BlankTitleRefusedOnlyBySchema | models/courses/exam/Exam.model.ts:14-19 | with an ObjectId course id, a title of only spaces passes the create validator and is refused by the schema after trimming, while the same body with a one-letter title is stored |
| Exams.DeleteExam | models/courses/exam/Exam.model.ts:35-47 | deleting an exam removes it and, when it existed, every group of that exam; an unknown id changes nothing |
| Exams.DeleteExamCascade | models/courses/exam/Exam.model.ts:35-47 | after the cascade no group belongs to the exam and every group of another exam is kept |
| Exams.FindOneAndDeleteExam | models/courses/exam/Exam.model.ts:35-47 | the exam and group tables afterwards and the exam found are those of `DeleteExam` |
| Groups.QuestionsOf | models/courses/exam/group/Group.model.ts:29-33 | the `questions` virtual holds exactly the stored questions whose group is this one |
| Groups.TrimTitle | models/courses/exam/group/Group.model.ts:14-21 | trimming a title keeps whether it was absent, null or a string |
| Groups.Create | services/courses/exam/group/Group.service.ts:17-37 | invalid input is `BadRequest`; a malformed exam id is `BadRequest`, an unknown exam `NotFound`; success appends the group with its trimmed title; failures change nothing |
| Groups.CreateKeepsAnchored | services/courses/exam/group/Group.service.ts:27-31 | creation keeps every group attached to a stored exam |
| Groups.GetGroup | services/courses/exam/group/Group.service.ts:40-51 | a malformed id is `BadRequest`, an unknown one `NotFound`; otherwise the group with exactly its questions |
| Groups.Deal | services/courses/exam/group/Group.service.ts:70-77 | a group's dealt questions are drawn from its own, `limit` of them (all when the limit is 0, fewer when it has fewer) |
| Groups.GetGroupsByExamId | services/courses/exam/group/Group.service.ts:54-83 | a malformed exam id is `BadRequest`, otherwise success; the groups returned are a permutation of the exam's groups, and each carries at most as many of its own questions as there are groups in the exam |
| Groups.Patched | services/courses/exam/group/Group.service.ts:109-112 | the patch overwrites exactly the supplied exam and mark and keeps the rest |
| Groups.Update | services/courses/exam/group/Group.service.ts:86-117 | invalid input and a malformed group id are `BadRequest`; a supplied exam must be well-formed and stored; an unknown group fails; success writes the patched group; failures change nothing |
| Groups.UpdateKeepsAnchored | services/courses/exam/group/Group.service.ts:94-104 | updates keep every group attached to a stored exam |
| Groups.DeleteGroupCascade | models/courses/exam/group/Group.model.ts:35-47 | deleting a group removes it and, when it existed, every question of that group; an unknown id changes nothing |
| Groups.DeleteGroupRemovesItsQuestions | models/courses/exam/group/Group.model.ts:35-47 | after the cascade the group has no questions, every other question is kept, and exactly the group's questions are gone |
| Groups.Remove | services/courses/exam/group/Group.service.ts:120-128 | a malformed id is `BadRequest` and changes nothing; an unknown one is `NotFound`; otherwise the cascade runs |
| Groups.RemoveByExam | services/courses/exam/group/Group.service.ts:131-142 | a malformed exam id is `BadRequest`; otherwise every group of the exam is deleted and their number is returned |
| Groups.RemoveByExamCount | services/courses/exam/group/Group.service.ts:131-142 | the count returned plus the groups left is the number before, and none left belongs to the exam |
| Groups.CreateGroup | services/courses/exam/group/Group.service.ts:17-37 | the group table afterwards and the result are those of `Create` |
| Groups.UpdateGroup | services/courses/exam/group/Group.service.ts:86-117 | the group table afterwards and the result are those of `Update` |
| Groups.DeleteGroup | services/courses/exam/group/Group.service.ts:120-128 | the group and question tables afterwards and the result are those of `Remove` |
| Groups.DeleteGroupsByExamId | services/courses/exam/group/Group.service.ts:131-142 | the group table afterwards and the result are those of `RemoveByExam` |
| Questions.Create | services/courses/exam/question/Question.service.ts:17-74 | invalid input and a malformed group id are `BadRequest`, an unknown group `NotFound`; a group without a title takes one question only; at least one answer must be correct; the new question takes the group's mark when the group is untitled and the image when one was sent; failures change nothing |
| Questions.CreateKeepsOnePerUntitled | services/courses/exam/question/Question.service.ts:33-40 | creation keeps at most one question in every untitled group |
| Questions.CreateKeepsAnswerable | services/courses/exam/question/Question.service.ts:42-50 | creation keeps every question with at least one correct answer |
| Questions.GetQuestion | services/courses/exam/question/Question.service.ts:77-89 | a malformed id is `BadRequest`, an unknown one `NotFound`; otherwise the stored question |
| Questions.GetQuestionsByGroupId | services/courses/exam/question/Question.service.ts:92-104 | a malformed group id is `BadRequest`; otherwise a shuffled permutation of all of the group's questions (the limit is their own number) |
| Questions.Patched | services/courses/exam/question/Question.service.ts:144-147 | the patch overwrites exactly the supplied group, mark, answers and image URI, and keeps every field the body leaves out |
| Questions.UpdateImageIsSetImage | models/courses/exam/question/Question.model.ts:140-142 | an update body carrying only an image URI, which the update validator accepts, writes the same table and result as `updateQuestionImage` with that image |
| Questions.Update | services/courses/exam/question/Question.service.ts:107-152 | invalid input and a malformed id are `BadRequest`; a supplied group must be well-formed and stored; non-empty answers need a correct one; an unknown question fails; success writes the patched question; failures change nothing |
| Questions.UpdateKeepsAnswerable | services/courses/exam/question/Question.service.ts:129-139 | updates with non-empty answers keep every question answerable |
| Questions.UpdateCanDoubleUntitled | services/courses/exam/question/Question.service.ts:107-152 | moving a question into an untitled group that already has one succeeds and leaves two questions there |
| Questions.SetImage | services/courses/exam/question/Question.service.ts:155-174 | a malformed id and a missing file are `BadRequest`; success replaces only the image |
| Questions.ClearImage | services/courses/exam/question/Question.service.ts:202-225 | a malformed id is `BadRequest`; success clears only the image |
| Questions.ImageChangesKeepContent | services/courses/exam/question/Question.service.ts:155-225 | image changes keep every question's id, group, mark and answers |
| Questions.Remove | services/courses/exam/question/Question.service.ts:177-185 | a malformed id is `BadRequest`, an unknown one `NotFound`, both changing nothing; otherwise exactly that question is gone |
| Questions.RemoveByGroup | services/courses/exam/question/Question.service.ts:188-199 | a malformed group id is `BadRequest`; otherwise the group's questions are gone, the others kept, and their number is returned |
| Questions.CreateQuestion | services/courses/exam/question/Question.service.ts:17-74 | the question table afterwards and the result are those of `Create` |
| Questions.UpdateQuestion | services/courses/exam/question/Question.service.ts:107-152 | the question table afterwards and the result are those of `Update` |
| Questions.UpdateQuestionImage | services/courses/exam/question/Question.service.ts:155-174 | the question table afterwards and the result are those of `SetImage` |
| Questions.DeleteQuestionImage | services/courses/exam/question/Question.service.ts:202-225 | the question table afterwards and the result are those of `ClearImage` |
| Questions.DeleteQuestion | services/courses/exam/question/Question.service.ts:177-185 | the question table afterwards and the result are those of `Remove` |
| Questions.DeleteQuestionsByGroupId | services/courses/exam/question/Question.service.ts:188-199 | the question table afterwards and the result are those of `RemoveByGroup` |
| GroupBanks.QuestionsOf | models/banks/content/group/GroupBank.model.ts:43-47 | the `questions` virtual holds exactly the bank questions whose group is this one |
| GroupBanks.Create | services/banks/content/group/GroupBank.service.ts:17-37 | invalid input and a malformed content id are `BadRequest`, an unknown content `NotFound`; success appends the group with its trimmed title; failures change nothing |
| GroupBanks.CreateCounts | models/banks/content/Content.model.ts:53-58 | a content's group count grows by one exactly when a group is created for it |
| GroupBanks.GetGroupBank | services/banks/content/group/GroupBank.service.ts:40-54 | a malformed id is `BadRequest`, an unknown one `NotFound`; otherwise the stored group with exactly its questions |
| GroupBanks.GetGroupsBankByContentId | services/banks/content/group/GroupBank.service.ts:57-81 | a malformed content id is `BadRequest`, a content without groups `NotFound`; otherwise a permutation of the content's groups, each with all of its questions |
| GroupBanks.Patched | services/banks/content/group/GroupBank.service.ts:107-110 | the patch overwrites exactly the supplied content and mark and keeps the rest |
| GroupBanks.Update | services/banks/content/group/GroupBank.service.ts:84-115 | invalid input and a malformed id are `BadRequest`; a supplied content must be well-formed and stored; an unknown group fails; success writes the patched group; failures change nothing |
| GroupBanks.ChangesKeepAnchored | services/banks/content/group/GroupBank.service.ts:92-102 | creation and update keep every bank group attached to a stored content |
| GroupBanks.Remove | services/banks/content/group/GroupBank.service.ts:118-126 | a malformed id is `BadRequest`, an unknown one `NotFound`, both changing nothing; otherwise exactly that group is gone |
| GroupBanks.RemoveByContent | services/banks/content/group/GroupBank.service.ts:129-140 | a malformed content id is `BadRequest`; otherwise every group of the content is deleted, the others kept, and their number returned |
| GroupBanks.CreateGroupBank | services/banks/content/group/GroupBank.service.ts:17-37 | the bank group table afterwards and the result are those of `Create` |
| GroupBanks.UpdateGroupBank | services/banks/content/group/GroupBank.service.ts:84-115 | the bank group table afterwards and the result are those of `Update` |
| GroupBanks.DeleteGroupBank | services/banks/content/group/GroupBank.service.ts:118-126 | the bank group table afterwards and the result are those of `Remove` |
| GroupBanks.DeleteGroupsBankByContentId | services/banks/content/group/GroupBank.service.ts:129-140 | the bank group table afterwards and the result are those of `RemoveByContent` |
| Contents.UpdateValidatorIsLooser | models/banks/content/Content.model.ts:103-121 | the content update validator accepts an empty body (the exam one does not) and accepts every body the create validator accepts |
| Contents.Stored | models/banks/content/Content.model.ts:14-19 | the stored content has the trimmed title and the bank and duration as given |
| Contents.CreateAcceptedIsStored | models/banks/content/Content.model.ts:9-19 | a body the create validator accepts is stored exactly when its title is not blank and its `bank` casts to an ObjectId (joi asks only for a string) |
| Contents.GroupsCount | models/banks/content/Content.model.ts:53-58 | the `groupsCount` virtual is zero exactly when no group refers to the content, and at most the number of groups |
| Contents.GroupsCountAfterAdd | models/banks/content/Content.model.ts:53-58 | adding a group raises the count of its own content by one and leaves the others |
| Contents.DeleteContent | models/banks/content/Content.model.ts:60-72 | deleting a content removes it and, when it existed, every group of that content; an unknown id changes nothing |
| Contents.DeleteContentCascade | models/banks/content/Content.model.ts:60-72 | after the cascade the content has no groups, every other group is kept, and exactly its groups are gone |
| Contents.FindOneAndDeleteContent | models/banks/content/Content.model.ts:60-72 | the content and bank group tables afterwards and the content found are those of `DeleteContent` |
| Notifications.Hour12 | services/notification/Notification.service.ts:295 | `hours % 12 \|\| 12` is between 1 and 12 and agrees with the hour modulo 12 |
| Notifications.Period | services/notification/Notification.service.ts:294 | the period letter is the evening one exactly from hour 12 on |
| Notifications.FormatTime | services/notification/Notification.service.ts:291-298 | the formatted time is 6 or 7 characters and ends in a space and the period letter |
| Notifications.TimeRoundTrip | services/notification/Notification.service.ts:291-298 | reading a formatted time back gives the hour and minute it was made from |
| Notifications.DialHour | services/notification/Notification.service.ts:294-295 | the 12-hour dial value and the period letter determine the 24-hour hour |
| Notifications.FormatTimeInjective | services/notification/Notification.service.ts:291-298 | two times with the same formatted text are the same time |
| Notifications.FormatDate | services/notification/Notification.service.ts:301-306 | the formatted date holds only digits and slashes |
| Notifications.DateRoundTrip | services/notification/Notification.service.ts:301-306 | reading a formatted date back gives the day, the one-based month and the year |
| Notifications.CreatePublic | services/notification/Notification.service.ts:18-32 | the schema refuses, as a validation error, a title that trims to nothing or to more than 200 characters and a subtitle that trims to nothing or to more than 500; otherwise one notification is appended with the kind, the trimmed texts, no stored time and the creation time now; the push is requested exactly when asked |
| Notifications.Document | models/notification/Notification.model.ts:6-34 | the stored document keeps the kind and the trimmed texts, has no `time` path and is created now |
| Notifications.ClientTimeIgnored | services/notification/Notification.service.ts:18-23 | the time the caller passes changes nothing in what is created |
| Notifications.CreatedShowsCreationTime | services/notification/Notification.service.ts:18-136 | a notification just created is listed at its creation time and date with its trimmed texts, whatever time the caller asked for |
| Notifications.Format | services/notification/Notification.service.ts:130-136 | a listed item keeps kind, title and subtitle, and its time and date text read back as the notification's time (or creation time when it has none) |
| Notifications.List | services/notification/Notification.service.ts:119-147 | a negative skip fails; otherwise the items are the page's notifications formatted one by one, with the total count and `ceil(total / limit)` pages |
| Notifications.OfKind | services/notification/Notification.service.ts:150-160 | the filter keeps exactly the notifications of the kind |
| Notifications.ListByKind | services/notification/Notification.service.ts:150-178 | every item listed is of the kind asked for, and the total counts only that kind |
| Notifications.Targets | services/notification/Notification.service.ts:38-40 | the push goes to exactly the students with a token |
| Notifications.PushToAll | services/notification/Notification.service.ts:35-116 | with no student holding a token nothing is sent and nothing reported; otherwise the report holds the number of such students and the summed successes and failures of the batched multicasts |
| Notifications.UpdateToken | services/notification/Notification.service.ts:237-249 | a malformed id fails as a cast error, an unknown student is `NotFound`; success stores the token and nothing else |
| Notifications.RemoveToken | services/notification/Notification.service.ts:252-260 | a malformed id fails as a cast error; otherwise it succeeds even for an unknown student, clearing the token of a known one |
| Notifications.TokenMakesTarget | services/notification/Notification.service.ts:237-260 | after storing a token the student is a push target; after removing it the student is not |
| Notifications.OrTrue | services/notification/Notification.service.ts:269-273 | `?? true` is true unless false was sent |
| Notifications.ApplySettings | services/notification/Notification.service.ts:268-274 | every setting left out of the request is reset to true |
| Notifications.UpdateSettings | services/notification/Notification.service.ts:263-288 | a malformed id fails as a cast error, an unknown student is `NotFound`; success replaces the whole settings object and nothing else |
| Notifications.LastSettingsUpdateWins | services/notification/Notification.service.ts:263-288 | a settings update wipes out the previous one: two in a row equal the second alone |
| Notifications.UpdateFcmToken | services/notification/Notification.service.ts:237-249 | the student table afterwards and the result are those of `UpdateToken` |
| Notifications.RemoveFcmToken | services/notification/Notification.service.ts:252-260 | the student table afterwards and the result are those of `RemoveToken` |
| Notifications.UpdateNotificationSettings | services/notification/Notification.service.ts:263-288 | the student table afterwards and the result are those of `UpdateSettings` |
| Paging.CeilDiv | services/notification/Notification.service.ts:144 | `Math.ceil(a / b)` is the least multiple count covering `a` for a positive divisor (and the mirror for a negative one) |
| Paging.Pages | services/notification/Notification.service.ts:144 | there is no page count for a zero limit; for a positive limit it is the least number of pages holding the total |
| Paging.PagesMinimal | services/notification/Notification.service.ts:144 | with something to list the page count is at least 1, enough, and one fewer is not enough |
| Paging.Window | services/notification/Notification.service.ts:120-125 | a negative skip fails; for a positive limit and page the window is the page's slice; it never holds more than the limit, and only listed documents |
| Paging.PrefixIsPrefix | services/notification/Notification.service.ts:120-125 | pages 1 to n read in order are the first n times limit documents |
| Paging.PagesCoverListing | services/notification/Notification.service.ts:119-147 | the pages from 1 to the reported count cover the listing exactly once, in order |
| Paging.LaterPageExists | services/notification/Notification.service.ts:144 | a later page is counted exactly when the current page ends before the last document |
| Paging.WindowNonEmpty | services/notification/Notification.service.ts:120-125 | a page has documents exactly when its skip is below the total |
| Paging.FullWindow | services/notification/Notification.service.ts:120-125 | a page ending within the listing holds exactly `limit` documents |
| Paging.PageBeforeLastIsFull | services/notification/Notification.service.ts:119-147 | no page up to the reported count is empty |
| PushBatches.Batches | services/notification/Notification.service.ts:54-55 | every batch holds between 1 and the batch size of recipients |
| PushBatches.BatchesCover | services/notification/Notification.service.ts:54-55 | the batches cover the recipients exactly once, in order |
| PushBatches.Tokens | services/notification/Notification.service.ts:56 | the multicast carries no empty token and no more tokens than recipients |
| PushBatches.TokensKeepEveryToken | services/notification/Notification.service.ts:56 | every recipient of the batch with a non-empty token has it in the multicast |
| PushBatches.SendBatches | services/notification/Notification.service.ts:50-102 | the loop's totals are the sums of the successes and failures over the batches of 500 |
| Versions.Create | services/version/Version.service.ts:23-46 | a body the validator refuses (no version, or any other field such as `url`) is `BadRequest`; a version number already stored is `BadRequest`; success appends it with its creation time; failures change nothing |
| Versions.CreateKeepsUnique | services/version/Version.service.ts:30-36 | creation keeps version ids and version numbers unique |
| Versions.Patched | services/version/Version.service.ts:124-127 | the patch sets the version number when one is sent and keeps the creation time |
| Versions.Update | services/version/Version.service.ts:99-137 | invalid input and a malformed id are `BadRequest`; a number held by another version is `BadRequest`, checked before the lookup; an unknown id is `NotFound`; success writes and returns the patched version; failures change nothing |
| Versions.UpdateKeepsUnique | services/version/Version.service.ts:113-122 | updates keep version ids and version numbers unique |
| Versions.UpdateToOwnVersion | services/version/Version.service.ts:113-122 | re-sending a version's own number succeeds and changes nothing |
| Versions.DuplicateBeforeMissing | services/version/Version.service.ts:113-131 | for an unknown id, a number already taken is reported as taken rather than as not found |
| Versions.Latest | services/version/Version.service.ts:13 | the latest version is stored and no version was created after it |
| Versions.GetCurrent | services/version/Version.service.ts:12-20 | with no versions the result is `NotFound`; otherwise a stored version with the latest creation time |
| Versions.CreatedIsCurrent | services/version/Version.service.ts:12-46 | a version created after all the others becomes the current one |
| Versions.GetById | services/version/Version.service.ts:82-96 | a malformed id is `BadRequest`, an unknown one `NotFound`; otherwise the stored version |
| Versions.GetAll | services/version/Version.service.ts:49-79 | a negative skip fails; otherwise the page's versions, the total, `ceil(total / limit)` pages, `hasPrev` exactly from page 2 on and, for a positive limit, `hasNext` exactly before the last page |
| Versions.HasNextIffNextPageNonEmpty | services/version/Version.service.ts:74 | `hasNext` holds exactly when the next page has versions |
| Versions.HasPrevMeansFullPage | services/version/Version.service.ts:75 | when `hasPrev` holds on a counted page, the previous page is full |
| Versions.Remove | services/version/Version.service.ts:140-159 | a malformed id is `BadRequest`, an unknown one `NotFound`, both changing nothing; otherwise the version is deleted and the report gives the number left and whether it was the last one |
| Versions.RemoveCountsDown | services/version/Version.service.ts:152-157 | one version fewer remains, and it was the last exactly when it was the only one |
| Versions.CreateVersion | services/version/Version.service.ts:23-46 | the version table afterwards and the result are those of `Create` |
| Versions.UpdateVersion | services/version/Version.service.ts:99-137 | the version table afterwards and the result are those of `Update` |
| Versions.DeleteVersion | services/version/Version.service.ts:140-159 | the version table afterwards and the result are those of `Remove` |

## Left out

- **Object storage.** Fetching manifests, keys and segments, and
  streaming the segment bytes, are not modelled: storage is a lookup
  from key to optional text. A missing object is the storage client's
  `NoSuchKey` error, which the service lets through as a 500. The
  key-file read is a lookup by file name, and logging is left out.
- **Cryptographic and random primitives.** These are not implemented.
  - bcrypt is a symbolic hash with no salt and no cost factor. A
    password holding U+0000 is not modelled: the native binding ends
    the key at the first NUL byte, the model does not.
  - The JWT MAC is symbolic.
  - SHA-256, `encodeURIComponent`, `crypto.randomBytes`, `randomInt`
    and `Math.random` are parameters.
  - The distribution of the shuffles is not stated, only that they
    permute.
- **Concurrency.** Ticket and payment redemption are proved
  single-use only for requests that run one after another. Two
  simultaneous redemptions can both pass the checks in the source, and
  that is not modelled. The Mongo transaction in
  `RemoveStudentFromCourse` is one atomic step.
- **Floating point.** `discountedPrice`, the teacher `averageRating`
  and the FCM percentage in `getNotificationStats` are not modelled.
  `getNotificationStats` is otherwise counts and an aggregation
  pipeline, so it is not modelled at all.
- **Mongo query machinery.**
  - The student aggregation pipelines, `populate`/`select`
    projections and the `getAllCourses` query building are not
    modelled.
  - Sorting by `createdAt` is taken as given: listings receive their
    documents already sorted.
  - `getAllVersions`' `sortBy`/`sortOrder` choice is part of that
    given order.
- **External messaging.** Firebase multicast is the parameter `send`.
  The clean-up of invalid FCM tokens, e-mail sending and the mail HTML
  are not modelled. A failed e-mail is a boolean parameter.
- **HTTP glue.** Controllers, routes, the server and the upload
  middleware are not part of this model. So are the file and ads
  services, the session CRUD and `sendPublicTestNotification`, which
  is `createPublicNotification` with fixed data.
- **Unused code.** The local `assertValidHlsToken` in
  `services/hls/Hls.service.ts:29-60` is never called and is not
  modelled. The exported one is `HlsToken.AssertValidHlsToken`.
- **Schemas without behaviour.** The Student, Session, Question and
  other joi/Mongoose schemas are not part of this model, except for the
  fields the modelled operations read. The unique index on a payment
  code's `code` is not modelled.
- **Dates.** `setHours(getHours() + 24)` is modelled as 86 400 000 ms,
  ignoring daylight-saving changes. `formatTime`/`formatDate` take the
  local hour, minute, day, month and year as inputs, without the time
  zone conversion.
- **The URL parser.** `new URL` is reduced to the scheme, host, path,
  query and fragment split that the Bunny signer and the ticket store
  rely on.
- **JavaScript page count.** A limit of 0 makes `Math.ceil(total / 0)`
  `Infinity` (or `NaN`); `Paging.Pages` gives no page count then.
- **Ids that are not ObjectIds.** Where the source passes an unchecked
  id to `findById` or `findOne`, Mongoose throws a `CastError` and the
  request ends in a 500. The model treats such an id as an unknown one,
  so it reports that id's `NotFound` (or the guard's refusal) instead.
  `Students.VerifyOtp` (services/users/students/Auth.service.ts:101) is
  one such case.
- **`Number` on the lifetime.** `HLS_TOKEN_EXPIRES_IN` is read exactly,
  without binary64 rounding. A value too large for a double, such as
  `1e400`, is `Infinity` in the source and refused by jsonwebtoken; the
  model takes it as a very long lifetime.
- **String lengths.** Every length rule counts Unicode scalar values
  (Dafny characters). joi's `min`/`max` and Mongoose's
  `minlength`/`maxlength` count UTF-16 code units, so a character outside
  the Basic Multilingual Plane, such as an emoji, counts once in the
  model and twice in the source. This affects `Admins.ValidUserName`,
  `Admins.ValidCreate`, `Admins.ValidPatch`, `Admins.SchemaValid`,
  `Teachers.ValidCreate`, `Teachers.SchemaValid`, the 8-character
  password of `Teachers.ResetPassword`, `Exams.TitleFits`,
  `Exams.SchemaAccepts` and `Contents.SchemaAccepts`. On text made of
  such characters the model refuses short values the source accepts,
  and accepts long values the source refuses.
- Validators.Lower: lower-cases only the ASCII letters A to Z.
  `toLowerCase` also maps the other Unicode upper-case letters and has
  a few context rules, which the model does not have.
- Admins.Normalize: the stored e-mail is lower-cased with
  `Validators.Lower`, so e-mails with non-ASCII upper-case letters are
  stored as given.
- Students.Profile, Teachers.Profile: return the whole record rather
  than the fields `select` keeps; the other fields are not hidden.
- Paging.Pages: a limit of 0 yields `None` instead of JavaScript's
  `Infinity`/`NaN`, and `hasNext` is stated only for a positive limit.
- Payments.Counts: states that the used and active codes are disjoint
  parts of the admin's codes. It does not state each count separately.
- Payments.Redeem: its own contract states only the no-change
  property. The full outcome is in `Payments.RedeemIsEnrol`,
  `Payments.RedeemSuccess` and `Payments.RedeemRefusesEnrolled`.
- Payments.GenerateCode, Payments.VerifyPayment: the request bodies
  hold only the keys the validators name, and `joi.number()` is read as
  an integer. Numeric strings that joi converts, fractional numbers and
  the unknown keys joi refuses are not represented.
- Payments.Enrol: the enrolment's `enrolledAt` is the clock reading
  that also filters the open codes; the source reads the clock again.
  The Enrollment schema is not part of this model, so the record is
  kept as the service writes it.
- Groups.GetGroupsByExamId: states which questions can be dealt and
  how many, but not which ones the random draws select.
- Questions.GetQuestionsByGroupId: states the result is a permutation
  of the group's questions, not which permutation.
- Shuffle.Shuffled: states only the permutation property.
  `Shuffle.ShuffleArray` is tied to the exact Fisher–Yates result.
- Notifications.ListByKind: states the kind and the total. The page
  contents follow from `Notifications.List`, which it calls on the
  filtered list.
- Notifications.PushToAll: the clean-up of tokens the multicast
  rejects is not modelled.
- Crypto.DoubleHashBreaksCompare: stated for passwords under 72 bytes.
  For a longer one the symbolic hash does not rule out that the hash's
  own first 72 bytes give the password's key.
- Teachers.SaveKeepsPassword: the old password keeps working for every
  length; that no other works is stated for passwords under 72 bytes.
- Teachers.ComparePasswordExact: "exactly this password" is stated for
  passwords under 72 bytes. Past that bcrypt ignores the rest, which
  `Crypto.LongPasswordsCollide` states.
- Teachers.PaddedPasswordAsTyped: that the password as typed fails is
  stated for a trimmed password under 72 bytes. A longer one shares its
  first 72 bytes with the padded form whenever the padding is at the
  end.
- Teachers.Register: `joi.date()` and the schema's `Date` cast are one
  flag on the value sent (`DateValue.readable`). What JavaScript's date
  parser reads is not modelled, and the two are taken to agree.
- Playlist.RewritePlaylistByLine: assumes the ids and the encoded
  token hold no `$`. `encodeURIComponent` is a parameter here; the real
  one writes `$` as `%24`, and the ids must be ObjectIds for the session
  lookup to find anything. `Playlist.RewriteKeys` expands a `$` pattern
  where one does occur.
- Playlist.KeysTagLine: states the key pass with the key tag inserted as
  written (`Playlist.ReplaceKeyTags`). The source pass expands `$`
  patterns; the two agree when the tag holds no `$`
  (`Playlist.KeysLiteral`).
- Playlist.KeysOneLine: stated for the pass that inserts the key tag as
  written, as `Playlist.KeysTagLine`.
- Playlist.KeysLastLine: stated for the pass that inserts the key tag
  as written, as `Playlist.KeysTagLine`.
- Playlist.KeysByLine: stated for the pass that inserts the key tag as
  written. `Playlist.RewritePlaylistByLine` carries it over to the
  source pass for ids and tokens without `$`.
- Playlist.RewriteLine: the line-level rule inserts the key tag as
  written, which is what the source does only when the ids and the
  encoded token hold no `$`.
- Playlist.RewriteLines: applies `Playlist.RewriteLine`, with the same
  reading of the key tag.

### Behaviour of the source modelled as written

- **Playlist rewrite.**
  - A `#` line ending in `.ts` is rewritten like a segment line.
  - A blank line or the final line feed after a segment line is
    swallowed by `\s*`.
  - `Playlist.CommentEndingInTsIsRewritten`,
    `Playlist.BlankLineAfterSegmentIsDropped` and
    `Playlist.FinalLineFeedAfterSegmentIsDropped` state these cases.
- **Students.**
  - Student login does not check suspension.
  - `reSendOtp` and the reset request delete the account, even an
    active one, when the e-mail fails.
- **Teachers.**
  - `createNewTeacher` never sets `available`, so the account guard
    refuses every new teacher while login admits them
    (`Teachers.RegisteredTeacherIsGuarded`).
  - The teacher password is trimmed before hashing but login compares
    the input as typed (`Teachers.PaddedPasswordAsTyped`).
  - joi checks the registration values as sent, and the schema checks
    them trimmed. So a password of seven spaces and a letter, or a user
    name of spaces, passes joi but `Teacher.create` refuses it with a
    500 (`Teachers.TrimmedValueRefused`,
    `Teachers.PaddedPasswordPassesJoi`,
    `Teachers.BlankUserNamePassesJoi`).
  - The `length: 5` on the teacher `otp` is not a Mongoose option, so
    it has no effect.
- **Passwords.** bcrypt reads only the first 72 bytes, so a long
  password also opens an account with any other password sharing those
  bytes (`Crypto.LongPasswordsCollide`), and a reset to such a password
  is refused as "the same password".
- **Notifications.** `createPublicNotification` passes a `time` the
  schema does not declare, so it is dropped and the listings show the
  creation time (`Notifications.ClientTimeIgnored`). No joi validator
  runs first, so a blank or overlong title is the schema's 500.
- **Course view.** A course whose teacher was deleted fails with a 500
  when the view reads the teacher's `_id` (`Courses.GetCourse`).
- **Admins.** The admin password change has no length rule. The admin
  update hashes the password untrimmed.
- **Payments.** The payment revert clears the code's student. It does
  not undo an enrolment written before the failure
  (`Payments.CourseFaultLeavesHalfEnrolment`).
- **Courses.**
  - The course update rules look only at the request body
    (`Courses.UpdateCanBreakPricing`).
  - Renaming a course is not checked against existing names.
  - The activities are sorted with JavaScript's stable sort, so ties
    keep their original order: sessions before exams, each in stored
    order (`Courses.SortByTime`, `Courses.EqualTimesKeepOrder`).
- **Exams and questions.**
  - Deleting an exam removes its groups with `deleteMany`. That runs no
    hooks, so their questions remain.
  - The exam validator accepts a blank title
    (`Exams.BlankTitleRefusedOnlyBySchema`) and a course id that is not
    an ObjectId; the schema refuses both at `Exam.create`
    (`Exams.CreateAcceptedIsStored`). The content validator does the
    same for the bank id (`Contents.CreateAcceptedIsStored`).
  - A question update may move a question into a group without a title
    that already holds one (`Questions.UpdateCanDoubleUntitled`).
- **Versions.** `validateCreateVersion` allows no `url` key, so a body
  with one is refused.

## Findings

| source | as written | input that shows it | evidently intended | confidence | as-written member | corrected member |
|---|---|---|---|---|---|---|
| models/courses/session/token/Token.model.ts:29-33 | the ticket schema requires a path `id` referencing the session, while `createVideoToken` (services/courses/session/token/Token.service.ts:31-37) writes `sessionId` | any `createVideoToken` call: the record carries `sessionId`, which the strict schema drops, and lacks the required `id` | the session reference is the path `sessionId`, required | not executed | VideoTickets.DeclaredSchemaRejectsEveryTicket | VideoTickets.TicketSchemaAcceptsCompleteTickets |

=== FILE: accounts.dfy ===
/**
 * The account state machine shared by students and teachers: the guard in
 * front of every profile and reset service, activation by OTP, and the
 * three steps of the password reset (request, OTP check, change). Each
 * step is a function from the stored credentials to the new credentials or
 * to the error the service throws; the services apply it to the record
 * they looked up.
 */
module Accounts {
  import opened Wrappers
  import opened Tables
  import opened Crypto
  import opened Records

  const MsgInvalid := "invalid request body"
  const MsgUserNotFound := "user not found"
  const MsgNotActivated := "account not activated"
  const MsgRestricted := "your account is restricted"
  const MsgEmailNotFound := "e-mail not found"
  const MsgAlreadyActive := "account already activated"
  const MsgBadOtp := "wrong verification code"
  const MsgResetNotAllowed := "you are not allowed to change the password"
  const MsgSamePassword := "the new password must differ from the old one"
  const MsgMailFailed := "sending the verification e-mail failed, please try again"
  const MsgBadLogin := "wrong e-mail or password"

  /** What a service call returns together with the table it leaves behind. */
  datatype Outcome<R, T> = Outcome(result: Result<R>, table: Table<T>)

  /** An account that may use the guarded services. */
  predicate Live(c: Credentials)
  {
    c.available && !c.suspended
  }

  /**
   * The guard at the top of the profile and reset services: the account
   * must exist, then be activated, then not be suspended.
   */
  function Guard(c: Option<Credentials>): (r: Result<Credentials>)
    ensures r.Success? <==> c.Some? && Live(c.value)
    ensures r.Success? ==> r.value == c.value
    ensures c.None? ==> r == Failure(BadRequest(MsgUserNotFound))
    ensures c.Some? && !c.value.available ==> r == Failure(BadRequest(MsgNotActivated))
    ensures c.Some? && c.value.available && c.value.suspended ==> r == Failure(BadRequest(MsgRestricted))
  {
    match c
    case None => Failure(BadRequest(MsgUserNotFound))
    case Some(x) =>
      if !x.available then Failure(BadRequest(MsgNotActivated))
      else if x.suspended then Failure(BadRequest(MsgRestricted))
      else Success(x)
  }

  /** Activation: a pending account whose OTP matches becomes available and the OTP is spent. */
  function Activate(c: Credentials, otp: string): (r: Result<Credentials>)
    ensures r.Success? <==> !c.available && BcryptCompare(otp, c.otp)
    ensures c.available ==> r == Failure(BadRequest(MsgAlreadyActive))
    ensures !c.available && !BcryptCompare(otp, c.otp) ==> r == Failure(BadRequest(MsgBadOtp))
    ensures r.Success? ==> r.value.available && r.value.otp == ""
  {
    if c.available then Failure(BadRequest(MsgAlreadyActive))
    else if !BcryptCompare(otp, c.otp) then Failure(BadRequest(MsgBadOtp))
    else Success(c.(available := true, otp := ""))
  }

  /** Reset request: the hash of a fresh OTP replaces any pending one and any earlier permission is withdrawn. */
  function RequestReset(c: Credentials, otpHash: string): Credentials
  {
    c.(otp := otpHash, resetPass := false)
  }

  /** The OTP check of the reset flow: a match spends the OTP and grants the permission to change the password. */
  function CheckResetOtp(c: Credentials, otp: string): (r: Result<Credentials>)
    ensures r.Success? <==> BcryptCompare(otp, c.otp)
    ensures r.Failure? ==> r.error == BadRequest(MsgBadOtp)
    ensures r.Success? ==> r.value.resetPass && r.value.otp == "" && r.value.password == c.password
  {
    if BcryptCompare(otp, c.otp) then Success(c.(otp := "", resetPass := true))
    else Failure(BadRequest(MsgBadOtp))
  }

  /** The password change: only with the permission, only to a different password; the permission is spent. */
  function ChangePassword(c: Credentials, password: string): (r: Result<Credentials>)
    ensures r.Success? <==> c.resetPass && !BcryptCompare(password, c.password)
    ensures !c.resetPass ==> r == Failure(BadRequest(MsgResetNotAllowed))
    ensures c.resetPass && BcryptCompare(password, c.password) ==> r == Failure(BadRequest(MsgSamePassword))
    ensures r.Success? ==> BcryptCompare(password, r.value.password) && !r.value.resetPass
  {
    if !c.resetPass then Failure(BadRequest(MsgResetNotAllowed))
    else if BcryptCompare(password, c.password) then Failure(BadRequest(MsgSamePassword))
    else
      BcryptCompareHash(password, password);
      Success(c.(password := BcryptHash(password), resetPass := false))
  }

  /** The OTP an account was sent opens the activation once, and never again. */
  lemma ActivationOnce(c: Credentials, otp: string, again: string)
    requires !c.available && c.otp == BcryptHash(otp)
    ensures Activate(c, otp).Success?
    ensures Activate(Activate(c, otp).value, again) == Failure(BadRequest(MsgAlreadyActive))
  {
    BcryptCompareHash(otp, otp);
  }

  /** A spent OTP matches nothing: the empty string is no bcrypt hash. */
  lemma SpentOtpMatchesNothing(candidate: string)
    ensures !BcryptCompare(candidate, "")
  {
    assert |BcryptHash(candidate)| > 0;
  }

  /**
   * The whole reset cycle: after a request that mailed `otp`, the OTP check
   * with `otp` succeeds, and changing to any password other than the
   * current one succeeds; afterwards the new password verifies, the previous one
   * does not, the OTP is spent and the permission is withdrawn. Identity
   * and account state are untouched.
   */
  lemma ResetCycle(c: Credentials, otp: string, previous: string, password: string)
    requires BcryptCompare(previous, c.password) && BcryptKey(password) != BcryptKey(previous)
    ensures var d := RequestReset(c, BcryptHash(otp));
            CheckResetOtp(d, otp).Success? &&
            var e := ChangePassword(CheckResetOtp(d, otp).value, password);
            e.Success? &&
            BcryptCompare(password, e.value.password) && !BcryptCompare(previous, e.value.password) &&
            e.value.otp == "" && !e.value.resetPass &&
            e.value.email == c.email && e.value.phoneNumber == c.phoneNumber &&
            e.value.available == c.available && e.value.suspended == c.suspended
  {
    BcryptCompareHash(otp, otp);
    BcryptCompareHash(previous, password);
    BcryptCompareHash(password, previous);
  }

  /** Without the OTP check in between, a reset request never lets the password change. */
  lemma ChangeNeedsOtpCheck(c: Credentials, otpHash: string, password: string)
    ensures ChangePassword(RequestReset(c, otpHash), password) == Failure(BadRequest(MsgResetNotAllowed))
  {
  }

  /** The permission to change the password is good for one change only. */
  lemma ChangeOnce(c: Credentials, first: string, second: string)
    requires ChangePassword(c, first).Success?
    ensures ChangePassword(ChangePassword(c, first).value, second) == Failure(BadRequest(MsgResetNotAllowed))
  {
  }

  /** A wrong OTP at the reset check grants nothing, and the OTP sent stays the only one that works. */
  lemma WrongResetOtp(c: Credentials, otp: string, wrong: string)
    requires c.otp == BcryptHash(otp) && BcryptKey(wrong) != BcryptKey(otp)
    ensures CheckResetOtp(c, wrong) == Failure(BadRequest(MsgBadOtp))
  {
    BcryptCompareHash(otp, wrong);
  }
}

=== FILE: admins.dfy ===
/**
 * Administrator accounts: the schema's normalisation, validators and
 * password hook, login, and the create / update / delete / change-password
 * services with their uniqueness checks on phone number, e-mail and user
 * name.
 *
 * Mongoose applies the schema's `trim` and `lowercase` setters to query
 * filters as well as to stored values, so every lookup below compares the
 * normalised input with the stored field. joi's e-mail grammar is the
 * parameter `joiEmail`.
 */
module Admins {
  import opened Wrappers
  import opened Text
  import opened Tables
  import opened Crypto
  import opened Records
  import opened Store
  import opened Validators
  import opened Accounts

  const MsgIdRequired := "admin id is required"
  const MsgAdminNotFound := "admin not found"
  const MsgPhoneTaken := "phone number already registered"
  const MsgEmailTaken := "e-mail already registered"
  const MsgUserNameTaken := "user name already registered"
  const MsgWrongCurrent := "the current password is wrong"
  const MsgSchema := "admin validation failed"

  /** The body of `createNewAdmin`. */
  datatype AdminForm = AdminForm(userName: string, phoneNumber: string, email: string, password: string)

  /** The body of `updateAdmin`: every field optional. */
  datatype AdminPatch = AdminPatch(userName: Option<string>, phoneNumber: Option<string>, email: Option<string>, password: Option<string>)

  predicate ValidUserName(n: string)
  {
    0 < |n| <= 100
  }

  /** `validateCreateAdmin` */
  predicate ValidCreate(f: AdminForm, joiEmail: string -> bool)
  {
    ValidUserName(f.userName) && IsPhone(f.phoneNumber) && joiEmail(f.email) && |f.password| >= 8
  }

  /** `validateUpdateAdmin`: each supplied field obeys the create rule. */
  predicate ValidPatch(p: AdminPatch, joiEmail: string -> bool)
  {
    (p.userName.Some? ==> ValidUserName(p.userName.value)) &&
    (p.phoneNumber.Some? ==> IsPhone(p.phoneNumber.value)) &&
    (p.email.Some? ==> joiEmail(p.email.value)) &&
    (p.password.Some? ==> |p.password.value| >= 8)
  }

  /** The schema's setters: `trim` on every string, `lowercase` on the e-mail. */
  function Normalize(f: AdminForm): (a: Admin)
    ensures a.email == Lower(Trim(f.email))
    ensures IsPhone(f.phoneNumber) ==> a.phoneNumber == f.phoneNumber
  {
    assert IsPhone(f.phoneNumber) ==> Trim(f.phoneNumber) == f.phoneNumber by {
      if IsPhone(f.phoneNumber) { PhoneIsTrimmed(f.phoneNumber); }
    }
    Admin(Trim(f.userName), Trim(f.phoneNumber), NormalEmail(f.email), Trim(f.password))
  }

  /** The schema's validators on a normalised document, before the hook hashes the password. */
  predicate SchemaValid(a: Admin)
  {
    ValidUserName(a.userName) && IsPhone(a.phoneNumber) && IsEmail(a.email) && |a.password| >= 8
  }

  /** The pre-save hook: the password is hashed only when it was modified. */
  function SaveHook(doc: Admin, passwordModified: bool): (r: Admin)
    ensures passwordModified ==> BcryptCompare(doc.password, r.password)
    ensures !passwordModified ==> r == doc
    ensures r.(password := "") == doc.(password := "")
  {
    BcryptCompareHash(doc.password, doc.password);
    if passwordModified then doc.(password := BcryptHash(doc.password)) else doc
  }

  function WithPhone(phone: string): Admin -> bool
  {
    (a: Admin) => a.phoneNumber == phone
  }

  function WithEmail(email: string): Admin -> bool
  {
    (a: Admin) => a.email == email
  }

  function WithUserName(name: string): Admin -> bool
  {
    (a: Admin) => a.userName == name
  }

  /** No two administrators share a phone number, an e-mail or a user name. */
  predicate UniqueAdmins(t: Table<Admin>)
  {
    forall x, y | x in t && y in t && x.id != y.id ::
      x.val.phoneNumber != y.val.phoneNumber && x.val.email != y.val.email && x.val.userName != y.val.userName
  }

  /**
   * `createNewAdmin`: validation, then an existing phone number, e-mail and
   * user name in that order, then the schema's own validators; success
   * stores the hashed document and returns an administrator token.
   */
  function Create(t: Table<Admin>, f: AdminForm, joiEmail: string -> bool, newId: Id): (o: Outcome<AuthToken, Admin>)
    requires !HasId(t, newId)
    ensures o.result.Failure? ==> o.table == t
    ensures !ValidCreate(f, joiEmail) ==> o.result == Failure(BadRequest(MsgInvalid))
    ensures ValidCreate(f, joiEmail) && Any(t, WithPhone(Normalize(f).phoneNumber)) ==>
              o.result == Failure(BadRequest(MsgPhoneTaken))
    ensures (ValidCreate(f, joiEmail) && !Any(t, WithPhone(Normalize(f).phoneNumber)) &&
             Any(t, WithEmail(Normalize(f).email))) ==> o.result == Failure(BadRequest(MsgEmailTaken))
    ensures (ValidCreate(f, joiEmail) && !Any(t, WithPhone(Normalize(f).phoneNumber)) &&
             !Any(t, WithEmail(Normalize(f).email)) && Any(t, WithUserName(Normalize(f).userName))) ==>
              o.result == Failure(BadRequest(MsgUserNameTaken))
    ensures o.result.Success? <==>
              ValidCreate(f, joiEmail) && !Any(t, WithPhone(Normalize(f).phoneNumber)) &&
              !Any(t, WithEmail(Normalize(f).email)) && !Any(t, WithUserName(Normalize(f).userName)) &&
              SchemaValid(Normalize(f))
    ensures o.result.Success? ==>
              o.result.value == AuthToken(newId, AdminRole) && o.table == t + [Row(newId, SaveHook(Normalize(f), true))]
  {
    var doc := Normalize(f);
    if !ValidCreate(f, joiEmail) then Outcome(Failure(BadRequest(MsgInvalid)), t)
    else if Any(t, WithPhone(doc.phoneNumber)) then Outcome(Failure(BadRequest(MsgPhoneTaken)), t)
    else if Any(t, WithEmail(doc.email)) then Outcome(Failure(BadRequest(MsgEmailTaken)), t)
    else if Any(t, WithUserName(doc.userName)) then Outcome(Failure(BadRequest(MsgUserNameTaken)), t)
    else if !SchemaValid(doc) then Outcome(Failure(Internal(MsgSchema)), t)
    else Outcome(Success(AuthToken(newId, AdminRole)), t + [Row(newId, SaveHook(doc, true))])
  }

  /** A row that shares no contact with any other row can be added without breaking uniqueness. */
  lemma AppendFresh(t: Table<Admin>, row: Row<Admin>)
    requires UniqueIds(t) && UniqueAdmins(t)
    requires forall x | x in t ::
               x.id != row.id && x.val.phoneNumber != row.val.phoneNumber &&
               x.val.email != row.val.email && x.val.userName != row.val.userName
    ensures UniqueIds(t + [row]) && UniqueAdmins(t + [row])
  {
    var u := t + [row];
    forall i, j | 0 <= i < j < |u| ensures u[i].id != u[j].id {
      if j == |u| - 1 { assert u[i] in t; } else { assert u[i] == t[i] && u[j] == t[j]; }
    }
  }

  /** Creation keeps ids, phone numbers, e-mails and user names unique. */
  lemma CreateKeepsUnique(t: Table<Admin>, f: AdminForm, joiEmail: string -> bool, newId: Id)
    requires !HasId(t, newId) && UniqueIds(t) && UniqueAdmins(t)
    ensures var o := Create(t, f, joiEmail, newId);
            UniqueIds(o.table) && UniqueAdmins(o.table)
  {
    var o := Create(t, f, joiEmail, newId);
    if o.result.Success? {
      var doc := Normalize(f);
      var row := Row(newId, SaveHook(doc, true));
      forall x | x in t
        ensures x.id != row.id && x.val.phoneNumber != row.val.phoneNumber &&
                x.val.email != row.val.email && x.val.userName != row.val.userName
      {
        var i :| 0 <= i < |t| && t[i] == x;
        assert !WithPhone(doc.phoneNumber)(t[i].val);
        assert !WithEmail(doc.email)(t[i].val);
        assert !WithUserName(doc.userName)(t[i].val);
        HasIdIn(t, newId);
      }
      AppendFresh(t, row);
    }
  }

  /** `validateLoginAdmin` */
  predicate ValidLogin(email: string, password: string, joiEmail: string -> bool)
  {
    joiEmail(email) && |password| > 0
  }

  /**
   * `loginAdmin`: an unknown e-mail and a wrong password are the same
   * `Unauthorized` error, so the response does not tell which one failed.
   */
  function Login(t: Table<Admin>, joiEmail: string -> bool, email: string, password: string): (r: Result<AuthToken>)
    ensures !ValidLogin(email, password, joiEmail) ==> r == Failure(BadRequest(MsgInvalid))
    ensures r.Success? <==>
              ValidLogin(email, password, joiEmail) && IndexWhere(t, WithEmail(NormalEmail(email))).Some? &&
              BcryptCompare(password, t[IndexWhere(t, WithEmail(NormalEmail(email))).value].val.password)
    ensures r.Success? ==> r.value == AuthToken(t[IndexWhere(t, WithEmail(NormalEmail(email))).value].id, AdminRole)
    ensures ValidLogin(email, password, joiEmail) && r.Failure? ==> r == Failure(Unauthorized(MsgBadLogin))
  {
    if !ValidLogin(email, password, joiEmail) then Failure(BadRequest(MsgInvalid))
    else match IndexWhere(t, WithEmail(NormalEmail(email)))
      case None => Failure(Unauthorized(MsgBadLogin))
      case Some(k) =>
        if !BcryptCompare(password, t[k].val.password) then Failure(Unauthorized(MsgBadLogin))
        else Success(AuthToken(t[k].id, AdminRole))
  }

  /**
   * A created administrator logs in with the e-mail as typed and the
   * password as stored (trimmed), and with no other password.
   */
  lemma CreatedAdminLogsIn(t: Table<Admin>, f: AdminForm, joiEmail: string -> bool, newId: Id, password: string)
    requires !HasId(t, newId) && Create(t, f, joiEmail, newId).result.Success?
    requires |password| > 0
    ensures Login(Create(t, f, joiEmail, newId).table, joiEmail, f.email, password).Success? <==>
            BcryptKey(password) == BcryptKey(Trim(f.password))
  {
    var doc := Normalize(f);
    var row := Row(newId, SaveHook(doc, true));
    var o := Create(t, f, joiEmail, newId);
    assert o.table == t + [row] && ValidCreate(f, joiEmail) && !Any(t, WithEmail(doc.email));
    forall i | 0 <= i < |t| ensures !WithEmail(doc.email)(t[i].val) {
    }
    LastMatch(t, row, WithEmail(doc.email));
    BcryptCompareHash(doc.password, password);
    LoginAt(t + [row], joiEmail, f.email, password, |t|);
  }

  /** Login when the e-mail's first row is known. */
  lemma LoginAt(t: Table<Admin>, joiEmail: string -> bool, email: string, password: string, k: nat)
    requires ValidLogin(email, password, joiEmail) && IndexWhere(t, WithEmail(NormalEmail(email))) == Some(k)
    ensures Login(t, joiEmail, email, password).Success? <==> BcryptCompare(password, t[k].val.password)
  {
  }

  /** In `t + [row]`, the first row matching `p` is `row` when no row of `t` matches. */
  lemma {:induction false} LastMatch(t: Table<Admin>, row: Row<Admin>, p: Admin -> bool)
    requires forall i | 0 <= i < |t| :: !p(t[i].val)
    requires p(row.val)
    ensures IndexWhere(t + [row], p) == Some(|t|)
  {
    if |t| > 0 {
      assert (t + [row])[0] == t[0];
      assert (t + [row])[1..] == t[1..] + [row];
      LastMatch(t[1..], row, p);
    }
  }

  /** Someone other than `id` already holds the value. */
  predicate HeldByOther(t: Table<Admin>, id: Id, p: Admin -> bool)
  {
    exists i | 0 <= i < |t| :: t[i].id != id && p(t[i].val)
  }

  /**
   * The stored document after an update: supplied fields go through the
   * setters, a supplied password is hashed by the service (the save hook
   * does not run on `findByIdAndUpdate`), absent fields are kept.
   */
  function Patched(a: Admin, p: AdminPatch): (r: Admin)
    ensures p.password.Some? ==> BcryptCompare(p.password.value, r.password)
    ensures p.password.None? ==> r.password == a.password
    ensures r.email == if p.email.Some? then NormalEmail(p.email.value) else a.email
    ensures p.userName.None? ==> r.userName == a.userName
    ensures p.phoneNumber.None? ==> r.phoneNumber == a.phoneNumber
  {
    BcryptCompareHash(if p.password.Some? then p.password.value else "", if p.password.Some? then p.password.value else "");
    Admin(
      if p.userName.Some? then Trim(p.userName.value) else a.userName,
      if p.phoneNumber.Some? then Trim(p.phoneNumber.value) else a.phoneNumber,
      if p.email.Some? then NormalEmail(p.email.value) else a.email,
      if p.password.Some? then BcryptHash(p.password.value) else a.password)
  }

  /** `runValidators`: the schema validators run on the updated paths only. */
  predicate UpdateValid(p: AdminPatch, r: Admin)
  {
    (p.userName.Some? ==> ValidUserName(r.userName)) &&
    (p.phoneNumber.Some? ==> IsPhone(r.phoneNumber)) &&
    (p.email.Some? ==> IsEmail(r.email))
  }

  /**
   * `updateAdmin`: validation, the administrator must exist, then an
   * e-mail, phone number or user name held by another administrator is
   * refused, in that order; one's own current values may be sent again.
   */
  function Update(t: Table<Admin>, joiEmail: string -> bool, id: Id, p: AdminPatch): (o: Outcome<Admin, Admin>)
    ensures o.result.Failure? ==> o.table == t
    ensures !ValidPatch(p, joiEmail) ==> o.result == Failure(BadRequest(MsgInvalid))
    ensures ValidPatch(p, joiEmail) && !HasId(t, id) ==> o.result == Failure(NotFound(MsgAdminNotFound))
    ensures o.result.Success? <==>
              ValidPatch(p, joiEmail) && HasId(t, id) &&
              (p.email.Some? ==> !HeldByOther(t, id, WithEmail(NormalEmail(p.email.value)))) &&
              (p.phoneNumber.Some? ==> !HeldByOther(t, id, WithPhone(Trim(p.phoneNumber.value)))) &&
              (p.userName.Some? ==> !HeldByOther(t, id, WithUserName(Trim(p.userName.value)))) &&
              UpdateValid(p, Patched(Find(t, id).value, p))
    ensures o.result.Success? ==>
              o.result.value == Patched(Find(t, id).value, p).(password := "") &&
              o.table == Put(t, id, Patched(Find(t, id).value, p))
  {
    if !ValidPatch(p, joiEmail) then Outcome(Failure(BadRequest(MsgInvalid)), t)
    else match Find(t, id)
      case None => Outcome(Failure(NotFound(MsgAdminNotFound)), t)
      case Some(a) =>
        match Conflict(t, id, p)
        case Some(m) => Outcome(Failure(BadRequest(m)), t)
        case None =>
          var r := Patched(a, p);
          if !UpdateValid(p, r) then Outcome(Failure(Internal(MsgSchema)), t)
          else Outcome(Success(r.(password := "")), Put(t, id, r))
  }

  /** The first supplied value, in the order e-mail, phone number, user name, that another administrator holds. */
  function Conflict(t: Table<Admin>, id: Id, p: AdminPatch): (m: Option<string>)
    ensures m.None? <==>
              (p.email.Some? ==> !HeldByOther(t, id, WithEmail(NormalEmail(p.email.value)))) &&
              (p.phoneNumber.Some? ==> !HeldByOther(t, id, WithPhone(Trim(p.phoneNumber.value)))) &&
              (p.userName.Some? ==> !HeldByOther(t, id, WithUserName(Trim(p.userName.value))))
    ensures p.email.Some? && HeldByOther(t, id, WithEmail(NormalEmail(p.email.value))) ==> m == Some(MsgEmailTaken)
    ensures m.Some? ==> m.value in {MsgEmailTaken, MsgPhoneTaken, MsgUserNameTaken}
  {
    if p.email.Some? && HeldByOther(t, id, WithEmail(NormalEmail(p.email.value))) then Some(MsgEmailTaken)
    else if p.phoneNumber.Some? && HeldByOther(t, id, WithPhone(Trim(p.phoneNumber.value))) then Some(MsgPhoneTaken)
    else if p.userName.Some? && HeldByOther(t, id, WithUserName(Trim(p.userName.value))) then Some(MsgUserNameTaken)
    else None
  }

  /** Updating keeps ids, phone numbers, e-mails and user names unique. */
  lemma UpdateKeepsUnique(t: Table<Admin>, joiEmail: string -> bool, id: Id, p: AdminPatch)
    requires UniqueIds(t) && UniqueAdmins(t)
    ensures var o := Update(t, joiEmail, id, p);
            UniqueIds(o.table) && UniqueAdmins(o.table)
  {
    var o := Update(t, joiEmail, id, p);
    if o.result.Success? {
      var a := Find(t, id).value;
      var r := Patched(a, p);
      assert o.table == Put(t, id, r);
      PutKeepsIds(t, id, r);
      assert Row(id, a) in t;
      NoOtherHolds(t, id, a, p);
      PutKeepsUniqueAdmins(t, id, r);
    }
  }

  /** After the conflict checks pass, no other administrator holds a value of the patched document. */
  lemma NoOtherHolds(t: Table<Admin>, id: Id, a: Admin, p: AdminPatch)
    requires UniqueAdmins(t) && Row(id, a) in t
    requires p.email.Some? ==> !HeldByOther(t, id, WithEmail(NormalEmail(p.email.value)))
    requires p.phoneNumber.Some? ==> !HeldByOther(t, id, WithPhone(Trim(p.phoneNumber.value)))
    requires p.userName.Some? ==> !HeldByOther(t, id, WithUserName(Trim(p.userName.value)))
    ensures var r := Patched(a, p);
            forall x | x in t && x.id != id ::
              x.val.phoneNumber != r.phoneNumber && x.val.email != r.email && x.val.userName != r.userName
  {
    var r := Patched(a, p);
    forall x | x in t && x.id != id
      ensures x.val.phoneNumber != r.phoneNumber && x.val.email != r.email && x.val.userName != r.userName
    {
      var i :| 0 <= i < |t| && t[i] == x;
      if p.email.Some? { assert !WithEmail(NormalEmail(p.email.value))(t[i].val); }
      if p.phoneNumber.Some? { assert !WithPhone(Trim(p.phoneNumber.value))(t[i].val); }
      if p.userName.Some? { assert !WithUserName(Trim(p.userName.value))(t[i].val); }
    }
  }

  /** Replacing a document by one whose values no other administrator holds keeps them unique. */
  lemma PutKeepsUniqueAdmins(t: Table<Admin>, id: Id, r: Admin)
    requires UniqueAdmins(t)
    requires forall x | x in t && x.id != id ::
               x.val.phoneNumber != r.phoneNumber && x.val.email != r.email && x.val.userName != r.userName
    ensures UniqueAdmins(Put(t, id, r))
  {
    PutMembers(t, id, r);
  }

  /** Re-sending one's own current e-mail, phone number and user name is not a conflict. */
  lemma ResubmitOwnValues(t: Table<Admin>, joiEmail: string -> bool, id: Id, a: Admin)
    requires UniqueIds(t) && UniqueAdmins(t) && Find(t, id) == Some(a)
    requires a == Admin(Trim(a.userName), Trim(a.phoneNumber), NormalEmail(a.email), a.password)
    requires ValidUserName(a.userName) && IsPhone(a.phoneNumber) && joiEmail(a.email) && IsEmail(a.email)
    ensures Update(t, joiEmail, id, AdminPatch(Some(a.userName), Some(a.phoneNumber), Some(a.email), None)) ==
            Outcome(Success(a.(password := "")), t)
  {
    var p := AdminPatch(Some(a.userName), Some(a.phoneNumber), Some(a.email), None);
    OwnValuesFree(t, id, a);
    assert ValidPatch(p, joiEmail);
    assert Conflict(t, id, p) == None;
    assert Patched(a, p) == a && UpdateValid(p, a);
    PutSame(t, id, a);
    assert Update(t, joiEmail, id, p) == Outcome(Success(a.(password := "")), Put(t, id, a));
  }

  /** No other administrator holds any of `a`'s own values. */
  lemma OwnValuesFree(t: Table<Admin>, id: Id, a: Admin)
    requires UniqueAdmins(t) && Row(id, a) in t
    ensures !HeldByOther(t, id, WithEmail(a.email))
    ensures !HeldByOther(t, id, WithPhone(a.phoneNumber))
    ensures !HeldByOther(t, id, WithUserName(a.userName))
  {
    forall i | 0 <= i < |t| && t[i].id != id
      ensures !WithEmail(a.email)(t[i].val) && !WithPhone(a.phoneNumber)(t[i].val) &&
              !WithUserName(a.userName)(t[i].val)
    {
      assert t[i] in t;
    }
  }

  /** `deleteAdmin` */
  function Remove(t: Table<Admin>, id: Id): (o: Outcome<(), Admin>)
    ensures o.result.Success? <==> HasId(t, id)
    ensures o.result.Failure? ==> o == Outcome(Failure(NotFound(MsgAdminNotFound)), t)
    ensures o.result.Success? ==> o.table == Delete(t, id) && !HasId(o.table, id)
  {
    if !HasId(t, id) then Outcome(Failure(NotFound(MsgAdminNotFound)), t)
    else Outcome(Success(()), Delete(t, id))
  }

  /**
   * `changePassword`: the current password must verify; the new one is
   * hashed and stored with no length rule of its own.
   */
  function ChangePassword(t: Table<Admin>, id: Id, current: string, password: string): (o: Outcome<(), Admin>)
    ensures o.result.Failure? ==> o.table == t
    ensures !HasId(t, id) ==> o.result == Failure(NotFound(MsgAdminNotFound))
    ensures HasId(t, id) && !BcryptCompare(current, Find(t, id).value.password) ==>
              o.result == Failure(BadRequest(MsgWrongCurrent))
    ensures o.result.Success? <==> HasId(t, id) && BcryptCompare(current, Find(t, id).value.password)
    ensures o.result.Success? ==> o.table == Put(t, id, Find(t, id).value.(password := BcryptHash(password)))
  {
    match Find(t, id)
    case None => Outcome(Failure(NotFound(MsgAdminNotFound)), t)
    case Some(a) =>
      if !BcryptCompare(current, a.password) then Outcome(Failure(BadRequest(MsgWrongCurrent)), t)
      else Outcome(Success(()), Put(t, id, a.(password := BcryptHash(password))))
  }

  /**
   * After a successful change the new password verifies and the current
   * one no longer does (unless they are the same); the change needs the
   * current password, so the new one can change it again.
   */
  lemma ChangePasswordTakesEffect(t: Table<Admin>, id: Id, current: string, password: string, next: string)
    requires UniqueIds(t) && ChangePassword(t, id, current, password).result.Success?
    ensures var t1 := ChangePassword(t, id, current, password).table;
            BcryptCompare(password, Find(t1, id).value.password) &&
            (BcryptKey(current) != BcryptKey(password) ==> !BcryptCompare(current, Find(t1, id).value.password)) &&
            ChangePassword(t1, id, password, next).result.Success? &&
            (BcryptKey(current) != BcryptKey(password) ==> ChangePassword(t1, id, current, next).result == Failure(BadRequest(MsgWrongCurrent)))
  {
    var a := Find(t, id).value;
    var b := a.(password := BcryptHash(password));
    FindAfterPut(t, id, b, id);
    BcryptCompareHash(password, current);
    BcryptCompareHash(password, password);
  }

  /** `getProfile`: an empty id is refused before the lookup; the password is never returned. */
  function Profile(t: Table<Admin>, id: Id): (r: Result<Admin>)
    ensures id == "" ==> r == Failure(BadRequest(MsgIdRequired))
    ensures id != "" && !HasId(t, id) ==> r == Failure(NotFound(MsgAdminNotFound))
    ensures r.Success? <==> id != "" && HasId(t, id)
    ensures r.Success? ==> r.value == Find(t, id).value.(password := "")
  {
    if id == "" then Failure(BadRequest(MsgIdRequired))
    else match Find(t, id)
      case None => Failure(NotFound(MsgAdminNotFound))
      case Some(a) => Success(a.(password := ""))
  }

  method CreateNewAdmin(db: Db, f: AdminForm, joiEmail: string -> bool, newId: Id) returns (r: Result<AuthToken>)
    requires !HasId(db.admins, newId)
    modifies db`admins
    ensures Outcome(r, db.admins) == Create(old(db.admins), f, joiEmail, newId)
  {
    var o := Create(db.admins, f, joiEmail, newId);
    db.admins := o.table;
    r := o.result;
  }

  method UpdateAdmin(db: Db, joiEmail: string -> bool, id: Id, p: AdminPatch) returns (r: Result<Admin>)
    modifies db`admins
    ensures Outcome(r, db.admins) == Update(old(db.admins), joiEmail, id, p)
  {
    var o := Update(db.admins, joiEmail, id, p);
    db.admins := o.table;
    r := o.result;
  }

  method DeleteAdmin(db: Db, id: Id) returns (r: Result<()>)
    modifies db`admins
    ensures Outcome(r, db.admins) == Remove(old(db.admins), id)
  {
    var o := Remove(db.admins, id);
    db.admins := o.table;
    r := o.result;
  }

  method ChangeAdminPassword(db: Db, id: Id, current: string, password: string) returns (r: Result<()>)
    modifies db`admins
    ensures Outcome(r, db.admins) == ChangePassword(old(db.admins), id, current, password)
  {
    var o := ChangePassword(db.admins, id, current, password);
    db.admins := o.table;
    r := o.result;
  }
}

=== FILE: bunny_signer.dfy ===
/**
 * The Bunny Stream player-link signer: it takes a player URL of the form
 * `https://host/play/{libraryId}/{videoId}` and appends an `expires`
 * timestamp and a token, the hex SHA-256 of the library's security key,
 * the video id and the timestamp.
 *
 * SHA-256 is a function parameter. `new URL` is modelled for `http` and
 * `https` URLs only: an authority up to the first `/`, `?` or `#`, then the
 * path up to the first `?` or `#`.
 */
module BunnySigner {
  import opened Wrappers
  import opened Text

  const PlayHost := "iframe.mediadelivery.net"
  const PlayBase := "https://" + PlayHost + "/play/"
  const MsgInvalidUrl := "Invalid URL"

  /** Number of leading characters that are none of `stops`. */
  function SpanUntil(s: string, stops: set<char>): (n: nat)
    ensures n <= |s|
    ensures forall i | 0 <= i < n :: s[i] !in stops
    ensures n < |s| ==> s[n] in stops
  {
    if |s| == 0 || s[0] in stops then 0 else 1 + SpanUntil(s[1..], stops)
  }

  /** The part of a URL after its scheme, when the scheme is `https` or `http`. */
  function AfterScheme(url: string): Option<string>
  {
    if StartsWith(url, "https://") then Some(url[8..])
    else if StartsWith(url, "http://") then Some(url[7..])
    else None
  }

  /** `new URL(url).pathname`; None where the constructor throws. */
  function Pathname(url: string): (r: Option<string>)
    ensures r.Some? ==> |r.value| > 0 && r.value[0] == '/'
  {
    match AfterScheme(url)
    case None => None
    case Some(rest) =>
      var h := SpanUntil(rest, {'/', '?', '#'});
      if h == 0 then None
      else if h == |rest| || rest[h] != '/' then Some("/")
      else
        var path := rest[h..];
        Some(path[..SpanUntil(path, {'?', '#'})])
  }

  /** `url.pathname.split("/").filter(Boolean)` */
  function Segments(pathname: string): seq<string>
  {
    NonEmpty(Split(pathname, '/'))
  }

  /** A template slot: `${segments[i]}` renders a missing segment as "undefined". */
  function Slot(segs: seq<string>, i: nat): string
  {
    if i < |segs| then segs[i] else "undefined"
  }

  /** `Math.floor(Date.now() / 1000) + 2` */
  function Expires(nowMs: nat): nat
  {
    nowMs / 1000 + 2
  }

  /** `process.env.BUNNY_SECURITY_KEY` inside a template: an unset key renders as "undefined". */
  function KeyText(key: Option<string>): string
  {
    if key.Some? then key.value else "undefined"
  }

  /** `generateBunnySignedIframeUrl(iframeUrl)` at clock `nowMs`. */
  function SignedIframeUrl(iframeUrl: string, key: Option<string>, nowMs: nat, sha256Hex: string -> string): (r: Result<string>)
    ensures Pathname(iframeUrl).None? <==> r.Failure?
    ensures r.Failure? ==> r.error == Internal(MsgInvalidUrl)
    ensures r.Success? ==>
              var segs := Segments(Pathname(iframeUrl).value);
              var exp := Decimal(Expires(nowMs));
              r.value == PlayBase + Slot(segs, 1) + "/" + Slot(segs, 2) + "?expires=" + exp
                         + "&token=" + sha256Hex(KeyText(key) + Slot(segs, 2) + exp)
  {
    match Pathname(iframeUrl)
    case None => Failure(Internal(MsgInvalidUrl))
    case Some(path) =>
      var segs := Segments(path);
      var libraryId := Slot(segs, 1);
      var videoId := Slot(segs, 2);
      var expires := Decimal(Expires(nowMs));
      var token := sha256Hex(KeyText(key) + videoId + expires);
      Success(PlayBase + libraryId + "/" + videoId + "?expires=" + expires + "&token=" + token)
  }

  /**
   * The signed link expires one to two seconds after the call: `expires` is
   * the current second plus two, so at most 2000 ms and more than 1000 ms
   * remain.
   */
  lemma ExpiresWindow(nowMs: nat)
    ensures 1000 < Expires(nowMs) * 1000 - nowMs <= 2000
  {
  }

  /** An identifier that sits in one path segment: non-empty, with no `/`, `?` or `#`. */
  predicate PathSafe(x: string)
  {
    x != "" && !Contains(x, '/') && !Contains(x, '?') && !Contains(x, '#')
  }

  /** An `https` URL whose host and path contain no delimiters has exactly that path. */
  lemma HttpsPathname(host: string, path: string)
    requires host != "" && forall i | 0 <= i < |host| :: host[i] !in {'/', '?', '#'}
    requires |path| > 0 && path[0] == '/' && NoQuery(path)
    ensures Pathname("https://" + host + path) == Some(path)
  {
    var url := "https://" + host + path;
    var rest := host + path;
    assert url[..8] == "https://" && url[8..] == rest;
    SpanPrefix(host, path, {'/', '?', '#'});
    assert rest[|host|..] == path;
    SpanNone(path, {'?', '#'});
    assert path[..|path|] == path;
  }

  predicate NoQuery(s: string) { forall i | 0 <= i < |s| :: s[i] !in {'?', '#'} }

  lemma NoQueryConcat(a: string, b: string)
    requires NoQuery(a) && NoQuery(b)
    ensures NoQuery(a + b)
  {
    forall i | 0 <= i < |a + b| ensures (a + b)[i] !in {'?', '#'} {
      if i >= |a| { assert (a + b)[i] == b[i - |a|]; }
    }
  }

  lemma NoQueryOfSafe(x: string)
    requires PathSafe(x)
    ensures NoQuery(x)
  {
    forall i | 0 <= i < |x| ensures x[i] !in {'?', '#'} {
      assert x[i] != '?' && x[i] != '#';
    }
  }

  /** The pathname of a player URL is its `/play/...` part. */
  lemma PlayUrlPathname(libraryId: string, videoId: string)
    requires PathSafe(libraryId) && PathSafe(videoId)
    ensures Pathname(PlayBase + libraryId + "/" + videoId) == Some("/play/" + libraryId + "/" + videoId)
  {
    var host := PlayHost;
    var path := "/play/" + libraryId + "/" + videoId;
    PlayUrlShape(libraryId, videoId);
    NoQueryOfSafe(libraryId);
    NoQueryOfSafe(videoId);
    NoQueryConcat("/play/", libraryId);
    NoQueryConcat("/play/" + libraryId, "/");
    NoQueryConcat("/play/" + libraryId + "/", videoId);
    HttpsPathname(host, path);
  }

  /** A player URL is the scheme, the player host and the `/play/...` path. */
  lemma PlayUrlShape(libraryId: string, videoId: string)
    ensures PlayBase + libraryId + "/" + videoId ==
            "https://" + PlayHost + ("/play/" + libraryId + "/" + videoId)
  {
    var rest := libraryId + "/" + videoId;
    assert PlayBase + libraryId + "/" + videoId == PlayBase + rest;
    assert "/play/" + libraryId + "/" + videoId == "/play/" + rest;
  }

  /** Any player URL built on the player base parses, whatever the ids hold. */
  lemma PlayUrlParses(libraryId: string, videoId: string)
    ensures Pathname(PlayBase + libraryId + "/" + videoId).Some?
  {
    var host := PlayHost;
    var path := "/play/" + libraryId + "/" + videoId;
    PlayUrlShape(libraryId, videoId);
    HttpsParses(host, path);
  }

  lemma HttpsParses(host: string, path: string)
    requires host != "" && forall i | 0 <= i < |host| :: host[i] !in {'/', '?', '#'}
    requires |path| > 0 && path[0] == '/'
    ensures Pathname("https://" + host + path).Some?
  {
    var url := "https://" + host + path;
    assert url[..8] == "https://" && url[8..] == host + path;
    SpanPrefix(host, path, {'/', '?', '#'});
  }

  /** The segments of `/play/{libraryId}/{videoId}` are "play", the library id and the video id. */
  lemma PlayPathSegments(libraryId: string, videoId: string)
    requires PathSafe(libraryId) && PathSafe(videoId)
    ensures Segments("/play/" + libraryId + "/" + videoId) == ["play", libraryId, videoId]
  {
    PlayPathSplit(libraryId, videoId);
    PlayPathNonEmpty(libraryId, videoId);
  }

  lemma PlayPathSplit(libraryId: string, videoId: string)
    requires PathSafe(libraryId) && PathSafe(videoId)
    ensures Split("/play/" + libraryId + "/" + videoId, '/') == ["", "play", libraryId, videoId]
  {
    var path := "/play/" + libraryId + "/" + videoId;
    assert path == "" + "/" + ("play" + "/" + (libraryId + "/" + videoId));
    SplitCons("", "play" + "/" + (libraryId + "/" + videoId), '/');
    assert !Contains("play", '/');
    SplitCons("play", libraryId + "/" + videoId, '/');
    SplitCons(libraryId, videoId, '/');
    SplitNoSep(videoId, '/');
  }

  lemma PlayPathNonEmpty(libraryId: string, videoId: string)
    requires PathSafe(libraryId) && PathSafe(videoId)
    ensures NonEmpty(["", "play", libraryId, videoId]) == ["play", libraryId, videoId]
  {
    assert NonEmpty([videoId]) == [videoId] by {
      assert [videoId][1..] == [];
    }
    assert NonEmpty([libraryId, videoId]) == [libraryId, videoId] by {
      assert [libraryId, videoId][1..] == [videoId];
    }
    assert NonEmpty(["play", libraryId, videoId]) == ["play", libraryId, videoId] by {
      assert ["play", libraryId, videoId][1..] == [libraryId, videoId];
    }
    assert ["", "play", libraryId, videoId][1..] == ["play", libraryId, videoId];
  }

  lemma {:induction false} SpanPrefix(x: string, y: string, stops: set<char>)
    requires forall i | 0 <= i < |x| :: x[i] !in stops
    requires |y| > 0 && y[0] in stops
    ensures SpanUntil(x + y, stops) == |x|
    decreases |x|
  {
    if |x| > 0 {
      assert (x + y)[1..] == x[1..] + y;
      SpanPrefix(x[1..], y, stops);
    } else {
      assert x + y == y;
    }
  }

  lemma SpanNone(x: string, stops: set<char>)
    requires forall i | 0 <= i < |x| :: x[i] !in stops
    ensures SpanUntil(x, stops) == |x|
  {
  }

  /**
   * Signing the player URL of a stored library and video id yields a link to
   * that same library and video, and the token hashes the key, that video id
   * and the expiry.
   */
  lemma SignPlayUrl(libraryId: string, videoId: string, key: Option<string>, nowMs: nat, sha256Hex: string -> string)
    requires PathSafe(libraryId) && PathSafe(videoId)
    ensures var exp := Decimal(Expires(nowMs));
            SignedIframeUrl(PlayBase + libraryId + "/" + videoId, key, nowMs, sha256Hex)
              == Success(PlayBase + libraryId + "/" + videoId + "?expires=" + exp
                         + "&token=" + sha256Hex(KeyText(key) + videoId + exp))
  {
    PlayUrlPathname(libraryId, videoId);
    PlayPathSegments(libraryId, videoId);
  }
}

=== FILE: contents.dfy ===
/**
 * The content of a question bank: its joi validators, the checks its
 * schema makes, the `groupsCount` virtual and the `findOneAndDelete` hook
 * that first deletes the content's group banks.
 */
module Contents {
  import opened Wrappers
  import opened Text
  import opened Tables
  import opened Records
  import opened Store
  import opened Validators
  import Exams

  /** A request body as joi sees it; `None` is a missing key. */
  datatype ContentBody = ContentBody(bank: Option<string>, title: Option<string>, duration: Option<string>)

  /** `validateCreateContent`: bank, a title of at most 100 characters and a duration, all required. */
  predicate ValidCreate(b: ContentBody)
  {
    Exams.Given(b.bank) && Exams.Given(b.title) && Exams.TitleFits(b.title) &&
    Exams.Given(b.duration) && IsDuration(b.duration.value)
  }

  /** `validateUpdateContent`: every key optional; a duration, when sent, follows the same pattern. */
  predicate ValidUpdate(b: ContentBody)
  {
    (b.bank.None? || Exams.Given(b.bank)) && Exams.TitleFits(b.title) &&
    (b.duration.None? || (Exams.Given(b.duration) && IsDuration(b.duration.value)))
  }

  /**
   * Unlike the exam's, the content's update validator does not insist on
   * a duration, and everything its create validator accepts it accepts.
   */
  lemma UpdateValidatorIsLooser(b: ContentBody)
    ensures ValidUpdate(ContentBody(None, None, None))
    ensures !Exams.ValidUpdate(Exams.ExamBody(None, None, None))
    ensures ValidCreate(b) ==> ValidUpdate(b)
  {
  }

  /** The document the schema stores: the `trim` setter applies to the title. */
  function Stored(bank: Id, title: string, duration: string): (c: Content)
    ensures c.title == Trim(title) && c.bank == bank && c.duration == duration
  {
    Content(bank, Trim(title), duration)
  }

  /**
   * The schema's checks: `bank` is an ObjectId path and must cast from a
   * 24-digit hexadecimal string; then the required fields, `maxlength: 100`
   * and the duration pattern.
   */
  predicate SchemaAccepts(c: Content)
  {
    IsValidObjectId(c.bank) && c.title != "" && |c.title| <= 100 && IsDuration(c.duration)
  }

  /**
   * A body the create validator accepts is stored unless its title is
   * blank or its bank does not cast to an ObjectId (joi only asks for a string).
   */
  lemma CreateAcceptedIsStored(b: ContentBody)
    requires ValidCreate(b)
    ensures SchemaAccepts(Stored(b.bank.value, b.title.value, b.duration.value)) <==>
            Trim(b.title.value) != "" && IsValidObjectId(b.bank.value)
  {
    var t := b.title.value;
    assert |TrimStart(TrimEnd(t))| <= |TrimEnd(t)| <= |t|;
  }

  function OfContent(id: Id): GroupBank -> bool
  {
    (g: GroupBank) => g.contentId == id
  }

  /** The `groupsCount` virtual: how many group banks name this content. */
  function GroupsCount(groupBanks: Table<GroupBank>, id: Id): (n: nat)
    ensures n <= |groupBanks|
    ensures n == 0 <==> forall row | row in groupBanks :: row.val.contentId != id
  {
    var w := Where(groupBanks, OfContent(id));
    if w != [] then assert w[0] in w; |w| else |w|
  }

  /** A new group bank raises its own content's count by one and no other. */
  lemma GroupsCountAfterAdd(groupBanks: Table<GroupBank>, row: Row<GroupBank>, id: Id)
    ensures GroupsCount(groupBanks + [row], id) ==
            GroupsCount(groupBanks, id) + (if row.val.contentId == id then 1 else 0)
  {
    WhereAppend(groupBanks, row, OfContent(id));
  }

  /** What `Content.findOneAndDelete({ _id: id })` leaves. */
  datatype ContentDeletion = ContentDeletion(found: Option<Content>, contents: Table<Content>, groupBanks: Table<GroupBank>)

  /**
   * The pre hook looks the content up and, when it exists, runs
   * `GroupBank.deleteMany({ contentId })`; the query then deletes the
   * content. `deleteMany` runs no hooks, so the question banks stay.
   */
  function DeleteContent(contents: Table<Content>, groupBanks: Table<GroupBank>, id: Id): (d: ContentDeletion)
    ensures d.found == Find(contents, id)
    ensures d.found.None? ==> d.contents == contents && d.groupBanks == groupBanks
    ensures d.found.Some? ==> d.groupBanks == Without(groupBanks, OfContent(id))
    ensures forall x :: HasId(d.contents, x) <==> x != id && HasId(contents, x)
  {
    DeleteIds(contents, id);
    match Find(contents, id)
    case None =>
      DeleteAbsent(contents, id);
      ContentDeletion(None, contents, groupBanks)
    case Some(c) => ContentDeletion(Some(c), Delete(contents, id), Without(groupBanks, OfContent(id)))
  }

  /** After the cascade the content's count is zero and every other content's groups are kept. */
  lemma DeleteContentCascade(contents: Table<Content>, groupBanks: Table<GroupBank>, id: Id)
    requires HasId(contents, id)
    ensures var d := DeleteContent(contents, groupBanks, id);
            GroupsCount(d.groupBanks, id) == 0 &&
            (forall row | row in groupBanks && row.val.contentId != id :: row in d.groupBanks) &&
            |d.groupBanks| + GroupsCount(groupBanks, id) == |groupBanks|
  {
    WhereWithoutSplit(groupBanks, OfContent(id));
  }

  method FindOneAndDeleteContent(db: Db, id: Id) returns (found: Option<Content>)
    modifies db`contents, db`groupBanks
    ensures ContentDeletion(found, db.contents, db.groupBanks) == DeleteContent(old(db.contents), old(db.groupBanks), id)
  {
    var d := DeleteContent(db.contents, db.groupBanks, id);
    db.contents, db.groupBanks := d.contents, d.groupBanks;
    found := d.found;
  }
}

=== FILE: course.dfy ===
/**
 * The course service: creation with its price and discount rules, partial
 * updates, deletion and image replacement, and the course page with its
 * enrolment gate and the merged, date-ordered list of sessions and exams.
 */
module Courses {
  import opened Wrappers
  import opened Tables
  import opened Crypto
  import opened Records
  import opened Store
  import opened Accounts

  const MsgImageRequired := "the course image is required"
  const MsgCourseExists := "the course already exists"
  const MsgTeacherNotFound := "teacher not found"
  const MsgBadCourseId := "invalid course id"
  const MsgCourseNotFound := "course not found"
  const MsgStudentIdRequired := "the student id is required"
  const MsgStudentNotFound := "student not found"
  const MsgMustBuy := "sorry, you must buy the course first to access its content"
  const MsgPaidAtZero := "a paid course cannot have a price of zero"
  const MsgRateRequired := "the discount rate is required when there is a discount"
  const MsgUpdateFailed := "updating the course failed"
  const MsgDeleteFailed := "deleting the course failed"
  const MsgImageUpdateFailed := "updating the course image failed"
  /** `populate` leaves `teacher` null when the teacher is gone, and reading `_id` off it throws. */
  const MsgTeacherGone := "Cannot read properties of null (reading '_id')"

  /** The create body once joi has accepted it. A discount rate of 0 stands for an absent rate. */
  datatype CourseForm = CourseForm(name: string, teacher: Id, free: bool, price: int, discount: Discount)

  /**
   * The stored course: a free course costs nothing, a rate only counts
   * when the discount is on, and the image is the uploaded file's path.
   */
  function NewCourse(f: CourseForm, image: string): (c: Course)
    ensures c.free == f.free && (c.free ==> c.price == 0) && (!c.free ==> c.price == f.price)
    ensures c.discount.dis == f.discount.dis && (!c.discount.dis ==> c.discount.rate == 0)
    ensures c.discount.dis ==> c.discount.rate == f.discount.rate
    ensures c.name == f.name && c.teacher == f.teacher && c.image == image
    ensures c.students == [] && c.comments == []
  {
    Course(f.name, f.teacher, f.free, if f.free then 0 else f.price,
           Discount(f.discount.dis, if f.discount.dis then f.discount.rate else 0), image, [], [])
  }

  function Named(name: string): Course -> bool
  {
    (c: Course) => c.name == name
  }

  /** No two courses share a name. */
  predicate UniqueNames(t: Table<Course>)
  {
    forall i, j | 0 <= i < j < |t| :: t[i].val.name != t[j].val.name
  }

  /** The pricing rules every created course satisfies. */
  predicate Priced(c: Course)
  {
    (c.free ==> c.price == 0) && (!c.discount.dis ==> c.discount.rate == 0)
  }

  /**
   * `createCourse`: the body must validate, an image must have been
   * uploaded, the name must be new and the teacher must exist.
   */
  function Create(courses: Table<Course>, teachers: Table<Teacher>, valid: bool, f: CourseForm,
                  file: Option<string>, newId: Id): (o: Outcome<(), Course>)
    ensures o.result.Failure? ==> o.table == courses
    ensures !valid ==> o.result == Failure(BadRequest(MsgInvalid))
    ensures valid && file.None? ==> o.result == Failure(BadRequest(MsgImageRequired))
    ensures valid && file.Some? && Any(courses, Named(f.name)) ==> o.result == Failure(BadRequest(MsgCourseExists))
    ensures valid && file.Some? && !Any(courses, Named(f.name)) && !HasId(teachers, f.teacher) ==>
              o.result == Failure(NotFound(MsgTeacherNotFound))
    ensures o.result.Success? <==> valid && file.Some? && !Any(courses, Named(f.name)) && HasId(teachers, f.teacher)
    ensures o.result.Success? ==> o.table == courses + [Row(newId, NewCourse(f, file.value))]
  {
    if !valid then Outcome(Failure(BadRequest(MsgInvalid)), courses)
    else if file.None? then Outcome(Failure(BadRequest(MsgImageRequired)), courses)
    else if Any(courses, Named(f.name)) then Outcome(Failure(BadRequest(MsgCourseExists)), courses)
    else if Find(teachers, f.teacher).None? then Outcome(Failure(NotFound(MsgTeacherNotFound)), courses)
    else Outcome(Success(()), courses + [Row(newId, NewCourse(f, file.value))])
  }

  /** Creation keeps course names unique and every course priced by the rules. */
  lemma CreateKeepsInvariants(courses: Table<Course>, teachers: Table<Teacher>, valid: bool, f: CourseForm,
                              file: Option<string>, newId: Id)
    requires UniqueNames(courses) && forall i | 0 <= i < |courses| :: Priced(courses[i].val)
    ensures var o := Create(courses, teachers, valid, f, file, newId);
            UniqueNames(o.table) && forall i | 0 <= i < |o.table| :: Priced(o.table[i].val)
  {
    var o := Create(courses, teachers, valid, f, file, newId);
    if o.result.Success? {
      assert o.table[|courses|].val.name == f.name;
    }
  }

  /** The update body: every field optional. A discount rate of 0 stands for an absent rate. */
  datatype CoursePatch = CoursePatch(
    name: Option<string>,
    teacher: Option<Id>,
    free: Option<bool>,
    price: Option<int>,
    discount: Option<Discount>)

  /** `findByIdAndUpdate` with the body: each supplied field replaces the stored one. */
  function Patched(c: Course, p: CoursePatch): (r: Course)
    ensures r.students == c.students && r.comments == c.comments && r.image == c.image
    ensures p.free.Some? ==> r.free == p.free.value
    ensures p.price.Some? ==> r.price == p.price.value
    ensures p.discount.Some? ==> r.discount == p.discount.value
    ensures p.free.None? && p.price.None? && p.discount.None? ==> r.free == c.free && r.price == c.price && r.discount == c.discount
  {
    c.(name := if p.name.Some? then p.name.value else c.name,
       teacher := if p.teacher.Some? then p.teacher.value else c.teacher,
       free := if p.free.Some? then p.free.value else c.free,
       price := if p.price.Some? then p.price.value else c.price,
       discount := if p.discount.Some? then p.discount.value else c.discount)
  }

  /**
   * `updateCourse`: `free: true` forces the price to 0, `free: false`
   * with price 0 is refused, a discount that is on needs a rate, and the
   * course must exist.
   */
  function Update(courses: Table<Course>, valid: bool, id: Id, p: CoursePatch): (o: Outcome<(), Course>)
    ensures o.result.Failure? ==> o.table == courses
    ensures !valid ==> o.result == Failure(BadRequest(MsgInvalid))
    ensures valid && p.free == Some(false) && p.price == Some(0) ==> o.result == Failure(BadRequest(MsgPaidAtZero))
    ensures (valid && !(p.free == Some(false) && p.price == Some(0)) && p.discount.Some? &&
             p.discount.value.dis && p.discount.value.rate == 0) ==> o.result == Failure(BadRequest(MsgRateRequired))
    ensures o.result.Success? <==>
              valid && !(p.free == Some(false) && p.price == Some(0)) &&
              !(p.discount.Some? && p.discount.value.dis && p.discount.value.rate == 0) && HasId(courses, id)
    ensures o.result.Success? ==>
              o.table == Put(courses, id, Patched(Find(courses, id).value,
                                                  if p.free == Some(true) then p.(price := Some(0)) else p))
  {
    if !valid then Outcome(Failure(BadRequest(MsgInvalid)), courses)
    else if p.free == Some(false) && p.price == Some(0) then Outcome(Failure(BadRequest(MsgPaidAtZero)), courses)
    else
      var q := if p.free == Some(true) then p.(price := Some(0)) else p;
      if q.discount.Some? && q.discount.value.dis && q.discount.value.rate == 0 then
        Outcome(Failure(BadRequest(MsgRateRequired)), courses)
      else match Find(courses, id)
        case None => Outcome(Failure(NotFound(MsgUpdateFailed)), courses)
        case Some(c) => Outcome(Success(()), Put(courses, id, Patched(c, q)))
  }

  /**
   * What an accepted update promises about the fields it carries: a course
   * made free costs nothing, a course made paid at an explicit price is not
   * at price 0, and a discount switched on carries a rate.
   */
  lemma UpdatePromises(courses: Table<Course>, valid: bool, id: Id, p: CoursePatch)
    requires UniqueIds(courses)
    requires Update(courses, valid, id, p).result.Success?
    ensures var c := Find(Update(courses, valid, id, p).table, id).value;
            (p.free == Some(true) ==> c.free && c.price == 0) &&
            (p.free == Some(false) && p.price.Some? ==> !c.free && c.price != 0) &&
            (p.discount.Some? && p.discount.value.dis ==> c.discount.dis && c.discount.rate != 0)
  {
    var q := if p.free == Some(true) then p.(price := Some(0)) else p;
    FindAfterPut(courses, id, Patched(Find(courses, id).value, q), id);
  }

  /**
   * The rules only look at the body: `{ free: false }` alone turns a free
   * course (price 0) into a paid course at price 0 (here sent together
   * with a switched-off discount at rate 10), so an update can leave a
   * course that creation would never have stored.
   */
  lemma UpdateCanBreakPricing(courses: Table<Course>, id: Id, c: Course)
    requires UniqueIds(courses) && Find(courses, id) == Some(c) && c.free && c.price == 0
    ensures var o := Update(courses, true, id, CoursePatch(None, None, Some(false), None, Some(Discount(false, 10))));
            o.result.Success? && !Priced(Find(o.table, id).value) &&
            !Find(o.table, id).value.free && Find(o.table, id).value.price == 0
  {
    var p := CoursePatch(None, None, Some(false), None, Some(Discount(false, 10)));
    FindAfterPut(courses, id, Patched(c, p), id);
  }

  /** `deleteCourse`: `findByIdAndDelete`; an unknown id fails. */
  function Remove(courses: Table<Course>, id: Id): (o: Outcome<(), Course>)
    ensures o.result.Success? <==> HasId(courses, id)
    ensures o.result.Failure? ==> o == Outcome(Failure(NotFound(MsgDeleteFailed)), courses)
    ensures forall x :: HasId(o.table, x) <==> x != id && HasId(courses, x)
  {
    DeleteIds(courses, id);
    if Find(courses, id).None? then
      DeleteAbsent(courses, id);
      Outcome(Failure(NotFound(MsgDeleteFailed)), courses)
    else Outcome(Success(()), Delete(courses, id))
  }

  /** `updateCourseImage`: a file is required and the course must exist; only the image changes. */
  function SetImage(courses: Table<Course>, file: Option<string>, id: Id): (o: Outcome<(), Course>)
    ensures o.result.Failure? ==> o.table == courses
    ensures file.None? ==> o.result == Failure(BadRequest(MsgImageRequired))
    ensures file.Some? && !HasId(courses, id) ==> o.result == Failure(NotFound(MsgImageUpdateFailed))
    ensures o.result.Success? <==> file.Some? && HasId(courses, id)
    ensures o.result.Success? ==> o.table == Put(courses, id, Find(courses, id).value.(image := file.value))
  {
    if file.None? then Outcome(Failure(BadRequest(MsgImageRequired)), courses)
    else match Find(courses, id)
      case None => Outcome(Failure(NotFound(MsgImageUpdateFailed)), courses)
      case Some(c) => Outcome(Success(()), Put(courses, id, c.(image := file.value)))
  }

  // ---------------------------------------------------------------------
  // The course page

  /** An entry of `sessionsAndExams`: the document with its `type` tag. */
  datatype Activity = SessionItem(id: Id, session: Session) | ExamItem(id: Id, exam: Exam)

  function At(a: Activity): int
  {
    match a
    case SessionItem(_, s) => s.createdAt
    case ExamItem(_, e) => e.createdAt
  }

  predicate Ascending(xs: seq<Activity>)
  {
    forall i, j | 0 <= i < j < |xs| :: At(xs[i]) <= At(xs[j])
  }

  /** The entries of `xs` created at time `t`, in their order in `xs`. */
  function AtTime(xs: seq<Activity>, t: int): seq<Activity>
  {
    if |xs| == 0 then []
    else (if At(xs[0]) == t then [xs[0]] else []) + AtTime(xs[1..], t)
  }

  lemma AtTimeCons(y: Activity, ys: seq<Activity>)
    ensures forall t :: AtTime([y] + ys, t) == AtTime([y], t) + AtTime(ys, t)
  {
    assert ([y] + ys)[1..] == ys;
    assert [y][1..] == [];
  }

  lemma {:induction false} AtTimeAppend(a: seq<Activity>, b: seq<Activity>, t: int)
    ensures AtTime(a + b, t) == AtTime(a, t) + AtTime(b, t)
  {
    if |a| == 0 {
      assert a + b == b;
    } else {
      assert (a + b)[0] == a[0] && (a + b)[1..] == a[1..] + b;
      AtTimeAppend(a[1..], b, t);
    }
  }

  lemma AtTimeAppendAll(a: seq<Activity>, b: seq<Activity>)
    ensures forall t :: AtTime(a + b, t) == AtTime(a, t) + AtTime(b, t)
  {
    forall t ensures AtTime(a + b, t) == AtTime(a, t) + AtTime(b, t) {
      AtTimeAppend(a, b, t);
    }
  }

  /**
   * Insert into an ascending list before the first entry that is not
   * earlier: the new entry goes ahead of the entries of its own time, and
   * among the entries of every time it comes first.
   */
  function InsertByTime(x: Activity, xs: seq<Activity>): (r: seq<Activity>)
    requires Ascending(xs)
    ensures Ascending(r)
    ensures multiset(r) == multiset(xs) + multiset{x}
    ensures |r| == |xs| + 1
    ensures forall t :: AtTime(r, t) == AtTime([x], t) + AtTime(xs, t)
  {
    if |xs| == 0 then
      assert [x] + xs == [x];
      [x]
    else if At(x) <= At(xs[0]) then
      AtTimeCons(x, xs);
      [x] + xs
    else
      var rest := InsertByTime(x, xs[1..]);
      HeadStaysFirst(x, xs, rest);
      InsertPastEarlier(x, xs, rest);
      [xs[0]] + rest
  }

  /** The recursive case of the insertion: the earlier head stays in front of the rest. */
  lemma HeadStaysFirst(x: Activity, xs: seq<Activity>, rest: seq<Activity>)
    requires Ascending(xs) && |xs| > 0 && At(xs[0]) < At(x)
    requires Ascending(rest) && multiset(rest) == multiset(xs[1..]) + multiset{x}
    ensures Ascending([xs[0]] + rest)
    ensures multiset([xs[0]] + rest) == multiset(xs) + multiset{x}
  {
    assert xs == [xs[0]] + xs[1..];
    assert multiset(xs[1..] + [x]) == multiset(xs[1..]) + multiset{x};
    NotEarlier(xs[0], xs[1..] + [x], rest);
    ConsAscending(xs[0], rest);
  }

  /**
   * Passing an earlier head: the head and the new entry have different
   * times, so at every time at most one of them is kept and their order
   * does not matter.
   */
  lemma InsertPastEarlier(x: Activity, xs: seq<Activity>, rest: seq<Activity>)
    requires |xs| > 0 && At(xs[0]) < At(x)
    requires forall t :: AtTime(rest, t) == AtTime([x], t) + AtTime(xs[1..], t)
    ensures forall t :: AtTime([xs[0]] + rest, t) == AtTime([x], t) + AtTime(xs, t)
  {
    var h := xs[0];
    assert xs == [h] + xs[1..];
    forall t ensures AtTime([h] + rest, t) == AtTime([x], t) + AtTime(xs, t) {
      AtTimeAppend([h], rest, t);
      AtTimeAppend([h], xs[1..], t);
      DistinctTimesCommute(h, x, AtTime(xs[1..], t), t);
    }
  }

  /** Entries of different times: at any one time at most one of them is kept. */
  lemma DistinctTimesCommute(h: Activity, x: Activity, tail: seq<Activity>, t: int)
    requires At(h) != At(x)
    ensures AtTime([h], t) + (AtTime([x], t) + tail) == AtTime([x], t) + (AtTime([h], t) + tail)
  {
    AtTimeSingle(h, t);
    AtTimeSingle(x, t);
    assert AtTime([h], t) == [] || AtTime([x], t) == [];
  }

  lemma AtTimeSingle(y: Activity, t: int)
    ensures AtTime([y], t) == if At(y) == t then [y] else []
  {
    assert [y][1..] == [];
  }

  /** An entry no later than everything in `ys` is no later than anything in a rearrangement of `ys`. */
  lemma NotEarlier(y: Activity, ys: seq<Activity>, r: seq<Activity>)
    requires forall k | 0 <= k < |ys| :: At(y) <= At(ys[k])
    requires multiset(r) == multiset(ys)
    ensures forall k | 0 <= k < |r| :: At(y) <= At(r[k])
  {
    forall k | 0 <= k < |r| ensures At(y) <= At(r[k]) {
      assert r[k] in multiset(ys);
      var j :| 0 <= j < |ys| && ys[j] == r[k];
    }
  }

  lemma ConsAscending(y: Activity, r: seq<Activity>)
    requires Ascending(r) && forall k | 0 <= k < |r| :: At(y) <= At(r[k])
    ensures Ascending([y] + r)
  {
  }

  /**
   * `.sort((a, b) => dateA - dateB)` with JavaScript's stable sort:
   * ascending by `createdAt`, the same entries, and the entries of each
   * time in their original order. These three facts fix the result.
   */
  function SortByTime(xs: seq<Activity>): (r: seq<Activity>)
    ensures Ascending(r)
    ensures multiset(r) == multiset(xs)
    ensures |r| == |xs|
    ensures forall t :: AtTime(r, t) == AtTime(xs, t)
  {
    if |xs| == 0 then []
    else
      assert xs == [xs[0]] + xs[1..];
      AtTimeCons(xs[0], xs[1..]);
      InsertByTime(xs[0], SortByTime(xs[1..]))
  }

  /** Two activities of the same time come out in the order they went in. */
  lemma EqualTimesKeepOrder(a: Activity, b: Activity)
    requires At(a) == At(b)
    ensures SortByTime([a, b]) == [a, b]
  {
    assert [a, b][1..] == [b] && [b][1..] == [];
    assert SortByTime([b]) == [b];
  }

  function OfCourse(id: Id): Session -> bool
  {
    (s: Session) => s.courseId == id
  }

  function ExamOfCourse(id: Id): Exam -> bool
  {
    (e: Exam) => e.courseId == id
  }

  function TagSessions(t: Table<Session>): (r: seq<Activity>)
    ensures |r| == |t|
    ensures forall k | 0 <= k < |t| :: r[k] == SessionItem(t[k].id, t[k].val)
  {
    if |t| == 0 then [] else [SessionItem(t[0].id, t[0].val)] + TagSessions(t[1..])
  }

  function TagExams(t: Table<Exam>): (r: seq<Activity>)
    ensures |r| == |t|
    ensures forall k | 0 <= k < |t| :: r[k] == ExamItem(t[k].id, t[k].val)
  {
    if |t| == 0 then [] else [ExamItem(t[0].id, t[0].val)] + TagExams(t[1..])
  }

  /**
   * The page: the course without its `sessions` and `exams` arrays, the
   * four counts, whether a discount is on, and the merged activities.
   */
  datatype CourseView = CourseView(
    course: Course,
    studentsCount: nat,
    sessionsCount: nat,
    examsCount: nat,
    commentsCount: nat,
    isDiscounted: bool,
    sessionsAndExams: seq<Activity>)

  function View(c: Course, id: Id, sessions: Table<Session>, exams: Table<Exam>): (v: CourseView)
    ensures v.sessionsCount == |Where(sessions, OfCourse(id))| && v.examsCount == |Where(exams, ExamOfCourse(id))|
    ensures v.studentsCount == |c.students| && v.commentsCount == |c.comments| && v.isDiscounted == c.discount.dis
    ensures Ascending(v.sessionsAndExams)
    ensures multiset(v.sessionsAndExams) ==
            multiset(TagSessions(Where(sessions, OfCourse(id)))) + multiset(TagExams(Where(exams, ExamOfCourse(id))))
    ensures forall t :: AtTime(v.sessionsAndExams, t) ==
              AtTime(TagSessions(Where(sessions, OfCourse(id))), t) + AtTime(TagExams(Where(exams, ExamOfCourse(id))), t)
  {
    var ss := Where(sessions, OfCourse(id));
    var es := Where(exams, ExamOfCourse(id));
    AtTimeAppendAll(TagSessions(ss), TagExams(es));
    CourseView(c, |c.students|, |ss|, |es|, |c.comments|, c.discount.dis, SortByTime(TagSessions(ss) + TagExams(es)))
  }

  /**
   * `getCourseById`: the id must be an ObjectId and name a course; a
   * caller with the student role must name a student enrolled in it.
   * Other roles skip the check. The course's teacher must still exist:
   * reading the id of a teacher `populate` could not find fails.
   */
  function GetCourse(courses: Table<Course>, sessions: Table<Session>, exams: Table<Exam>, students: Table<Student>,
                     teachers: Table<Teacher>, id: Id, studentId: Id, role: Role): (r: Result<CourseView>)
    ensures !IsValidObjectId(id) ==> r == Failure(NotFound(MsgBadCourseId))
    ensures IsValidObjectId(id) && !HasId(courses, id) ==> r == Failure(NotFound(MsgCourseNotFound))
    ensures r.Success? ==> IsValidObjectId(id) && HasId(courses, id) &&
                           HasId(teachers, Find(courses, id).value.teacher) &&
                           r.value == View(Find(courses, id).value, id, sessions, exams)
    ensures r.Success? && role == StudentRole ==>
              HasId(students, studentId) && id in Find(students, studentId).value.enrolledCourses
    ensures IsValidObjectId(id) && HasId(courses, id) && role != StudentRole ==>
              (r.Success? <==> HasId(teachers, Find(courses, id).value.teacher)) &&
              (r.Failure? ==> r == Failure(Internal(MsgTeacherGone)))
  {
    if !IsValidObjectId(id) then Failure(NotFound(MsgBadCourseId))
    else match Find(courses, id)
      case None => Failure(NotFound(MsgCourseNotFound))
      case Some(c) =>
        if role == StudentRole && studentId == "" then Failure(BadRequest(MsgStudentIdRequired))
        else if role == StudentRole && Find(students, studentId).None? then Failure(NotFound(MsgStudentNotFound))
        else if role == StudentRole && id !in Find(students, studentId).value.enrolledCourses then
          Failure(BadRequest(MsgMustBuy))
        else if !HasId(teachers, c.teacher) then Failure(Internal(MsgTeacherGone))
        else Success(View(c, id, sessions, exams))
  }

  /**
   * A student sees the page exactly when enrolled (and the teacher still
   * exists); the refusals come in the order of the checks.
   */
  lemma StudentGate(courses: Table<Course>, sessions: Table<Session>, exams: Table<Exam>, students: Table<Student>,
                    teachers: Table<Teacher>, id: Id, studentId: Id)
    requires IsValidObjectId(id) && HasId(courses, id)
    ensures var r := GetCourse(courses, sessions, exams, students, teachers, id, studentId, StudentRole);
            var teacherKept := HasId(teachers, Find(courses, id).value.teacher);
            (studentId == "" ==> r == Failure(BadRequest(MsgStudentIdRequired))) &&
            (studentId != "" && !HasId(students, studentId) ==> r == Failure(NotFound(MsgStudentNotFound))) &&
            (studentId != "" && HasId(students, studentId) ==>
               (r.Success? <==> id in Find(students, studentId).value.enrolledCourses && teacherKept)) &&
            (studentId != "" && HasId(students, studentId) && id !in Find(students, studentId).value.enrolledCourses ==>
               r == Failure(BadRequest(MsgMustBuy))) &&
            ((studentId != "" && HasId(students, studentId) && id in Find(students, studentId).value.enrolledCourses
              && !teacherKept) ==> r == Failure(Internal(MsgTeacherGone)))
  {
  }

  /** `sessionsAndExams` is as long as the two counts together. */
  lemma ActivitiesCount(c: Course, id: Id, sessions: Table<Session>, exams: Table<Exam>)
    ensures var v := View(c, id, sessions, exams);
            |v.sessionsAndExams| == v.sessionsCount + v.examsCount
  {
    var v := View(c, id, sessions, exams);
    var merged := TagSessions(Where(sessions, OfCourse(id))) + TagExams(Where(exams, ExamOfCourse(id)));
    assert |multiset(v.sessionsAndExams)| == |multiset(merged)|;
  }

  /** Every session of the course appears in `sessionsAndExams`, tagged as a session. */
  lemma SessionsListed(c: Course, id: Id, sessions: Table<Session>, exams: Table<Exam>, row: Row<Session>)
    requires row in sessions && row.val.courseId == id
    ensures SessionItem(row.id, row.val) in View(c, id, sessions, exams).sessionsAndExams
  {
    var ss := Where(sessions, OfCourse(id));
    var merged := TagSessions(ss) + TagExams(Where(exams, ExamOfCourse(id)));
    assert row in ss;
    var k :| 0 <= k < |ss| && ss[k] == row;
    assert merged[k] == SessionItem(row.id, row.val);
    assert SessionItem(row.id, row.val) in multiset(merged);
  }

  /** Every exam of the course appears in `sessionsAndExams`, tagged as an exam. */
  lemma ExamsListed(c: Course, id: Id, sessions: Table<Session>, exams: Table<Exam>, row: Row<Exam>)
    requires row in exams && row.val.courseId == id
    ensures ExamItem(row.id, row.val) in View(c, id, sessions, exams).sessionsAndExams
  {
    var ss := Where(sessions, OfCourse(id));
    var es := Where(exams, ExamOfCourse(id));
    var merged := TagSessions(ss) + TagExams(es);
    assert row in es;
    var k :| 0 <= k < |es| && es[k] == row;
    assert merged[|ss| + k] == ExamItem(row.id, row.val);
    assert ExamItem(row.id, row.val) in multiset(merged);
  }

  /** Nothing but the course's own sessions and exams appears in `sessionsAndExams`. */
  lemma OnlyTheCourses(c: Course, id: Id, sessions: Table<Session>, exams: Table<Exam>, a: Activity)
    requires a in View(c, id, sessions, exams).sessionsAndExams
    ensures a.SessionItem? ==> Row(a.id, a.session) in sessions && a.session.courseId == id
    ensures a.ExamItem? ==> Row(a.id, a.exam) in exams && a.exam.courseId == id
  {
    InView(c, id, sessions, exams, a);
    TaggedOfCourse(id, sessions, exams, a);
  }

  /** A tagged session or exam of a course is one of the course's own rows. */
  lemma TaggedOfCourse(id: Id, sessions: Table<Session>, exams: Table<Exam>, a: Activity)
    requires a in TagSessions(Where(sessions, OfCourse(id))) || a in TagExams(Where(exams, ExamOfCourse(id)))
    ensures a.SessionItem? ==> Row(a.id, a.session) in sessions && a.session.courseId == id
    ensures a.ExamItem? ==> Row(a.id, a.exam) in exams && a.exam.courseId == id
  {
    var ss := Where(sessions, OfCourse(id));
    var es := Where(exams, ExamOfCourse(id));
    if a in TagSessions(ss) {
      var k :| 0 <= k < |ss| && TagSessions(ss)[k] == a;
      TaggedSession(sessions, id, k);
      assert a == SessionItem(ss[k].id, ss[k].val);
    } else {
      var k :| 0 <= k < |es| && TagExams(es)[k] == a;
      TaggedExam(exams, id, k);
      assert a == ExamItem(es[k].id, es[k].val);
    }
  }

  /** An entry of the course page is a tagged session or a tagged exam of the course. */
  lemma InView(c: Course, id: Id, sessions: Table<Session>, exams: Table<Exam>, a: Activity)
    requires a in View(c, id, sessions, exams).sessionsAndExams
    ensures a in TagSessions(Where(sessions, OfCourse(id))) || a in TagExams(Where(exams, ExamOfCourse(id)))
  {
    var xs := TagSessions(Where(sessions, OfCourse(id)));
    var ys := TagExams(Where(exams, ExamOfCourse(id)));
    assert a in multiset(View(c, id, sessions, exams).sessionsAndExams);
    assert a in multiset(xs) + multiset(ys);
  }

  /** The k-th tagged session of a course is a session of the course. */
  lemma TaggedSession(sessions: Table<Session>, id: Id, k: nat)
    requires k < |Where(sessions, OfCourse(id))|
    ensures var row := Where(sessions, OfCourse(id))[k];
            TagSessions(Where(sessions, OfCourse(id)))[k] == SessionItem(row.id, row.val) &&
            row in sessions && row.val.courseId == id
  {
    var ss := Where(sessions, OfCourse(id));
    assert ss[k] in ss;
  }

  /** The k-th tagged exam of a course is an exam of the course. */
  lemma TaggedExam(exams: Table<Exam>, id: Id, k: nat)
    requires k < |Where(exams, ExamOfCourse(id))|
    ensures var row := Where(exams, ExamOfCourse(id))[k];
            TagExams(Where(exams, ExamOfCourse(id)))[k] == ExamItem(row.id, row.val) &&
            row in exams && row.val.courseId == id
  {
    var es := Where(exams, ExamOfCourse(id));
    assert es[k] in es;
  }

  method CreateCourse(db: Db, valid: bool, f: CourseForm, file: Option<string>, newId: Id) returns (r: Result<()>)
    modifies db`courses
    ensures Outcome(r, db.courses) == Create(old(db.courses), db.teachers, valid, f, file, newId)
  {
    var o := Create(db.courses, db.teachers, valid, f, file, newId);
    db.courses := o.table;
    r := o.result;
  }

  method UpdateCourse(db: Db, valid: bool, id: Id, p: CoursePatch) returns (r: Result<()>)
    modifies db`courses
    ensures Outcome(r, db.courses) == Update(old(db.courses), valid, id, p)
  {
    var o := Update(db.courses, valid, id, p);
    db.courses := o.table;
    r := o.result;
  }

  method DeleteCourse(db: Db, id: Id) returns (r: Result<()>)
    modifies db`courses
    ensures Outcome(r, db.courses) == Remove(old(db.courses), id)
  {
    var o := Remove(db.courses, id);
    db.courses := o.table;
    r := o.result;
  }

  method UpdateCourseImage(db: Db, file: Option<string>, id: Id) returns (r: Result<()>)
    modifies db`courses
    ensures Outcome(r, db.courses) == SetImage(old(db.courses), file, id)
  {
    var o := SetImage(db.courses, file, id);
    db.courses := o.table;
    r := o.result;
  }
}

=== FILE: crypto.dfy ===
/**
 * Symbolic stand-ins for the cryptographic primitives. Each is a concrete,
 * injective term so that the properties the services rely on can be proved
 * rather than assumed: a bcrypt hash verifies exactly the plaintexts that
 * share its first 72 UTF-8 bytes, and a length-prefixed field can always be
 * read back.
 */
module Crypto {
  import opened Wrappers
  import opened Text

  /** A string with its length in front: `<decimal length>:<text>`. */
  function Field(s: string): string
  {
    Decimal(|s|) + ":" + s
  }

  /** Number of leading decimal digits. */
  function LeadingDigits(t: string): (n: nat)
    ensures n <= |t| && AllDigits(t[..n])
    ensures n < |t| ==> !IsDigit(t[n])
  {
    if |t| > 0 && IsDigit(t[0]) then
      var m := LeadingDigits(t[1..]);
      assert t[..m + 1] == [t[0]] + t[1..][..m];
      m + 1
    else 0
  }

  /** Reads one length-prefixed field off the front of `t`. */
  function ReadField(t: string): Option<(string, string)>
  {
    var k := LeadingDigits(t);
    if k == 0 || k == |t| || t[k] != ':' then None
    else
      var n := ParseDecimal(t[..k]);
      if k + 1 + n > |t| then None
      else Some((t[k + 1..k + 1 + n], t[k + 1 + n..]))
  }

  lemma {:induction false} LeadingDigitsStop(d: string, rest: string)
    requires AllDigits(d)
    requires |rest| > 0 && !IsDigit(rest[0])
    ensures LeadingDigits(d + rest) == |d|
    decreases |d|
  {
    if |d| > 0 {
      assert (d + rest)[1..] == d[1..] + rest;
      LeadingDigitsStop(d[1..], rest);
    }
  }

  /** A field written with `Field` is read back whole, leaving what follows. */
  lemma ReadFieldOfField(s: string, rest: string)
    ensures ReadField(Field(s) + rest) == Some((s, rest))
  {
    var d := Decimal(|s|);
    var t := Field(s) + rest;
    assert t == d + (":" + s + rest);
    LeadingDigitsStop(d, ":" + s + rest);
    assert t[..|d|] == d;
    assert t[|d| + 1..|d| + 1 + |s|] == s;
    assert t[|d| + 1 + |s|..] == rest;
  }

  /** Two different strings never have the same field encoding, whatever follows. */
  lemma FieldInjective(a: string, b: string, ra: string, rb: string)
    requires Field(a) + ra == Field(b) + rb
    ensures a == b && ra == rb
  {
    ReadFieldOfField(a, ra);
    ReadFieldOfField(b, rb);
  }

  /** A list of strings, each length-prefixed, one after the other. */
  function Fields(xs: seq<string>): string
  {
    if |xs| == 0 then "" else Field(xs[0]) + Fields(xs[1..])
  }

  /** Reads exactly `n` fields and requires nothing to follow them. */
  function ReadFields(t: string, n: nat): (r: Option<seq<string>>)
    ensures r.Some? ==> |r.value| == n
  {
    if n == 0 then (if t == "" then Some([]) else None)
    else match ReadField(t)
      case None => None
      case Some((x, rest)) =>
        match ReadFields(rest, n - 1)
        case None => None
        case Some(ys) => Some([x] + ys)
  }

  /** Reading back what `Fields` wrote gives the same list. */
  lemma {:induction false} ReadFieldsOfFields(xs: seq<string>)
    ensures ReadFields(Fields(xs), |xs|) == Some(xs)
  {
    if |xs| > 0 {
      var t := Fields(xs);
      assert t == Field(xs[0]) + Fields(xs[1..]);
      ReadFieldOfField(xs[0], Fields(xs[1..]));
      assert ReadField(t) == Some((xs[0], Fields(xs[1..])));
      ReadFieldsOfFields(xs[1..]);
      assert ReadFields(t, |xs|) == Some([xs[0]] + xs[1..]);
      assert [xs[0]] + xs[1..] == xs;
    }
  }

  // ---------------------------------------------------------------- UTF-8

  type Byte = b: int | 0 <= b < 256

  /** The UTF-8 encoding of one character (RFC 3629 section 3). */
  function CharUtf8(c: char): (r: seq<Byte>)
    ensures 1 <= |r| <= 4
  {
    var v := c as int;
    if v < 0x80 then [v]
    else if v < 0x800 then [0xC0 + v / 0x40, 0x80 + v % 0x40]
    else if v < 0x1_0000 then [0xE0 + v / 0x1000, 0x80 + v / 0x40 % 0x40, 0x80 + v % 0x40]
    else [0xF0 + v / 0x4_0000, 0x80 + v / 0x1000 % 0x40, 0x80 + v / 0x40 % 0x40, 0x80 + v % 0x40]
  }

  /** How many bytes a sequence with this first byte takes. */
  function SequenceLength(lead: Byte): nat
  {
    if lead < 0x80 then 1 else if lead < 0xE0 then 2 else if lead < 0xF0 then 3 else 4
  }

  /** The code point a one- to four-byte sequence stands for. */
  function DecodeChar(r: seq<Byte>): int
    requires 1 <= |r| <= 4
  {
    var b0, rest := r[0] as int, r[1..];
    if |r| == 1 then b0
    else if |r| == 2 then (b0 - 0xC0) * 0x40 + (rest[0] as int - 0x80)
    else if |r| == 3 then (b0 - 0xE0) * 0x1000 + (rest[0] as int - 0x80) * 0x40 + (rest[1] as int - 0x80)
    else (b0 - 0xF0) * 0x4_0000 + (rest[0] as int - 0x80) * 0x1000 + (rest[1] as int - 0x80) * 0x40 + (rest[2] as int - 0x80)
  }

  /** A character's encoding announces its own length and decodes back to the character. */
  lemma CharUtf8Decodes(c: char)
    ensures SequenceLength(CharUtf8(c)[0]) == |CharUtf8(c)|
    ensures DecodeChar(CharUtf8(c)) == c as int
  {
    var v := c as int;
    if v >= 0x1_0000 {
      assert v / 0x4_0000 * 0x4_0000 + v / 0x1000 % 0x40 * 0x1000 + v / 0x40 % 0x40 * 0x40 + v % 0x40 == v;
    } else if v >= 0x800 {
      assert v / 0x1000 * 0x1000 + v / 0x40 % 0x40 * 0x40 + v % 0x40 == v;
    }
  }

  /** The UTF-8 encoding of a string, the bytes the native bcrypt binding receives. */
  function Utf8(s: string): (r: seq<Byte>)
    ensures |r| >= |s|
  {
    if |s| == 0 then [] else CharUtf8(s[0]) + Utf8(s[1..])
  }

  lemma {:induction false} Utf8Append(a: string, b: string)
    ensures Utf8(a + b) == Utf8(a) + Utf8(b)
    decreases |a|
  {
    if |a| > 0 {
      assert (a + b)[1..] == a[1..] + b;
      Utf8Append(a[1..], b);
    } else {
      assert a + b == b;
    }
  }

  /** Text of characters below 0x80 takes one byte per character. */
  lemma {:induction false} Utf8Ascii(s: string)
    requires forall i | 0 <= i < |s| :: s[i] as int < 0x80
    ensures |Utf8(s)| == |s|
    decreases |s|
  {
    if |s| > 0 {
      Utf8Ascii(s[1..]);
    }
  }

  /** Different strings have different encodings. */
  lemma {:induction false} Utf8Injective(a: string, b: string)
    requires Utf8(a) == Utf8(b)
    ensures a == b
    decreases |a|
  {
    if |a| == 0 {
      assert |b| == 0;
    } else {
      assert |b| > 0;
      var x, y := CharUtf8(a[0]), CharUtf8(b[0]);
      CharUtf8Decodes(a[0]);
      CharUtf8Decodes(b[0]);
      assert x[0] == Utf8(a)[0] == Utf8(b)[0] == y[0];
      assert x == Utf8(a)[..|x|] == Utf8(b)[..|y|] == y;
      assert a[0] as int == b[0] as int;
      assert Utf8(a[1..]) == Utf8(a)[|x|..] == Utf8(b)[|y|..] == Utf8(b[1..]);
      Utf8Injective(a[1..], b[1..]);
      assert a == [a[0]] + a[1..] && b == [b[0]] + b[1..];
    }
  }

  // ---------------------------------------------------------------- bcrypt

  /** bcrypt's key: the password's UTF-8 bytes, of which only the first 72 count. */
  function BcryptKey(plain: string): (k: seq<Byte>)
    ensures |k| <= 72 && |k| <= |Utf8(plain)| && k == Utf8(plain)[..|k|]
    ensures |k| < 72 ==> k == Utf8(plain)
  {
    var u := Utf8(plain);
    if |u| <= 72 then u else u[..72]
  }

  /** The key's bytes as text, one character per byte. */
  function KeyText(k: seq<Byte>): (t: string)
    ensures |t| == |k| && forall i | 0 <= i < |k| :: t[i] as int == k[i]
  {
    seq(|k|, i requires 0 <= i < |k| => k[i] as char)
  }

  /** bcrypt: the stored hash of a plaintext (the salt is not modelled). */
  function BcryptHash(plain: string): string
  {
    "$2b$10$" + Field(KeyText(BcryptKey(plain)))
  }

  /** `bcrypt.compare(candidate, hash)` */
  predicate BcryptCompare(candidate: string, hash: string)
  {
    hash == BcryptHash(candidate)
  }

  /**
   * A hash verifies its own plaintext, and exactly the candidates whose
   * first 72 UTF-8 bytes are the plaintext's.
   */
  lemma BcryptCompareHash(plain: string, candidate: string)
    ensures BcryptCompare(plain, BcryptHash(plain))
    ensures BcryptCompare(candidate, BcryptHash(plain)) <==> BcryptKey(candidate) == BcryptKey(plain)
  {
    if BcryptCompare(candidate, BcryptHash(plain)) {
      var p, c := KeyText(BcryptKey(plain)), KeyText(BcryptKey(candidate));
      assert "$2b$10$" + Field(p) == "$2b$10$" + Field(c);
      assert Field(p) + "" == Field(c) + "" by {
        assert ("$2b$10$" + Field(p))[7..] == Field(p);
        assert ("$2b$10$" + Field(c))[7..] == Field(c);
      }
      FieldInjective(p, c, "", "");
      assert BcryptKey(candidate) == BcryptKey(plain);
    }
  }

  /**
   * Within 72 bytes the key is the whole password, so two passwords of
   * which one is shorter than 72 bytes, or both at most 72, share a key
   * exactly when they are the same.
   */
  lemma KeyExactWithin(p: string, q: string)
    requires |Utf8(p)| < 72 || (|Utf8(p)| <= 72 && |Utf8(q)| <= 72)
    ensures BcryptKey(p) == BcryptKey(q) <==> p == q
  {
    if BcryptKey(p) == BcryptKey(q) {
      assert Utf8(p) == Utf8(q);
      Utf8Injective(p, q);
    }
  }

  /** Passwords that agree on their first 72 bytes verify against each other's hash, whatever follows. */
  lemma LongPasswordsCollide(p: string, x: string, y: string)
    requires |Utf8(p)| >= 72
    ensures BcryptCompare(p + x, BcryptHash(p + y))
  {
    var k := Utf8(p)[..72];
    assert BcryptKey(p + x) == k by {
      Utf8Append(p, x);
      assert Utf8(p + x)[..72] == k;
    }
    assert BcryptKey(p + y) == k by {
      Utf8Append(p, y);
      assert Utf8(p + y)[..72] == k;
    }
    BcryptCompareHash(p + y, p + x);
  }

  /**
   * Hashing a stored hash a second time makes a password shorter than 72
   * bytes stop verifying: the second hash's key is longer than its key.
   */
  lemma DoubleHashBreaksCompare(plain: string)
    ensures |Utf8(plain)| < 72 ==> !BcryptCompare(plain, BcryptHash(BcryptHash(plain)))
  {
    BcryptCompareHash(BcryptHash(plain), plain);
    var h := BcryptHash(plain);
    assert |h| > |KeyText(BcryptKey(plain))| == |BcryptKey(plain)|;
  }

  datatype Role = StudentRole | TeacherRole | AdminRole

  /** The login JWT `{ id, role }`; its signing and lifetime are not part of this model. */
  datatype AuthToken = AuthToken(id: string, role: Role)
}

=== FILE: exams.dfy ===
/**
 * The exam model: its joi validators, the checks its schema makes on the
 * stored document, and the `findOneAndDelete` hook that first deletes the
 * exam's groups.
 */
module Exams {
  import opened Wrappers
  import opened Text
  import opened Tables
  import opened Records
  import opened Store
  import opened Validators

  /** A request body as joi sees it; `None` is a missing key. */
  datatype ExamBody = ExamBody(courseId: Option<string>, title: Option<string>, duration: Option<string>)

  /** `joi.string()`: present keys must be non-empty strings. */
  predicate Given(v: Option<string>)
  {
    v.Some? && v.value != ""
  }

  predicate TitleFits(v: Option<string>)
  {
    v.None? || (v.value != "" && |v.value| <= 100)
  }

  /** `validateCreateExam`: course, title of at most 100 characters and a duration, all required. */
  predicate ValidCreate(b: ExamBody)
  {
    Given(b.courseId) && Given(b.title) && TitleFits(b.title) && Given(b.duration) && IsDuration(b.duration.value)
  }

  /** `validateUpdateExam`: course and title optional, but the duration is still required. */
  predicate ValidUpdate(b: ExamBody)
  {
    (b.courseId.None? || Given(b.courseId)) && TitleFits(b.title) && Given(b.duration) && IsDuration(b.duration.value)
  }

  /** An update that does not resend the duration is refused, whatever else it carries. */
  lemma UpdateNeedsDuration(b: ExamBody)
    requires b.duration.None?
    ensures !ValidUpdate(b)
  {
  }

  /** The document the schema stores from a body: the `trim` setter applies to the title. */
  function Stored(courseId: Id, title: string, duration: string, now: int): (e: Exam)
    ensures e.title == Trim(title) && e.duration == duration && e.courseId == courseId && e.createdAt == now
  {
    Exam(courseId, Trim(title), duration, now)
  }

  /**
   * The schema's own checks on a stored exam: `courseId` is an ObjectId
   * path, so it must cast from a 24-digit hexadecimal string; then the
   * required fields, `maxlength: 100` and the duration pattern.
   */
  predicate SchemaAccepts(e: Exam)
  {
    IsValidObjectId(e.courseId) && e.title != "" && |e.title| <= 100 && IsDuration(e.duration)
  }

  /**
   * What joi accepts the schema stores, unless the title is blank or the
   * course id does not cast to an ObjectId: joi only asks for a string
   * there. joi's length limit is on the untrimmed title, so the trimmed
   * one fits too, but a title of spaces passes joi and is empty once trimmed.
   */
  lemma CreateAcceptedIsStored(b: ExamBody, now: int)
    requires ValidCreate(b)
    ensures var e := Stored(b.courseId.value, b.title.value, b.duration.value, now);
            SchemaAccepts(e) <==> Trim(b.title.value) != "" && IsValidObjectId(b.courseId.value)
  {
    var t := b.title.value;
    assert |TrimStart(TrimEnd(t))| <= |TrimEnd(t)| <= |t|;
  }

  /**
   * A blank title is one joi lets through and the schema then refuses,
   * while the same body with a title of one letter is stored: the refusal
   * is the title's alone.
   */
  lemma BlankTitleRefusedOnlyBySchema(courseId: Id, now: int)
    requires IsValidObjectId(courseId)
    ensures var b := ExamBody(Some(courseId), Some(" "), Some("1:00"));
            ValidCreate(b) && !SchemaAccepts(Stored(courseId, " ", "1:00", now)) &&
            SchemaAccepts(Stored(courseId, "T", "1:00", now))
  {
    assert "1:00"[..1] == "1" && "1:00"[2..4] == "00";
    assert IsDuration("1:00");
    assert IsSpace(" "[0]);
    assert TrimEnd(" ") == TrimEnd(" "[..0]);
    assert !IsSpace("T"[0]);
    assert Trim("T") == "T";
  }

  function OfExam(id: Id): Group -> bool
  {
    (g: Group) => g.examId == id
  }

  /** What `Exam.findOneAndDelete({ _id: id })` leaves: the exam deleted, if found, and the groups. */
  datatype ExamDeletion = ExamDeletion(found: Option<Exam>, exams: Table<Exam>, groups: Table<Group>)

  /**
   * The pre hook looks the exam up and, when it exists, runs
   * `Group.deleteMany({ examId })`; the query then deletes the exam.
   * `deleteMany` runs no hooks, so the groups' questions stay.
   */
  function DeleteExam(exams: Table<Exam>, groups: Table<Group>, id: Id): (d: ExamDeletion)
    ensures d.found == Find(exams, id)
    ensures d.found.None? ==> d.exams == exams && d.groups == groups
    ensures d.found.Some? ==> d.groups == Without(groups, OfExam(id))
    ensures forall x :: HasId(d.exams, x) <==> x != id && HasId(exams, x)
  {
    DeleteIds(exams, id);
    match Find(exams, id)
    case None =>
      DeleteAbsent(exams, id);
      ExamDeletion(None, exams, groups)
    case Some(e) => ExamDeletion(Some(e), Delete(exams, id), Without(groups, OfExam(id)))
  }

  /** After the cascade no group refers to the deleted exam, and every other group is kept. */
  lemma DeleteExamCascade(exams: Table<Exam>, groups: Table<Group>, id: Id)
    requires HasId(exams, id)
    ensures var d := DeleteExam(exams, groups, id);
            (forall row | row in d.groups :: row.val.examId != id) &&
            (forall row | row in groups && row.val.examId != id :: row in d.groups) &&
            |d.groups| + |Where(groups, OfExam(id))| == |groups|
  {
    WhereWithoutSplit(groups, OfExam(id));
  }

  method FindOneAndDeleteExam(db: Db, id: Id) returns (found: Option<Exam>)
    modifies db`exams, db`groups
    ensures ExamDeletion(found, db.exams, db.groups) == DeleteExam(old(db.exams), old(db.groups), id)
  {
    var d := DeleteExam(db.exams, db.groups, id);
    db.exams, db.groups := d.exams, d.groups;
    found := d.found;
  }
}

=== FILE: favorites.dfy ===
/**
 * The student's lists: favourite toggles (`indexOf`, then `push` or
 * `splice`), the favourite check, the existence check behind the sign-up
 * form, and the idempotent `$addToSet` of a bank and its content.
 */
module Favorites {
  import opened Wrappers
  import opened Tables
  import opened Records
  import opened Store
  import opened Validators
  import opened Accounts
  import opened Students
  import opened Lists

  const MsgStudentNotFound := "student not found"
  const MsgCourseNotFound := "course not found"
  const MsgSessionNotFound := "session not found"
  const MsgBankNotFound := "bank not found"
  const MsgContentNotFound := "content not found"
  const MsgContentNotInBank := "the content does not belong to the given bank"
  const MsgOneId := "exactly one id (course, session or bank) must be given"
  const MsgNothingToCheck := "a phone number, e-mail or university number is required"
  const MsgBadPhone := "invalid phone number: it must start with 09 and have 10 digits"
  const MsgBadEmail := "invalid e-mail format"

  datatype Action = Added | Removed

  /** The three favourites lists of a student. */
  datatype Kind = CourseKind | SessionKind | BankKind

  /** The referenced collections a favourite must exist in. */
  datatype Catalog = Catalog(courses: Table<Course>, sessions: Table<Session>, banks: Table<Bank>)

  function Favs(s: Student, kind: Kind): seq<Id>
  {
    match kind
    case CourseKind => s.favoriteCourses
    case SessionKind => s.favoriteSessions
    case BankKind => s.favoriteBank
  }

  function WithFavs(s: Student, kind: Kind, xs: seq<Id>): (r: Student)
    ensures Favs(r, kind) == xs
    ensures forall other | other != kind :: Favs(r, other) == Favs(s, other)
    ensures r.cred == s.cred && r.enrolledCourses == s.enrolledCourses
  {
    match kind
    case CourseKind => s.(favoriteCourses := xs)
    case SessionKind => s.(favoriteSessions := xs)
    case BankKind => s.(favoriteBank := xs)
  }

  predicate Listed(cat: Catalog, kind: Kind, id: Id)
  {
    match kind
    case CourseKind => HasId(cat.courses, id)
    case SessionKind => HasId(cat.sessions, id)
    case BankKind => HasId(cat.banks, id)
  }

  function MissingItem(kind: Kind): string
  {
    match kind
    case CourseKind => MsgCourseNotFound
    case SessionKind => MsgSessionNotFound
    case BankKind => MsgBankNotFound
  }

  /**
   * The toggle: an absent id is appended ("added"); otherwise its first
   * occurrence is removed ("removed") and the rest keeps its order.
   */
  function Toggle(xs: seq<Id>, x: Id): (r: (seq<Id>, Action))
    ensures x !in xs ==> r == (xs + [x], Added)
    ensures x in xs ==> r.1 == Removed && multiset(r.0) == multiset(xs) - multiset{x}
    ensures x in xs ==> exists k | 0 <= k < |xs| :: xs[k] == x && x !in xs[..k] && r.0 == xs[..k] + xs[k + 1..]
  {
    var k := Position(xs, x);
    if k == |xs| then (xs + [x], Added)
    else
      assert xs == xs[..k] + [x] + xs[k + 1..];
      (xs[..k] + xs[k + 1..], Removed)
  }

  /** Adding and then removing an id restores the list exactly. */
  lemma ToggleTwiceRestores(xs: seq<Id>, x: Id)
    requires x !in xs
    ensures Toggle(xs, x).1 == Added
    ensures Toggle(Toggle(xs, x).0, x) == (xs, Removed)
  {
    var ys := xs + [x];
    assert forall i | 0 <= i < |xs| :: ys[i] == xs[i] && ys[i] != x;
    assert ys[|xs|] == x;
    assert Position(ys, x) == |xs|;
    assert ys[..|xs|] == xs;
    assert ys[|xs| + 1..] == [];
    assert xs + [] == xs;
  }

  /**
   * On a list without repeats, removing and then adding an id moves it to
   * the end: the same ids, as a multiset.
   */
  lemma ToggleTwiceKeepsIds(xs: seq<Id>, x: Id)
    requires Distinct(xs)
    ensures multiset(Toggle(Toggle(xs, x).0, x).0) == multiset(xs)
  {
    if x !in xs {
      ToggleTwiceRestores(xs, x);
    } else {
      ToggleDistinct(xs, x);
    }
  }

  /** On a list without repeats the toggle keeps it without repeats, and flips membership. */
  lemma ToggleDistinct(xs: seq<Id>, x: Id)
    requires Distinct(xs)
    ensures Distinct(Toggle(xs, x).0)
    ensures x in Toggle(xs, x).0 <==> x !in xs
  {
    var k := Position(xs, x);
    if k < |xs| {
      assert Toggle(xs, x).0 == xs[..k] + xs[k + 1..];
      RemoveAtDistinct(xs, k);
    } else {
      assert Toggle(xs, x).0 == xs + [x];
    }
  }

  /** Taking one entry out of a list without repeats leaves a list without repeats and without it. */
  lemma RemoveAtDistinct(xs: seq<Id>, k: nat)
    requires Distinct(xs) && k < |xs|
    ensures Distinct(xs[..k] + xs[k + 1..]) && xs[k] !in xs[..k] + xs[k + 1..]
  {
    var ys := xs[..k] + xs[k + 1..];
    forall i, j | 0 <= i < j < |ys| ensures ys[i] != ys[j] {
      var i' := if i < k then i else i + 1;
      var j' := if j < k then j else j + 1;
      assert ys[i] == xs[i'] && ys[j] == xs[j'];
    }
    forall i | 0 <= i < |ys| ensures ys[i] != xs[k] {
      var i' := if i < k then i else i + 1;
      assert ys[i] == xs[i'];
    }
  }

  /** `toggleFavoriteCourse`, `toggleFavoriteSession`, `toggleFavoriteBank` */
  function ToggleFavorite(t: Table<Student>, cat: Catalog, kind: Kind, studentId: Id, itemId: Id): (o: Outcome<Action, Student>)
    ensures o.result.Failure? ==> o.table == t
    ensures !HasId(t, studentId) ==> o.result == Failure(NotFound(MsgStudentNotFound))
    ensures HasId(t, studentId) && !Listed(cat, kind, itemId) ==> o.result == Failure(NotFound(MissingItem(kind)))
    ensures o.result.Success? <==> HasId(t, studentId) && Listed(cat, kind, itemId)
    ensures o.result.Success? ==>
              var s := Find(t, studentId).value;
              o.result.value == Toggle(Favs(s, kind), itemId).1 &&
              o.table == Put(t, studentId, WithFavs(s, kind, Toggle(Favs(s, kind), itemId).0))
  {
    match Find(t, studentId)
    case None => Outcome(Failure(NotFound(MsgStudentNotFound)), t)
    case Some(s) =>
      if !Listed(cat, kind, itemId) then Outcome(Failure(NotFound(MissingItem(kind))), t)
      else
        var (xs, action) := Toggle(Favs(s, kind), itemId);
        Outcome(Success(action), Put(t, studentId, WithFavs(s, kind, xs)))
  }

  /** The one id that was given, when exactly one was. */
  function Chosen(courseId: Id, sessionId: Id, bankId: Id): (r: Option<(Kind, Id)>)
    ensures r.Some? <==> (if courseId != "" then 1 else 0) + (if sessionId != "" then 1 else 0) + (if bankId != "" then 1 else 0) == 1
    ensures r.Some? ==> r.value.1 != "" && r.value.1 == match r.value.0 case CourseKind => courseId case SessionKind => sessionId case BankKind => bankId
  {
    if courseId != "" && sessionId == "" && bankId == "" then Some((CourseKind, courseId))
    else if courseId == "" && sessionId != "" && bankId == "" then Some((SessionKind, sessionId))
    else if courseId == "" && sessionId == "" && bankId != "" then Some((BankKind, bankId))
    else None
  }

  /** `checkFavoriteItem` */
  function CheckFavorite(t: Table<Student>, cat: Catalog, studentId: Id, courseId: Id, sessionId: Id, bankId: Id): (r: Result<bool>)
    ensures Chosen(courseId, sessionId, bankId).None? ==> r == Failure(BadRequest(MsgOneId))
    ensures Chosen(courseId, sessionId, bankId).Some? && !HasId(t, studentId) ==> r == Failure(NotFound(MsgStudentNotFound))
    ensures r.Success? <==>
              Chosen(courseId, sessionId, bankId).Some? && HasId(t, studentId) &&
              var (kind, id) := Chosen(courseId, sessionId, bankId).value; Listed(cat, kind, id)
    ensures r.Success? ==>
              var (kind, id) := Chosen(courseId, sessionId, bankId).value;
              r.value == (id in Favs(Find(t, studentId).value, kind))
  {
    match Chosen(courseId, sessionId, bankId)
    case None => Failure(BadRequest(MsgOneId))
    case Some((kind, id)) =>
      match Find(t, studentId)
      case None => Failure(NotFound(MsgStudentNotFound))
      case Some(s) =>
        if !Listed(cat, kind, id) then Failure(NotFound(MissingItem(kind)))
        else Success(id in Favs(s, kind))
  }

  function Only(kind: Kind, id: Id): (Id, Id, Id)
  {
    match kind
    case CourseKind => (id, "", "")
    case SessionKind => ("", id, "")
    case BankKind => ("", "", id)
  }

  /**
   * After a toggle the favourite check reports the new state: "added" makes
   * the item a favourite; on a list without repeats "removed" makes it no
   * longer one.
   */
  lemma ToggleThenCheck(t: Table<Student>, cat: Catalog, kind: Kind, studentId: Id, itemId: Id)
    requires UniqueIds(t) && itemId != ""
    requires ToggleFavorite(t, cat, kind, studentId, itemId).result.Success?
    requires Distinct(Favs(Find(t, studentId).value, kind))
    ensures var o := ToggleFavorite(t, cat, kind, studentId, itemId);
            var (c, s, b) := Only(kind, itemId);
            CheckFavorite(o.table, cat, studentId, c, s, b) == Success(o.result.value == Added)
  {
    var st := Find(t, studentId).value;
    var v := WithFavs(st, kind, Toggle(Favs(st, kind), itemId).0);
    FindAfterPut(t, studentId, v, studentId);
    PutKeepsIds(t, studentId, v);
    ToggleDistinct(Favs(st, kind), itemId);
  }

  /** `addBankAndContentForStudent` */
  function AddBankAndContent(t: Table<Student>, banks: Table<Bank>, contents: Table<Content>, id: Id, bankId: Id, contentId: Id): (o: Outcome<(), Student>)
    ensures o.result.Failure? ==> o.table == t
    ensures !HasId(t, id) ==> o.result == Failure(NotFound(MsgStudentNotFound))
    ensures HasId(t, id) && !HasId(banks, bankId) ==> o.result == Failure(NotFound(MsgBankNotFound))
    ensures HasId(t, id) && HasId(banks, bankId) && !HasId(contents, contentId) ==> o.result == Failure(NotFound(MsgContentNotFound))
    ensures HasId(t, id) && HasId(banks, bankId) && HasId(contents, contentId) && Find(contents, contentId).value.bank != bankId ==>
              o.result == Failure(BadRequest(MsgContentNotInBank))
    ensures o.result.Success? <==>
              HasId(t, id) && HasId(banks, bankId) && HasId(contents, contentId) && Find(contents, contentId).value.bank == bankId
    ensures o.result.Success? ==>
              var s := Find(t, id).value;
              o.table == Put(t, id, s.(banks := AddToSet(s.banks, bankId), contents := AddToSet(s.contents, contentId)))
  {
    match Find(t, id)
    case None => Outcome(Failure(NotFound(MsgStudentNotFound)), t)
    case Some(s) =>
      if !HasId(banks, bankId) then Outcome(Failure(NotFound(MsgBankNotFound)), t)
      else match Find(contents, contentId)
        case None => Outcome(Failure(NotFound(MsgContentNotFound)), t)
        case Some(c) =>
          if c.bank != bankId then Outcome(Failure(BadRequest(MsgContentNotInBank)), t)
          else Outcome(Success(()), Put(t, id, s.(banks := AddToSet(s.banks, bankId), contents := AddToSet(s.contents, contentId))))
  }

  /** Repeating the call changes nothing more: `$addToSet` is idempotent. */
  lemma AddBankAndContentIdempotent(t: Table<Student>, banks: Table<Bank>, contents: Table<Content>, id: Id, bankId: Id, contentId: Id)
    requires UniqueIds(t)
    requires AddBankAndContent(t, banks, contents, id, bankId, contentId).result.Success?
    ensures var t1 := AddBankAndContent(t, banks, contents, id, bankId, contentId).table;
            AddBankAndContent(t1, banks, contents, id, bankId, contentId) == Outcome(Success(()), t1)
  {
    var s := Find(t, id).value;
    var v := s.(banks := AddToSet(s.banks, bankId), contents := AddToSet(s.contents, contentId));
    var t1 := Put(t, id, v);
    FindAfterPut(t, id, v, id);
    PutKeepsIds(t, id, v);
    AddToSetIdempotent(s.banks, bankId);
    AddToSetIdempotent(s.contents, contentId);
    PutSame(t1, id, v);
  }

  /** The answer of the sign-up form's existence check: only the fields that were asked about. */
  datatype Existence = Existence(phoneNumberExists: Option<bool>, emailExists: Option<bool>, universityNumberExists: Option<bool>)

  function WithUniversityNumber(n: int): Student -> bool
  {
    (s: Student) => s.universityNumber == n && s.cred.available
  }

  function Probe(asked: bool, found: bool): (r: Option<bool>)
  {
    if asked then Some(found) else None
  }

  /**
   * `checkStudentExistence`: empty strings and 0 count as not given. The
   * phone is checked before the e-mail.
   */
  function CheckExistence(t: Table<Student>, phone: string, email: string, universityNumber: int): (r: Result<Existence>)
    ensures phone == "" && email == "" && universityNumber == 0 ==> r == Failure(BadRequest(MsgNothingToCheck))
    ensures (phone != "" || email != "" || universityNumber != 0) && phone != "" && !IsPhone(phone) ==>
              r == Failure(BadRequest(MsgBadPhone))
    ensures (phone == "" || IsPhone(phone)) && email != "" && !EmailShape(email) ==> r == Failure(BadRequest(MsgBadEmail))
    ensures r.Success? <==>
              (phone != "" || email != "" || universityNumber != 0) &&
              (phone != "" ==> IsPhone(phone)) && (email != "" ==> EmailShape(email))
    ensures r.Success? ==>
              (r.value.phoneNumberExists.Some? <==> phone != "") &&
              (r.value.emailExists.Some? <==> email != "") &&
              (r.value.universityNumberExists.Some? <==> universityNumber != 0)
    ensures r.Success? && phone != "" ==> r.value.phoneNumberExists.value == Any(t, WithPhone(phone, true))
    ensures r.Success? && email != "" ==> r.value.emailExists.value == Any(t, WithEmail(email, true))
    ensures r.Success? && universityNumber != 0 ==>
              r.value.universityNumberExists.value == Any(t, WithUniversityNumber(universityNumber))
  {
    if phone == "" && email == "" && universityNumber == 0 then Failure(BadRequest(MsgNothingToCheck))
    else if phone != "" && !IsPhone(phone) then Failure(BadRequest(MsgBadPhone))
    else if email != "" && !IsEmail(email) then Failure(BadRequest(MsgBadEmail))
    else
      Success(Existence(
        Probe(phone != "", Any(t, WithPhone(phone, true))),
        Probe(email != "", Any(t, WithEmail(email, true))),
        Probe(universityNumber != 0, Any(t, WithUniversityNumber(universityNumber)))))
  }

  method ToggleFavoriteItem(db: Db, kind: Kind, studentId: Id, itemId: Id) returns (r: Result<Action>)
    modifies db`students
    ensures Outcome(r, db.students) ==
            ToggleFavorite(old(db.students), Catalog(db.courses, db.sessions, db.banks), kind, studentId, itemId)
  {
    var o := ToggleFavorite(db.students, Catalog(db.courses, db.sessions, db.banks), kind, studentId, itemId);
    db.students := o.table;
    r := o.result;
  }

  method AddBankAndContentForStudent(db: Db, id: Id, bankId: Id, contentId: Id) returns (r: Result<()>)
    modifies db`students
    ensures Outcome(r, db.students) == AddBankAndContent(old(db.students), db.banks, db.contents, id, bankId, contentId)
  {
    var o := AddBankAndContent(db.students, db.banks, db.contents, id, bankId, contentId);
    db.students := o.table;
    r := o.result;
  }
}

=== FILE: group_banks.dfy ===
/**
 * The group-bank service of a bank's content: create and update checks,
 * the shuffled listing by content (with every question, uncut), and the
 * deletions, which run no hook.
 */
module GroupBanks {
  import opened Wrappers
  import opened Tables
  import opened Records
  import opened Store
  import opened Accounts
  import opened Shuffle
  import opened Contents
  import Groups

  const MsgBadContentId := "invalid content id"
  const MsgContentNotFound := "content not found"
  const MsgBadGroupId := "invalid group id"
  const MsgGroupNotFound := "group not found"
  const MsgNoGroups := "there are no groups for this exam"

  function OfGroupBank(id: Id): QuestionBank -> bool
  {
    (q: QuestionBank) => q.groupBankId == id
  }

  /** The `questions` virtual of a group bank. */
  function QuestionsOf(questionBanks: Table<QuestionBank>, id: Id): (r: Table<QuestionBank>)
    ensures forall row :: row in r <==> row in questionBanks && row.val.groupBankId == id
  {
    Where(questionBanks, OfGroupBank(id))
  }

  /** The create body after joi: `contentId` and `totalMark` required, `mainTitle` optional. */
  datatype GroupBankForm = GroupBankForm(contentId: Id, mainTitle: Title, totalMark: int)

  /** `createGroupBank`: the content id must be an ObjectId naming a content. */
  function Create(groupBanks: Table<GroupBank>, contents: Table<Content>, valid: bool, f: GroupBankForm, newId: Id): (o: Outcome<(), GroupBank>)
    ensures o.result.Failure? ==> o.table == groupBanks
    ensures !valid ==> o.result == Failure(BadRequest(MsgInvalid))
    ensures valid && !IsValidObjectId(f.contentId) ==> o.result == Failure(BadRequest(MsgBadContentId))
    ensures valid && IsValidObjectId(f.contentId) && !HasId(contents, f.contentId) ==> o.result == Failure(NotFound(MsgContentNotFound))
    ensures o.result.Success? <==> valid && IsValidObjectId(f.contentId) && HasId(contents, f.contentId)
    ensures o.result.Success? ==>
              o.table == groupBanks + [Row(newId, GroupBank(f.contentId, Groups.TrimTitle(f.mainTitle), f.totalMark))]
  {
    if !valid then Outcome(Failure(BadRequest(MsgInvalid)), groupBanks)
    else if !IsValidObjectId(f.contentId) then Outcome(Failure(BadRequest(MsgBadContentId)), groupBanks)
    else if Find(contents, f.contentId).None? then Outcome(Failure(NotFound(MsgContentNotFound)), groupBanks)
    else Outcome(Success(()), groupBanks + [Row(newId, GroupBank(f.contentId, Groups.TrimTitle(f.mainTitle), f.totalMark))])
  }

  /** A created group bank shows in its content's `groupsCount`, and in no other. */
  lemma CreateCounts(groupBanks: Table<GroupBank>, contents: Table<Content>, valid: bool, f: GroupBankForm, newId: Id, c: Id)
    ensures var o := Create(groupBanks, contents, valid, f, newId);
            GroupsCount(o.table, c) ==
            GroupsCount(groupBanks, c) + (if o.result.Success? && f.contentId == c then 1 else 0)
  {
    var o := Create(groupBanks, contents, valid, f, newId);
    if o.result.Success? {
      GroupsCountAfterAdd(groupBanks, o.table[|groupBanks|], c);
      assert o.table == groupBanks + [o.table[|groupBanks|]];
    }
  }

  /** Every group bank names an existing content. */
  predicate Anchored(groupBanks: Table<GroupBank>, contents: Table<Content>)
  {
    forall row | row in groupBanks :: HasId(contents, row.val.contentId)
  }

  /** A group bank together with its populated questions. */
  datatype BankGroupView = BankGroupView(id: Id, group: GroupBank, questions: seq<Row<QuestionBank>>)

  /** `getGroupBankById` */
  function GetGroupBank(groupBanks: Table<GroupBank>, questionBanks: Table<QuestionBank>, id: Id): (r: Result<BankGroupView>)
    ensures !IsValidObjectId(id) ==> r == Failure(BadRequest(MsgBadGroupId))
    ensures IsValidObjectId(id) && !HasId(groupBanks, id) ==> r == Failure(NotFound(MsgGroupNotFound))
    ensures r.Success? <==> IsValidObjectId(id) && HasId(groupBanks, id)
    ensures r.Success? ==> r.value.id == id && Row(id, r.value.group) in groupBanks &&
                           forall row :: row in r.value.questions <==> row in questionBanks && row.val.groupBankId == id
  {
    if !IsValidObjectId(id) then Failure(BadRequest(MsgBadGroupId))
    else match Find(groupBanks, id)
      case None => Failure(NotFound(MsgGroupNotFound))
      case Some(g) => Success(BankGroupView(id, g, QuestionsOf(questionBanks, id)))
  }

  function BankRows(vs: seq<BankGroupView>): (r: seq<Row<GroupBank>>)
    ensures |r| == |vs| && forall k | 0 <= k < |vs| :: r[k] == Row(vs[k].id, vs[k].group)
  {
    seq(|vs|, k requires 0 <= k < |vs| => Row(vs[k].id, vs[k].group))
  }

  /**
   * `getGroupsBankByContentId`: an invalid id is refused, a content with
   * no groups is not found; otherwise its groups in shuffled order, each
   * carrying all of its questions.
   */
  method GetGroupsBankByContentId(db: Db, contentId: Id, draw: nat -> nat) returns (r: Result<seq<BankGroupView>>)
    ensures !IsValidObjectId(contentId) ==> r == Failure(BadRequest(MsgBadContentId))
    ensures IsValidObjectId(contentId) && GroupsCount(db.groupBanks, contentId) == 0 ==> r == Failure(NotFound(MsgNoGroups))
    ensures r.Success? <==> IsValidObjectId(contentId) && GroupsCount(db.groupBanks, contentId) > 0
    ensures r.Success? ==> multiset(BankRows(r.value)) == multiset(Where(db.groupBanks, OfContent(contentId)))
    ensures r.Success? ==>
              forall k | 0 <= k < |r.value| :: forall row ::
                row in r.value[k].questions <==> row in db.questionBanks && row.val.groupBankId == r.value[k].id
  {
    if !IsValidObjectId(contentId) {
      return Failure(BadRequest(MsgBadContentId));
    }
    var all := Where(db.groupBanks, OfContent(contentId));
    if |all| == 0 {
      return Failure(NotFound(MsgNoGroups));
    }
    var shuffled := Shuffled(all, draw);
    var qs := db.questionBanks;
    var views := seq(|shuffled|, k requires 0 <= k < |shuffled| =>
                       BankGroupView(shuffled[k].id, shuffled[k].val, QuestionsOf(qs, shuffled[k].id)));
    assert BankRows(views) == shuffled;
    r := Success(views);
  }

  /** The update body: every field optional. */
  datatype GroupBankPatch = GroupBankPatch(contentId: Option<Id>, mainTitle: Option<Title>, totalMark: Option<int>)

  function Patched(g: GroupBank, p: GroupBankPatch): (r: GroupBank)
    ensures r.contentId == (if p.contentId.Some? then p.contentId.value else g.contentId)
    ensures r.totalMark == (if p.totalMark.Some? then p.totalMark.value else g.totalMark)
  {
    g.(contentId := if p.contentId.Some? then p.contentId.value else g.contentId,
       mainTitle := if p.mainTitle.Some? then Groups.TrimTitle(p.mainTitle.value) else g.mainTitle,
       totalMark := if p.totalMark.Some? then p.totalMark.value else g.totalMark)
  }

  /** `updateGroupBank`: a new content id must be an ObjectId naming a content; the group must exist. */
  function Update(groupBanks: Table<GroupBank>, contents: Table<Content>, valid: bool, id: Id, p: GroupBankPatch): (o: Outcome<(), GroupBank>)
    ensures o.result.Failure? ==> o.table == groupBanks
    ensures !valid ==> o.result == Failure(BadRequest(MsgInvalid))
    ensures valid && !IsValidObjectId(id) ==> o.result == Failure(BadRequest(MsgBadGroupId))
    ensures (valid && IsValidObjectId(id) && p.contentId.Some? && IsValidObjectId(p.contentId.value) &&
             !HasId(contents, p.contentId.value)) ==> o.result == Failure(NotFound(MsgContentNotFound))
    ensures o.result.Success? <==>
              valid && IsValidObjectId(id) &&
              (p.contentId.Some? ==> IsValidObjectId(p.contentId.value) && HasId(contents, p.contentId.value)) &&
              HasId(groupBanks, id)
    ensures o.result.Success? ==> o.table == Put(groupBanks, id, Patched(Find(groupBanks, id).value, p))
  {
    if !valid then Outcome(Failure(BadRequest(MsgInvalid)), groupBanks)
    else if !IsValidObjectId(id) then Outcome(Failure(BadRequest(MsgBadGroupId)), groupBanks)
    else if p.contentId.Some? && !IsValidObjectId(p.contentId.value) then Outcome(Failure(BadRequest(MsgBadContentId)), groupBanks)
    else if p.contentId.Some? && Find(contents, p.contentId.value).None? then Outcome(Failure(NotFound(MsgContentNotFound)), groupBanks)
    else match Find(groupBanks, id)
      case None => Outcome(Failure(NotFound(MsgGroupNotFound)), groupBanks)
      case Some(g) => Outcome(Success(()), Put(groupBanks, id, Patched(g, p)))
  }

  /** Creation and update keep every group bank attached to an existing content. */
  lemma ChangesKeepAnchored(groupBanks: Table<GroupBank>, contents: Table<Content>, valid: bool,
                            f: GroupBankForm, newId: Id, id: Id, p: GroupBankPatch)
    requires Anchored(groupBanks, contents)
    ensures Anchored(Create(groupBanks, contents, valid, f, newId).table, contents)
    ensures Anchored(Update(groupBanks, contents, valid, id, p).table, contents)
  {
    var o := Update(groupBanks, contents, valid, id, p);
    if o.result.Success? {
      var g := Find(groupBanks, id).value;
      PutMembers(groupBanks, id, Patched(g, p));
      assert Row(id, g) in groupBanks;
    }
  }

  /** `deleteGroupBank`: `findByIdAndDelete` with no hook, so the group's question banks stay. */
  function Remove(groupBanks: Table<GroupBank>, id: Id): (o: Outcome<(), GroupBank>)
    ensures !IsValidObjectId(id) ==> o == Outcome(Failure(BadRequest(MsgBadGroupId)), groupBanks)
    ensures IsValidObjectId(id) && !HasId(groupBanks, id) ==> o == Outcome(Failure(NotFound(MsgGroupNotFound)), groupBanks)
    ensures o.result.Success? <==> IsValidObjectId(id) && HasId(groupBanks, id)
    ensures forall x :: HasId(o.table, x) <==> HasId(groupBanks, x) && (x != id || !IsValidObjectId(id))
  {
    DeleteIds(groupBanks, id);
    if !IsValidObjectId(id) then Outcome(Failure(BadRequest(MsgBadGroupId)), groupBanks)
    else if Find(groupBanks, id).None? then
      DeleteAbsent(groupBanks, id);
      Outcome(Failure(NotFound(MsgGroupNotFound)), groupBanks)
    else Outcome(Success(()), Delete(groupBanks, id))
  }

  /** `deleteGroupsBankByContentId`: `deleteMany({ contentId })` and the number removed. */
  function RemoveByContent(groupBanks: Table<GroupBank>, contentId: Id): (o: Outcome<nat, GroupBank>)
    ensures !IsValidObjectId(contentId) ==> o == Outcome(Failure(BadRequest(MsgBadContentId)), groupBanks)
    ensures IsValidObjectId(contentId) ==>
              o.result == Success(GroupsCount(groupBanks, contentId)) &&
              o.result.value + |o.table| == |groupBanks| && GroupsCount(o.table, contentId) == 0 &&
              forall row | row in groupBanks && row.val.contentId != contentId :: row in o.table
  {
    if !IsValidObjectId(contentId) then Outcome(Failure(BadRequest(MsgBadContentId)), groupBanks)
    else
      WhereWithoutSplit(groupBanks, OfContent(contentId));
      Outcome(Success(GroupsCount(groupBanks, contentId)), Without(groupBanks, OfContent(contentId)))
  }

  method CreateGroupBank(db: Db, valid: bool, f: GroupBankForm, newId: Id) returns (r: Result<()>)
    modifies db`groupBanks
    ensures Outcome(r, db.groupBanks) == Create(old(db.groupBanks), db.contents, valid, f, newId)
  {
    var o := Create(db.groupBanks, db.contents, valid, f, newId);
    db.groupBanks := o.table;
    r := o.result;
  }

  method UpdateGroupBank(db: Db, valid: bool, id: Id, p: GroupBankPatch) returns (r: Result<()>)
    modifies db`groupBanks
    ensures Outcome(r, db.groupBanks) == Update(old(db.groupBanks), db.contents, valid, id, p)
  {
    var o := Update(db.groupBanks, db.contents, valid, id, p);
    db.groupBanks := o.table;
    r := o.result;
  }

  method DeleteGroupBank(db: Db, id: Id) returns (r: Result<()>)
    modifies db`groupBanks
    ensures Outcome(r, db.groupBanks) == Remove(old(db.groupBanks), id)
  {
    var o := Remove(db.groupBanks, id);
    db.groupBanks := o.table;
    r := o.result;
  }

  method DeleteGroupsBankByContentId(db: Db, contentId: Id) returns (r: Result<nat>)
    modifies db`groupBanks
    ensures Outcome(r, db.groupBanks) == RemoveByContent(old(db.groupBanks), contentId)
  {
    var o := RemoveByContent(db.groupBanks, contentId);
    db.groupBanks := o.table;
    r := o.result;
  }
}

=== FILE: groups.dfy ===
/**
 * Exam groups: the group model (its `questions` virtual and the
 * `findOneAndDelete` hook that deletes a group's questions first) and the
 * group service, whose listing shuffles the groups and each group's
 * questions.
 */
module Groups {
  import opened Wrappers
  import opened Text
  import opened Tables
  import opened Records
  import opened Store
  import opened Accounts
  import opened Shuffle
  import Exams

  const MsgBadExamId := "invalid exam id"
  const MsgExamNotFound := "exam not found"
  const MsgBadGroupId := "invalid group id"
  const MsgGroupNotFound := "group not found"

  function InGroup(id: Id): Question -> bool
  {
    (q: Question) => q.groupId == id
  }

  /** The `questions` virtual: the questions whose `groupId` is the group's `_id`, in natural order. */
  function QuestionsOf(questions: Table<Question>, id: Id): (r: Table<Question>)
    ensures forall row :: row in r <==> row in questions && row.val.groupId == id
  {
    Where(questions, InGroup(id))
  }

  /** The create body after joi: `examId` and `totalMark` are required, `mainTitle` is optional. */
  datatype GroupForm = GroupForm(examId: Id, mainTitle: Title, totalMark: int)

  /** The `trim` setter on `mainTitle`. */
  function TrimTitle(t: Title): (r: Title)
    ensures r.Unset? <==> t.Unset?
    ensures r.NullTitle? <==> t.NullTitle?
  {
    match t
    case Text(s) => Text(Trim(s))
    case _ => t
  }

  /** `createGroup`: the exam id must be an ObjectId naming an exam. */
  function Create(groups: Table<Group>, exams: Table<Exam>, valid: bool, f: GroupForm, newId: Id): (o: Outcome<(), Group>)
    ensures o.result.Failure? ==> o.table == groups
    ensures !valid ==> o.result == Failure(BadRequest(MsgInvalid))
    ensures valid && !IsValidObjectId(f.examId) ==> o.result == Failure(BadRequest(MsgBadExamId))
    ensures valid && IsValidObjectId(f.examId) && !HasId(exams, f.examId) ==> o.result == Failure(NotFound(MsgExamNotFound))
    ensures o.result.Success? <==> valid && IsValidObjectId(f.examId) && HasId(exams, f.examId)
    ensures o.result.Success? ==> o.table == groups + [Row(newId, Group(f.examId, TrimTitle(f.mainTitle), f.totalMark))]
  {
    if !valid then Outcome(Failure(BadRequest(MsgInvalid)), groups)
    else if !IsValidObjectId(f.examId) then Outcome(Failure(BadRequest(MsgBadExamId)), groups)
    else if Find(exams, f.examId).None? then Outcome(Failure(NotFound(MsgExamNotFound)), groups)
    else Outcome(Success(()), groups + [Row(newId, Group(f.examId, TrimTitle(f.mainTitle), f.totalMark))])
  }

  /** Every group names an existing exam. */
  predicate Anchored(groups: Table<Group>, exams: Table<Exam>)
  {
    forall row | row in groups :: HasId(exams, row.val.examId)
  }

  lemma CreateKeepsAnchored(groups: Table<Group>, exams: Table<Exam>, valid: bool, f: GroupForm, newId: Id)
    requires Anchored(groups, exams)
    ensures Anchored(Create(groups, exams, valid, f, newId).table, exams)
  {
  }

  /** A group together with the documents its `questions` virtual populates. */
  datatype GroupView = GroupView(id: Id, group: Group, questions: seq<Row<Question>>)

  /** `getGroupById`: an invalid id is refused, an unknown one is not found. */
  function GetGroup(groups: Table<Group>, questions: Table<Question>, id: Id): (r: Result<GroupView>)
    ensures !IsValidObjectId(id) ==> r == Failure(BadRequest(MsgBadGroupId))
    ensures IsValidObjectId(id) && !HasId(groups, id) ==> r == Failure(NotFound(MsgGroupNotFound))
    ensures r.Success? <==> IsValidObjectId(id) && HasId(groups, id)
    ensures r.Success? ==> r.value.id == id && r.value.group == Find(groups, id).value &&
                           forall row :: row in r.value.questions <==> row in questions && row.val.groupId == id
  {
    if !IsValidObjectId(id) then Failure(BadRequest(MsgBadGroupId))
    else match Find(groups, id)
      case None => Failure(NotFound(MsgGroupNotFound))
      case Some(g) => Success(GroupView(id, g, QuestionsOf(questions, id)))
  }

  function Min(a: nat, b: nat): nat { if a <= b then a else b }

  function GroupRows(vs: seq<GroupView>): (r: seq<Row<Group>>)
    ensures |r| == |vs| && forall k | 0 <= k < |vs| :: r[k] == Row(vs[k].id, vs[k].group)
  {
    seq(|vs|, k requires 0 <= k < |vs| => Row(vs[k].id, vs[k].group))
  }

  /**
   * One group's questions as `getGroupsByExamId` returns them: shuffled,
   * then cut to `limit` when `limit` is not zero.
   */
  method Deal(own: seq<Row<Question>>, limit: nat, draw: nat -> nat) returns (taken: seq<Row<Question>>)
    ensures multiset(taken) <= multiset(own)
    ensures |taken| == if limit > 0 then Min(|own|, limit) else |own|
  {
    var mixed := Shuffled(own, draw);
    taken := if limit > 0 then mixed[..Min(limit, |mixed|)] else mixed;
    assert mixed == taken + mixed[|taken|..];
  }

  /**
   * `getGroupsByExamId`: the exam's groups in shuffled order, each with
   * a shuffled selection of its own questions cut to as many as there
   * are groups. `draws(c)` is the random source of the c-th shuffle.
   */
  method GetGroupsByExamId(db: Db, examId: Id, draws: nat -> nat -> nat) returns (r: Result<seq<GroupView>>)
    ensures !IsValidObjectId(examId) ==> r == Failure(BadRequest(MsgBadExamId))
    ensures IsValidObjectId(examId) ==> r.Success?
    ensures r.Success? ==> multiset(GroupRows(r.value)) == multiset(Where(db.groups, Exams.OfExam(examId)))
    ensures r.Success? ==>
              forall k | 0 <= k < |r.value| ::
                multiset(r.value[k].questions) <= multiset(QuestionsOf(db.questions, r.value[k].id)) &&
                |r.value[k].questions| == Min(|QuestionsOf(db.questions, r.value[k].id)|, |r.value|)
  {
    if !IsValidObjectId(examId) {
      return Failure(BadRequest(MsgBadExamId));
    }
    var all := Where(db.groups, Exams.OfExam(examId));
    var limit := |all|;
    var shuffled := Shuffled(all, draws(0));
    var out: seq<GroupView> := [];
    var i := 0;
    while i < |shuffled|
      invariant 0 <= i <= |shuffled| && |out| == i
      invariant GroupRows(out) == shuffled[..i]
      invariant forall k | 0 <= k < i ::
                  multiset(out[k].questions) <= multiset(QuestionsOf(db.questions, out[k].id)) &&
                  |out[k].questions| == Min(|QuestionsOf(db.questions, out[k].id)|, limit)
    {
      var taken := Deal(QuestionsOf(db.questions, shuffled[i].id), limit, draws(i + 1));
      out := out + [GroupView(shuffled[i].id, shuffled[i].val, taken)];
      i := i + 1;
    }
    assert shuffled[..i] == shuffled;
    r := Success(out);
  }

  /** The update body: every field optional. */
  datatype GroupPatch = GroupPatch(examId: Option<Id>, mainTitle: Option<Title>, totalMark: Option<int>)

  function Patched(g: Group, p: GroupPatch): (r: Group)
    ensures p.examId.Some? ==> r.examId == p.examId.value
    ensures p.examId.None? ==> r.examId == g.examId
    ensures p.totalMark.Some? ==> r.totalMark == p.totalMark.value
    ensures p.totalMark.None? ==> r.totalMark == g.totalMark
  {
    g.(examId := if p.examId.Some? then p.examId.value else g.examId,
       mainTitle := if p.mainTitle.Some? then TrimTitle(p.mainTitle.value) else g.mainTitle,
       totalMark := if p.totalMark.Some? then p.totalMark.value else g.totalMark)
  }

  /**
   * `updateGroup`: the group id must be an ObjectId; a new exam id must be
   * an ObjectId naming an exam; the group must exist.
   */
  function Update(groups: Table<Group>, exams: Table<Exam>, valid: bool, id: Id, p: GroupPatch): (o: Outcome<(), Group>)
    ensures o.result.Failure? ==> o.table == groups
    ensures !valid ==> o.result == Failure(BadRequest(MsgInvalid))
    ensures valid && !IsValidObjectId(id) ==> o.result == Failure(BadRequest(MsgBadGroupId))
    ensures (valid && IsValidObjectId(id) && p.examId.Some? && IsValidObjectId(p.examId.value) &&
             !HasId(exams, p.examId.value)) ==> o.result == Failure(NotFound(MsgExamNotFound))
    ensures o.result.Success? <==>
              valid && IsValidObjectId(id) && (p.examId.Some? ==> IsValidObjectId(p.examId.value) && HasId(exams, p.examId.value)) &&
              HasId(groups, id)
    ensures o.result.Success? ==> o.table == Put(groups, id, Patched(Find(groups, id).value, p))
  {
    if !valid then Outcome(Failure(BadRequest(MsgInvalid)), groups)
    else if !IsValidObjectId(id) then Outcome(Failure(BadRequest(MsgBadGroupId)), groups)
    else if p.examId.Some? && !IsValidObjectId(p.examId.value) then Outcome(Failure(BadRequest(MsgBadExamId)), groups)
    else if p.examId.Some? && Find(exams, p.examId.value).None? then Outcome(Failure(NotFound(MsgExamNotFound)), groups)
    else match Find(groups, id)
      case None => Outcome(Failure(NotFound(MsgGroupNotFound)), groups)
      case Some(g) => Outcome(Success(()), Put(groups, id, Patched(g, p)))
  }

  /** Updates keep every group attached to an existing exam. */
  lemma UpdateKeepsAnchored(groups: Table<Group>, exams: Table<Exam>, valid: bool, id: Id, p: GroupPatch)
    requires Anchored(groups, exams)
    ensures Anchored(Update(groups, exams, valid, id, p).table, exams)
  {
    var o := Update(groups, exams, valid, id, p);
    if o.result.Success? {
      var g := Find(groups, id).value;
      PutMembers(groups, id, Patched(g, p));
      assert Row(id, g) in groups;
    }
  }

  /** What `Group.findOneAndDelete` (and so `findByIdAndDelete`) leaves behind. */
  datatype GroupDeletion = GroupDeletion(found: Option<Group>, groups: Table<Group>, questions: Table<Question>)

  /**
   * The pre hook: when the filter matches a group, `Question.deleteMany({
   * groupId })` runs first; then the group is deleted. No match, no
   * deletion of questions.
   */
  function DeleteGroupCascade(groups: Table<Group>, questions: Table<Question>, id: Id): (d: GroupDeletion)
    ensures d.found == Find(groups, id)
    ensures d.found.None? ==> d.groups == groups && d.questions == questions
    ensures d.found.Some? ==> d.questions == Without(questions, InGroup(id))
    ensures forall x :: HasId(d.groups, x) <==> x != id && HasId(groups, x)
  {
    DeleteIds(groups, id);
    match Find(groups, id)
    case None =>
      DeleteAbsent(groups, id);
      GroupDeletion(None, groups, questions)
    case Some(g) => GroupDeletion(Some(g), Delete(groups, id), Without(questions, InGroup(id)))
  }

  /**
   * Deleting a group leaves no question pointing at it and keeps every
   * other question: exactly its `questions` virtual is gone.
   */
  lemma DeleteGroupRemovesItsQuestions(groups: Table<Group>, questions: Table<Question>, id: Id)
    requires HasId(groups, id)
    ensures var d := DeleteGroupCascade(groups, questions, id);
            QuestionsOf(d.questions, id) == [] &&
            (forall row | row in questions && row.val.groupId != id :: row in d.questions) &&
            |d.questions| + |QuestionsOf(questions, id)| == |questions|
  {
    var d := DeleteGroupCascade(groups, questions, id);
    WhereWithoutSplit(questions, InGroup(id));
    WhereAfterWithout(questions, InGroup(id));
  }

  /** `deleteGroup`: an invalid id is refused; an unknown one is not found; otherwise the cascade runs. */
  function Remove(groups: Table<Group>, questions: Table<Question>, id: Id): (o: (Result<()>, GroupDeletion))
    ensures !IsValidObjectId(id) ==> o.0 == Failure(BadRequest(MsgBadGroupId)) && o.1 == GroupDeletion(None, groups, questions)
    ensures IsValidObjectId(id) ==> o.1 == DeleteGroupCascade(groups, questions, id)
    ensures o.0.Success? <==> IsValidObjectId(id) && HasId(groups, id)
    ensures IsValidObjectId(id) && !HasId(groups, id) ==> o.0 == Failure(NotFound(MsgGroupNotFound))
  {
    if !IsValidObjectId(id) then (Failure(BadRequest(MsgBadGroupId)), GroupDeletion(None, groups, questions))
    else
      var d := DeleteGroupCascade(groups, questions, id);
      if d.found.None? then (Failure(NotFound(MsgGroupNotFound)), d) else (Success(()), d)
  }

  /**
   * `deleteGroupsByExamId`: `Group.deleteMany({ examId })`, which runs no
   * hook; the count reported is the number of groups removed.
   */
  function RemoveByExam(groups: Table<Group>, examId: Id): (o: Outcome<nat, Group>)
    ensures !IsValidObjectId(examId) ==> o == Outcome(Failure(BadRequest(MsgBadExamId)), groups)
    ensures IsValidObjectId(examId) ==>
              o.result == Success(|Where(groups, Exams.OfExam(examId))|) && o.table == Without(groups, Exams.OfExam(examId))
  {
    if !IsValidObjectId(examId) then Outcome(Failure(BadRequest(MsgBadExamId)), groups)
    else Outcome(Success(|Where(groups, Exams.OfExam(examId))|), Without(groups, Exams.OfExam(examId)))
  }

  /** The count is exactly how many groups disappear, and none of the exam's groups remain. */
  lemma RemoveByExamCount(groups: Table<Group>, examId: Id)
    requires IsValidObjectId(examId)
    ensures var o := RemoveByExam(groups, examId);
            |o.table| + o.result.value == |groups| && forall row | row in o.table :: row.val.examId != examId
  {
    WhereWithoutSplit(groups, Exams.OfExam(examId));
  }

  method CreateGroup(db: Db, valid: bool, f: GroupForm, newId: Id) returns (r: Result<()>)
    modifies db`groups
    ensures Outcome(r, db.groups) == Create(old(db.groups), db.exams, valid, f, newId)
  {
    var o := Create(db.groups, db.exams, valid, f, newId);
    db.groups := o.table;
    r := o.result;
  }

  method UpdateGroup(db: Db, valid: bool, id: Id, p: GroupPatch) returns (r: Result<()>)
    modifies db`groups
    ensures Outcome(r, db.groups) == Update(old(db.groups), db.exams, valid, id, p)
  {
    var o := Update(db.groups, db.exams, valid, id, p);
    db.groups := o.table;
    r := o.result;
  }

  method DeleteGroup(db: Db, id: Id) returns (r: Result<()>)
    modifies db`groups, db`questions
    ensures (r, GroupDeletion(if r.Success? then Find(old(db.groups), id) else None, db.groups, db.questions)) ==
            Remove(old(db.groups), old(db.questions), id)
  {
    var o := Remove(db.groups, db.questions, id);
    db.groups, db.questions := o.1.groups, o.1.questions;
    r := o.0;
  }

  method DeleteGroupsByExamId(db: Db, examId: Id) returns (r: Result<nat>)
    modifies db`groups
    ensures Outcome(r, db.groups) == RemoveByExam(old(db.groups), examId)
  {
    var o := RemoveByExam(db.groups, examId);
    db.groups := o.table;
    r := o.result;
  }
}

=== FILE: hls_gateway.dfy ===
/**
 * The HLS gateway: it issues a short-lived playlist URL to an entitled
 * student and then serves the AES-128 key, the rewritten media playlist and
 * the segments, re-checking the token and the student's live account state
 * on every request.
 *
 * The database tables are passed in as snapshots. The key directory and the
 * object store are maps; UTF-8 decoding of a stored object and
 * `encodeURIComponent` are function parameters.
 */
module HlsGateway {
  import opened Wrappers
  import opened Text
  import opened Tables
  import opened Records
  import opened HlsToken
  import opened JsNumber
  import opened Playlist

  const MsgStudentNotFound := "student not found"
  const MsgNotActivated := "account not activated"
  const MsgRestricted := "account restricted"
  const MsgNotEnrolled := "not enrolled in this course"
  const MsgSessionNotFound := "session not found"
  const MsgTokenNotForPath := "hlsToken invalid"
  const MsgOtherDevice := "token used from a different device"
  const MsgKeyNotFound := "encryption key not found"
  /** The S3 client rejects `GetObjectCommand` for a key the bucket does not hold. */
  const MsgNoSuchKey := "NoSuchKey"
  /** `undefined.replace(...)` when the session has no video. */
  const MsgNoVideo := "Cannot read properties of undefined (reading 'replace')"
  /** jsonwebtoken's refusal of an `expiresIn` that is not an integer number of seconds. */
  const MsgBadExpiresIn := "\"expiresIn\" should be a number of seconds or string representing a timespan"

  const ManifestName := "index.m3u8"

  /**
   * The gateway's environment: token secrets, `HLS_TOKEN_EXPIRES_IN` ("" when
   * unset) and `BASE_URL` (None when unset).
   */
  datatype Config = Config(env: Env, expiresIn: string, baseUrl: Option<string>)

  /** `${baseUrl}` in a template literal: an unset variable renders as "undefined". */
  function BaseUrlText(baseUrl: Option<string>): (r: string)
    ensures baseUrl.None? ==> r == "undefined"
    ensures baseUrl.Some? ==> r == baseUrl.value
  {
    match baseUrl
    case None => "undefined"
    case Some(b) => b
  }

  /** `enrolledCourses.some(id => id.toString() === courseId)` */
  predicate Enrolled(st: Student, courseId: Id)
  {
    courseId in st.enrolledCourses
  }

  /** `Session.findOne({ _id: sessionId, courseId })` */
  function SessionOf(sessions: Table<Session>, courseId: Id, sessionId: Id): (r: Option<Session>)
    ensures r.Some? <==> Find(sessions, sessionId).Some? && Find(sessions, sessionId).value.courseId == courseId
    ensures r.Some? ==> Row(sessionId, r.value) in sessions && r.value.courseId == courseId
  {
    match Find(sessions, sessionId)
    case None => None
    case Some(x) => if x.courseId == courseId then Some(x) else None
  }

  /**
   * `Number(process.env.HLS_TOKEN_EXPIRES_IN || 600)` when jsonwebtoken takes
   * it as a lifetime, that is when it is an integer; None stands for NaN, the
   * infinities and fractions, which `jwt.sign` refuses.
   */
  function ExpiresIn(raw: string): (r: Option<int>)
    ensures raw == "" ==> r == Some(DefaultExpiresIn)
  {
    if raw == "" then Some(DefaultExpiresIn) else IntegerValue(raw)
  }

  /** A setting of decimal digits is that many seconds. */
  lemma ExpiresInDigits(raw: string)
    requires raw != "" && AllDigits(raw)
    ensures ExpiresIn(raw) == Some(ParseDecimal(raw))
  {
    ReadsDigits(raw);
  }

  /**
   * Every spelling `Number` accepts is a lifetime: padded, in exponent or
   * hexadecimal notation, or negative (a token that is born expired); a
   * fraction is refused.
   */
  lemma ExpiresInForms(n: nat, m: nat, k: nat, h: string, d: nat)
    requires |h| > 0 && RadixValue(h, 16).Some?
    requires 0 < d < 10
    ensures ExpiresIn(" " + Decimal(n) + " ") == Some(n)
    ensures ExpiresIn(Decimal(m) + "e" + Decimal(k)) == Some(m * Pow10(k))
    ensures ExpiresIn("0x" + h) == Some(RadixValue(h, 16).value)
    ensures ExpiresIn(Decimal(n) + "." + [DigitChar(d)]) == None
    ensures ExpiresIn("-" + Decimal(n)) == Some(0 - n)
  {
    ReadsDecimal(n);
    SpacesAround(' ', Decimal(n), ' ');
    SpacesAround(' ', " " + Decimal(n), ' ');
    ReadsExponent(m, k);
    ReadsHex(h);
    FractionIsNotInteger(n, d);
    ReadsNegative(n);
  }

  /** A student the issuing endpoint accepts: activated, not suspended, enrolled. */
  predicate Entitled(st: Student, courseId: Id)
  {
    st.cred.available && !st.cred.suspended && Enrolled(st, courseId)
  }

  /** A student a gated request accepts: entitled, and on the device the token was issued for. */
  predicate Admitted(st: Student, deviceId: string, courseId: Id)
  {
    Entitled(st, courseId) && st.deviceId == deviceId
  }

  /** The checks of the issuing endpoint, in their order, each failure stopping the call. */
  function IssueChecks(students: Table<Student>, sessions: Table<Session>, studentId: Id, courseId: Id, sessionId: Id): (r: Result<Student>)
    ensures r.Success? <==> Find(students, studentId).Some? && Entitled(Find(students, studentId).value, courseId)
                            && SessionOf(sessions, courseId, sessionId).Some?
    ensures r.Success? ==> Find(students, studentId) == Some(r.value)
    ensures Find(students, studentId).None? ==> r == Failure(NotFound(MsgStudentNotFound))
    ensures (Find(students, studentId).Some? && Entitled(Find(students, studentId).value, courseId)
             && SessionOf(sessions, courseId, sessionId).None?) ==> r == Failure(NotFound(MsgSessionNotFound))
    ensures Find(students, studentId).Some? && !Entitled(Find(students, studentId).value, courseId) ==> r.Failure? && r.error.BadRequest?
  {
    match Find(students, studentId)
    case None => Failure(NotFound(MsgStudentNotFound))
    case Some(st) =>
      if !st.cred.available then Failure(BadRequest(MsgNotActivated))
      else if st.cred.suspended then Failure(BadRequest(MsgRestricted))
      else if !Enrolled(st, courseId) then Failure(BadRequest(MsgNotEnrolled))
      else if SessionOf(sessions, courseId, sessionId).None? then Failure(NotFound(MsgSessionNotFound))
      else Success(st)
  }

  /**
   * The token the issuing endpoint signs for a lifetime already read from
   * the environment, and that lifetime in seconds; None is a lifetime
   * jsonwebtoken refuses.
   */
  function IssueToken(students: Table<Student>, sessions: Table<Session>, env: Env, lifetime: Option<int>, nowSec: nat,
                      studentId: Id, courseId: Id, sessionId: Id): Result<(string, int)>
  {
    match IssueChecks(students, sessions, studentId, courseId, sessionId)
    case Failure(e) => Failure(e)
    case Success(st) =>
      // jwt.sign refuses a missing secret before it validates its options
      if Secret(env) == "" then Failure(Internal(MsgSignSecretMissing))
      else match lifetime
      case None => Failure(Internal(MsgBadExpiresIn))
      case Some(e) =>
        match SignHlsToken(Claims(studentId, courseId, sessionId, st.deviceId), e, env, nowSec)
        case Failure(err) => Failure(err)
        case Success(tok) => Success((tok, e))
  }

  datatype PlaylistGrant = PlaylistGrant(playlistUrl: string, expiresIn: int)

  function PlaylistPath(courseId: Id, sessionId: Id): string
  {
    "/api/hackit/hls/playlist/" + courseId + "/" + sessionId
  }

  /** `generatePlaylistUrlForStudent(studentId, courseId, sessionId)` */
  function GeneratePlaylistUrl(students: Table<Student>, sessions: Table<Session>, cfg: Config, encode: string -> string,
                               nowSec: nat, studentId: Id, courseId: Id, sessionId: Id): (r: Result<PlaylistGrant>)
    ensures r.Success? <==> IssueToken(students, sessions, cfg.env, ExpiresIn(cfg.expiresIn), nowSec, studentId, courseId, sessionId).Success?
    ensures r.Success? ==> IssueChecks(students, sessions, studentId, courseId, sessionId).Success?
    ensures IssueChecks(students, sessions, studentId, courseId, sessionId).Failure? ==>
              r == Failure(IssueChecks(students, sessions, studentId, courseId, sessionId).error)
    ensures r.Success? ==>
              var (tok, e) := IssueToken(students, sessions, cfg.env, ExpiresIn(cfg.expiresIn), nowSec, studentId, courseId, sessionId).value;
              r.value == PlaylistGrant(BaseUrlText(cfg.baseUrl) + PlaylistPath(courseId, sessionId) + TokenQuery(encode(tok)), e)
    ensures r.Success? ==> ExpiresIn(cfg.expiresIn) == Some(r.value.expiresIn)
    ensures IssueChecks(students, sessions, studentId, courseId, sessionId).Success? ==>
              (Secret(cfg.env) == "" ==> r == Failure(Internal(MsgSignSecretMissing))) &&
              (Secret(cfg.env) != "" && ExpiresIn(cfg.expiresIn).None? ==> r == Failure(Internal(MsgBadExpiresIn))) &&
              (Secret(cfg.env) != "" && ExpiresIn(cfg.expiresIn).Some? ==> r.Success?)
  {
    match IssueToken(students, sessions, cfg.env, ExpiresIn(cfg.expiresIn), nowSec, studentId, courseId, sessionId)
    case Failure(e) => Failure(e)
    case Success((tok, e)) =>
      IssuedParts(students, sessions, cfg.env, ExpiresIn(cfg.expiresIn), nowSec, studentId, courseId, sessionId);
      Success(PlaylistGrant(BaseUrlText(cfg.baseUrl) + PlaylistPath(courseId, sessionId) + TokenQuery(encode(tok)), e))
  }

  /**
   * The policy chain every key, playlist and segment request runs first:
   * the token must be present and verify, name the requested course and
   * session, and its student must exist, be activated, not be suspended,
   * still use the token's device and still be enrolled.
   */
  function Gate(students: Table<Student>, env: Env, nowSec: nat, courseId: Id, sessionId: Id, token: string): (r: Result<Payload>)
    ensures token == "" ==> r == Failure(BadRequest(MsgTokenMissing))
    ensures token != "" && VerifyHlsToken(token, env, nowSec).Failure? ==> r == VerifyHlsToken(token, env, nowSec)
    ensures r.Success? <==>
              token != "" && VerifyHlsToken(token, env, nowSec).Success?
              && var p := VerifyHlsToken(token, env, nowSec).value;
                 p.claims.courseId == courseId && p.claims.sessionId == sessionId
                 && Find(students, p.claims.sub).Some?
                 && Admitted(Find(students, p.claims.sub).value, p.claims.deviceId, courseId)
    ensures r.Success? ==> r == VerifyHlsToken(token, env, nowSec)
    ensures r.Failure? && token != "" && VerifyHlsToken(token, env, nowSec).Success? ==> r.error.BadRequest? || r.error.NotFound?
  {
    if token == "" then Failure(BadRequest(MsgTokenMissing))
    else match VerifyHlsToken(token, env, nowSec)
      case Failure(e) => Failure(e)
      case Success(p) =>
        if p.claims.courseId != courseId || p.claims.sessionId != sessionId then Failure(BadRequest(MsgTokenNotForPath))
        else match Find(students, p.claims.sub)
          case None => Failure(NotFound(MsgStudentNotFound))
          case Some(st) =>
            if !st.cred.available then Failure(BadRequest(MsgNotActivated))
            else if st.cred.suspended then Failure(BadRequest(MsgRestricted))
            else if st.deviceId != p.claims.deviceId then Failure(BadRequest(MsgOtherDevice))
            else if !Enrolled(st, courseId) then Failure(BadRequest(MsgNotEnrolled))
            else Success(p)
  }

  /** The key file of a session: `{courseId}-{sessionId}.key`. */
  function KeyFileName(courseId: Id, sessionId: Id): string
  {
    courseId + "-" + sessionId + ".key"
  }

  /** `getEncryptionKey(courseId, sessionId, hlsToken)` over the key directory. */
  function GetEncryptionKey(students: Table<Student>, keyFiles: map<string, seq<bv8>>, env: Env, nowSec: nat,
                            courseId: Id, sessionId: Id, token: string): (r: Result<seq<bv8>>)
    ensures Gate(students, env, nowSec, courseId, sessionId, token).Failure? ==>
              r == Failure(Gate(students, env, nowSec, courseId, sessionId, token).error)
    ensures r.Success? <==> Gate(students, env, nowSec, courseId, sessionId, token).Success? && KeyFileName(courseId, sessionId) in keyFiles
    ensures r.Success? ==> r.value == keyFiles[KeyFileName(courseId, sessionId)]
    ensures Gate(students, env, nowSec, courseId, sessionId, token).Success? && KeyFileName(courseId, sessionId) !in keyFiles ==>
              r == Failure(NotFound(MsgKeyNotFound))
  {
    match Gate(students, env, nowSec, courseId, sessionId, token)
    case Failure(e) => Failure(e)
    case Success(_) =>
      var name := KeyFileName(courseId, sessionId);
      if name !in keyFiles then Failure(NotFound(MsgKeyNotFound)) else Success(keyFiles[name])
  }

  /** The storage key of the session's manifest, after the gate; the session lookup and the missing-video error. */
  function ManifestKey(sessions: Table<Session>, courseId: Id, sessionId: Id): (r: Result<string>)
    ensures r.Success? <==> SessionOf(sessions, courseId, sessionId).Some? && SessionOf(sessions, courseId, sessionId).value.video.Some?
    ensures r.Success? ==> r.value == SessionOf(sessions, courseId, sessionId).value.video.value
    ensures SessionOf(sessions, courseId, sessionId).None? ==> r == Failure(NotFound(MsgSessionNotFound))
  {
    match SessionOf(sessions, courseId, sessionId)
    case None => Failure(NotFound(MsgSessionNotFound))
    case Some(x) =>
      match x.video
      case None => Failure(Internal(MsgNoVideo))
      case Some(v) => Success(v)
  }

  /** `getPlaylist(courseId, sessionId, hlsToken)`: fetch the manifest and point it back at the gateway. */
  function GetPlaylist(students: Table<Student>, sessions: Table<Session>, objects: map<string, seq<bv8>>,
                       utf8: seq<bv8> -> string, encode: string -> string, env: Env, nowSec: nat,
                       courseId: Id, sessionId: Id, token: string): (r: Result<string>)
    ensures Gate(students, env, nowSec, courseId, sessionId, token).Failure? ==>
              r == Failure(Gate(students, env, nowSec, courseId, sessionId, token).error)
    ensures r.Success? <==> Gate(students, env, nowSec, courseId, sessionId, token).Success?
                            && ManifestKey(sessions, courseId, sessionId).Success?
                            && ManifestKey(sessions, courseId, sessionId).value in objects
    ensures r.Success? ==> r.value == RewritePlaylist(utf8(objects[ManifestKey(sessions, courseId, sessionId).value]),
                                                      courseId, sessionId, encode(token))
    ensures (Gate(students, env, nowSec, courseId, sessionId, token).Success? && ManifestKey(sessions, courseId, sessionId).Success?
             && ManifestKey(sessions, courseId, sessionId).value !in objects) ==> r == Failure(Internal(MsgNoSuchKey))
  {
    match Gate(students, env, nowSec, courseId, sessionId, token)
    case Failure(e) => Failure(e)
    case Success(_) =>
      match ManifestKey(sessions, courseId, sessionId)
      case Failure(e) => Failure(e)
      case Success(key) =>
        if key !in objects then Failure(Internal(MsgNoSuchKey))
        else Success(RewritePlaylist(utf8(objects[key]), courseId, sessionId, encode(token)))
  }

  /** `playlistKey.replace(/index\.m3u8$/, "")`: the folder part of the manifest key. */
  function BasePrefix(video: string): (r: string)
    ensures EndsWith(video, ManifestName) ==> r + ManifestName == video
    ensures !EndsWith(video, ManifestName) ==> r == video
  {
    if EndsWith(video, ManifestName) then video[..|video| - |ManifestName|] else video
  }

  function SegmentKey(video: string, segmentName: string): string
  {
    BasePrefix(video) + segmentName
  }

  /** `getSegment(courseId, sessionId, segmentName, hlsToken)` */
  function GetSegment(students: Table<Student>, sessions: Table<Session>, objects: map<string, seq<bv8>>, env: Env, nowSec: nat,
                      courseId: Id, sessionId: Id, segmentName: string, token: string): (r: Result<seq<bv8>>)
    ensures Gate(students, env, nowSec, courseId, sessionId, token).Failure? ==>
              r == Failure(Gate(students, env, nowSec, courseId, sessionId, token).error)
    ensures r.Success? <==> Gate(students, env, nowSec, courseId, sessionId, token).Success?
                            && ManifestKey(sessions, courseId, sessionId).Success?
                            && SegmentKey(ManifestKey(sessions, courseId, sessionId).value, segmentName) in objects
    ensures r.Success? ==> r.value == objects[SegmentKey(ManifestKey(sessions, courseId, sessionId).value, segmentName)]
    ensures (Gate(students, env, nowSec, courseId, sessionId, token).Success? && ManifestKey(sessions, courseId, sessionId).Success?
             && SegmentKey(ManifestKey(sessions, courseId, sessionId).value, segmentName) !in objects) ==>
              r == Failure(Internal(MsgNoSuchKey))
  {
    match Gate(students, env, nowSec, courseId, sessionId, token)
    case Failure(e) => Failure(e)
    case Success(_) =>
      match ManifestKey(sessions, courseId, sessionId)
      case Failure(e) => Failure(e)
      case Success(video) =>
        var key := SegmentKey(video, segmentName);
        if key !in objects then Failure(Internal(MsgNoSuchKey)) else Success(objects[key])
  }

  // ---------------------------------------------------------------------
  // Properties across requests

  /** An issued token is the one `signHlsToken` makes for the student's claims and the lifetime. */
  lemma IssuedParts(students: Table<Student>, sessions: Table<Session>, env: Env, lifetime: Option<int>, issuedAt: nat,
                    studentId: Id, courseId: Id, sessionId: Id)
    requires IssueToken(students, sessions, env, lifetime, issuedAt, studentId, courseId, sessionId).Success?
    ensures IssueChecks(students, sessions, studentId, courseId, sessionId).Success? && lifetime.Some?
    ensures var st := IssueChecks(students, sessions, studentId, courseId, sessionId).value;
            var claims := Claims(studentId, courseId, sessionId, st.deviceId);
            SignHlsToken(claims, lifetime.value, env, issuedAt).Success?
            && IssueToken(students, sessions, env, lifetime, issuedAt, studentId, courseId, sessionId).value
               == (SignHlsToken(claims, lifetime.value, env, issuedAt).value, lifetime.value)
  {
  }

  /**
   * A token the issuing endpoint hands out opens the gate for that course
   * and session, for as long as it lives and the student's record is as it
   * was, and the payload carries the student, the course, the session and
   * the student's registered device.
   */
  lemma IssuedTokenOpensGate(students: Table<Student>, sessions: Table<Session>, env: Env, lifetime: Option<int>,
                             issuedAt: nat, nowSec: nat, studentId: Id, courseId: Id, sessionId: Id)
    requires IssueToken(students, sessions, env, lifetime, issuedAt, studentId, courseId, sessionId).Success?
    requires nowSec < issuedAt + IssueToken(students, sessions, env, lifetime, issuedAt, studentId, courseId, sessionId).value.1
    ensures var (tok, e) := IssueToken(students, sessions, env, lifetime, issuedAt, studentId, courseId, sessionId).value;
            var st := Find(students, studentId).value;
            Gate(students, env, nowSec, courseId, sessionId, tok)
              == Success(Payload(Claims(studentId, courseId, sessionId, st.deviceId), HlsType, issuedAt, issuedAt + e))
  {
    IssuedParts(students, sessions, env, lifetime, issuedAt, studentId, courseId, sessionId);
    var st := IssueChecks(students, sessions, studentId, courseId, sessionId).value;
    assert Find(students, studentId) == Some(st) && Entitled(st, courseId);
    SignedOpensGate(students, st, lifetime.value, env, issuedAt, nowSec, studentId, courseId, sessionId);
  }

  lemma SignedOpensGate(students: Table<Student>, st: Student, e: int, env: Env, issuedAt: nat, nowSec: nat,
                        studentId: Id, courseId: Id, sessionId: Id)
    requires Find(students, studentId) == Some(st) && Entitled(st, courseId)
    requires SignHlsToken(Claims(studentId, courseId, sessionId, st.deviceId), e, env, issuedAt).Success?
    requires nowSec < issuedAt + e
    ensures Gate(students, env, nowSec, courseId, sessionId,
                 SignHlsToken(Claims(studentId, courseId, sessionId, st.deviceId), e, env, issuedAt).value)
              == Success(Payload(Claims(studentId, courseId, sessionId, st.deviceId), HlsType, issuedAt, issuedAt + e))
  {
    var claims := Claims(studentId, courseId, sessionId, st.deviceId);
    VerifySigned(claims, e, env, issuedAt, nowSec);
    assert Admitted(st, st.deviceId, courseId);
  }

  /** From the token's `exp` on, the same token is refused, whatever the account state. */
  lemma IssuedTokenExpires(students: Table<Student>, sessions: Table<Session>, env: Env, lifetime: Option<int>,
                           issuedAt: nat, nowSec: nat, later: Table<Student>, studentId: Id, courseId: Id, sessionId: Id)
    requires IssueToken(students, sessions, env, lifetime, issuedAt, studentId, courseId, sessionId).Success?
    requires issuedAt + IssueToken(students, sessions, env, lifetime, issuedAt, studentId, courseId, sessionId).value.1 <= nowSec
    ensures Gate(later, env, nowSec, courseId, sessionId,
                 IssueToken(students, sessions, env, lifetime, issuedAt, studentId, courseId, sessionId).value.0)
              == Failure(TokenRejected(MsgExpired))
  {
    var st := IssueChecks(students, sessions, studentId, courseId, sessionId).value;
    SignedTokenExpires(Claims(studentId, courseId, sessionId, st.deviceId), lifetime.value, env, issuedAt, nowSec);
  }

  /**
   * Revocation takes effect before expiry: once the token's student is
   * missing, deactivated, suspended, on another device or no longer
   * enrolled, every key, playlist and segment request with that token fails.
   */
  lemma RevokedStudentLockedOut(students: Table<Student>, sessions: Table<Session>, keyFiles: map<string, seq<bv8>>,
                                objects: map<string, seq<bv8>>, utf8: seq<bv8> -> string, encode: string -> string,
                                env: Env, nowSec: nat, courseId: Id, sessionId: Id, segmentName: string, token: string)
    requires VerifyHlsToken(token, env, nowSec).Success?
    requires var p := VerifyHlsToken(token, env, nowSec).value;
             Find(students, p.claims.sub).None? || !Admitted(Find(students, p.claims.sub).value, p.claims.deviceId, courseId)
    ensures GetEncryptionKey(students, keyFiles, env, nowSec, courseId, sessionId, token).Failure?
    ensures GetPlaylist(students, sessions, objects, utf8, encode, env, nowSec, courseId, sessionId, token).Failure?
    ensures GetSegment(students, sessions, objects, env, nowSec, courseId, sessionId, segmentName, token).Failure?
  {
  }

  /** Segments are fetched from the folder of the manifest: `dir/index.m3u8` serves `dir/<segment>`. */
  lemma SegmentBesideManifest(dir: string, segmentName: string)
    ensures SegmentKey(dir + ManifestName, segmentName) == dir + segmentName
  {
    assert EndsWith(dir + ManifestName, ManifestName) by {
      assert (dir + ManifestName)[|dir|..] == ManifestName;
    }
    assert (dir + ManifestName)[..|dir|] == dir;
  }

  /** Index of the first `-` in `s`, if any. */
  function FirstDash(s: string): (r: Option<nat>)
    ensures r.Some? ==> r.value < |s| && s[r.value] == '-' && forall i | 0 <= i < r.value :: s[i] != '-'
    ensures r.None? ==> forall i | 0 <= i < |s| :: s[i] != '-'
  {
    if |s| == 0 then None
    else if s[0] == '-' then Some(0)
    else match FirstDash(s[1..])
      case None => None
      case Some(k) => Some(k + 1)
  }

  lemma FirstDashAfter(c: string, rest: string)
    requires !Contains(c, '-')
    ensures FirstDash(c + "-" + rest) == Some(|c|)
  {
    var t := c + "-" + rest;
    var d := FirstDash(t);
    assert t[|c|] == '-';
    assert forall i | 0 <= i < |c| :: t[i] == c[i];
  }

  /**
   * Distinct course and session ObjectIds name distinct key files, so no
   * session is served another session's key. (Ids with a `-` in them could
   * collide: `a-b` with `c` and `a` with `b-c`.)
   */
  lemma KeyFileNameInjective(c1: Id, s1: Id, c2: Id, s2: Id)
    requires IsValidObjectId(c1) && IsValidObjectId(c2)
    requires KeyFileName(c1, s1) == KeyFileName(c2, s2)
    ensures c1 == c2 && s1 == s2
  {
    assert !Contains(c1, '-') && !Contains(c2, '-') by {
      assert !IsHexChar('-');
    }
    var t := KeyFileName(c1, s1);
    assert t == c1 + "-" + (s1 + ".key");
    assert KeyFileName(c2, s2) == c2 + "-" + (s2 + ".key");
    FirstDashAfter(c1, s1 + ".key");
    FirstDashAfter(c2, s2 + ".key");
    assert c1 == t[..|c1|] && c2 == t[..|c2|];
    assert s1 + ".key" == t[|c1| + 1..] && s2 + ".key" == t[|c2| + 1..];
    assert s1 == (s1 + ".key")[..|s1|] && s2 == (s2 + ".key")[..|s2|];
  }
}

=== FILE: hls_token.dfy ===
/**
 * The HLS access token: a JSON Web Token (RFC 7519) whose payload carries the
 * student, course, session and device it was issued for, plus a fixed
 * `type: "hls"` discriminator, signed with HMAC under one shared secret.
 *
 * The compact serialisation is modelled by an injective length-prefixed
 * encoding and the HMAC by a symbolic tag, so the codec's round trip and its
 * rejection of foreign keys are proved, not assumed.
 */
module HlsToken {
  import opened Wrappers
  import opened Text
  import opened Crypto

  const HlsType := "hls"
  const DefaultExpiresIn: nat := 600

  /** The claims a token binds: `sub` is the student id. */
  datatype Claims = Claims(sub: string, courseId: string, sessionId: string, deviceId: string)

  /**
   * A decoded payload: claims, the `type` claim and the `iat`/`exp`
   * NumericDates in seconds; `exp` is before `iat` when the lifetime was
   * negative.
   */
  datatype Payload = Payload(claims: Claims, typ: string, iat: nat, exp: int)

  /** The two environment variables; the empty string stands for an unset one. */
  datatype Env = Env(hlsTokenSecret: string, jwtSecret: string)

  /** `HLS_TOKEN_SECRET || JWT_SECRET`, used by signing and by verification alike. */
  function Secret(env: Env): string
  {
    if env.hlsTokenSecret != "" then env.hlsTokenSecret else env.jwtSecret
  }

  // Messages of the jsonwebtoken library's errors.
  const MsgJwtMissing := "jwt must be provided"
  const MsgJwtMalformed := "jwt malformed"
  const MsgSecretMissing := "secret or public key must be provided"
  const MsgBadSignature := "invalid signature"
  const MsgExpired := "jwt expired"
  const MsgSignSecretMissing := "secretOrPrivateKey must have a value"

  // Messages of the token helpers.
  const MsgWrongType := "Invalid token type"
  const MsgTokenMissing := "hlsToken missing"
  const MsgTokenInvalid := "hlsToken invalid or expired"
  const MsgTokenMismatch := "hlsToken does not match the student or the device"

  /** The signing input: the payload's claims in a fixed order. */
  function EncodePayload(p: Payload): string
  {
    Fields([p.claims.sub, p.claims.courseId, p.claims.sessionId, p.claims.deviceId,
            p.typ, Decimal(p.iat), IntText(p.exp)])
  }

  /** The signature over a signing input under a key (HMAC-SHA256 as a symbol). */
  function Mac(key: string, msg: string): string
  {
    Field(key) + msg
  }

  /** The compact form: signing input, then signature. */
  function Compact(p: Payload, key: string): string
  {
    Fields([EncodePayload(p), Mac(key, EncodePayload(p))])
  }

  function ReadNat(s: string): Option<nat>
  {
    if |s| > 0 && AllDigits(s) then Some(ParseDecimal(s)) else None
  }

  /** A NumericDate as JSON writes an integer: digits, after a `-` when negative. */
  function IntText(n: int): string
  {
    if n < 0 then "-" + Decimal(-n) else Decimal(n)
  }

  function ReadInt(s: string): Option<int>
  {
    if |s| > 1 && s[0] == '-' && AllDigits(s[1..]) then Some(0 - ParseDecimal(s[1..]))
    else match ReadNat(s)
      case None => None
      case Some(v) => Some(v as int)
  }

  lemma ReadIntText(n: int)
    ensures ReadInt(IntText(n)) == Some(n)
  {
    if n < 0 {
      var s := IntText(n);
      assert s[1..] == Decimal(-n);
    } else {
      assert Decimal(n)[0] != '-';
    }
  }

  function DecodePayload(m: string): Option<Payload>
  {
    match ReadFields(m, 7)
    case None => None
    case Some(xs) =>
      match (ReadNat(xs[5]), ReadInt(xs[6]))
      case (Some(iat), Some(exp)) => Some(Payload(Claims(xs[0], xs[1], xs[2], xs[3]), xs[4], iat, exp))
      case _ => None
  }

  /** Splits a token into its signing input and its signature. */
  function Parts(token: string): Option<(string, string)>
  {
    match ReadFields(token, 2)
    case None => None
    case Some(xs) => Some((xs[0], xs[1]))
  }

  lemma DecodeEncode(p: Payload)
    ensures DecodePayload(EncodePayload(p)) == Some(p)
  {
    var xs := [p.claims.sub, p.claims.courseId, p.claims.sessionId, p.claims.deviceId,
               p.typ, Decimal(p.iat), IntText(p.exp)];
    ReadFieldsOfFields(xs);
    ReadIntText(p.exp);
  }

  lemma PartsCompact(p: Payload, key: string)
    ensures Parts(Compact(p, key)) == Some((EncodePayload(p), Mac(key, EncodePayload(p))))
    ensures Compact(p, key) != ""
  {
    ReadFieldsOfFields([EncodePayload(p), Mac(key, EncodePayload(p))]);
  }

  /** Two keys give the same signature over the same input only if they are equal. */
  lemma MacInjective(k1: string, k2: string, msg: string)
    requires Mac(k1, msg) == Mac(k2, msg)
    ensures k1 == k2
  {
    FieldInjective(k1, k2, msg, msg);
  }

  /** `jwt.sign(data, secret, { expiresIn })` at clock `nowSec`. */
  function Sign(p: Payload, secret: string): Result<string>
  {
    if secret == "" then Failure(Internal(MsgSignSecretMissing)) else Success(Compact(p, secret))
  }

  /** `jwt.verify(token, secret)` at clock `nowSec`, with the library's order of checks. */
  function Verify(token: string, secret: string, nowSec: nat): (r: Result<Payload>)
    ensures r.Failure? ==> r.error.TokenRejected?
    ensures r.Success? ==> nowSec < r.value.exp
  {
    if token == "" then Failure(TokenRejected(MsgJwtMissing))
    else match Parts(token)
      case None => Failure(TokenRejected(MsgJwtMalformed))
      case Some((m, tag)) =>
        match DecodePayload(m)
        case None => Failure(TokenRejected(MsgJwtMalformed))
        case Some(p) =>
          if secret == "" then Failure(TokenRejected(MsgSecretMissing))
          else if tag != Mac(secret, m) then Failure(TokenRejected(MsgBadSignature))
          else if nowSec >= p.exp then Failure(TokenRejected(MsgExpired))
          else Success(p)
  }

  /** `signHlsToken(claims, expiresInSeconds)`: stamps `type: "hls"`, `iat` and `exp`. */
  function SignHlsToken(claims: Claims, expiresIn: int, env: Env, nowSec: nat): Result<string>
  {
    Sign(Payload(claims, HlsType, nowSec, nowSec + expiresIn), Secret(env))
  }

  /** `verifyHlsToken(token)`: the library's errors pass through; a foreign `type` is Forbidden. */
  function VerifyHlsToken(token: string, env: Env, nowSec: nat): (r: Result<Payload>)
    ensures r.Success? ==> r.value.typ == HlsType && nowSec < r.value.exp
    ensures r.Failure? ==> r.error.TokenRejected? || r.error == Forbidden(MsgWrongType)
  {
    match Verify(token, Secret(env), nowSec)
    case Failure(e) => Failure(e)
    case Success(p) => if p.typ != HlsType then Failure(Forbidden(MsgWrongType)) else Success(p)
  }

  predicate Matches(p: Payload, expected: Claims)
  {
    p.claims.sub == expected.sub && p.claims.courseId == expected.courseId
    && p.claims.sessionId == expected.sessionId && p.claims.deviceId == expected.deviceId
  }

  /** `assertValidHlsToken(token, expected)` */
  function AssertValidHlsToken(token: string, expected: Claims, env: Env, nowSec: nat): (r: Result<Payload>)
    ensures token == "" ==> r == Failure(BadRequest(MsgTokenMissing))
    ensures token != "" && VerifyHlsToken(token, env, nowSec).Failure? ==> r == Failure(Forbidden(MsgTokenInvalid))
    ensures r.Failure? && token != "" ==> r.error.Forbidden?
    ensures r.Success? <==> token != "" && VerifyHlsToken(token, env, nowSec).Success?
                            && Matches(VerifyHlsToken(token, env, nowSec).value, expected)
    ensures r.Success? ==> r == VerifyHlsToken(token, env, nowSec) && r.value.claims == expected
  {
    if token == "" then Failure(BadRequest(MsgTokenMissing))
    else match VerifyHlsToken(token, env, nowSec)
      case Failure(_) => Failure(Forbidden(MsgTokenInvalid))
      case Success(p) => if !Matches(p, expected) then Failure(Forbidden(MsgTokenMismatch)) else Success(p)
  }

  /** A signed token always says `type: "hls"` and lives `expiresIn` seconds from now. */
  lemma SignStampsType(claims: Claims, expiresIn: int, env: Env, nowSec: nat)
    requires SignHlsToken(claims, expiresIn, env, nowSec).Success?
    ensures Parts(SignHlsToken(claims, expiresIn, env, nowSec).value).Some?
    ensures var m := Parts(SignHlsToken(claims, expiresIn, env, nowSec).value).value.0;
            DecodePayload(m) == Some(Payload(claims, HlsType, nowSec, nowSec + expiresIn))
  {
    var p := Payload(claims, HlsType, nowSec, nowSec + expiresIn);
    PartsCompact(p, Secret(env));
    DecodeEncode(p);
  }

  /**
   * Round trip: a token signed at `signedAt` verifies, under the same
   * environment, at any clock before `signedAt + expiresIn`, and yields
   * the claims it was signed with and `type: "hls"`.
   */
  lemma VerifySigned(claims: Claims, expiresIn: int, env: Env, signedAt: nat, nowSec: nat)
    requires SignHlsToken(claims, expiresIn, env, signedAt).Success?
    requires nowSec < signedAt + expiresIn
    ensures VerifyHlsToken(SignHlsToken(claims, expiresIn, env, signedAt).value, env, nowSec)
         == Success(Payload(claims, HlsType, signedAt, signedAt + expiresIn))
  {
    var p := Payload(claims, HlsType, signedAt, signedAt + expiresIn);
    PartsCompact(p, Secret(env));
    DecodeEncode(p);
  }

  /** RFC 7519 section 4.1.4: from `exp` on, the same token is rejected as expired. */
  lemma SignedTokenExpires(claims: Claims, expiresIn: int, env: Env, signedAt: nat, nowSec: nat)
    requires SignHlsToken(claims, expiresIn, env, signedAt).Success?
    requires signedAt + expiresIn <= nowSec
    ensures VerifyHlsToken(SignHlsToken(claims, expiresIn, env, signedAt).value, env, nowSec)
         == Failure(TokenRejected(MsgExpired))
  {
    var p := Payload(claims, HlsType, signedAt, signedAt + expiresIn);
    PartsCompact(p, Secret(env));
    DecodeEncode(p);
  }

  /** A token signed under another secret never verifies. */
  lemma ForeignSecretRejected(claims: Claims, expiresIn: int, signer: Env, verifier: Env, signedAt: nat, nowSec: nat)
    requires SignHlsToken(claims, expiresIn, signer, signedAt).Success?
    requires Secret(signer) != Secret(verifier)
    ensures VerifyHlsToken(SignHlsToken(claims, expiresIn, signer, signedAt).value, verifier, nowSec).Failure?
  {
    var p := Payload(claims, HlsType, signedAt, signedAt + expiresIn);
    var m := EncodePayload(p);
    PartsCompact(p, Secret(signer));
    DecodeEncode(p);
    if Secret(verifier) != "" && Mac(Secret(signer), m) == Mac(Secret(verifier), m) {
      MacInjective(Secret(signer), Secret(verifier), m);
    }
  }

  /** A validly signed, unexpired token of another family (its `type` is not "hls") is Forbidden. */
  lemma ForeignTypeForbidden(p: Payload, env: Env, nowSec: nat)
    requires Secret(env) != "" && p.typ != HlsType && nowSec < p.exp
    ensures VerifyHlsToken(Compact(p, Secret(env)), env, nowSec) == Failure(Forbidden(MsgWrongType))
  {
    PartsCompact(p, Secret(env));
    DecodeEncode(p);
  }

  /**
   * With a correctly signed, unexpired token, `assertValidHlsToken` returns
   * the payload exactly when all four claims match, and a mismatch in any one
   * of them is Forbidden.
   */
  lemma AssertValidOnSigned(claims: Claims, expected: Claims, expiresIn: int, env: Env, signedAt: nat, nowSec: nat)
    requires SignHlsToken(claims, expiresIn, env, signedAt).Success?
    requires nowSec < signedAt + expiresIn
    ensures var r := AssertValidHlsToken(SignHlsToken(claims, expiresIn, env, signedAt).value, expected, env, nowSec);
            (claims == expected ==> r == Success(Payload(claims, HlsType, signedAt, signedAt + expiresIn)))
            && (claims != expected ==> r == Failure(Forbidden(MsgTokenMismatch)))
  {
    VerifySigned(claims, expiresIn, env, signedAt, nowSec);
    PartsCompact(Payload(claims, HlsType, signedAt, signedAt + expiresIn), Secret(env));
  }
}

=== FILE: js_number.dfy ===
/**
 * JavaScript's `Number(text)` for the one use the gateway makes of it: the
 * token lifetime, which jsonwebtoken accepts only when it is an integer.
 *
 * The grammar is the one of `StringToNumber` (section 7.1.4.1.1 of
 * ECMAScript 2024): surrounding white space is ignored, a blank text is 0,
 * `0x`/`0o`/`0b` prefix a hexadecimal, octal or binary integer, and a
 * decimal literal has an optional sign, digits with an optional fraction
 * and an optional exponent. Values are kept exact.
 */
module JsNumber {
  import opened Wrappers
  import opened Text

  function Pow10(k: nat): (r: nat)
    ensures r >= 1
  {
    if k == 0 then 1 else 10 * Pow10(k - 1)
  }

  /** The value of `c` as a digit of base `radix` (2, 8 or 16; letters in either case). */
  function RadixDigit(c: char, radix: nat): (r: Option<nat>)
    ensures r.Some? ==> r.value < radix
  {
    var d := if '0' <= c <= '9' then c as int - '0' as int
             else if 'a' <= c <= 'z' then c as int - 'a' as int + 10
             else if 'A' <= c <= 'Z' then c as int - 'A' as int + 10
             else 36;
    if d < radix then Some(d) else None
  }

  /** The value of the digits `s` in base `radix`, when each character is one. */
  function RadixValue(s: string, radix: nat): Option<nat>
  {
    if |s| == 0 then Some(0)
    else match (RadixValue(s[..|s| - 1], radix), RadixDigit(s[|s| - 1], radix))
      case (Some(v), Some(d)) => Some(v * radix + d)
      case _ => None
  }

  /** Index of the first `a` or `b` in `s`, `|s|` when there is none. */
  function FirstOf(s: string, a: char, b: char): (i: nat)
    ensures i <= |s|
    ensures forall k | 0 <= k < i :: s[k] != a && s[k] != b
    ensures i < |s| ==> s[i] == a || s[i] == b
  {
    if |s| == 0 then 0
    else if s[0] == a || s[0] == b then 0
    else 1 + FirstOf(s[1..], a, b)
  }

  /** The exponent after `e`: an optional sign and at least one digit. */
  function Exponent(x: string): Option<int>
  {
    var sign := if |x| > 0 && (x[0] == '+' || x[0] == '-') then 1 else 0;
    var digits := x[sign..];
    if |digits| == 0 || !AllDigits(digits) then None
    else if sign == 1 && x[0] == '-' then Some(0 - ParseDecimal(digits))
    else Some(ParseDecimal(digits) as int)
  }

  /**
   * An unsigned decimal literal as `m * 10^e`: digits, an optional `.` and
   * fraction digits (at least one digit in all), an optional exponent.
   * `Infinity` is not a finite value and reads as None too.
   */
  function UnsignedDecimal(u: string): Option<(nat, int)>
  {
    var i := FirstOf(u, 'e', 'E');
    var mant := u[..i];
    var exp := if i == |u| then Some(0) else Exponent(u[i + 1..]);
    var j := FirstOf(mant, '.', '.');
    var whole := mant[..j];
    var frac := if j == |mant| then "" else mant[j + 1..];
    if |whole| + |frac| == 0 || !AllDigits(whole) || !AllDigits(frac) || exp.None? then None
    else Some((ParseDecimal(whole + frac), exp.value - |frac|))
  }

  /** `m * 10^e` when it is an integer. */
  function Scaled(m: nat, e: int): (r: Option<nat>)
    ensures e >= 0 ==> r == Some(m * Pow10(e))
    ensures e < 0 && m % 10 != 0 ==> r.None?
    decreases if e < 0 then -e else e
  {
    if e == 0 then Some(m)
    else if e > 0 then
      var r := Scaled(m * 10, e - 1);
      assert m * 10 * Pow10(e - 1) == m * Pow10(e);
      r
    else if m % 10 == 0 then Scaled(m / 10, e + 1)
    else None
  }

  function DecimalInteger(u: string): Option<nat>
  {
    match UnsignedDecimal(u)
    case None => None
    case Some((m, e)) => Scaled(m, e)
  }

  /** A radix literal after its two-character prefix: at least one digit. */
  function RadixLiteral(d: string, radix: nat): Option<nat>
  {
    if |d| == 0 then None else RadixValue(d, radix)
  }

  function RadixOf(c: char): nat
  {
    if c == 'x' || c == 'X' then 16 else if c == 'o' || c == 'O' then 8 else if c == 'b' || c == 'B' then 2 else 0
  }

  /**
   * `Number(s)` when it is an integer, the values `Number.isInteger`
   * accepts; None for NaN, for the infinities and for fractions.
   */
  function IntegerValue(s: string): (r: Option<int>)
  {
    var t := Trim(s);
    if t == "" then Some(0)
    else if |t| >= 2 && t[0] == '0' && RadixOf(t[1]) != 0 then AsInt(RadixLiteral(t[2..], RadixOf(t[1])))
    else if t[0] == '-' then Negated(DecimalInteger(t[1..]))
    else if t[0] == '+' then AsInt(DecimalInteger(t[1..]))
    else AsInt(DecimalInteger(t))
  }

  function AsInt(v: Option<nat>): Option<int>
  {
    if v.None? then None else Some(v.value as int)
  }

  function Negated(v: Option<nat>): Option<int>
  {
    if v.None? then None else Some(0 - v.value)
  }

  // ---------------------------------------------------------------------
  // What the reading gives back

  /** `Number` reads only the trimmed text. */
  lemma SameTrim(a: string, b: string)
    requires Trim(a) == Trim(b)
    ensures IntegerValue(a) == IntegerValue(b)
  {
  }

  /** White space before or after a text does not change what it reads as. */
  lemma SpacesAround(c: char, s: string, d: char)
    requires IsSpace(c) && IsSpace(d)
    ensures IntegerValue([c] + s) == IntegerValue(s)
    ensures IntegerValue(s + [d]) == IntegerValue(s)
  {
    TrimLeading(c, s);
    SameTrim([c] + s, s);
    TrimTrailing(s, d);
    SameTrim(s + [d], s);
  }

  lemma {:induction false} NoSeparator(s: string, a: char, b: char)
    requires forall k | 0 <= k < |s| :: s[k] != a && s[k] != b
    ensures FirstOf(s, a, b) == |s|
  {
    if |s| > 0 {
      NoSeparator(s[1..], a, b);
    }
  }

  /** Digits read as their decimal value. */
  lemma DigitsRead(s: string)
    requires |s| > 0 && AllDigits(s)
    ensures DecimalInteger(s) == Some(ParseDecimal(s))
  {
    NoSeparator(s, 'e', 'E');
    NoSeparator(s, '.', '.');
    assert s[..|s|] == s && s + "" == s;
  }

  /** A run of decimal digits, leading zeros included, reads as its decimal value. */
  lemma ReadsDigits(s: string)
    requires |s| > 0 && AllDigits(s)
    ensures IntegerValue(s) == Some(ParseDecimal(s))
  {
    DigitsAreDecimal(s);
    DigitsRead(s);
  }

  /** Digits carry neither sign nor radix prefix. */
  lemma DigitsAreDecimal(s: string)
    requires |s| > 0 && AllDigits(s)
    ensures IntegerValue(s) == AsInt(DecimalInteger(s))
  {
    DigitsTrimmed(s);
    assert IsDigit(s[0]);
    if |s| >= 2 {
      assert IsDigit(s[1]) && !IsRadixMark(s[1]);
    }
    ReadsAsDecimal(s);
  }

  /** `Number(String(n))` is `n`. */
  lemma ReadsDecimal(n: nat)
    ensures IntegerValue(Decimal(n)) == Some(n)
  {
    ReadsDigits(Decimal(n));
  }

  /** A trimmed text that starts with a digit other than `0`, or is a lone `0`, is read as a decimal literal. */
  lemma ReadsAsDecimal(t: string)
    requires Trim(t) == t && |t| > 0 && IsDigit(t[0]) && (t[0] == '0' ==> |t| == 1 || !IsRadixMark(t[1]))
    ensures IntegerValue(t) == AsInt(DecimalInteger(t))
  {
  }

  predicate IsRadixMark(c: char)
  {
    RadixOf(c) != 0
  }

  /** A minus sign before digits negates what the digits read as. */
  lemma MinusDigits(a: string)
    requires |a| > 0 && AllDigits(a)
    ensures IntegerValue("-" + a) == Negated(DecimalInteger(a))
  {
    var s := "-" + a;
    assert s[|s| - 1] == a[|a| - 1];
    TrimmedAlready(s);
    assert s[1..] == a;
  }

  lemma NegatedDecimal(n: nat)
    ensures Negated(DecimalInteger(Decimal(n))) == Some(0 - n)
  {
    DigitsRead(Decimal(n));
  }

  /** `Number("-" + String(n))` is `-n`. */
  lemma ReadsNegative(n: nat)
    ensures IntegerValue("-" + Decimal(n)) == Some(0 - n)
  {
    MinusDigits(Decimal(n));
    NegatedDecimal(n);
  }

  /** Digits, `e` and digits split into a mantissa and a non-negative exponent. */
  lemma ExponentParts(a: string, b: string)
    requires |a| > 0 && AllDigits(a) && |b| > 0 && AllDigits(b)
    ensures UnsignedDecimal(a + "e" + b) == Some((ParseDecimal(a), ParseDecimal(b) as int))
  {
    var s := a + "e" + b;
    NoSeparator(a, 'e', 'E');
    FirstOfPrefix(a, s, 'e', 'E');
    assert s[..|a|] == a && s[|a| + 1..] == b;
    UnsignedExponent(b);
    NoSeparator(a, '.', '.');
    WholeMantissa(s, a, ParseDecimal(b));
  }

  /** A literal whose mantissa is the digits `a`, without a `.`, and whose exponent reads as `x`. */
  lemma WholeMantissa(u: string, a: string, x: int)
    requires |a| > 0 && AllDigits(a) && |a| < |u|
    requires FirstOf(u, 'e', 'E') == |a| && u[..|a|] == a && Exponent(u[|a| + 1..]) == Some(x)
    requires FirstOf(a, '.', '.') == |a|
    ensures UnsignedDecimal(u) == Some((ParseDecimal(a), x))
  {
    assert a[..|a|] == a && a + "" == a;
  }

  /** An exponent without sign is the value of its digits. */
  lemma UnsignedExponent(b: string)
    requires |b| > 0 && AllDigits(b)
    ensures Exponent(b) == Some(ParseDecimal(b) as int)
  {
    assert b[0] != '+' && b[0] != '-';
    assert b[0..] == b;
  }

  /** A decimal literal of the form digits, `e`, digits is read as one, without sign or radix prefix. */
  lemma ExponentIsDecimal(m: nat, b: string)
    requires |b| > 0 && AllDigits(b)
    ensures IntegerValue(Decimal(m) + "e" + b) == AsInt(DecimalInteger(Decimal(m) + "e" + b))
  {
    var a := Decimal(m);
    var s := a + "e" + b;
    assert s[|s| - 1] == b[|b| - 1];
    assert s[0] == a[0];
    assert s[1] == 'e' || s[1] == a[1];
    TrimmedAlready(s);
    ReadsAsDecimal(s);
  }

  /** `Number(String(m) + "e" + String(k))` is `m * 10^k`. */
  lemma ReadsExponent(m: nat, k: nat)
    ensures IntegerValue(Decimal(m) + "e" + Decimal(k)) == Some(m * Pow10(k))
  {
    ExponentIsDecimal(m, Decimal(k));
    ExponentParts(Decimal(m), Decimal(k));
  }

  /** A separator-free prefix is skipped before the separator that follows it. */
  lemma {:induction false} FirstOfPrefix(a: string, s: string, x: char, y: char)
    requires |a| < |s| && s[..|a|] == a && FirstOf(a, x, y) == |a| && (s[|a|] == x || s[|a|] == y)
    ensures FirstOf(s, x, y) == |a|
  {
    if |a| > 0 {
      assert s[1..][..|a| - 1] == a[1..];
      FirstOfPrefix(a[1..], s[1..], x, y);
    }
  }

  /** Digits, `.` and one digit: the digits together, scaled down by one place. */
  lemma FractionSeparators(a: string, c: char)
    requires |a| > 0 && AllDigits(a) && IsDigit(c)
    ensures FirstOf(a + "." + [c], 'e', 'E') == |a| + 2
    ensures FirstOf(a + "." + [c], '.', '.') == |a|
  {
    var s := a + "." + [c];
    assert forall k | 0 <= k < |s| :: s[k] == '.' || IsDigit(s[k]) by {
      forall k | 0 <= k < |s| ensures s[k] == '.' || IsDigit(s[k]) {
        if k < |a| { assert s[k] == a[k]; }
      }
    }
    NoSeparator(s, 'e', 'E');
    NoSeparator(a, '.', '.');
    FirstOfPrefix(a, s, '.', '.');
  }

  lemma FractionParts(a: string, c: char)
    requires |a| > 0 && AllDigits(a) && IsDigit(c)
    ensures UnsignedDecimal(a + "." + [c]) == Some((ParseDecimal(a + [c]), -1))
  {
    FractionSeparators(a, c);
    FractionRead(a, c, a + "." + [c]);
  }

  lemma FractionRead(a: string, c: char, s: string)
    requires |a| > 0 && AllDigits(a) && IsDigit(c) && s == a + "." + [c]
    requires FirstOf(s, 'e', 'E') == |s| && FirstOf(s, '.', '.') == |a|
    ensures UnsignedDecimal(s) == Some((ParseDecimal(a + [c]), -1))
  {
    assert s[..|s|] == s;
    assert s[..|a|] == a && s[|a| + 1..] == [c];
  }

  lemma FractionIsDecimal(m: nat, c: char)
    requires IsDigit(c)
    ensures IntegerValue(Decimal(m) + "." + [c]) == AsInt(DecimalInteger(Decimal(m) + "." + [c]))
  {
    var a := Decimal(m);
    var s := a + "." + [c];
    assert s[0] == a[0] && s[|s| - 1] == c;
    assert s[1] == '.' || s[1] == a[1];
    TrimmedAlready(s);
    ReadsAsDecimal(s);
  }

  lemma LastDigitStays(m: nat, d: nat)
    requires 0 < d < 10
    ensures Scaled(ParseDecimal(Decimal(m) + [DigitChar(d)]), -1) == None
  {
    var a := Decimal(m);
    assert (a + [DigitChar(d)])[..|a|] == a;
    assert ParseDecimal(a + [DigitChar(d)]) == m * 10 + d;
    assert Pow10(1) == 10;
  }

  /** `Number(String(m) + "." + d)` for a digit `d` other than 0 is not an integer. */
  lemma FractionIsNotInteger(m: nat, d: nat)
    requires 0 < d < 10
    ensures IntegerValue(Decimal(m) + "." + [DigitChar(d)]) == None
  {
    FractionIsDecimal(m, DigitChar(d));
    FractionParts(Decimal(m), DigitChar(d));
    LastDigitStays(m, d);
  }

  lemma HexEndsInDigit(h: string)
    requires |h| > 0 && RadixValue(h, 16).Some?
    ensures !IsSpace(h[|h| - 1])
  {
    assert RadixDigit(h[|h| - 1], 16).Some?;
  }

  /** `Number("0x" + h)` for hexadecimal digits `h` is their value. */
  lemma ReadsHex(h: string)
    requires |h| > 0 && RadixValue(h, 16).Some?
    ensures IntegerValue("0x" + h) == Some(RadixValue(h, 16).value)
  {
    HexEndsInDigit(h);
    var s := "0x" + h;
    assert s[|s| - 1] == h[|h| - 1];
    TrimmedAlready(s);
    assert s[0] == '0' && s[1] == 'x' && s[2..] == h;
    ReadsRadix(s);
  }

  /** A trimmed text with a radix prefix reads as the digits after it. */
  lemma ReadsRadix(t: string)
    requires Trim(t) == t && |t| >= 2 && t[0] == '0' && RadixOf(t[1]) != 0
    ensures IntegerValue(t) == AsInt(RadixLiteral(t[2..], RadixOf(t[1])))
  {
  }
}

=== FILE: lists.dfy ===
/** Arrays of ids inside documents, with the array operators the services use. */
module Lists {
  import opened Tables

  /** `indexOf`: the first position holding `x`, or the length when there is none. */
  function Position(xs: seq<Id>, x: Id): (k: nat)
    ensures k <= |xs|
    ensures k < |xs| <==> x in xs
    ensures k < |xs| ==> xs[k] == x
    ensures x !in xs[..k]
  {
    if |xs| == 0 then 0
    else if xs[0] == x then 0
    else
      var k := Position(xs[1..], x);
      assert xs[..k + 1] == [xs[0]] + xs[1..][..k];
      k + 1
  }

  /** No id occurs twice. */
  predicate Distinct(xs: seq<Id>)
  {
    forall i, j | 0 <= i < j < |xs| :: xs[i] != xs[j]
  }

  /** `$addToSet`: append unless already present. */
  function AddToSet(xs: seq<Id>, x: Id): (r: seq<Id>)
    ensures x in r
    ensures forall y :: y in r <==> y in xs || y == x
    ensures Distinct(xs) ==> Distinct(r)
  {
    if x in xs then xs else xs + [x]
  }

  lemma AddToSetIdempotent(xs: seq<Id>, x: Id)
    ensures AddToSet(AddToSet(xs, x), x) == AddToSet(xs, x)
  {
  }

  /** `$pull`: every occurrence of `x` is removed, the rest keeps its order. */
  function Pull(xs: seq<Id>, x: Id): (r: seq<Id>)
    ensures forall y :: y in r <==> y in xs && y != x
    ensures |r| <= |xs|
    ensures x !in xs ==> r == xs
  {
    if |xs| == 0 then []
    else
      assert xs == [xs[0]] + xs[1..];
      (if xs[0] == x then [] else [xs[0]]) + Pull(xs[1..], x)
  }
}

=== FILE: notification.dfy ===
/**
 * Public notifications: creation, the paginated listings with their
 * 12-hour time and day/month/year date, the batched push to every
 * student with a push token, and the per-student token and settings.
 */
module Notifications {
  import opened Wrappers
  import opened Text
  import opened Tables
  import opened Records
  import opened Store
  import opened Paging
  import opened Accounts
  import opened PushBatches

  /** The afternoon suffix (Arabic letter meem). */
  const PM: char := '\U{0645}'
  /** The morning suffix (Arabic letter sad). */
  const AM: char := '\U{0635}'
  const MsgStudentNotFound := "student not found"
  const MsgCast := "Cast to ObjectId failed"

  type Hour = h: nat | h < 24
  type Minute = m: nat | m < 60

  // ---------------------------------------------------------------- time

  /** `hours % 12 || 12` */
  function Hour12(h: Hour): (r: nat)
    ensures 1 <= r <= 12 && r % 12 == h % 12
  {
    if h % 12 == 0 then 12 else h % 12
  }

  function Period(h: Hour): (c: char)
    ensures c == PM <==> h >= 12
    ensures c == PM || c == AM
  {
    if h >= 12 then PM else AM
  }

  /** `formatTime`: `"<hour>:<minutes> <period>"`, the hour on a 12-hour dial, minutes padded to two digits. */
  function FormatTime(h: Hour, m: Minute): (s: string)
    ensures 6 <= |s| <= 7 && s[|s| - 1] == Period(h) && s[|s| - 2] == ' '
  {
    Decimal(Hour12(h)) + ":" + PadTwo(m) + " " + [Period(h)]
  }

  /** Reads a formatted time back to the 24-hour reading it shows. */
  function ReadTime(s: string): Option<(nat, nat)>
  {
    var parts := Split(s, ':');
    if |parts| != 2 then None
    else
      var h, rest := parts[0], parts[1];
      if !(1 <= |h| <= 2 && AllDigits(h) && |rest| == 4 && AllDigits(rest[..2]) && rest[2] == ' ' &&
           (rest[3] == AM || rest[3] == PM)) then None
      else
        var v := ParseDecimal(h);
        if v < 1 || v > 12 then None
        else Some((v % 12 + (if rest[3] == PM then 12 else 0), ParseDecimal(rest[..2])))
  }

  /** The formatted time determines the hour and minute it was made from. */
  lemma {:induction false} TimeRoundTrip(h: Hour, m: Minute)
    ensures ReadTime(FormatTime(h, m)) == Some((h, m))
  {
    var a := Decimal(Hour12(h));
    var b := PadTwo(m) + " " + [Period(h)];
    TimeSplits(h, m);
    TimeFields(h, m);
    DialHour(h);
    var v := ParseDecimal(a);
    assert v == Hour12(h) && 1 <= v <= 12;
    assert ReadTime(FormatTime(h, m)) == Some((v % 12 + (if b[3] == PM then 12 else 0), ParseDecimal(b[..2])));
  }

  /** The formatted time splits at its one colon into the hour and the rest. */
  lemma TimeSplits(h: Hour, m: Minute)
    ensures Split(FormatTime(h, m), ':') == [Decimal(Hour12(h)), PadTwo(m) + " " + [Period(h)]]
  {
    var a := Decimal(Hour12(h));
    var b := PadTwo(m) + " " + [Period(h)];
    assert FormatTime(h, m) == Join([a, b], [':']);
    assert !Contains(a, ':');
    assert !Contains(b, ':') by {
      forall i | 0 <= i < |b| ensures b[i] != ':' {
        if i < 2 { assert b[i] == PadTwo(m)[i]; }
      }
    }
    JoinSplit([a, b], ':');
  }

  /** The dial hour and the period give back the 24-hour reading. */
  lemma DialHour(h: Hour)
    ensures Hour12(h) % 12 + (if Period(h) == PM then 12 else 0) == h
  {
  }

  /** The fields `ReadTime` checks, as `FormatTime` writes them. */
  lemma TimeFields(h: Hour, m: Minute)
    ensures var a := Decimal(Hour12(h));
            1 <= |a| <= 2 && AllDigits(a) && ParseDecimal(a) == Hour12(h)
    ensures var b := PadTwo(m) + " " + [Period(h)];
            |b| == 4 && b[..2] == PadTwo(m) && AllDigits(b[..2]) && ParseDecimal(b[..2]) == m &&
            b[2] == ' ' && b[3] == Period(h)
  {
    var a := Decimal(Hour12(h));
    if Hour12(h) >= 10 {
      assert a == Decimal(Hour12(h) / 10) + [DigitChar(Hour12(h) % 10)];
    }
  }

  lemma FormatTimeInjective(h1: Hour, m1: Minute, h2: Hour, m2: Minute)
    requires FormatTime(h1, m1) == FormatTime(h2, m2)
    ensures h1 == h2 && m1 == m2
  {
    TimeRoundTrip(h1, m1);
    TimeRoundTrip(h2, m2);
  }

  // ---------------------------------------------------------------- date

  type MonthIndex = m: nat | m < 12

  /** `formatDate`: `"<day>/<month + 1>/<year>"`, with no padding. */
  function FormatDate(day: nat, month: MonthIndex, year: nat): (s: string)
    ensures forall i | 0 <= i < |s| :: IsDigit(s[i]) || s[i] == '/'
  {
    Decimal(day) + "/" + Decimal(month + 1) + "/" + Decimal(year)
  }

  /** Reads a formatted date back to the day, the month as shown, and the year. */
  function ReadDate(s: string): Option<(nat, nat, nat)>
  {
    var parts := Split(s, '/');
    if |parts| == 3 && parts[0] != "" && parts[1] != "" && parts[2] != "" &&
       AllDigits(parts[0]) && AllDigits(parts[1]) && AllDigits(parts[2])
    then Some((ParseDecimal(parts[0]), ParseDecimal(parts[1]), ParseDecimal(parts[2])))
    else None
  }

  /** The formatted date shows the day, the one-based month and the year, and nothing else. */
  lemma {:induction false} DateRoundTrip(day: nat, month: MonthIndex, year: nat)
    ensures ReadDate(FormatDate(day, month, year)) == Some((day, month + 1, year))
  {
    var a, b, c := Decimal(day), Decimal(month + 1), Decimal(year);
    assert [a, b, c][1..] == [b, c] && [b, c][1..] == [c];
    assert Join([b, c], ['/']) == b + "/" + c;
    assert FormatDate(day, month, year) == Join([a, b, c], ['/']);
    assert !Contains(a, '/') && !Contains(b, '/') && !Contains(c, '/');
    JoinSplit([a, b, c], '/');
  }

  // ---------------------------------------------------------------- notifications

  datatype Kind = Alert | New | Succeeded | Discount | Connection

  /** A calendar reading of a `Date` in the server's time zone. */
  datatype Instant = Instant(year: nat, month: MonthIndex, day: nat, hours: Hour, minutes: Minute)

  datatype Notification = Notification(kind: Kind, title: string, subtitle: string, time: Option<Instant>, createdAt: Instant)

  /**
   * What `createPublicNotification` is called with. `time` is passed on
   * to `Notification.create`, but the schema declares no `time` path, so
   * strict mode drops it.
   */
  datatype NotificationData = NotificationData(kind: Kind, title: string, subtitle: string, time: Option<Instant>, sendPush: bool)

  const MsgSchema := "Notification validation failed"

  /**
   * The schema's checks on a stored notification, after the `trim`
   * setters: a non-empty title of at most 200 characters and a non-empty
   * subtitle of at most 500. The type is an enum path, which `Kind` covers.
   */
  predicate SchemaAccepts(n: Notification)
  {
    n.title != "" && |n.title| <= 200 && n.subtitle != "" && |n.subtitle| <= 500
  }

  /** The document `Notification.create` builds: trimmed texts, no `time`, created now. */
  function Document(d: NotificationData, now: Instant): (n: Notification)
    ensures n.kind == d.kind && n.title == Trim(d.title) && n.subtitle == Trim(d.subtitle)
    ensures n.time.None? && n.createdAt == now
  {
    Notification(d.kind, Trim(d.title), Trim(d.subtitle), None, now)
  }

  /**
   * `createPublicNotification`: the schema refuses a blank or overlong
   * title or subtitle (the service runs no joi validator first);
   * otherwise one notification is appended, and the push to all students
   * is requested exactly when `sendPush` is set.
   */
  function CreatePublic(t: Table<Notification>, d: NotificationData, now: Instant, newId: Id): (r: Result<(Table<Notification>, bool)>)
    ensures r.Failure? <==>
              Trim(d.title) == "" || |Trim(d.title)| > 200 || Trim(d.subtitle) == "" || |Trim(d.subtitle)| > 500
    ensures r.Failure? ==> r.error == Internal(MsgSchema)
    ensures r.Success? ==>
              var ns := r.value.0;
              |ns| == |t| + 1 && ns[..|t|] == t && ns[|t|].id == newId &&
              ns[|t|].val.kind == d.kind && ns[|t|].val.title == Trim(d.title) &&
              ns[|t|].val.subtitle == Trim(d.subtitle) && ns[|t|].val.time.None? && ns[|t|].val.createdAt == now &&
              (r.value.1 <==> d.sendPush)
  {
    var n := Document(d, now);
    if !SchemaAccepts(n) then Failure(Internal(MsgSchema))
    else Success((t + [Row(newId, n)], d.sendPush))
  }

  /** The time the caller passes has no effect on what is created. */
  lemma ClientTimeIgnored(t: Table<Notification>, d: NotificationData, time: Option<Instant>, now: Instant, newId: Id)
    ensures CreatePublic(t, d.(time := time), now, newId) == CreatePublic(t, d, now, newId)
  {
  }

  /**
   * A notification just created is listed at its creation time, whatever
   * time the caller asked for: the listing falls back to `createdAt`.
   */
  lemma CreatedShowsCreationTime(t: Table<Notification>, d: NotificationData, now: Instant, newId: Id)
    requires CreatePublic(t, d, now, newId).Success?
    ensures var i := Format(CreatePublic(t, d, now, newId).value.0[|t|].val);
            i.time == FormatTime(now.hours, now.minutes) && i.date == FormatDate(now.day, now.month, now.year) &&
            i.title == Trim(d.title) && i.subtitle == Trim(d.subtitle)
  {
  }

  /** A notification as the listings show it. */
  datatype Item = Item(kind: Kind, title: string, subtitle: string, time: string, date: string)

  /** `notification.time || notification.createdAt` */
  function ShownAt(n: Notification): Instant
  {
    if n.time.Some? then n.time.value else n.createdAt
  }

  function Format(n: Notification): (i: Item)
    ensures i.kind == n.kind && i.title == n.title && i.subtitle == n.subtitle
    ensures ReadTime(i.time) == Some((ShownAt(n).hours, ShownAt(n).minutes))
    ensures ReadDate(i.date) == Some((ShownAt(n).day, ShownAt(n).month + 1, ShownAt(n).year))
  {
    var at := ShownAt(n);
    TimeRoundTrip(at.hours, at.minutes);
    DateRoundTrip(at.day, at.month, at.year);
    Item(n.kind, n.title, n.subtitle, FormatTime(at.hours, at.minutes), FormatDate(at.day, at.month, at.year))
  }

  datatype Listing = Listing(items: seq<Item>, page: int, limit: int, total: nat, pages: Option<int>)

  /**
   * `getPublicNotifications` over the notifications already in
   * newest-first order: one page of them formatted, and the counts.
   */
  function List(sorted: seq<Notification>, page: int, limit: int): (r: Result<Listing>)
    ensures r.Failure? <==> (page - 1) * limit < 0
    ensures r.Success? ==>
              var w := Window(sorted, page, limit).value;
              |r.value.items| == |w| && (forall k | 0 <= k < |w| :: r.value.items[k] == Format(w[k])) &&
              r.value.total == |sorted| && r.value.pages == Pages(|sorted|, limit)
  {
    match Window(sorted, page, limit)
    case None => Failure(Internal(MsgBadPage))
    case Some(w) =>
      Success(Listing(seq(|w|, k requires 0 <= k < |w| => Format(w[k])), page, limit, |sorted|, Pages(|sorted|, limit)))
  }

  function OfKind(ns: seq<Notification>, kind: Kind): (r: seq<Notification>)
    ensures forall n :: n in r <==> n in ns && n.kind == kind
  {
    if |ns| == 0 then []
    else (if ns[0].kind == kind then [ns[0]] else []) + OfKind(ns[1..], kind)
  }

  /** `getPublicNotificationsByType`: the same listing over the notifications of one type. */
  function ListByKind(sorted: seq<Notification>, kind: Kind, page: int, limit: int): (r: Result<Listing>)
    ensures r.Success? ==> forall k | 0 <= k < |r.value.items| :: r.value.items[k].kind == kind
    ensures r.Success? ==> r.value.total == |OfKind(sorted, kind)|
  {
    List(OfKind(sorted, kind), page, limit)
  }

  // ---------------------------------------------------------------- push

  /** `Student.find({ fcmToken: { $ne: null } })` */
  function HasPushToken(): Student -> bool
  {
    (s: Student) => s.fcmToken.Some?
  }

  function Targets(students: Table<Student>): (r: Table<Student>)
    ensures forall row :: row in r <==> row in students && row.val.fcmToken.Some?
  {
    Where(students, HasPushToken())
  }

  /** A student's push token. */
  function TokenOf(row: Row<Student>): Option<string>
  {
    row.val.fcmToken
  }

  datatype PushReport = PushReport(totalStudents: nat, successful: nat, failed: nat)

  /**
   * `sendPushToAllStudents`: nothing when no student has a token;
   * otherwise one multicast per batch of 500 students, and the totals
   * of what the multicasts report.
   */
  method PushToAll(students: Table<Student>, send: seq<string> -> (nat, nat)) returns (r: Option<PushReport>)
    ensures Targets(students) == [] ==> r.None?
    ensures Targets(students) != [] ==>
              var c := SumCounts(Batches(Targets(students), BatchSize), TokenOf, send);
              r == Some(PushReport(|Targets(students)|, c.0, c.1))
  {
    var targets := Targets(students);
    if |targets| == 0 {
      return None;
    }
    var sent, failed := SendBatches(targets, TokenOf, send);
    r := Some(PushReport(|targets|, sent, failed));
  }

  // ---------------------------------------------------------------- per student

  /** `updateFcmToken`: `findByIdAndUpdate(studentId, { fcmToken })`. */
  function UpdateToken(students: Table<Student>, id: Id, token: string): (o: Outcome<(), Student>)
    ensures o.result.Failure? ==> o.table == students
    ensures !IsValidObjectId(id) ==> o.result == Failure(Internal(MsgCast))
    ensures IsValidObjectId(id) && !HasId(students, id) ==> o.result == Failure(NotFound(MsgStudentNotFound))
    ensures o.result.Success? <==> IsValidObjectId(id) && HasId(students, id)
    ensures o.result.Success? ==> o.table == Put(students, id, Find(students, id).value.(fcmToken := Some(token)))
  {
    if !IsValidObjectId(id) then Outcome(Failure(Internal(MsgCast)), students)
    else match Find(students, id)
      case None => Outcome(Failure(NotFound(MsgStudentNotFound)), students)
      case Some(s) => Outcome(Success(()), Put(students, id, s.(fcmToken := Some(token))))
  }

  /** `removeFcmToken`: sets the token to null; an unknown student is not an error. */
  function RemoveToken(students: Table<Student>, id: Id): (o: Outcome<(), Student>)
    ensures !IsValidObjectId(id) ==> o == Outcome(Failure(Internal(MsgCast)), students)
    ensures IsValidObjectId(id) ==> o.result.Success?
    ensures IsValidObjectId(id) && !HasId(students, id) ==> o.table == students
    ensures IsValidObjectId(id) && HasId(students, id) ==> o.table == Put(students, id, Find(students, id).value.(fcmToken := None))
  {
    if !IsValidObjectId(id) then Outcome(Failure(Internal(MsgCast)), students)
    else match Find(students, id)
      case None => Outcome(Success(()), students)
      case Some(s) => Outcome(Success(()), Put(students, id, s.(fcmToken := None)))
  }

  /**
   * A student who registers a token becomes a push target with that
   * token; once the token is removed, the student is no longer one.
   */
  lemma TokenMakesTarget(students: Table<Student>, id: Id, token: string)
    requires UniqueIds(students) && IsValidObjectId(id) && HasId(students, id)
    ensures var t := UpdateToken(students, id, token).table;
            Find(t, id).value.fcmToken == Some(token) && Row(id, Find(t, id).value) in Targets(t)
    ensures forall row | row in Targets(RemoveToken(students, id).table) :: row.id != id
  {
    var s := Find(students, id).value;
    FindAfterPut(students, id, s.(fcmToken := Some(token)), id);
    PutMembers(students, id, s.(fcmToken := None));
  }

  /** The settings a request supplies; a missing (or null) switch is `None`. */
  datatype SettingsPatch = SettingsPatch(enabled: Option<bool>, courses: Option<bool>, sessions: Option<bool>,
                                         banks: Option<bool>, general: Option<bool>)

  function OrTrue(b: Option<bool>): (r: bool)
    ensures r <==> b.None? || b.value
  {
    if b.Some? then b.value else true
  }

  /** Each switch is the supplied value, or on (`?? true`). */
  function ApplySettings(p: SettingsPatch): (s: Settings)
    ensures s.enabled == OrTrue(p.enabled) && s.courses == OrTrue(p.courses) && s.sessions == OrTrue(p.sessions)
    ensures s.banks == OrTrue(p.banks) && s.general == OrTrue(p.general)
  {
    Settings(OrTrue(p.enabled), OrTrue(p.courses), OrTrue(p.sessions), OrTrue(p.banks), OrTrue(p.general))
  }

  /** `updateNotificationSettings`: `$set` of the whole settings object. */
  function UpdateSettings(students: Table<Student>, id: Id, p: SettingsPatch): (o: Outcome<(), Student>)
    ensures o.result.Failure? ==> o.table == students
    ensures !IsValidObjectId(id) ==> o.result == Failure(Internal(MsgCast))
    ensures IsValidObjectId(id) && !HasId(students, id) ==> o.result == Failure(NotFound(MsgStudentNotFound))
    ensures o.result.Success? <==> IsValidObjectId(id) && HasId(students, id)
    ensures o.result.Success? ==>
              o.table == Put(students, id, Find(students, id).value.(notificationSettings := Some(ApplySettings(p))))
  {
    if !IsValidObjectId(id) then Outcome(Failure(Internal(MsgCast)), students)
    else match Find(students, id)
      case None => Outcome(Failure(NotFound(MsgStudentNotFound)), students)
      case Some(s) => Outcome(Success(()), Put(students, id, s.(notificationSettings := Some(ApplySettings(p)))))
  }

  /**
   * The whole object is replaced, so the last update decides every
   * switch: a switch turned off earlier is back on after an update that
   * does not mention it.
   */
  lemma LastSettingsUpdateWins(students: Table<Student>, id: Id, p1: SettingsPatch, p2: SettingsPatch)
    requires UniqueIds(students)
    ensures UpdateSettings(UpdateSettings(students, id, p1).table, id, p2) == UpdateSettings(students, id, p2)
  {
    if IsValidObjectId(id) && HasId(students, id) {
      var s := Find(students, id).value;
      var v1 := s.(notificationSettings := Some(ApplySettings(p1)));
      var v2 := s.(notificationSettings := Some(ApplySettings(p2)));
      FindAfterPut(students, id, v1, id);
      PutPut(students, id, v1, v2);
    }
  }

  method UpdateFcmToken(db: Db, id: Id, token: string) returns (r: Result<()>)
    modifies db`students
    ensures Outcome(r, db.students) == UpdateToken(old(db.students), id, token)
  {
    var o := UpdateToken(db.students, id, token);
    db.students := o.table;
    r := o.result;
  }

  method RemoveFcmToken(db: Db, id: Id) returns (r: Result<()>)
    modifies db`students
    ensures Outcome(r, db.students) == RemoveToken(old(db.students), id)
  {
    var o := RemoveToken(db.students, id);
    db.students := o.table;
    r := o.result;
  }

  method UpdateNotificationSettings(db: Db, id: Id, p: SettingsPatch) returns (r: Result<()>)
    modifies db`students
    ensures Outcome(r, db.students) == UpdateSettings(old(db.students), id, p)
  {
    var o := UpdateSettings(db.students, id, p);
    db.students := o.table;
    r := o.result;
  }
}

=== FILE: paging.dfy ===
/**
 * Page arithmetic shared by the notification and version listings:
 * `skip = (page - 1) * limit`, `Math.ceil(total / limit)` pages, and the
 * slice MongoDB's `.skip(skip).limit(limit)` returns.
 */
module Paging {
  import opened Wrappers

  /** The text of the error MongoDB raises for a negative skip. */
  const MsgBadPage := "the skip value must be non-negative"

  /** `Math.ceil(a / b)` for a non-zero divisor. */
  function CeilDiv(a: int, b: int): (r: int)
    requires b != 0
    ensures b > 0 ==> (r - 1) * b < a <= r * b
    ensures b < 0 ==> r * b <= a < (r - 1) * b
  {
    if b > 0 then
      var q := (-a) / b;
      assert -a == q * b + (-a) % b;
      -q
    else
      var q := a / (-b);
      assert a == q * (-b) + a % (-b);
      -q
  }

  /**
   * The page count a listing reports. A zero limit makes the JavaScript
   * quotient `Infinity` (or `NaN` when there is nothing to count), which
   * is not a number of pages: `None`.
   */
  function Pages(total: nat, limit: int): (r: Option<int>)
    ensures r.None? <==> limit == 0
    ensures limit > 0 ==> r.value >= 0 && (r.value - 1) * limit < total <= r.value * limit
  {
    if limit == 0 then None else Some(CeilDiv(total, limit))
  }

  /** With a positive limit and something to list, the pages are exactly enough. */
  lemma PagesMinimal(total: nat, limit: int)
    requires limit > 0 && total > 0
    ensures var p := Pages(total, limit).value;
            p >= 1 && p * limit >= total && (p - 1) * limit < total
  {
  }

  function Min(a: int, b: int): int { if a <= b then a else b }

  /**
   * `.skip((page - 1) * limit).limit(limit)` over documents already in
   * their sort order. MongoDB refuses a negative skip (`None`); a limit
   * of 0 means no limit, a negative one returns at most its magnitude.
   */
  function Window<T>(items: seq<T>, page: int, limit: int): (r: Option<seq<T>>)
    ensures r.None? <==> (page - 1) * limit < 0
    ensures r.Some? && limit > 0 && page >= 1 ==>
              r.value == items[Min((page - 1) * limit, |items|)..Min(page * limit, |items|)]
    ensures r.Some? && limit != 0 ==> |r.value| <= if limit > 0 then limit else -limit
    ensures r.Some? ==> forall x | x in r.value :: x in items
  {
    var skip := (page - 1) * limit;
    if skip < 0 then None
    else
      var rest := items[Min(skip, |items|)..];
      if limit == 0 then Some(rest)
      else
        var n := if limit > 0 then limit else -limit;
        Some(rest[..Min(n, |rest|)])
  }

  /** Pages 1 to n read one after another. */
  function Prefix<T>(items: seq<T>, limit: int, n: nat): seq<T>
    requires limit > 0
  {
    if n == 0 then [] else Prefix(items, limit, n - 1) + Window(items, n, limit).value
  }

  lemma {:induction false} PrefixIsPrefix<T>(items: seq<T>, limit: int, n: nat)
    requires limit > 0
    ensures Prefix(items, limit, n) == items[..Min(n * limit, |items|)]
  {
    if n > 0 {
      PrefixIsPrefix(items, limit, n - 1);
      assert (n - 1) * limit + limit == n * limit;
      var a := Min((n - 1) * limit, |items|);
      var b := Min(n * limit, |items|);
      assert items[..a] + items[a..b] == items[..b];
    }
  }

  /**
   * With a positive limit the pages from 1 to the reported count cover
   * the listing: read in order they give every document once, in order.
   */
  lemma PagesCoverListing<T>(items: seq<T>, limit: int)
    requires limit > 0
    ensures Prefix(items, limit, Pages(|items|, limit).value) == items
  {
    var p := Pages(|items|, limit).value;
    PrefixIsPrefix(items, limit, p);
    assert items[..|items|] == items;
  }

  lemma MulLe(a: int, b: int, c: int)
    requires a <= b && c > 0
    ensures a * c <= b * c
  {
    assert b * c - a * c == (b - a) * c;
  }

  /** A page after `page` is counted exactly when `page` ends before the last document. */
  lemma LaterPageExists(total: nat, limit: int, page: int)
    requires limit > 0 && page >= 1
    ensures page < Pages(total, limit).value <==> page * limit < total
  {
    var p := Pages(total, limit).value;
    if page < p { MulLe(page, p - 1, limit); } else { MulLe(p, page, limit); }
  }

  /** A page has documents exactly when its skip is short of the total. */
  lemma WindowNonEmpty<T>(items: seq<T>, page: int, limit: int)
    requires limit > 0 && page >= 1
    ensures Window(items, page, limit).value != [] <==> (page - 1) * limit < |items|
  {
    assert page * limit == (page - 1) * limit + limit;
  }

  /** A page that ends within the listing holds `limit` documents. */
  lemma FullWindow<T>(items: seq<T>, page: int, limit: int)
    requires limit > 0 && page >= 1 && page * limit <= |items|
    ensures |Window(items, page, limit).value| == limit
  {
    assert page * limit == (page - 1) * limit + limit;
  }

  /** A page before the reported count is never empty. */
  lemma PageBeforeLastIsFull<T>(items: seq<T>, limit: int, page: int)
    requires limit > 0 && 1 <= page <= Pages(|items|, limit).value
    ensures Window(items, page, limit).value != []
  {
    var p := Pages(|items|, limit).value;
    assert (page - 1) * limit <= (p - 1) * limit;
  }
}

=== FILE: payment.dfy ===
/**
 * Payment codes: an administrator issues a six-digit code for one student
 * and one paid course; the student redeems it once to enrol. The code is
 * stored as a bcrypt hash; redemption scans the unused, unexpired codes of
 * the university number for the first one whose hash matches.
 *
 * The random draw and the clock are parameters, and so is the point at
 * which a write of the enrolment fails (`Fault`).
 */
module Payments {
  import opened Wrappers
  import opened Text
  import opened Tables
  import opened Crypto
  import opened Records
  import opened Store
  import opened Accounts
  import opened Lists

  /** 24 hours in milliseconds. */
  const DayMs := 86_400_000

  const MsgAdminNotFound := "admin not found"
  const MsgCourseNotFound := "course not found"
  const MsgFreeCourse := "this course is free and needs no payment"
  const MsgStudentMismatch := "student not found or student number does not match"
  const MsgAlreadyEnrolled := "the student is already enrolled in this course"
  const MsgStudentNotFound := "student not found"
  const MsgUniversityMismatch := "university number does not match"
  const MsgRequestedCourseNotFound := "requested course not found"
  const MsgNoCodes := "no valid payment codes"
  const MsgBadCode := "payment code is wrong or expired"
  const MsgEnrolFailed := "enrolment failed, please try again"

  /** `crypto.randomInt(100000, 999999)`: the upper bound is exclusive. */
  function RawCode(draw: nat): (n: nat)
    ensures 100000 <= n <= 999998
  {
    100000 + draw % 899999
  }

  /** The pre-save hook: the code is hashed only when it was modified. */
  function CodeSaveHook(p: PaymentCode, codeModified: bool): (r: PaymentCode)
    ensures codeModified ==> BcryptCompare(p.code, r.code)
    ensures !codeModified ==> r == p
    ensures r.(code := "") == p.(code := "")
  {
    BcryptCompareHash(p.code, p.code);
    if codeModified then p.(code := BcryptHash(p.code)) else p
  }

  /** `compareCode` */
  predicate CompareCode(p: PaymentCode, candidate: string)
  {
    BcryptCompare(candidate, p.code)
  }

  function Matches(candidate: string): PaymentCode -> bool
  {
    (p: PaymentCode) => CompareCode(p, candidate)
  }

  // ---------------------------------------------------------------------
  // Issuing a code

  /**
   * The create body as joi sees it; `None` is a missing key. `joi.number()`
   * is read as an integer, and `joi.string()` refuses the empty string.
   */
  datatype CreateBody = CreateBody(universityNumber: Option<int>, courseId: Option<string>,
                                   adminName: Option<string>, studentNumber: Option<string>)

  predicate Given(v: Option<string>)
  {
    v.Some? && v.value != ""
  }

  /** `validateCreatePaymentCode`: all four keys required, `adminName` among them. */
  predicate ValidCreate(b: CreateBody)
  {
    b.universityNumber.Some? && Given(b.courseId) && Given(b.adminName) && Given(b.studentNumber)
  }

  /** The fields the service reads once the body is valid; `adminName` is not one of them. */
  datatype GenerateRequest = GenerateRequest(universityNumber: int, courseId: Id, studentNumber: string)

  function GenerateRequestOf(b: CreateBody): GenerateRequest
    requires ValidCreate(b)
  {
    GenerateRequest(b.universityNumber.value, b.courseId.value, b.studentNumber.value)
  }

  /** What the administrator is shown once: the plain code and its expiry. */
  datatype Issued = Issued(code: string, expiresAt: int, paymentCodeId: Id, adminName: string)

  function ByNumbers(universityNumber: int, studentNumber: string): Student -> bool
  {
    (s: Student) => s.universityNumber == universityNumber && s.userName == studentNumber
  }

  /**
   * The stored record: the schema trims the strings and the hook hashes the
   * code; `used` takes its default, false, and the record is bound to the
   * student found at issue time.
   */
  function NewCode(raw: string, req: GenerateRequest, studentId: Id, adminName: string, now: int): (p: PaymentCode)
    ensures !p.used && p.expiresAt == now + DayMs && p.studentId == Some(studentId)
    ensures CompareCode(p, Trim(raw))
  {
    CodeSaveHook(PaymentCode(Trim(raw), req.universityNumber, req.courseId, Some(studentId),
                             Trim(adminName), Trim(req.studentNumber), false, now + DayMs, now), true)
  }

  /**
   * `generatePaymentCode` once its body is valid: the administrator, the
   * course (which must not be free), the student with that university
   * number and user name, who must not be enrolled yet.
   */
  function Generate(codes: Table<PaymentCode>, admins: Table<Admin>, courses: Table<Course>, students: Table<Student>,
                    req: GenerateRequest, adminId: Id, draw: nat, now: int, newId: Id): (o: Outcome<Issued, PaymentCode>)
    requires !HasId(codes, newId)
    ensures o.result.Failure? ==> o.table == codes
    ensures !HasId(admins, adminId) ==> o.result == Failure(NotFound(MsgAdminNotFound))
    ensures HasId(admins, adminId) && !HasId(courses, req.courseId) ==> o.result == Failure(NotFound(MsgCourseNotFound))
    ensures (HasId(admins, adminId) && HasId(courses, req.courseId) && Find(courses, req.courseId).value.free) ==>
              o.result == Failure(BadRequest(MsgFreeCourse))
    ensures o.result.Success? <==>
              HasId(admins, adminId) && HasId(courses, req.courseId) && !Find(courses, req.courseId).value.free &&
              IndexWhere(students, ByNumbers(req.universityNumber, req.studentNumber)).Some? &&
              req.courseId !in students[IndexWhere(students, ByNumbers(req.universityNumber, req.studentNumber)).value].val.enrolledCourses
    ensures o.result.Success? ==>
              var s := students[IndexWhere(students, ByNumbers(req.universityNumber, req.studentNumber)).value];
              var admin := Find(admins, adminId).value;
              o.result.value == Issued(Decimal(RawCode(draw)), now + DayMs, newId, admin.userName) &&
              o.table == codes + [Row(newId, NewCode(Decimal(RawCode(draw)), req, s.id, admin.userName, now))]
  {
    match Find(admins, adminId)
      case None => Outcome(Failure(NotFound(MsgAdminNotFound)), codes)
      case Some(admin) =>
        match Find(courses, req.courseId)
        case None => Outcome(Failure(NotFound(MsgCourseNotFound)), codes)
        case Some(course) =>
          if course.free then Outcome(Failure(BadRequest(MsgFreeCourse)), codes)
          else match IndexWhere(students, ByNumbers(req.universityNumber, req.studentNumber))
            case None => Outcome(Failure(NotFound(MsgStudentMismatch)), codes)
            case Some(k) =>
              var s := students[k];
              if req.courseId in s.val.enrolledCourses then Outcome(Failure(BadRequest(MsgAlreadyEnrolled)), codes)
              else
                var raw := Decimal(RawCode(draw));
                Outcome(Success(Issued(raw, now + DayMs, newId, admin.userName)),
                        codes + [Row(newId, NewCode(raw, req, s.id, admin.userName, now))])
  }

  /**
   * `generatePaymentCode` from its request body: `validateCreatePaymentCode`
   * first, so a body missing any of its four keys, or with an empty string
   * in one, is `BadRequest` and stores nothing.
   */
  function GenerateCode(codes: Table<PaymentCode>, admins: Table<Admin>, courses: Table<Course>, students: Table<Student>,
                        b: CreateBody, adminId: Id, draw: nat, now: int, newId: Id): (o: Outcome<Issued, PaymentCode>)
    requires !HasId(codes, newId)
    ensures !ValidCreate(b) ==> o == Outcome(Failure(BadRequest(MsgInvalid)), codes)
    ensures ValidCreate(b) ==> o == Generate(codes, admins, courses, students, GenerateRequestOf(b), adminId, draw, now, newId)
  {
    if !ValidCreate(b) then Outcome(Failure(BadRequest(MsgInvalid)), codes)
    else Generate(codes, admins, courses, students, GenerateRequestOf(b), adminId, draw, now, newId)
  }

  /** A body without one of the four keys the create validator requires is refused before any lookup. */
  lemma CreateNeedsEveryKey(codes: Table<PaymentCode>, admins: Table<Admin>, courses: Table<Course>, students: Table<Student>,
                            b: CreateBody, adminId: Id, draw: nat, now: int, newId: Id)
    requires !HasId(codes, newId)
    requires b.universityNumber.None? || b.courseId.None? || b.adminName.None? || b.studentNumber.None?
    ensures GenerateCode(codes, admins, courses, students, b, adminId, draw, now, newId) ==
            Outcome(Failure(BadRequest(MsgInvalid)), codes)
  {
  }

  /**
   * The create validator requires `adminName`, but the service never reads
   * it: any other non-empty name gives the same outcome, and the code is
   * recorded under the logged-in administrator's user name.
   */
  lemma AdminNameIgnored(codes: Table<PaymentCode>, admins: Table<Admin>, courses: Table<Course>, students: Table<Student>,
                         b: CreateBody, name: string, adminId: Id, draw: nat, now: int, newId: Id)
    requires !HasId(codes, newId) && ValidCreate(b) && name != ""
    ensures GenerateCode(codes, admins, courses, students, b.(adminName := Some(name)), adminId, draw, now, newId) ==
            GenerateCode(codes, admins, courses, students, b, adminId, draw, now, newId)
    ensures GenerateCode(codes, admins, courses, students, b, adminId, draw, now, newId).result.Success? ==>
              GenerateCode(codes, admins, courses, students, b, adminId, draw, now, newId).result.value.adminName ==
              Find(admins, adminId).value.userName
  {
    assert GenerateRequestOf(b.(adminName := Some(name))) == GenerateRequestOf(b);
  }

  /** The code handed out is six digits long and is the only text the stored hash accepts. */
  lemma IssuedCodeShape(draw: nat, req: GenerateRequest, studentId: Id, adminName: string, now: int, candidate: string)
    ensures |Decimal(RawCode(draw))| == 6 && AllDigits(Decimal(RawCode(draw)))
    ensures CompareCode(NewCode(Decimal(RawCode(draw)), req, studentId, adminName, now), candidate) <==>
            candidate == Decimal(RawCode(draw))
  {
    var raw := Decimal(RawCode(draw));
    SixDigits(RawCode(draw));
    DigitsTrimmed(raw);
    BcryptCompareHash(raw, candidate);
    Utf8Ascii(raw);
    KeyExactWithin(raw, candidate);
  }

  lemma SixDigits(n: nat)
    requires 100000 <= n <= 999999
    ensures |Decimal(n)| == 6
  {
    var n1 := n / 10;
    var n2 := n1 / 10;
    var n3 := n2 / 10;
    var n4 := n3 / 10;
    var n5 := n4 / 10;
    assert 10 <= n4 && n5 < 10;
    DecimalLength(n);
    DecimalLength(n1);
    DecimalLength(n2);
    DecimalLength(n3);
    DecimalLength(n4);
  }

  lemma DecimalLength(n: nat)
    requires n >= 10
    ensures |Decimal(n)| == |Decimal(n / 10)| + 1
  {
  }

  // ---------------------------------------------------------------------
  // Redeeming a code

  /** The redemption body as joi sees it; `None` is a missing key. */
  datatype UseBody = UseBody(code: Option<string>, universityNumber: Option<int>, studentId: Option<string>, courseId: Option<string>)

  /** `validateUsePaymentCode`: code, university number, student and course all required. */
  predicate ValidUse(b: UseBody)
  {
    Given(b.code) && b.universityNumber.Some? && Given(b.studentId) && Given(b.courseId)
  }

  datatype RedeemRequest = RedeemRequest(code: string, universityNumber: int, studentId: Id, courseId: Id)

  function RedeemRequestOf(b: UseBody): RedeemRequest
    requires ValidUse(b)
  {
    RedeemRequest(b.code.value, b.universityNumber.value, b.studentId.value, b.courseId.value)
  }

  /** The four collections redemption writes to. */
  datatype Ledger = Ledger(codes: Table<PaymentCode>, enrollments: Table<Enrollment>,
                           students: Table<Student>, courses: Table<Course>)

  /** Which write of the enrolment throws, if any. */
  datatype Fault = NoFault | SaveFails | EnrollmentFails | StudentUpdateFails | CourseUpdateFails

  /** The result (the issuing administrator's name on success) and the collections afterwards. */
  datatype Redeemed = Redeemed(result: Result<string>, ledger: Ledger)

  /** A code that can still be redeemed: same university number, unused, expiring strictly after `now`. */
  function Open(universityNumber: int, now: int): PaymentCode -> bool
  {
    (p: PaymentCode) => p.universityNumber == universityNumber && !p.used && p.expiresAt > now
  }

  function Candidates(codes: Table<PaymentCode>, universityNumber: int, now: int): Table<PaymentCode>
  {
    Where(codes, Open(universityNumber, now))
  }

  /** The compensating write: the code is unused and unbound again. */
  function Reverted(codes: Table<PaymentCode>, row: Row<PaymentCode>): (r: Table<PaymentCode>)
    ensures forall x | x in r && x.id == row.id :: !x.val.used && x.val.studentId.None?
  {
    PutMembers(codes, row.id, row.val.(used := false, studentId := None));
    Put(codes, row.id, row.val.(used := false, studentId := None))
  }

  /**
   * The writes after the checks, each persisted as soon as it is made: the
   * code marked used (a save that does not touch `code`), an enrolment
   * record holding the submitted code as typed and the time, the course added to the student's list and the student to the
   * course's, both with set semantics. A failing write reverts the code
   * and leaves the earlier writes in place.
   */
  function Enrol(l: Ledger, row: Row<PaymentCode>, s: Student, c: Course, req: RedeemRequest, now: int,
                 fault: Fault, enrollmentId: Id): (o: Redeemed)
    ensures o.result.Success? <==> fault == NoFault
    ensures o.result.Failure? ==> o.result.error == BadRequest(MsgEnrolFailed)
  {
    var marked := Put(l.codes, row.id, CodeSaveHook(row.val.(used := true, studentId := Some(req.studentId)), false));
    var enrolments := l.enrollments + [Row(enrollmentId, Enrollment(req.studentId, req.courseId, req.code, now, row.val.adminName))];
    var students := Put(l.students, req.studentId, s.(enrolledCourses := AddToSet(s.enrolledCourses, req.courseId)));
    var courses := Put(l.courses, req.courseId, c.(students := AddToSet(c.students, req.studentId)));
    var failed := Failure(BadRequest(MsgEnrolFailed));
    match fault
    case NoFault => Redeemed(Success(row.val.adminName), Ledger(marked, enrolments, students, courses))
    case SaveFails => Redeemed(failed, Ledger(Reverted(l.codes, row), l.enrollments, l.students, l.courses))
    case EnrollmentFails => Redeemed(failed, Ledger(Reverted(marked, row), l.enrollments, l.students, l.courses))
    case StudentUpdateFails => Redeemed(failed, Ledger(Reverted(marked, row), enrolments, l.students, l.courses))
    case CourseUpdateFails => Redeemed(failed, Ledger(Reverted(marked, row), enrolments, students, l.courses))
  }

  /**
   * `verifyPaymentCode` once its body is valid: the student must exist
   * and carry the university number, the course must exist, there must be
   * open codes for the number, the first open code whose hash matches is chosen, and it must
   * be for that course and that student's user name, who must not be
   * enrolled yet.
   */
  function Redeem(l: Ledger, req: RedeemRequest, now: int, fault: Fault, enrollmentId: Id): (o: Redeemed)
    ensures o.result.Success? ==> fault == NoFault
    ensures o.result.Failure? && o.result.error != BadRequest(MsgEnrolFailed) ==> o.ledger == l
  {
    match Find(l.students, req.studentId)
      case None => Redeemed(Failure(NotFound(MsgStudentNotFound)), l)
      case Some(s) =>
        if s.universityNumber != req.universityNumber then Redeemed(Failure(BadRequest(MsgUniversityMismatch)), l)
        else match Find(l.courses, req.courseId)
          case None => Redeemed(Failure(NotFound(MsgRequestedCourseNotFound)), l)
          case Some(c) =>
            var cands := Candidates(l.codes, req.universityNumber, now);
            if |cands| == 0 then Redeemed(Failure(NotFound(MsgNoCodes)), l)
            else match IndexWhere(cands, Matches(req.code))
              case None => Redeemed(Failure(BadRequest(MsgBadCode)), l)
              case Some(k) =>
                var row := cands[k];
                if row.val.courseId != req.courseId || row.val.studentNumber != s.userName then
                  Redeemed(Failure(BadRequest(MsgBadCode)), l)
                else if req.courseId in s.enrolledCourses then Redeemed(Failure(BadRequest(MsgAlreadyEnrolled)), l)
                else Enrol(l, row, s, c, req, now, fault, enrollmentId)
  }

  /**
   * `verifyPaymentCode` from its request body: `validateUsePaymentCode`
   * first, so a body missing any of its four keys, or with an empty string
   * in one, is `BadRequest` and changes nothing.
   */
  function VerifyPayment(l: Ledger, b: UseBody, now: int, fault: Fault, enrollmentId: Id): (o: Redeemed)
    ensures !ValidUse(b) ==> o == Redeemed(Failure(BadRequest(MsgInvalid)), l)
    ensures ValidUse(b) ==> o == Redeem(l, RedeemRequestOf(b), now, fault, enrollmentId)
  {
    if !ValidUse(b) then Redeemed(Failure(BadRequest(MsgInvalid)), l)
    else Redeem(l, RedeemRequestOf(b), now, fault, enrollmentId)
  }

  /** A body without one of the four keys the redemption validator requires is refused before any lookup. */
  lemma UseNeedsEveryKey(l: Ledger, b: UseBody, now: int, fault: Fault, enrollmentId: Id)
    requires b.code.None? || b.universityNumber.None? || b.studentId.None? || b.courseId.None?
    ensures VerifyPayment(l, b, now, fault, enrollmentId) == Redeemed(Failure(BadRequest(MsgInvalid)), l)
  {
  }

  /** The `for … of` scan with `break`: the first candidate whose hash matches. */
  method FirstMatch(cands: Table<PaymentCode>, code: string) returns (k: Option<nat>)
    ensures k == IndexWhere(cands, Matches(code))
    ensures k.Some? ==> k.value < |cands| && CompareCode(cands[k.value].val, code)
  {
    var i := 0;
    while i < |cands|
      invariant 0 <= i <= |cands|
      invariant forall j | 0 <= j < i :: !Matches(code)(cands[j].val)
    {
      if CompareCode(cands[i].val, code) {
        FirstIs(cands, Matches(code), i);
        return Some(i);
      }
      i := i + 1;
    }
    return None;
  }

  /** The code a request selects: the first open code of the number whose hash matches. */
  function Chosen(l: Ledger, req: RedeemRequest, now: int): (r: Option<Row<PaymentCode>>)
    ensures r.Some? ==> r.value in l.codes && CompareCode(r.value.val, req.code) && Open(req.universityNumber, now)(r.value.val)
  {
    var cands := Candidates(l.codes, req.universityNumber, now);
    match IndexWhere(cands, Matches(req.code))
    case None => None
    case Some(k) => Some(cands[k])
  }

  /** Once every check has passed, the outcome is that of the writes, for every fault. */
  lemma RedeemIsEnrol(l: Ledger, req: RedeemRequest, now: int, fault: Fault, enrollmentId: Id)
    requires Redeem(l, req, now, NoFault, enrollmentId).result.Success?
    ensures HasId(l.students, req.studentId) && HasId(l.courses, req.courseId) && Chosen(l, req, now).Some?
    ensures var s := Find(l.students, req.studentId).value;
            var row := Chosen(l, req, now).value;
            req.courseId !in s.enrolledCourses && row.val.courseId == req.courseId &&
            Redeem(l, req, now, fault, enrollmentId) ==
            Enrol(l, row, s, Find(l.courses, req.courseId).value, req, now, fault, enrollmentId)
  {
  }

  /** A successful redemption marks the chosen code used and bound to the student, and enrols the student. */
  lemma RedeemSuccess(l: Ledger, req: RedeemRequest, now: int, enrollmentId: Id)
    requires UniqueIds(l.codes) && UniqueIds(l.students) && UniqueIds(l.courses)
    requires Redeem(l, req, now, NoFault, enrollmentId).result.Success?
    ensures Chosen(l, req, now).Some?
    ensures var o := Redeem(l, req, now, NoFault, enrollmentId).ledger;
            var row := Chosen(l, req, now).value;
            Find(o.codes, row.id) == Some(row.val.(used := true, studentId := Some(req.studentId))) &&
            Find(o.students, req.studentId).Some? && req.courseId in Find(o.students, req.studentId).value.enrolledCourses &&
            Find(o.courses, req.courseId).Some? && req.studentId in Find(o.courses, req.courseId).value.students &&
            o.enrollments == l.enrollments + [Row(enrollmentId, Enrollment(req.studentId, req.courseId, req.code, now, row.val.adminName))]
  {
    RedeemIsEnrol(l, req, now, NoFault, enrollmentId);
    var row := Chosen(l, req, now).value;
    assert row in l.codes;
    assert Find(l.codes, row.id) == Some(row.val) by { HasIdIn(l.codes, row.id); }
    var s := Find(l.students, req.studentId).value;
    var c := Find(l.courses, req.courseId).value;
    FindAfterPut(l.codes, row.id, row.val.(used := true, studentId := Some(req.studentId)), row.id);
    FindAfterPut(l.students, req.studentId, s.(enrolledCourses := AddToSet(s.enrolledCourses, req.courseId)), req.studentId);
    FindAfterPut(l.courses, req.courseId, c.(students := AddToSet(c.students, req.studentId)), req.courseId);
  }

  /** A student already enrolled in the course cannot redeem any code for it. */
  lemma RedeemRefusesEnrolled(l: Ledger, req: RedeemRequest, now: int, fault: Fault, enrollmentId: Id)
    requires HasId(l.students, req.studentId) && req.courseId in Find(l.students, req.studentId).value.enrolledCourses
    ensures Redeem(l, req, now, fault, enrollmentId).result.Failure?
    ensures Redeem(l, req, now, fault, enrollmentId).ledger == l
  {
  }

  /**
   * The same request cannot enrol twice: after a success, every further
   * redemption by the student for the course fails, whatever the code,
   * and changes nothing.
   */
  lemma RedeemOnce(l: Ledger, req: RedeemRequest, now: int, enrollmentId: Id, code: string, later: int, fault: Fault, nextId: Id)
    requires UniqueIds(l.codes) && UniqueIds(l.students) && UniqueIds(l.courses)
    requires Redeem(l, req, now, NoFault, enrollmentId).result.Success?
    ensures var o := Redeem(l, req, now, NoFault, enrollmentId).ledger;
            Redeem(o, req.(code := code), later, fault, nextId) == Redeemed(Redeem(o, req.(code := code), later, fault, nextId).result, o) &&
            Redeem(o, req.(code := code), later, fault, nextId).result.Failure?
  {
    RedeemSuccess(l, req, now, enrollmentId);
    var o := Redeem(l, req, now, NoFault, enrollmentId).ledger;
    RedeemRefusesEnrolled(o, req.(code := code), later, fault, nextId);
  }

  /** A successful redemption keeps the two sides of every enrolment in agreement. */
  lemma RedeemKeepsPaired(l: Ledger, req: RedeemRequest, now: int, enrollmentId: Id)
    requires UniqueIds(l.students) && UniqueIds(l.courses) && Paired(l.students, l.courses)
    requires Redeem(l, req, now, NoFault, enrollmentId).result.Success?
    ensures var o := Redeem(l, req, now, NoFault, enrollmentId).ledger;
            Paired(o.students, o.courses)
  {
    RedeemIsEnrol(l, req, now, NoFault, enrollmentId);
    var o := Redeem(l, req, now, NoFault, enrollmentId).ledger;
    var s := Find(l.students, req.studentId).value;
    var c := Find(l.courses, req.courseId).value;
    var s' := s.(enrolledCourses := AddToSet(s.enrolledCourses, req.courseId));
    var c' := c.(students := AddToSet(c.students, req.studentId));
    assert o.students == Put(l.students, req.studentId, s') && o.courses == Put(l.courses, req.courseId, c');
    PutMembers(l.students, req.studentId, s');
    PutMembers(l.courses, req.courseId, c');
    assert Row(req.studentId, s) in l.students;
    assert Row(req.courseId, c) in l.courses;
    forall rs, rc | rs in o.students && rc in o.courses
      ensures rc.id in rs.val.enrolledCourses <==> rs.id in rc.val.students
    {
      if rs.id == req.studentId && rc.id != req.courseId {
        assert rc in l.courses;
      } else if rs.id != req.studentId && rc.id == req.courseId {
        assert rs in l.students;
      }
    }
  }

  /**
   * The revert resets only the code: when the course update throws, the
   * enrolment record and the student's side stay, the course's side is
   * missing, and the chosen code is unused and unbound again, open to be
   * redeemed a second time.
   */
  lemma CourseFaultLeavesHalfEnrolment(l: Ledger, req: RedeemRequest, now: int, enrollmentId: Id)
    requires UniqueIds(l.students) && Paired(l.students, l.courses)
    requires Redeem(l, req, now, NoFault, enrollmentId).result.Success?
    ensures Chosen(l, req, now).Some?
    ensures var o := Redeem(l, req, now, CourseUpdateFails, enrollmentId);
            var row := Chosen(l, req, now).value;
            o.result == Failure(BadRequest(MsgEnrolFailed)) &&
            (forall x | x in o.ledger.codes && x.id == row.id :: !x.val.used && x.val.studentId.None?) &&
            Find(o.ledger.students, req.studentId).Some? &&
            req.courseId in Find(o.ledger.students, req.studentId).value.enrolledCourses &&
            !Paired(o.ledger.students, o.ledger.courses)
  {
    RedeemIsEnrol(l, req, now, CourseUpdateFails, enrollmentId);
    var s := Find(l.students, req.studentId).value;
    var c := Find(l.courses, req.courseId).value;
    var o := Enrol(l, Chosen(l, req, now).value, s, c, req, now, CourseUpdateFails, enrollmentId);
    assert o.ledger.students == Put(l.students, req.studentId, s.(enrolledCourses := AddToSet(s.enrolledCourses, req.courseId)));
    assert o.ledger.courses == l.courses;
    StudentSideOnly(l.students, l.courses, req.studentId, req.courseId, s, c);
  }

  /** Recording the course on the student alone breaks the pairing. */
  lemma StudentSideOnly(students: Table<Student>, courses: Table<Course>, sid: Id, cid: Id, s: Student, c: Course)
    requires UniqueIds(students) && Paired(students, courses)
    requires Find(students, sid) == Some(s) && Find(courses, cid) == Some(c) && cid !in s.enrolledCourses
    ensures var st := Put(students, sid, s.(enrolledCourses := AddToSet(s.enrolledCourses, cid)));
            cid in Find(st, sid).value.enrolledCourses && !Paired(st, courses)
  {
    var s' := s.(enrolledCourses := AddToSet(s.enrolledCourses, cid));
    var st := Put(students, sid, s');
    assert Row(sid, s) in students && Row(cid, c) in courses;
    assert sid !in c.students;
    FindAfterPut(students, sid, s', sid);
    assert Row(sid, s') in st;
  }

  /**
   * `verifyPaymentCode` on the database: the checks, the scan for the
   * first matching code, then the writes in order, with the revert when
   * one of them throws.
   */
  method VerifyPaymentCode(db: Db, b: UseBody, now: int, fault: Fault, enrollmentId: Id)
    returns (r: Result<string>)
    modifies db`paymentCodes, db`enrollments, db`students, db`courses
    ensures Redeemed(r, Ledger(db.paymentCodes, db.enrollments, db.students, db.courses)) ==
            VerifyPayment(old(Ledger(db.paymentCodes, db.enrollments, db.students, db.courses)), b, now, fault, enrollmentId)
  {
    if !ValidUse(b) { return Failure(BadRequest(MsgInvalid)); }
    var req := RedeemRequestOf(b);
    var student := Find(db.students, req.studentId);
    if student.None? { return Failure(NotFound(MsgStudentNotFound)); }
    var s := student.value;
    if s.universityNumber != req.universityNumber { return Failure(BadRequest(MsgUniversityMismatch)); }
    var course := Find(db.courses, req.courseId);
    if course.None? { return Failure(NotFound(MsgRequestedCourseNotFound)); }
    var c := course.value;
    var cands := Candidates(db.paymentCodes, req.universityNumber, now);
    if |cands| == 0 { return Failure(NotFound(MsgNoCodes)); }
    var k := FirstMatch(cands, req.code);
    if k.None? { return Failure(BadRequest(MsgBadCode)); }
    var row := cands[k.value];
    if row.val.courseId != req.courseId || row.val.studentNumber != s.userName { return Failure(BadRequest(MsgBadCode)); }
    if req.courseId in s.enrolledCourses { return Failure(BadRequest(MsgAlreadyEnrolled)); }
    r := EnrolWrites(db, row, s, c, req, now, fault, enrollmentId);
  }

  /** The writes of `verifyPaymentCode` after its checks, in their order, stopping at the failing one. */
  method EnrolWrites(db: Db, row: Row<PaymentCode>, s: Student, c: Course, req: RedeemRequest, now: int, fault: Fault, enrollmentId: Id)
    returns (r: Result<string>)
    modifies db`paymentCodes, db`enrollments, db`students, db`courses
    ensures Redeemed(r, Ledger(db.paymentCodes, db.enrollments, db.students, db.courses)) ==
            Enrol(old(Ledger(db.paymentCodes, db.enrollments, db.students, db.courses)), row, s, c, req, now, fault, enrollmentId)
  {
    r := Failure(BadRequest(MsgEnrolFailed));
    if fault == SaveFails {
      db.paymentCodes := Reverted(db.paymentCodes, row);
      return;
    }
    db.paymentCodes := Put(db.paymentCodes, row.id, CodeSaveHook(row.val.(used := true, studentId := Some(req.studentId)), false));
    if fault == EnrollmentFails {
      db.paymentCodes := Reverted(db.paymentCodes, row);
      return;
    }
    db.enrollments := db.enrollments + [Row(enrollmentId, Enrollment(req.studentId, req.courseId, req.code, now, row.val.adminName))];
    if fault == StudentUpdateFails {
      db.paymentCodes := Reverted(db.paymentCodes, row);
      return;
    }
    db.students := Put(db.students, req.studentId, s.(enrolledCourses := AddToSet(s.enrolledCourses, req.courseId)));
    if fault == CourseUpdateFails {
      db.paymentCodes := Reverted(db.paymentCodes, row);
      return;
    }
    db.courses := Put(db.courses, req.courseId, c.(students := AddToSet(c.students, req.studentId)));
    r := Success(row.val.adminName);
  }

  method GeneratePaymentCode(db: Db, b: CreateBody, adminId: Id, draw: nat, now: int, newId: Id)
    returns (r: Result<Issued>)
    requires !HasId(db.paymentCodes, newId)
    modifies db`paymentCodes
    ensures Outcome(r, db.paymentCodes) ==
            GenerateCode(old(db.paymentCodes), db.admins, db.courses, db.students, b, adminId, draw, now, newId)
  {
    var o := GenerateCode(db.paymentCodes, db.admins, db.courses, db.students, b, adminId, draw, now, newId);
    db.paymentCodes := o.table;
    r := o.result;
  }

  // ---------------------------------------------------------------------
  // Expiry and the administrator's counts

  /** The TTL index (`expires: 0`): a record is removed once its `expiresAt` has passed. */
  function Sweep(codes: Table<PaymentCode>, now: int): (r: Table<PaymentCode>)
    ensures forall x | x in r :: x.val.expiresAt >= now
  {
    Where(codes, (p: PaymentCode) => p.expiresAt >= now)
  }

  /** Removing expired records never changes which codes can be redeemed, at that time or later. */
  lemma SweepKeepsCandidates(codes: Table<PaymentCode>, swept: int, now: int, universityNumber: int)
    requires swept <= now
    ensures Candidates(Sweep(codes, swept), universityNumber, now) == Candidates(codes, universityNumber, now)
  {
    WhereWhere(codes, (p: PaymentCode) => p.expiresAt >= swept, Open(universityNumber, now));
  }

  datatype CodeCounts = CodeCounts(totalCodes: nat, usedCodes: nat, activeCodes: nat)

  function ByAdmin(adminName: string): PaymentCode -> bool
  {
    (p: PaymentCode) => p.adminName == adminName
  }

  function IsUsed(): PaymentCode -> bool
  {
    (p: PaymentCode) => p.used
  }

  function IsActive(now: int): PaymentCode -> bool
  {
    (p: PaymentCode) => !p.used && p.expiresAt > now
  }

  /** The counts of `getPaymentCodesByAdmin`. */
  function Counts(codes: Table<PaymentCode>, adminName: string, now: int): (c: CodeCounts)
    ensures c.usedCodes + c.activeCodes <= c.totalCodes
    ensures c.totalCodes <= |codes|
  {
    var mine := Where(codes, ByAdmin(adminName));
    WhereDisjoint(mine, IsUsed(), IsActive(now));
    CodeCounts(|mine|, |Where(mine, IsUsed())|, |Where(mine, IsActive(now))|)
  }
}

=== FILE: playlist.dfy ===
/**
 * The media-playlist rewrite of the HLS gateway. Two global regular
 * expression replacements run one after the other over the manifest text:
 *
 *  1. pattern `^(.*\.ts)\s*$` (flags g, m): every line whose content, without trailing
 *     whitespace, ends in `.ts` becomes a gateway segment URL carrying the
 *     token (RFC 8216 section 4.1 calls such lines URI lines);
 *  2. pattern `#EXT-X-KEY:METHOD=AES-128,[^\n]*` (flag g): every AES-128 key tag
 *     (RFC 8216 section 4.3.2.4) is replaced, up to the next line feed, by a
 *     tag whose URI is the gateway's key endpoint with the same token.
 *
 * Both are modelled character by character with ECMAScript semantics
 * (`^`/`$` under the `m` flag, `.` excluding line terminators, greedy `\s*`
 * that may run across line breaks and backtrack to the last place `$` can
 * stand). The first replacement is a function, so its result is inserted as
 * is; the second is a string, whose `$` patterns are expanded. A line-level view is then proved equal to it on manifests in which
 * no segment line is followed by a blank line.
 */
module Playlist {
  import opened Text

  const KeyTag := "#EXT-X-KEY:METHOD=AES-128,"

  /** The path every rewritten segment line starts with. */
  function SegmentPrefix(courseId: string, sessionId: string): string
  {
    "/api/hackit/hls/segment/" + courseId + "/" + sessionId + "/"
  }

  /** The query every rewritten URI ends with; `encodedToken` is already percent-encoded. */
  function TokenQuery(encodedToken: string): string
  {
    "?hlsToken=" + encodedToken
  }

  /** The replacement for an AES-128 key tag. */
  function KeyLine(courseId: string, sessionId: string, encodedToken: string): string
  {
    KeyTag + "URI=\"/api/hackit/hls/key/" + courseId + "/" + sessionId + TokenQuery(encodedToken) + "\""
  }

  predicate NoLineBreak(s: string) { forall i | 0 <= i < |s| :: !IsLineTerminator(s[i]) }

  /** Length of the line at the front of `t`: everything before the first line terminator. */
  function LineLength(t: string): (n: nat)
    ensures n <= |t| && NoLineBreak(t[..n])
    ensures n < |t| ==> IsLineTerminator(t[n])
  {
    if |t| == 0 || IsLineTerminator(t[0]) then 0
    else
      var m := LineLength(t[1..]);
      assert t[..m + 1] == [t[0]] + t[1..][..m];
      m + 1
  }

  /** Length of the run of whitespace (line terminators included) at the front of `t`. */
  function SpaceRun(t: string): (n: nat)
    ensures n <= |t| && AllSpace(t[..n])
    ensures n < |t| ==> !IsSpace(t[n])
  {
    if |t| == 0 || !IsSpace(t[0]) then 0
    else
      var m := SpaceRun(t[1..]);
      assert t[..m + 1] == [t[0]] + t[1..][..m];
      m + 1
  }

  /** A line the segment expression matches: without trailing whitespace it ends in `.ts`. */
  predicate IsSegmentLine(line: string)
  {
    EndsWith(TrimEnd(line), ".ts")
  }

  /** Positions where a multiline `$` holds: the end of input or just before a line terminator. */
  predicate LineEndAt(t: string, j: nat)
    requires j <= |t|
  {
    j == |t| || IsLineTerminator(t[j])
  }

  /** The greedy `\s*` backtracks from `j` to the last position at or after `e` where `$` holds. */
  function BackToLineEnd(t: string, e: nat, j: nat): (r: nat)
    requires e <= j <= |t| && LineEndAt(t, e)
    ensures e <= r <= j && LineEndAt(t, r)
    decreases j
  {
    if LineEndAt(t, j) then j else BackToLineEnd(t, e, j - 1)
  }

  /** End of the match of `^(.*\.ts)\s*$` that starts at the front of `t`. */
  function SegmentMatchEnd(t: string): (n: nat)
    requires IsSegmentLine(t[..LineLength(t)])
    ensures 3 <= LineLength(t) <= n <= |t|
  {
    var e := LineLength(t);
    BackToLineEnd(t, e, e + SpaceRun(t[e..]))
  }

  /**
   * Replaces each segment match `m` by `prefix + m.trim() + query`, from a
   * position where `^` holds exactly when `atLineStart`.
   */
  function RewriteSegments(t: string, atLineStart: bool, prefix: string, query: string): string
    decreases |t|
  {
    if |t| == 0 then ""
    else if atLineStart && IsSegmentLine(t[..LineLength(t)]) then
      var end := SegmentMatchEnd(t);
      prefix + Trim(t[..end]) + query + RewriteSegments(t[end..], IsLineTerminator(t[end - 1]), prefix, query)
    else [t[0]] + RewriteSegments(t[1..], IsLineTerminator(t[0]), prefix, query)
  }

  /** Index of the first line feed, or the length when there is none. */
  function LineFeedIndex(t: string): (n: nat)
    ensures n <= |t| && (forall i | 0 <= i < n :: t[i] != '\n')
    ensures n < |t| ==> t[n] == '\n'
  {
    if |t| == 0 || t[0] == '\n' then 0 else LineFeedIndex(t[1..]) + 1
  }

  /** Where the match of the key pattern starting at a key tag ends: at the next line feed. */
  function KeyMatchEnd(t: string): (n: nat)
    requires StartsWith(t, KeyTag)
    ensures |KeyTag| <= n <= |t| && n == LineFeedIndex(t)
  {
    var n := LineFeedIndex(t);
    assert forall i | 0 <= i < |KeyTag| :: t[i] != '\n' by {
      forall i | 0 <= i < |KeyTag| ensures t[i] != '\n' {
        assert t[i] == t[..|KeyTag|][i] == KeyTag[i];
      }
    }
    n
  }

  predicate NoDollar(s: string) { forall i | 0 <= i < |s| :: s[i] != '$' }

  /**
   * GetSubstitution (section 22.1.3.19.1 of ECMA-262) for a pattern with no
   * capture groups: `$$` is a dollar sign, `$&` the matched text, `` $` ``
   * the text before the match and `$'` the text after it; every other `$`
   * (`$1`, `$<` and the rest refer to groups the pattern does not have)
   * stays as written.
   */
  function Expand(template: string, matched: string, before: string, after: string): string
  {
    if |template| == 0 then ""
    else if template[0] == '$' && |template| >= 2 && template[1] in "$&`'" then
      (if template[1] == '$' then "$" else if template[1] == '&' then matched
       else if template[1] == '`' then before else after)
      + Expand(template[2..], matched, before, after)
    else [template[0]] + Expand(template[1..], matched, before, after)
  }

  /**
   * The global replacement of the key pattern by the string `template`,
   * over the part `t` of the text still to be scanned, `before` being the
   * part already scanned: each key tag and the rest of its line (up to a line feed) is
   * replaced by the template with its `$` patterns expanded.
   */
  function RewriteKeys(t: string, before: string, template: string): string
    decreases |t|
  {
    if |t| == 0 then ""
    else if StartsWith(t, KeyTag) then
      var n := KeyMatchEnd(t);
      Expand(template, t[..n], before, t[n..]) + RewriteKeys(t[n..], before + t[..n], template)
    else [t[0]] + RewriteKeys(t[1..], before + [t[0]], template)
  }

  /** The same replacement with `keyLine` inserted as written, as it is when it holds no `$`. */
  function ReplaceKeyTags(t: string, keyLine: string): string
    decreases |t|
  {
    if |t| == 0 then ""
    else if StartsWith(t, KeyTag) then
      var n := KeyMatchEnd(t);
      keyLine + ReplaceKeyTags(t[n..], keyLine)
    else [t[0]] + ReplaceKeyTags(t[1..], keyLine)
  }

  /** A template without `$` expands to itself. */
  lemma {:induction false} ExpandLiteral(template: string, matched: string, before: string, after: string)
    requires NoDollar(template)
    ensures Expand(template, matched, before, after) == template
    decreases |template|
  {
    if |template| > 0 {
      ExpandLiteral(template[1..], matched, before, after);
      assert template == [template[0]] + template[1..];
    }
  }

  /** `$&` in a template stands for the matched text, so a replacement holding it is not inserted as written. */
  lemma DollarAmpersandExpands(matched: string, before: string, after: string)
    ensures Expand("$&", matched, before, after) == matched
  {
    assert "$&"[2..] == "";
  }

  /** With a template holding no `$`, the key pass inserts the template as written. */
  lemma {:induction false} KeysLiteral(t: string, before: string, template: string)
    requires NoDollar(template)
    ensures RewriteKeys(t, before, template) == ReplaceKeyTags(t, template)
    decreases |t|
  {
    if |t| > 0 {
      if StartsWith(t, KeyTag) {
        var n := KeyMatchEnd(t);
        ExpandLiteral(template, t[..n], before, t[n..]);
        KeysLiteral(t[n..], before + t[..n], template);
      } else {
        KeysLiteral(t[1..], before + [t[0]], template);
      }
    }
  }

  /** The gateway's key tag holds no `$` when the ids and the encoded token hold none. */
  lemma KeyLineNoDollar(courseId: string, sessionId: string, encodedToken: string)
    requires NoDollar(courseId) && NoDollar(sessionId) && NoDollar(encodedToken)
    ensures NoDollar(KeyLine(courseId, sessionId, encodedToken))
  {
    assert NoDollar(KeyTag + "URI=\"/api/hackit/hls/key/");
    assert NoDollar("?hlsToken=");
  }

  /** The manifest as the gateway returns it. */
  function RewritePlaylist(text: string, courseId: string, sessionId: string, encodedToken: string): string
  {
    RewriteKeys(RewriteSegments(text, true, SegmentPrefix(courseId, sessionId), TokenQuery(encodedToken)), "",
                KeyLine(courseId, sessionId, encodedToken))
  }

  // ----- The line-level view -----

  predicate IsKeyLine(line: string) { StartsWith(line, KeyTag) }

  /** What one line of a well-formed manifest becomes. */
  function RewriteLine(line: string, courseId: string, sessionId: string, encodedToken: string): (r: string)
    ensures IsSegmentLine(line) ==> StartsWith(r, SegmentPrefix(courseId, sessionId)) && EndsWith(r, TokenQuery(encodedToken))
    ensures !IsSegmentLine(line) && IsKeyLine(line) ==> r == KeyLine(courseId, sessionId, encodedToken)
    ensures !IsSegmentLine(line) && !IsKeyLine(line) ==> r == line
  {
    if IsSegmentLine(line) then SegmentPrefix(courseId, sessionId) + Trim(line) + TokenQuery(encodedToken)
    else if IsKeyLine(line) then KeyLine(courseId, sessionId, encodedToken)
    else line
  }

  function RewriteLines(lines: seq<string>, courseId: string, sessionId: string, encodedToken: string): (r: seq<string>)
    ensures |r| == |lines|
    ensures forall i | 0 <= i < |lines| :: r[i] == RewriteLine(lines[i], courseId, sessionId, encodedToken)
  {
    if |lines| == 0 then [] else [RewriteLine(lines[0], courseId, sessionId, encodedToken)] + RewriteLines(lines[1..], courseId, sessionId, encodedToken)
  }

  function SegmentLine(line: string, prefix: string, query: string): string
  {
    if IsSegmentLine(line) then prefix + Trim(line) + query else line
  }

  function SegmentLines(lines: seq<string>, prefix: string, query: string): (r: seq<string>)
    ensures |r| == |lines|
    ensures forall i | 0 <= i < |lines| :: r[i] == SegmentLine(lines[i], prefix, query)
  {
    if |lines| == 0 then [] else [SegmentLine(lines[0], prefix, query)] + SegmentLines(lines[1..], prefix, query)
  }

  function KeyLineOf(line: string, keyLine: string): string
  {
    if IsKeyLine(line) then keyLine else line
  }

  function KeyLines(lines: seq<string>, keyLine: string): (r: seq<string>)
    ensures |r| == |lines|
    ensures forall i | 0 <= i < |lines| :: r[i] == KeyLineOf(lines[i], keyLine)
  {
    if |lines| == 0 then [] else [KeyLineOf(lines[0], keyLine)] + KeyLines(lines[1..], keyLine)
  }

  /** The key tag can only begin at the first character of the line. */
  predicate KeyTagOnlyAtStart(line: string)
  {
    forall k | 0 < k <= |line| :: !StartsWith(line[k..], KeyTag)
  }

  predicate NoHash(s: string) { forall i | 0 <= i < |s| :: s[i] != '#' }

  /**
   * Manifests on which the two replacements act line by line: lines hold no
   * line terminators, no segment line is followed by a blank (whitespace-only)
   * line, segment lines carry no `#`, a key tag only ever opens a line, and
   * the course id, session id and encoded token hold no `#`, no line
   * terminator and no `$` (so the key tag is inserted as written).
   */
  predicate WellFormedManifest(lines: seq<string>, courseId: string, sessionId: string, encodedToken: string)
  {
    && |lines| > 0
    && (forall i | 0 <= i < |lines| :: NoLineBreak(lines[i]) && KeyTagOnlyAtStart(lines[i]))
    && (forall i | 0 <= i < |lines| - 1 && IsSegmentLine(lines[i]) :: !AllSpace(lines[i + 1]))
    && (forall i | 0 <= i < |lines| && IsSegmentLine(lines[i]) :: NoHash(lines[i]))
    && NoHash(courseId) && NoHash(sessionId) && NoHash(encodedToken)
    && NoLineBreak(courseId) && NoLineBreak(sessionId) && NoLineBreak(encodedToken)
    && NoDollar(courseId) && NoDollar(sessionId) && NoDollar(encodedToken)
  }

  // ----- Unfolding steps -----

  lemma CopyStep(t: string, atLineStart: bool, prefix: string, query: string)
    requires |t| > 0 && !(atLineStart && IsSegmentLine(t[..LineLength(t)]))
    ensures RewriteSegments(t, atLineStart, prefix, query)
         == [t[0]] + RewriteSegments(t[1..], IsLineTerminator(t[0]), prefix, query)
  {
  }

  lemma MatchStep(t: string, prefix: string, query: string)
    requires |t| > 0 && IsSegmentLine(t[..LineLength(t)])
    ensures RewriteSegments(t, true, prefix, query)
         == prefix + Trim(t[..SegmentMatchEnd(t)]) + query
            + RewriteSegments(t[SegmentMatchEnd(t)..], IsLineTerminator(t[SegmentMatchEnd(t) - 1]), prefix, query)
  {
  }

  lemma {:induction false} LineLengthIs(t: string, m: nat)
    requires m <= |t| && (forall i | 0 <= i < m :: !IsLineTerminator(t[i]))
    requires m == |t| || IsLineTerminator(t[m])
    ensures LineLength(t) == m
    decreases m
  {
    if m > 0 {
      LineLengthIs(t[1..], m - 1);
    }
  }

  lemma {:induction false} LineFeedIndexIs(t: string, m: nat)
    requires m <= |t| && (forall i | 0 <= i < m :: t[i] != '\n')
    requires m == |t| || t[m] == '\n'
    ensures LineFeedIndex(t) == m
    decreases m
  {
    if m > 0 {
      LineFeedIndexIs(t[1..], m - 1);
    }
  }

  // ----- Segment expression, line by line -----

  /** Away from a line start, text without line terminators is copied unchanged. */
  lemma {:induction false} SegmentsCopyRun(x: string, y: string, prefix: string, query: string)
    requires NoLineBreak(x)
    ensures RewriteSegments(x + y, false, prefix, query) == x + RewriteSegments(y, false, prefix, query)
    decreases |x|
  {
    if |x| == 0 {
      assert x + y == y;
    } else {
      var t := x + y;
      assert t[0] == x[0] && t[1..] == x[1..] + y;
      CopyStep(t, false, prefix, query);
      SegmentsCopyRun(x[1..], y, prefix, query);
      assert x == [x[0]] + x[1..];
    }
  }

  lemma {:induction false} BackToLineEndNone(t: string, e: nat, j: nat)
    requires e <= j <= |t| && LineEndAt(t, e)
    requires forall k | e < k <= j :: !LineEndAt(t, k)
    ensures BackToLineEnd(t, e, j) == e
    decreases j
  {
    if j > e {
      BackToLineEndNone(t, e, j - 1);
    }
  }

  lemma {:induction false} SpaceRunStops(x: string, y: string)
    requires !AllSpace(x)
    ensures SpaceRun(x + y) == SpaceRun(x) < |x|
    decreases |x|
  {
    if IsSpace(x[0]) {
      assert (x + y)[1..] == x[1..] + y;
      assert !AllSpace(x[1..]) by {
        var i :| 0 <= i < |x| && !IsSpace(x[i]);
        assert x[1..][i - 1] == x[i];
      }
      SpaceRunStops(x[1..], y);
    }
  }

  /** The first line of `r` holds a character that is not whitespace. */
  predicate StartsNonBlank(r: string)
  {
    exists k | 0 <= k < |r| :: !IsSpace(r[k]) && NoLineBreak(r[..k])
  }

  /** The match that starts at a segment line followed by a non-blank line ends with that line. */
  lemma MatchEndsWithLine(l: string, r: string)
    requires NoLineBreak(l) && IsSegmentLine(l)
    requires StartsNonBlank(r)
    ensures var t := l + "\n" + r;
            LineLength(t) == |l| && t[..|l|] == l && SegmentMatchEnd(t) == |l|
  {
    var t := l + "\n" + r;
    var e := |l|;
    FirstLineIs(l, r);
    var k :| 0 <= k < |r| && !IsSpace(r[k]) && NoLineBreak(r[..k]);
    SpaceRunBefore(r, k);
    SpaceRunAfterBreak(r);
    var f := SpaceRun(r);
    assert SpaceRun(t[e..]) == 1 + f;
    NoLineEndUntil(l, r, k, f);
    BackToLineEndNone(t, e, e + 1 + f);
  }

  /** The first line of `l + "\n" + r` is `l`. */
  lemma FirstLineIs(l: string, r: string)
    requires NoLineBreak(l)
    ensures var t := l + "\n" + r;
            LineLength(t) == |l| && t[..|l|] == l && t[|l|..] == "\n" + r
  {
    var t := l + "\n" + r;
    assert t[|l|] == '\n';
    LineLengthIs(t, |l|);
  }

  /** The whitespace run stops at or before the first character that is not whitespace. */
  lemma SpaceRunBefore(r: string, k: nat)
    requires k < |r| && !IsSpace(r[k])
    ensures SpaceRun(r) <= k
  {
  }

  lemma SpaceRunAfterBreak(r: string)
    ensures SpaceRun("\n" + r) == 1 + SpaceRun(r)
  {
    assert ("\n" + r)[1..] == r;
  }

  /** After the segment line, `$` does not hold again before the first non-blank character. */
  lemma NoLineEndUntil(l: string, r: string, k: nat, f: nat)
    requires k < |r| && !IsSpace(r[k]) && NoLineBreak(r[..k]) && f <= k
    ensures var t := l + "\n" + r;
            |l| + 1 + f <= |t| && forall j | |l| < j <= |l| + 1 + f :: !LineEndAt(t, j)
  {
    var t := l + "\n" + r;
    var e := |l|;
    forall j | e < j <= e + 1 + f ensures !LineEndAt(t, j) {
      assert t[j] == r[j - e - 1];
      if j - e - 1 < k {
        assert r[..k][j - e - 1] == r[j - e - 1];
      }
    }
  }

  lemma SegmentsOneSegmentLine(l: string, r: string, prefix: string, query: string)
    requires NoLineBreak(l) && IsSegmentLine(l)
    requires StartsNonBlank(r)
    ensures RewriteSegments(l + "\n" + r, true, prefix, query)
         == prefix + Trim(l) + query + "\n" + RewriteSegments(r, true, prefix, query)
  {
    var t := l + "\n" + r;
    var e := |l|;
    MatchEndsWithLine(l, r);
    MatchStep(t, prefix, query);
    assert t[e - 1] == l[e - 1];
    assert t[e..] == "\n" + r;
    SegmentsLineFeed(r, prefix, query);
  }

  lemma SegmentsEmptyLine(r: string, prefix: string, query: string)
    ensures RewriteSegments("\n" + r, true, prefix, query) == "\n" + RewriteSegments(r, true, prefix, query)
  {
    var u := "\n" + r;
    assert u[0] == '\n' && u[1..] == r;
    LineLengthIs(u, 0);
    assert u[..0] == "";
    CopyStep(u, true, prefix, query);
  }

  lemma SegmentsLineFeed(r: string, prefix: string, query: string)
    ensures RewriteSegments("\n" + r, false, prefix, query) == "\n" + RewriteSegments(r, true, prefix, query)
  {
    var u := "\n" + r;
    assert u[0] == '\n' && u[1..] == r;
    CopyStep(u, false, prefix, query);
  }

  lemma SegmentsOtherLine(l: string, r: string, prefix: string, query: string)
    requires NoLineBreak(l) && !IsSegmentLine(l)
    ensures RewriteSegments(l + "\n" + r, true, prefix, query) == l + "\n" + RewriteSegments(r, true, prefix, query)
  {
    if |l| == 0 {
      assert l + "\n" + r == "\n" + r;
      SegmentsEmptyLine(r, prefix, query);
    } else {
      var u := "\n" + r;
      var rest := RewriteSegments(r, true, prefix, query);
      calc {
        RewriteSegments(l + "\n" + r, true, prefix, query);
      == { assert l + "\n" + r == l + u; }
        RewriteSegments(l + u, true, prefix, query);
      == { OtherLineFirstChar(l, u, prefix, query); }
        [l[0]] + RewriteSegments(l[1..] + u, false, prefix, query);
      == { SegmentsCopyRun(l[1..], u, prefix, query); }
        [l[0]] + (l[1..] + RewriteSegments(u, false, prefix, query));
      == { SegmentsLineFeed(r, prefix, query); }
        [l[0]] + (l[1..] + ("\n" + rest));
      == { ConsAppend(l, "\n" + rest); }
        l + ("\n" + rest);
      == { assert l + ("\n" + rest) == l + "\n" + rest; }
        l + "\n" + rest;
      }
    }
  }

  lemma ConsAppend(x: string, y: string)
    requires |x| > 0
    ensures [x[0]] + (x[1..] + y) == x + y
  {
    assert x == [x[0]] + x[1..];
  }

  /** The first character of a line that is not a segment line is copied. */
  lemma OtherLineFirstChar(l: string, u: string, prefix: string, query: string)
    requires |l| > 0 && NoLineBreak(l) && !IsSegmentLine(l)
    requires |u| > 0 && u[0] == '\n'
    ensures RewriteSegments(l + u, true, prefix, query) == [l[0]] + RewriteSegments(l[1..] + u, false, prefix, query)
  {
    var t := l + u;
    assert t[|l|] == '\n';
    LineLengthIs(t, |l|);
    assert t[..|l|] == l;
    CopyStep(t, true, prefix, query);
    assert t[0] == l[0] && t[1..] == l[1..] + u;
  }

  lemma SegmentsLastLine(l: string, prefix: string, query: string)
    requires NoLineBreak(l)
    ensures RewriteSegments(l, true, prefix, query) == SegmentLine(l, prefix, query)
  {
    if |l| > 0 {
      LineLengthIs(l, |l|);
      assert l[..|l|] == l;
      if IsSegmentLine(l) {
        assert SpaceRun(l[|l|..]) == 0;
        assert SegmentMatchEnd(l) == |l|;
        MatchStep(l, prefix, query);
        assert l[|l|..] == "";
      } else {
        CopyStep(l, true, prefix, query);
        SegmentsCopyRun(l[1..], "", prefix, query);
        assert l[1..] + "" == l[1..];
        assert l == [l[0]] + l[1..];
      }
    }
  }

  lemma NotBlankLineStart(next: string, r: string)
    requires NoLineBreak(next) && !AllSpace(next)
    requires |next| <= |r| && r[..|next|] == next
    ensures StartsNonBlank(r)
  {
    var k :| 0 <= k < |next| && !IsSpace(next[k]);
    assert r[k] == r[..|next|][k] == next[k];
    assert r[..k] == next[..k];
  }

  lemma {:induction false} JoinStartsWithFirst(lines: seq<string>, sep: string)
    requires |lines| > 0
    ensures |lines[0]| <= |Join(lines, sep)| && Join(lines, sep)[..|lines[0]|] == lines[0]
  {
    if |lines| > 1 {
      assert Join(lines, sep) == lines[0] + (sep + Join(lines[1..], sep));
    }
  }

  lemma SegmentsFirstLine(lines: seq<string>, prefix: string, query: string)
    requires |lines| > 1 && NoLineBreak(lines[0]) && NoLineBreak(lines[1])
    requires IsSegmentLine(lines[0]) ==> !AllSpace(lines[1])
    ensures RewriteSegments(Join(lines, "\n"), true, prefix, query)
         == SegmentLine(lines[0], prefix, query) + "\n" + RewriteSegments(Join(lines[1..], "\n"), true, prefix, query)
  {
    var r := Join(lines[1..], "\n");
    assert Join(lines, "\n") == lines[0] + "\n" + r;
    if IsSegmentLine(lines[0]) {
      JoinStartsWithFirst(lines[1..], "\n");
      NotBlankLineStart(lines[1], r);
      SegmentsOneSegmentLine(lines[0], r, prefix, query);
    } else {
      SegmentsOtherLine(lines[0], r, prefix, query);
    }
  }

  lemma {:induction false} SegmentsByLine(lines: seq<string>, prefix: string, query: string)
    requires |lines| > 0
    requires forall i | 0 <= i < |lines| :: NoLineBreak(lines[i])
    requires forall i | 0 <= i < |lines| - 1 && IsSegmentLine(lines[i]) :: !AllSpace(lines[i + 1])
    ensures RewriteSegments(Join(lines, "\n"), true, prefix, query) == Join(SegmentLines(lines, prefix, query), "\n")
    decreases |lines|
  {
    if |lines| == 1 {
      SegmentsLastLine(lines[0], prefix, query);
    } else {
      var rest := lines[1..];
      assert forall i | 0 <= i < |rest| :: rest[i] == lines[i + 1];
      SegmentsByLine(rest, prefix, query);
      SegmentsFirstLine(lines, prefix, query);
      var out := SegmentLines(lines, prefix, query);
      assert out[1..] == SegmentLines(rest, prefix, query);
      assert Join(out, "\n") == out[0] + "\n" + Join(out[1..], "\n");
    }
  }

  // ----- Key expression, line by line -----

  lemma KeyCopyStep(t: string, keyLine: string)
    requires |t| > 0 && !StartsWith(t, KeyTag)
    ensures ReplaceKeyTags(t, keyLine) == [t[0]] + ReplaceKeyTags(t[1..], keyLine)
  {
  }

  lemma KeyTagNeedsNoLineFeed(s: string, y: string)
    requires |s| < |KeyTag|
    ensures !StartsWith(s + "\n" + y, KeyTag)
  {
    var t := s + "\n" + y;
    assert t[|s|] == '\n';
    assert KeyTag[|s|] != '\n';
    assert |t| < |KeyTag| || t[..|KeyTag|][|s|] != KeyTag[|s|];
  }

  /** Characters from which no key tag starts are copied unchanged. */
  lemma {:induction false} KeysCopyRun(x: string, y: string, keyLine: string)
    requires forall k | 0 <= k < |x| :: !StartsWith(x[k..] + y, KeyTag)
    ensures ReplaceKeyTags(x + y, keyLine) == x + ReplaceKeyTags(y, keyLine)
    decreases |x|
  {
    if |x| == 0 {
      assert x + y == y;
    } else {
      var t := x + y;
      assert x[0..] == x;
      assert t[0] == x[0] && t[1..] == x[1..] + y;
      KeyCopyStep(t, keyLine);
      forall k | 0 <= k < |x[1..]| ensures !StartsWith(x[1..][k..] + y, KeyTag) {
        assert x[1..][k..] == x[k + 1..];
      }
      KeysCopyRun(x[1..], y, keyLine);
      assert x == [x[0]] + x[1..];
    }
  }

  lemma KeysNoTagInLine(l: string, y: string)
    requires KeyTagOnlyAtStart(l) && !IsKeyLine(l)
    requires y == "" || y[0] == '\n'
    ensures forall k | 0 <= k < |l| :: !StartsWith(l[k..] + y, KeyTag)
  {
    forall k | 0 <= k < |l| ensures !StartsWith(l[k..] + y, KeyTag) {
      var s := l[k..];
      if |s| < |KeyTag| {
        if y != "" {
          KeyTagNeedsNoLineFeed(s, y[1..]);
          assert s + "\n" + y[1..] == s + y;
        }
      } else {
        assert (s + y)[..|KeyTag|] == s[..|KeyTag|];
        if k == 0 {
          assert s == l;
        }
      }
    }
  }

  lemma KeysLineFeed(r: string, keyLine: string)
    ensures ReplaceKeyTags("\n" + r, keyLine) == "\n" + ReplaceKeyTags(r, keyLine)
  {
    var u := "\n" + r;
    assert u[0] == '\n' && u[1..] == r;
    assert !StartsWith(u, KeyTag) by {
      assert KeyTag[0] != '\n';
      assert |u| < |KeyTag| || u[..|KeyTag|][0] == '\n';
    }
    KeyCopyStep(u, keyLine);
  }

  lemma KeysTagLine(l: string, r: string, keyLine: string)
    requires NoLineBreak(l) && IsKeyLine(l)
    ensures ReplaceKeyTags(l + "\n" + r, keyLine) == keyLine + "\n" + ReplaceKeyTags(r, keyLine)
  {
    var t := l + "\n" + r;
    assert t[..|KeyTag|] == l[..|KeyTag|];
    assert t[|l|] == '\n';
    LineFeedIndexIs(t, |l|);
    assert t[|l|..] == "\n" + r;
    KeysLineFeed(r, keyLine);
  }

  lemma KeysOneLine(l: string, r: string, keyLine: string)
    requires NoLineBreak(l) && KeyTagOnlyAtStart(l)
    ensures ReplaceKeyTags(l + "\n" + r, keyLine) == KeyLineOf(l, keyLine) + "\n" + ReplaceKeyTags(r, keyLine)
  {
    if IsKeyLine(l) {
      KeysTagLine(l, r, keyLine);
    } else {
      var u := "\n" + r;
      var rest := ReplaceKeyTags(r, keyLine);
      calc {
        ReplaceKeyTags(l + "\n" + r, keyLine);
      == { assert l + "\n" + r == l + u; }
        ReplaceKeyTags(l + u, keyLine);
      == { KeysNoTagInLine(l, u); KeysCopyRun(l, u, keyLine); }
        l + ReplaceKeyTags(u, keyLine);
      == { KeysLineFeed(r, keyLine); }
        l + ("\n" + rest);
      == { assert l + ("\n" + rest) == l + "\n" + rest; }
        KeyLineOf(l, keyLine) + "\n" + rest;
      }
    }
  }

  lemma KeysLastLine(l: string, keyLine: string)
    requires NoLineBreak(l) && KeyTagOnlyAtStart(l)
    ensures ReplaceKeyTags(l, keyLine) == KeyLineOf(l, keyLine)
  {
    if IsKeyLine(l) {
      LineFeedIndexIs(l, |l|);
      assert l[|l|..] == "";
    } else {
      assert l + "" == l;
      KeysNoTagInLine(l, "");
      KeysCopyRun(l, "", keyLine);
    }
  }

  lemma {:induction false} KeysByLine(lines: seq<string>, keyLine: string)
    requires |lines| > 0
    requires forall i | 0 <= i < |lines| :: NoLineBreak(lines[i]) && KeyTagOnlyAtStart(lines[i])
    ensures ReplaceKeyTags(Join(lines, "\n"), keyLine) == Join(KeyLines(lines, keyLine), "\n")
    decreases |lines|
  {
    if |lines| == 1 {
      KeysLastLine(lines[0], keyLine);
    } else {
      KeysByLine(lines[1..], keyLine);
      KeysOneLine(lines[0], Join(lines[1..], "\n"), keyLine);
      assert KeyLines(lines, keyLine)[1..] == KeyLines(lines[1..], keyLine);
    }
  }

  // ----- Both expressions -----

  /** Text with neither `#` nor a line terminator. */
  predicate Plain(s: string) { NoHash(s) && NoLineBreak(s) }

  lemma PlainConcat(a: string, b: string)
    requires Plain(a) && Plain(b)
    ensures Plain(a + b)
  {
  }

  lemma PlainSlice(s: string, a: nat, b: nat)
    requires Plain(s) && a <= b <= |s|
    ensures Plain(s[a..b])
  {
  }

  lemma PlainTrim(s: string)
    requires Plain(s)
    ensures Plain(Trim(s))
  {
    var e := TrimEnd(s);
    PlainSlice(s, 0, |e|);
    var r := TrimStart(e);
    PlainSlice(e, |e| - |r|, |e|);
  }

  lemma PlainHasNoTag(s: string)
    requires NoHash(s)
    ensures KeyTagOnlyAtStart(s) && !IsKeyLine(s)
  {
    assert s[0..] == s;
    forall k | 0 <= k <= |s| ensures !StartsWith(s[k..], KeyTag) {
      assert KeyTag[0] == '#';
      assert |s[k..]| < |KeyTag| || s[k..][..|KeyTag|][0] != '#';
    }
  }

  lemma RewrittenSegmentLineIsPlain(l: string, courseId: string, sessionId: string, encodedToken: string)
    requires Plain(l) && Plain(courseId) && Plain(sessionId) && Plain(encodedToken)
    ensures Plain(SegmentPrefix(courseId, sessionId) + Trim(l) + TokenQuery(encodedToken))
  {
    assert Plain("/api/hackit/hls/segment/");
    assert Plain("/");
    assert Plain("?hlsToken=");
    PlainConcat("/api/hackit/hls/segment/", courseId);
    PlainConcat("/api/hackit/hls/segment/" + courseId, "/");
    PlainConcat("/api/hackit/hls/segment/" + courseId + "/", sessionId);
    PlainConcat("/api/hackit/hls/segment/" + courseId + "/" + sessionId, "/");
    PlainTrim(l);
    PlainConcat(SegmentPrefix(courseId, sessionId), Trim(l));
    PlainConcat("?hlsToken=", encodedToken);
    PlainConcat(SegmentPrefix(courseId, sessionId) + Trim(l), TokenQuery(encodedToken));
  }

  /**
   * On a well-formed manifest the gateway's rewrite acts line by line: the
   * output has as many lines as the input, segment lines become gateway
   * segment URLs, AES-128 key tags become the gateway key tag, and every other
   * line is returned unchanged.
   */
  lemma RewritePlaylistByLine(lines: seq<string>, courseId: string, sessionId: string, encodedToken: string)
    requires WellFormedManifest(lines, courseId, sessionId, encodedToken)
    ensures RewritePlaylist(Join(lines, "\n"), courseId, sessionId, encodedToken)
         == Join(RewriteLines(lines, courseId, sessionId, encodedToken), "\n")
  {
    var prefix := SegmentPrefix(courseId, sessionId);
    var query := TokenQuery(encodedToken);
    var keyLine := KeyLine(courseId, sessionId, encodedToken);
    SegmentsByLine(lines, prefix, query);
    var mid := SegmentLines(lines, prefix, query);
    forall i | 0 <= i < |mid|
      ensures NoLineBreak(mid[i]) && KeyTagOnlyAtStart(mid[i])
      ensures KeyLineOf(mid[i], keyLine) == RewriteLine(lines[i], courseId, sessionId, encodedToken)
    {
      if IsSegmentLine(lines[i]) {
        RewrittenSegmentLineIsPlain(lines[i], courseId, sessionId, encodedToken);
        PlainHasNoTag(mid[i]);
      }
    }
    KeysByLine(mid, keyLine);
    KeyLineNoDollar(courseId, sessionId, encodedToken);
    KeysLiteral(Join(mid, "\n"), "", keyLine);
    assert KeyLines(mid, keyLine) == RewriteLines(lines, courseId, sessionId, encodedToken);
  }

  // ----- Behaviour outside the line-level view -----

  lemma SegmentLineA()
    ensures IsSegmentLine("a.ts") && Trim("a.ts") == "a.ts"
  {
    var a := "a.ts";
    assert a[3] == 's' && !IsSpace('s');
    assert TrimEnd(a) == a;
    assert a[1..] == ".ts";
    assert a[0] == 'a' && !IsSpace('a');
    assert TrimStart(a) == a;
  }

  /** The matched text `a.ts` plus its line feed trims to `a.ts`. */
  lemma TrimSegmentA()
    ensures Trim("a.ts\n") == "a.ts"
  {
    SegmentLineA();
    assert TrimEnd("a.ts" + "\n") == "a.ts" by {
      assert ("a.ts" + "\n")[..4] == "a.ts";
    }
    assert "a.ts" + "\n" == "a.ts\n";
  }

  /** In `a.ts`, a blank line and `b`, the match takes the line feed of the segment line only. */
  lemma BlankLineMatch()
    ensures var t := "a.ts\n\nb";
            LineLength(t) == 4 && IsSegmentLine(t[..4]) && SegmentMatchEnd(t) == 5 &&
            t[..5] == "a.ts\n" && t[5..] == "\nb"
  {
    var t := "a.ts\n\nb";
    BlankLineSlices();
    BlankLineSpaces();
    BlankLineBacktrack();
    assert SegmentMatchEnd(t) == BackToLineEnd(t, 4, 6);
  }

  lemma BlankLineSlices()
    ensures var t := "a.ts\n\nb";
            LineLength(t) == 4 && IsSegmentLine(t[..4]) && t[4..] == "\n\nb" &&
            t[..5] == "a.ts\n" && t[5..] == "\nb"
  {
    var t := "a.ts\n\nb";
    LineLengthIs(t, 4);
    assert t[..4] == "a.ts";
    SegmentLineA();
  }

  lemma BlankLineSpaces()
    ensures SpaceRun("\n\nb") == 2
  {
    assert "\n\nb"[1..] == "\nb";
    assert "\nb"[1..] == "b";
  }

  /** The greedy `\s*` gives back the second line feed: `$` holds before it, not after it. */
  lemma BlankLineBacktrack()
    ensures var t := "a.ts\n\nb";
            LineEndAt(t, 4) && BackToLineEnd(t, 4, 6) == 5
  {
    var t := "a.ts\n\nb";
    assert t[4] == '\n' && t[5] == '\n' && t[6] == 'b';
  }

  /** Away from a line start, `\nb` is copied. */
  lemma TailCopied(prefix: string, query: string)
    ensures RewriteSegments("\nb", false, prefix, query) == "\nb"
  {
    var u := "\nb";
    assert u[0] == '\n' && u[1..] == "b";
    CopyStep(u, false, prefix, query);
    LineLengthIs("b", 1);
    assert "b"[..1] == "b";
    CopyStep("b", true, prefix, query);
    assert "b"[1..] == "";
  }

  /** A blank line after a segment line disappears together with its line feed. */
  lemma BlankLineAfterSegmentIsDropped(prefix: string, query: string)
    ensures RewriteSegments("a.ts\n\nb", true, prefix, query) == prefix + "a.ts" + query + "\nb"
  {
    var t := "a.ts\n\nb";
    BlankLineMatch();
    MatchStep(t, prefix, query);
    TrimSegmentA();
    TailCopied(prefix, query);
    assert t[4] == '\n';
  }

  /** A line feed that ends the manifest after a segment line is dropped. */
  lemma FinalLineFeedAfterSegmentIsDropped(prefix: string, query: string)
    ensures RewriteSegments("a.ts\n", true, prefix, query) == prefix + "a.ts" + query
  {
    var t := "a.ts\n";
    FinalLineMatch();
    MatchStep(t, prefix, query);
    TrimSegmentA();
    assert RewriteSegments(t[5..], true, prefix, query) == "";
  }

  /** In `a.ts` and a final line feed, the match runs to the end of the text. */
  lemma FinalLineMatch()
    ensures var t := "a.ts\n";
            LineLength(t) == 4 && IsSegmentLine(t[..4]) && SegmentMatchEnd(t) == 5 &&
            t[..5] == t && t[5..] == "" && IsLineTerminator(t[4])
  {
    var t := "a.ts\n";
    FinalLineSlices();
    assert SpaceRun("\n") == 1 by { assert "\n"[1..] == ""; }
    assert BackToLineEnd(t, 4, 5) == 5;
  }

  lemma FinalLineSlices()
    ensures var t := "a.ts\n";
            LineLength(t) == 4 && IsSegmentLine(t[..4]) && t[4..] == "\n" && t[..5] == t && t[5..] == ""
  {
    var t := "a.ts\n";
    LineLengthIs(t, 4);
    assert t[..4] == "a.ts";
    SegmentLineA();
  }

  /** A `#` line ending in `.ts` is rewritten like a URI line. */
  lemma CommentEndingInTsIsRewritten(prefix: string, query: string)
    ensures RewriteSegments("#a.ts", true, prefix, query) == prefix + "#a.ts" + query
  {
    var t := "#a.ts";
    CommentLineMatch();
    MatchStep(t, prefix, query);
    assert RewriteSegments(t[5..], false, prefix, query) == "";
  }

  /** The whole of `#a.ts` is one segment match, and it has nothing to trim. */
  lemma CommentLineMatch()
    ensures var t := "#a.ts";
            LineLength(t) == 5 && IsSegmentLine(t[..5]) && SegmentMatchEnd(t) == 5 &&
            t[..5] == t && t[5..] == "" && !IsLineTerminator(t[4]) && Trim(t) == t
  {
    var t := "#a.ts";
    LineLengthIs(t, 5);
    assert t[..5] == t && t[5..] == "";
    CommentLineTrimmed();
    assert SpaceRun(t[5..]) == 0;
  }

  lemma CommentLineTrimmed()
    ensures var t := "#a.ts";
            TrimEnd(t) == t && Trim(t) == t && IsSegmentLine(t)
  {
    var t := "#a.ts";
    assert t[4] == 's' && !IsSpace('s');
    assert TrimEnd(t) == t;
    assert t[2..] == ".ts";
    assert t[0] == '#' && !IsSpace('#');
    assert TrimStart(t) == t;
  }
}

=== FILE: push_batches.dfy ===
/**
 * The batched multicast behind the public-notification push: the
 * recipients are cut into consecutive batches of 500, each batch's
 * non-empty tokens go out in one multicast, and the reported successes
 * and failures are summed. The multicast itself is the parameter `send`.
 */
module PushBatches {
  import opened Wrappers

  const BatchSize: nat := 500

  /** Consecutive slices of `size` elements, the last one possibly shorter. */
  function Batches<T>(xs: seq<T>, size: nat): (bs: seq<seq<T>>)
    requires size > 0
    ensures forall k | 0 <= k < |bs| :: 0 < |bs[k]| <= size
    decreases |xs|
  {
    if |xs| == 0 then []
    else
      var n := if |xs| < size then |xs| else size;
      [xs[..n]] + Batches(xs[n..], size)
  }

  function Flatten<T>(bs: seq<seq<T>>): seq<T>
  {
    if |bs| == 0 then [] else bs[0] + Flatten(bs[1..])
  }

  /** The batches cover the recipients exactly once, in order. */
  lemma {:induction false} BatchesCover<T>(xs: seq<T>, size: nat)
    requires size > 0
    ensures Flatten(Batches(xs, size)) == xs
    decreases |xs|
  {
    if |xs| > 0 {
      var n := if |xs| < size then |xs| else size;
      BatchesCover(xs[n..], size);
      assert xs == xs[..n] + xs[n..];
    }
  }

  /** `batch.map(s => s.fcmToken!).filter(Boolean)`: a null or empty token is dropped. */
  function Tokens<T>(batch: seq<T>, token: T -> Option<string>): (r: seq<string>)
    ensures forall k | 0 <= k < |r| :: r[k] != ""
    ensures |r| <= |batch|
  {
    if |batch| == 0 then []
    else
      var t := token(batch[0]);
      (if t.Some? && t.value != "" then [t.value] else []) + Tokens(batch[1..], token)
  }

  /** Every recipient of the batch with a non-empty token has it in the multicast. */
  lemma {:induction false} TokensKeepEveryToken<T>(batch: seq<T>, token: T -> Option<string>)
    ensures forall x | x in batch && token(x).Some? && token(x).value != "" :: token(x).value in Tokens(batch, token)
  {
    if |batch| > 0 {
      TokensKeepEveryToken(batch[1..], token);
      var t := token(batch[0]);
      var head: seq<string> := if t.Some? && t.value != "" then [t.value] else [];
      assert Tokens(batch, token) == head + Tokens(batch[1..], token);
      forall x | x in batch && token(x).Some? && token(x).value != ""
        ensures token(x).value in Tokens(batch, token)
      {
        if x != batch[0] {
          assert x in batch[1..];
        }
      }
    }
  }

  /**
   * What the multicast reports for one batch: successes and failures.
   * A batch without tokens is not sent and counts nothing.
   */
  function Counts<T>(batch: seq<T>, token: T -> Option<string>, send: seq<string> -> (nat, nat)): (nat, nat)
  {
    var tokens := Tokens(batch, token);
    if |tokens| > 0 then send(tokens) else (0, 0)
  }

  function Sum(a: (nat, nat), b: (nat, nat)): (nat, nat)
  {
    (a.0 + b.0, a.1 + b.1)
  }

  /** The sums of the per-batch counts. */
  function SumCounts<T>(bs: seq<seq<T>>, token: T -> Option<string>, send: seq<string> -> (nat, nat)): (nat, nat)
  {
    if |bs| == 0 then (0, 0) else Sum(Counts(bs[0], token, send), SumCounts(bs[1..], token, send))
  }

  /** What the batches from position `i` on report. */
  function Rest<T>(xs: seq<T>, i: nat, token: T -> Option<string>, send: seq<string> -> (nat, nat)): (nat, nat)
    requires i <= |xs|
  {
    SumCounts(Batches(xs[i..], BatchSize), token, send)
  }

  /** From the start the batches are those of the whole list; from the end there are none. */
  lemma RestEnds<T>(xs: seq<T>, token: T -> Option<string>, send: seq<string> -> (nat, nat))
    ensures Rest(xs, 0, token, send) == SumCounts(Batches(xs, BatchSize), token, send)
    ensures Rest(xs, |xs|, token, send) == (0, 0)
  {
    assert xs[0..] == xs;
    assert xs[|xs|..] == [];
  }

  /** The batch starting at `i` is the next (up to) 500 recipients, and the rest are batched after it. */
  lemma {:induction false} RestStep<T>(xs: seq<T>, i: nat, token: T -> Option<string>, send: seq<string> -> (nat, nat))
    requires i < |xs|
    ensures var end := if i + BatchSize < |xs| then i + BatchSize else |xs|;
            Rest(xs, i, token, send) == Sum(Counts(xs[i..end], token, send), Rest(xs, end, token, send))
  {
    var end := if i + BatchSize < |xs| then i + BatchSize else |xs|;
    var ys := xs[i..];
    assert ys[..end - i] == xs[i..end] && ys[end - i..] == xs[end..];
    var rest := Batches(xs[end..], BatchSize);
    var bs := [xs[i..end]] + rest;
    assert Batches(ys, BatchSize) == bs;
    assert bs[0] == xs[i..end] && bs[1..] == rest;
  }

  /** The loop over the batches: one multicast per batch with a token, and the running totals. */
  method SendBatches<T>(targets: seq<T>, token: T -> Option<string>, send: seq<string> -> (nat, nat))
    returns (sent: nat, failed: nat)
    ensures (sent, failed) == SumCounts(Batches(targets, BatchSize), token, send)
  {
    RestEnds(targets, token, send);
    ghost var total := Rest(targets, 0, token, send);
    sent, failed := 0, 0;
    var i := 0;
    while i < |targets|
      invariant 0 <= i <= |targets|
      invariant sent + Rest(targets, i, token, send).0 == total.0
      invariant failed + Rest(targets, i, token, send).1 == total.1
      decreases |targets| - i
    {
      var end := if i + BatchSize < |targets| then i + BatchSize else |targets|;
      var batch := targets[i..end];
      RestStep(targets, i, token, send);
      var tokens := Tokens(batch, token);
      if |tokens| > 0 {
        var response := send(tokens);
        sent := sent + response.0;
        failed := failed + response.1;
      }
      i := end;
    }
  }
}

=== FILE: questions.dfy ===
/**
 * The question service of an exam group: the single-question rule for
 * groups without a main title, the at-least-one-correct-answer rule, the
 * mark a question is stored with, and the shuffled listing of a group.
 */
module Questions {
  import opened Wrappers
  import opened Tables
  import opened Records
  import opened Store
  import opened Accounts
  import opened Shuffle
  import opened Groups

  const MsgBadQuestionId := "invalid question id"
  const MsgQuestionNotFound := "question not found"
  const MsgOnlyOne := "cannot add more than one question"
  const MsgNeedCorrect := "the answers must contain at least one correct answer"
  const MsgImageRequired := "the question image is required"

  /** `answers.some(a => a.correct)` */
  predicate HasCorrect(answers: seq<Answer>)
  {
    exists k | 0 <= k < |answers| :: answers[k].correct
  }

  /** `group.mainTitle === null`: a title explicitly set to null, not one never given. */
  predicate Untitled(groups: Table<Group>, gid: Id)
  {
    Find(groups, gid).Some? && Find(groups, gid).value.mainTitle.NullTitle?
  }

  /** The create body after joi: group, mark and a non-empty answer list are required. */
  datatype QuestionForm = QuestionForm(groupId: Id, mark: int, answers: seq<Answer>)

  /**
   * `createQuestion`. The checks run in this order: the body, the group
   * id, the group's existence, the single-question rule, a correct answer.
   * The mark of a question in an untitled group is the group's total mark;
   * otherwise it is the submitted one. `file` is the uploaded image, whose
   * path becomes `image`; without one no image is stored ("").
   */
  function Create(questions: Table<Question>, groups: Table<Group>, valid: bool, f: QuestionForm,
                  file: Option<string>, newId: Id): (o: Outcome<(), Question>)
    ensures o.result.Failure? ==> o.table == questions
    ensures !valid ==> o.result == Failure(BadRequest(MsgInvalid))
    ensures valid && !IsValidObjectId(f.groupId) ==> o.result == Failure(BadRequest(MsgBadGroupId))
    ensures valid && IsValidObjectId(f.groupId) && !HasId(groups, f.groupId) ==> o.result == Failure(NotFound(MsgGroupNotFound))
    ensures (valid && IsValidObjectId(f.groupId) && Untitled(groups, f.groupId) &&
             QuestionsOf(questions, f.groupId) != []) ==> o.result == Failure(BadRequest(MsgOnlyOne))
    ensures o.result.Success? <==>
              valid && IsValidObjectId(f.groupId) && HasId(groups, f.groupId) &&
              (Untitled(groups, f.groupId) ==> QuestionsOf(questions, f.groupId) == []) && HasCorrect(f.answers)
    ensures o.result.Success? ==>
              |o.table| == |questions| + 1 && o.table[..|questions|] == questions &&
              var q := o.table[|questions|];
              q.id == newId && q.val.groupId == f.groupId && q.val.answers == f.answers &&
              q.val.mark == (if Untitled(groups, f.groupId) then Find(groups, f.groupId).value.totalMark else f.mark) &&
              q.val.image == (if file.Some? then file.value else "")
  {
    if !valid then Outcome(Failure(BadRequest(MsgInvalid)), questions)
    else if !IsValidObjectId(f.groupId) then Outcome(Failure(BadRequest(MsgBadGroupId)), questions)
    else match Find(groups, f.groupId)
      case None => Outcome(Failure(NotFound(MsgGroupNotFound)), questions)
      case Some(g) =>
        if g.mainTitle.NullTitle? && |QuestionsOf(questions, f.groupId)| >= 1 then
          Outcome(Failure(BadRequest(MsgOnlyOne)), questions)
        else if !HasCorrect(f.answers) then Outcome(Failure(BadRequest(MsgNeedCorrect)), questions)
        else
          var mark := if g.mainTitle.NullTitle? then g.totalMark else f.mark;
          var image := if file.Some? then file.value else "";
          Outcome(Success(()), questions + [Row(newId, Question(f.groupId, mark, f.answers, image))])
  }

  /** No untitled group holds two different questions. */
  predicate AtMostOnePerUntitled(questions: Table<Question>, groups: Table<Group>)
  {
    forall a, b | a in questions && b in questions && a.val.groupId == b.val.groupId && Untitled(groups, a.val.groupId) :: a == b
  }

  /** Creation keeps every untitled group at one question at most. */
  lemma CreateKeepsOnePerUntitled(questions: Table<Question>, groups: Table<Group>, valid: bool, f: QuestionForm,
                                  file: Option<string>, newId: Id)
    requires AtMostOnePerUntitled(questions, groups)
    ensures AtMostOnePerUntitled(Create(questions, groups, valid, f, file, newId).table, groups)
  {
    var o := Create(questions, groups, valid, f, file, newId);
    if o.result.Success? {
      var q := o.table[|questions|];
      assert o.table == questions + [q];
    }
  }

  /** Every stored question has a correct answer. */
  predicate Answerable(questions: Table<Question>)
  {
    forall row | row in questions :: HasCorrect(row.val.answers)
  }

  lemma CreateKeepsAnswerable(questions: Table<Question>, groups: Table<Group>, valid: bool, f: QuestionForm,
                              file: Option<string>, newId: Id)
    requires Answerable(questions)
    ensures Answerable(Create(questions, groups, valid, f, file, newId).table)
  {
    var o := Create(questions, groups, valid, f, file, newId);
    if o.result.Success? {
      assert o.table == questions + [o.table[|questions|]];
    }
  }

  /** `getQuestionById` */
  function GetQuestion(questions: Table<Question>, id: Id): (r: Result<Question>)
    ensures !IsValidObjectId(id) ==> r == Failure(BadRequest(MsgBadQuestionId))
    ensures IsValidObjectId(id) && !HasId(questions, id) ==> r == Failure(NotFound(MsgQuestionNotFound))
    ensures r.Success? <==> IsValidObjectId(id) && HasId(questions, id)
    ensures r.Success? ==> Row(id, r.value) in questions
  {
    if !IsValidObjectId(id) then Failure(BadRequest(MsgBadQuestionId))
    else match Find(questions, id)
      case None => Failure(NotFound(MsgQuestionNotFound))
      case Some(q) => Success(q)
  }

  /**
   * `getQuestionsByGroupId`: the group's questions shuffled; the cut to
   * `limit` keeps them all, since the limit is their number.
   */
  method GetQuestionsByGroupId(db: Db, groupId: Id, draw: nat -> nat) returns (r: Result<seq<Row<Question>>>)
    ensures !IsValidObjectId(groupId) ==> r == Failure(BadRequest(MsgBadGroupId))
    ensures IsValidObjectId(groupId) ==> r.Success? && multiset(r.value) == multiset(QuestionsOf(db.questions, groupId))
  {
    if !IsValidObjectId(groupId) {
      return Failure(BadRequest(MsgBadGroupId));
    }
    var all := QuestionsOf(db.questions, groupId);
    var limit := |all|;
    var mixed := Shuffled(all, draw);
    var taken := if limit > 0 then mixed[..limit] else mixed;
    assert mixed[..|mixed|] == mixed;
    r := Success(taken);
  }

  /**
   * The update body: every field optional. The update validator also lets
   * an image URI through, and `findByIdAndUpdate` writes it like the rest.
   */
  datatype QuestionPatch = QuestionPatch(groupId: Option<Id>, mark: Option<int>, answers: Option<seq<Answer>>, image: Option<string>)

  function Patched(q: Question, p: QuestionPatch): (r: Question)
    ensures r.groupId == (if p.groupId.Some? then p.groupId.value else q.groupId)
    ensures r.mark == (if p.mark.Some? then p.mark.value else q.mark)
    ensures r.answers == (if p.answers.Some? then p.answers.value else q.answers)
    ensures r.image == (if p.image.Some? then p.image.value else q.image)
  {
    q.(groupId := if p.groupId.Some? then p.groupId.value else q.groupId,
       mark := if p.mark.Some? then p.mark.value else q.mark,
       answers := if p.answers.Some? then p.answers.value else q.answers,
       image := if p.image.Some? then p.image.value else q.image)
  }

  /**
   * `updateQuestion`. A new group must be an ObjectId naming a group; a
   * non-empty answer list must hold a correct answer; the question must
   * exist. Neither the single-question rule nor the mark rule is applied.
   */
  function Update(questions: Table<Question>, groups: Table<Group>, valid: bool, id: Id, p: QuestionPatch): (o: Outcome<(), Question>)
    ensures o.result.Failure? ==> o.table == questions
    ensures !valid ==> o.result == Failure(BadRequest(MsgInvalid))
    ensures valid && !IsValidObjectId(id) ==> o.result == Failure(BadRequest(MsgBadQuestionId))
    ensures o.result.Success? <==>
              valid && IsValidObjectId(id) &&
              (p.groupId.Some? ==> IsValidObjectId(p.groupId.value) && HasId(groups, p.groupId.value)) &&
              (p.answers.Some? && |p.answers.value| > 0 ==> HasCorrect(p.answers.value)) &&
              HasId(questions, id)
    ensures o.result.Success? ==> o.table == Put(questions, id, Patched(Find(questions, id).value, p))
  {
    if !valid then Outcome(Failure(BadRequest(MsgInvalid)), questions)
    else if !IsValidObjectId(id) then Outcome(Failure(BadRequest(MsgBadQuestionId)), questions)
    else if p.groupId.Some? && !IsValidObjectId(p.groupId.value) then Outcome(Failure(BadRequest(MsgBadGroupId)), questions)
    else if p.groupId.Some? && Find(groups, p.groupId.value).None? then Outcome(Failure(NotFound(MsgGroupNotFound)), questions)
    else if p.answers.Some? && |p.answers.value| > 0 && !HasCorrect(p.answers.value) then
      Outcome(Failure(BadRequest(MsgNeedCorrect)), questions)
    else match Find(questions, id)
      case None => Outcome(Failure(NotFound(MsgQuestionNotFound)), questions)
      case Some(q) => Outcome(Success(()), Put(questions, id, Patched(q, p)))
  }

  /** An update that supplies a non-empty answer list without a correct answer changes nothing. */
  lemma UpdateKeepsAnswerable(questions: Table<Question>, groups: Table<Group>, valid: bool, id: Id, p: QuestionPatch)
    requires Answerable(questions)
    requires p.answers.Some? ==> |p.answers.value| > 0
    ensures Answerable(Update(questions, groups, valid, id, p).table)
  {
    var o := Update(questions, groups, valid, id, p);
    if o.result.Success? {
      var q := Find(questions, id).value;
      PutMembers(questions, id, Patched(q, p));
      assert Row(id, q) in questions;
    }
  }

  /**
   * Update does not apply the single-question rule: moving a question
   * into an untitled group that already has one leaves two there.
   */
  lemma UpdateCanDoubleUntitled(questions: Table<Question>, groups: Table<Group>, id: Id, other: Id, g: Id)
    requires UniqueIds(questions) && IsValidObjectId(id) && IsValidObjectId(g) && Untitled(groups, g)
    requires HasId(questions, id) && Find(questions, id).value.groupId != g
    requires HasId(questions, other) && Find(questions, other).value.groupId == g
    ensures var o := Update(questions, groups, true, id, QuestionPatch(Some(g), None, None, None));
            o.result.Success? && !AtMostOnePerUntitled(o.table, groups)
  {
    var p := QuestionPatch(Some(g), None, None, None);
    var o := Update(questions, groups, true, id, p);
    var q := Find(questions, id).value;
    var a := Row(other, Find(questions, other).value);
    var b := Row(id, Patched(q, p));
    assert o.result.Success? && o.table == Put(questions, id, Patched(q, p));
    assert other != id;
    PutHas(questions, id, Patched(q, p), a);
    assert a in o.table && b in o.table && a != b;
    assert a.val.groupId == b.val.groupId == g;
  }

  /** `updateQuestionImage`: an id check, then a file is required, then the question must exist. */
  function SetImage(questions: Table<Question>, id: Id, file: Option<string>): (o: Outcome<(), Question>)
    ensures o.result.Failure? ==> o.table == questions
    ensures !IsValidObjectId(id) ==> o.result == Failure(BadRequest(MsgBadQuestionId))
    ensures IsValidObjectId(id) && file.None? ==> o.result == Failure(BadRequest(MsgImageRequired))
    ensures o.result.Success? <==> IsValidObjectId(id) && file.Some? && HasId(questions, id)
    ensures o.result.Success? ==> o.table == Put(questions, id, Find(questions, id).value.(image := file.value))
  {
    if !IsValidObjectId(id) then Outcome(Failure(BadRequest(MsgBadQuestionId)), questions)
    else if file.None? then Outcome(Failure(BadRequest(MsgImageRequired)), questions)
    else match Find(questions, id)
      case None => Outcome(Failure(NotFound(MsgQuestionNotFound)), questions)
      case Some(q) => Outcome(Success(()), Put(questions, id, q.(image := file.value)))
  }

  /**
   * An update whose body carries only an image URI writes the table that
   * `updateQuestionImage` writes for an upload stored at that URI.
   */
  lemma UpdateImageIsSetImage(questions: Table<Question>, groups: Table<Group>, id: Id, uri: string)
    ensures var o := Update(questions, groups, true, id, QuestionPatch(None, None, None, Some(uri)));
            o == SetImage(questions, id, Some(uri))
  {
    match Find(questions, id)
    case None =>
    case Some(q) =>
      assert Patched(q, QuestionPatch(None, None, None, Some(uri))) == q.(image := uri);
  }

  /** `deleteQuestionImage`: the image becomes the empty string. */
  function ClearImage(questions: Table<Question>, id: Id): (o: Outcome<(), Question>)
    ensures o.result.Failure? ==> o.table == questions
    ensures !IsValidObjectId(id) ==> o.result == Failure(BadRequest(MsgBadQuestionId))
    ensures o.result.Success? <==> IsValidObjectId(id) && HasId(questions, id)
    ensures o.result.Success? ==> o.table == Put(questions, id, Find(questions, id).value.(image := ""))
  {
    if !IsValidObjectId(id) then Outcome(Failure(BadRequest(MsgBadQuestionId)), questions)
    else match Find(questions, id)
      case None => Outcome(Failure(NotFound(MsgQuestionNotFound)), questions)
      case Some(q) => Outcome(Success(()), Put(questions, id, q.(image := "")))
  }

  /** Image changes touch only the image: groups, marks and answers stay as they were. */
  lemma ImageChangesKeepContent(questions: Table<Question>, id: Id, file: Option<string>)
    requires UniqueIds(questions)
    ensures var t := SetImage(questions, id, file).table;
            |t| == |questions| && forall k | 0 <= k < |t| ::
              t[k].id == questions[k].id && t[k].val.groupId == questions[k].val.groupId &&
              t[k].val.mark == questions[k].val.mark && t[k].val.answers == questions[k].val.answers
    ensures var t := ClearImage(questions, id).table;
            |t| == |questions| && forall k | 0 <= k < |t| ::
              t[k].id == questions[k].id && t[k].val.groupId == questions[k].val.groupId &&
              t[k].val.mark == questions[k].val.mark && t[k].val.answers == questions[k].val.answers
  {
  }

  /** `deleteQuestion`: `findByIdAndDelete`, with no hook on questions. */
  function Remove(questions: Table<Question>, id: Id): (o: Outcome<(), Question>)
    ensures !IsValidObjectId(id) ==> o == Outcome(Failure(BadRequest(MsgBadQuestionId)), questions)
    ensures IsValidObjectId(id) && !HasId(questions, id) ==> o == Outcome(Failure(NotFound(MsgQuestionNotFound)), questions)
    ensures o.result.Success? <==> IsValidObjectId(id) && HasId(questions, id)
    ensures forall x :: HasId(o.table, x) <==> HasId(questions, x) && (x != id || !IsValidObjectId(id))
  {
    DeleteIds(questions, id);
    if !IsValidObjectId(id) then Outcome(Failure(BadRequest(MsgBadQuestionId)), questions)
    else if Find(questions, id).None? then
      DeleteAbsent(questions, id);
      Outcome(Failure(NotFound(MsgQuestionNotFound)), questions)
    else Outcome(Success(()), Delete(questions, id))
  }

  /** `deleteQuestionsByGroupId`: `deleteMany({ groupId })` and the number removed. */
  function RemoveByGroup(questions: Table<Question>, groupId: Id): (o: Outcome<nat, Question>)
    ensures !IsValidObjectId(groupId) ==> o == Outcome(Failure(BadRequest(MsgBadGroupId)), questions)
    ensures IsValidObjectId(groupId) ==>
              o.result.Success? && o.result.value + |o.table| == |questions| &&
              QuestionsOf(o.table, groupId) == [] &&
              forall row | row in questions && row.val.groupId != groupId :: row in o.table
  {
    if !IsValidObjectId(groupId) then Outcome(Failure(BadRequest(MsgBadGroupId)), questions)
    else
      WhereWithoutSplit(questions, InGroup(groupId));
      WhereAfterWithout(questions, InGroup(groupId));
      Outcome(Success(|QuestionsOf(questions, groupId)|), Without(questions, InGroup(groupId)))
  }

  method CreateQuestion(db: Db, valid: bool, f: QuestionForm, file: Option<string>, newId: Id) returns (r: Result<()>)
    modifies db`questions
    ensures Outcome(r, db.questions) == Create(old(db.questions), db.groups, valid, f, file, newId)
  {
    var o := Create(db.questions, db.groups, valid, f, file, newId);
    db.questions := o.table;
    r := o.result;
  }

  method UpdateQuestion(db: Db, valid: bool, id: Id, p: QuestionPatch) returns (r: Result<()>)
    modifies db`questions
    ensures Outcome(r, db.questions) == Update(old(db.questions), db.groups, valid, id, p)
  {
    var o := Update(db.questions, db.groups, valid, id, p);
    db.questions := o.table;
    r := o.result;
  }

  method UpdateQuestionImage(db: Db, id: Id, file: Option<string>) returns (r: Result<()>)
    modifies db`questions
    ensures Outcome(r, db.questions) == SetImage(old(db.questions), id, file)
  {
    var o := SetImage(db.questions, id, file);
    db.questions := o.table;
    r := o.result;
  }

  method DeleteQuestionImage(db: Db, id: Id) returns (r: Result<()>)
    modifies db`questions
    ensures Outcome(r, db.questions) == ClearImage(old(db.questions), id)
  {
    var o := ClearImage(db.questions, id);
    db.questions := o.table;
    r := o.result;
  }

  method DeleteQuestion(db: Db, id: Id) returns (r: Result<()>)
    modifies db`questions
    ensures Outcome(r, db.questions) == Remove(old(db.questions), id)
  {
    var o := Remove(db.questions, id);
    db.questions := o.table;
    r := o.result;
  }

  method DeleteQuestionsByGroupId(db: Db, groupId: Id) returns (r: Result<nat>)
    modifies db`questions
    ensures Outcome(r, db.questions) == RemoveByGroup(old(db.questions), groupId)
  {
    var o := RemoveByGroup(db.questions, groupId);
    db.questions := o.table;
    r := o.result;
  }
}

=== FILE: records.dfy ===
/**
 * The documents of the MongoDB collections, reduced to the fields the
 * modelled services read or write. References to other documents are
 * ObjectIds in string form; the empty string stands for a field that is
 * absent (`undefined`) where JavaScript falsiness is what the code tests.
 */
module Records {
  import opened Wrappers
  import opened Tables

  /**
   * The account state shared by students and teachers: login identity,
   * bcrypt password hash, the bcrypt hash of the pending OTP (or ""), and
   * the three flags of the activation, suspension and reset flows.
   */
  datatype Credentials = Credentials(
    email: string,
    phoneNumber: string,
    password: string,
    otp: string,
    available: bool,
    suspended: bool,
    suspensionReason: string,
    resetPass: bool)

  datatype Student = Student(
    userName: string,
    universityNumber: int,
    cred: Credentials,
    deviceId: string,
    enrolledCourses: seq<Id>,
    favoriteCourses: seq<Id>,
    favoriteSessions: seq<Id>,
    favoriteBank: seq<Id>,
    banks: seq<Id>,
    contents: seq<Id>,
    fcmToken: Option<string>,
    notificationSettings: Option<Settings>)

  /** The per-student switches for push notifications. */
  datatype Settings = Settings(enabled: bool, courses: bool, sessions: bool, banks: bool, general: bool)

  datatype Teacher = Teacher(userName: string, profile: Profile, cred: Credentials)

  /** A teacher's gender, birth date and free-text description. */
  datatype Profile = Profile(gender: string, birth: DateValue, about: string)

  /**
   * A date as a client sends it, with whether JavaScript's `Date` reads it
   * as a valid date; the parsing itself is not modelled.
   */
  datatype DateValue = DateValue(text: string, readable: bool)

  datatype Admin = Admin(userName: string, phoneNumber: string, email: string, password: string)

  datatype Discount = Discount(dis: bool, rate: int)

  datatype Course = Course(
    name: string,
    teacher: Id,
    free: bool,
    price: int,
    discount: Discount,
    image: string,
    students: seq<Id>,
    comments: seq<Id>)

  /** A lesson; `video` is the storage key of its HLS manifest, when it has one. */
  datatype Session = Session(courseId: Id, video: Option<string>, likes: seq<Id>, disLikes: seq<Id>, createdAt: int)

  datatype Exam = Exam(courseId: Id, title: string, duration: string, createdAt: int)

  /** A one-time video ticket. Times are milliseconds since the epoch. */
  datatype Ticket = Ticket(
    videoId: string,
    libraryId: string,
    token: string,
    used: bool,
    sessionId: Id,
    userId: Option<Id>,
    expiresAt: int,
    createdAt: int)

  /** A payment code; `code` holds the bcrypt hash of the six-digit code. */
  datatype PaymentCode = PaymentCode(
    code: string,
    universityNumber: int,
    courseId: Id,
    studentId: Option<Id>,
    adminName: string,
    studentNumber: string,
    used: bool,
    expiresAt: int,
    createdAt: int)

  /** An enrolment record: `paymentCode` is the code as the student typed it, not its hash. */
  datatype Enrollment = Enrollment(studentId: Id, courseId: Id, paymentCode: string, enrolledAt: int, adminName: string)

  /**
   * A group's `mainTitle`: never set, explicitly `null`, or a string.
   * The question rules test `mainTitle === null`, which only the second is.
   */
  datatype Title = Unset | NullTitle | Text(text: string)

  datatype Group = Group(examId: Id, mainTitle: Title, totalMark: int)

  datatype Answer = Answer(text: string, correct: bool)

  datatype Question = Question(groupId: Id, mark: int, answers: seq<Answer>, image: string)

  datatype Content = Content(bank: Id, title: string, duration: string)

  datatype GroupBank = GroupBank(contentId: Id, mainTitle: Title, totalMark: int)

  datatype QuestionBank = QuestionBank(groupBankId: Id, mark: int)

  datatype Bank = Bank(title: string)

  datatype Version = Version(version: string, createdAt: int)

  /**
   * Every student lists exactly the courses that list the student: the
   * two sides of an enrolment agree.
   */
  predicate Paired(students: Table<Student>, courses: Table<Course>)
  {
    forall rs, rc | rs in students && rc in courses :: rc.id in rs.val.enrolledCourses <==> rs.id in rc.val.students
  }
}

=== FILE: sessions.dfy ===
/**
 * The session service's reactions and its read: `likeSession` and
 * `dislikeSession` load the session document, edit its `likes` and
 * `disLikes` arrays in place and save it; `getSessionById` swaps the
 * stored video key for a signed link.
 */
module Sessions {
  import opened Wrappers
  import opened Tables
  import opened Records
  import opened Store
  import opened Lists
  import opened Accounts

  const MsgSessionNotFound := "session not found"
  const MsgBadStudentId := "input must be a 24 character hex string"
  const MsgLikeRemoved := "like removed from the session"
  const MsgLiked := "session liked"
  const MsgDislikeRemoved := "dislike removed from the session"
  const MsgDisliked := "session disliked"
  /** The lifetime, in seconds, of the signed video link. */
  const SignedUrlSeconds := 600

  /** `arr.splice(k, 1)`: drop the element at `k`. */
  function RemoveAt(xs: seq<Id>, k: nat): (r: seq<Id>)
    requires k < |xs|
    ensures |r| == |xs| - 1
    ensures forall y | y in r :: y in xs
    ensures multiset(r) == multiset(xs) - multiset{xs[k]}
  {
    assert xs == xs[..k] + [xs[k]] + xs[k + 1..];
    xs[..k] + xs[k + 1..]
  }

  /** A student reacts at most one way. */
  predicate Disjoint(s: Session)
  {
    forall x | x in s.likes :: x !in s.disLikes
  }

  /** Neither list holds a student twice. */
  predicate NoRepeats(s: Session)
  {
    Distinct(s.likes) && Distinct(s.disLikes)
  }

  /**
   * The document after a like: an existing like (its first occurrence) is
   * withdrawn and the dislikes are left alone; otherwise every dislike by
   * the student is dropped and the like is appended.
   */
  function Liked(s: Session, student: Id): (r: Session)
    ensures r.courseId == s.courseId && r.video == s.video && r.createdAt == s.createdAt
    ensures student in s.likes ==>
              r.disLikes == s.disLikes && multiset(r.likes) == multiset(s.likes) - multiset{student}
    ensures student !in s.likes ==>
              r.likes == s.likes + [student] && r.disLikes == Pull(s.disLikes, student)
  {
    var k := Position(s.likes, student);
    if k < |s.likes| then s.(likes := RemoveAt(s.likes, k))
    else s.(disLikes := Pull(s.disLikes, student), likes := s.likes + [student])
  }

  /** The mirror image of `Liked`. */
  function Disliked(s: Session, student: Id): (r: Session)
    ensures r.courseId == s.courseId && r.video == s.video && r.createdAt == s.createdAt
    ensures student in s.disLikes ==>
              r.likes == s.likes && multiset(r.disLikes) == multiset(s.disLikes) - multiset{student}
    ensures student !in s.disLikes ==>
              r.disLikes == s.disLikes + [student] && r.likes == Pull(s.likes, student)
  {
    var k := Position(s.disLikes, student);
    if k < |s.disLikes| then s.(disLikes := RemoveAt(s.disLikes, k))
    else s.(likes := Pull(s.likes, student), disLikes := s.disLikes + [student])
  }

  /** Removing one element keeps a list free of repeats, and removes the only copy. */
  lemma RemoveAtDistinct(xs: seq<Id>, k: nat)
    requires k < |xs| && Distinct(xs)
    ensures Distinct(RemoveAt(xs, k)) && xs[k] !in RemoveAt(xs, k)
  {
    var r := RemoveAt(xs, k);
    assert r == xs[..k] + xs[k + 1..];
    forall i, j | 0 <= i < j < |r| ensures r[i] != r[j] {
      var i' := if i < k then i else i + 1;
      var j' := if j < k then j else j + 1;
      assert r[i] == xs[i'] && r[j] == xs[j'];
    }
  }

  /** `filter` keeps a list free of repeats. */
  lemma {:induction false} PullDistinct(xs: seq<Id>, x: Id)
    requires Distinct(xs)
    ensures Distinct(Pull(xs, x))
  {
    if |xs| > 0 {
      PullDistinct(xs[1..], x);
      assert xs[0] !in xs[1..];
    }
  }

  /** A like keeps the two reactions apart and the lists free of repeats. */
  lemma LikeKeepsInvariants(s: Session, student: Id)
    requires Disjoint(s) && NoRepeats(s)
    ensures Disjoint(Liked(s, student)) && NoRepeats(Liked(s, student))
  {
    var k := Position(s.likes, student);
    if k < |s.likes| {
      RemoveAtDistinct(s.likes, k);
    } else {
      PullDistinct(s.disLikes, student);
    }
  }

  /** A dislike keeps the two reactions apart and the lists free of repeats. */
  lemma DislikeKeepsInvariants(s: Session, student: Id)
    requires Disjoint(s) && NoRepeats(s)
    ensures Disjoint(Disliked(s, student)) && NoRepeats(Disliked(s, student))
  {
    var k := Position(s.disLikes, student);
    if k < |s.disLikes| {
      RemoveAtDistinct(s.disLikes, k);
    } else {
      PullDistinct(s.likes, student);
    }
  }

  /**
   * Each like toggles: on a well-formed session a student who had not
   * liked now likes (and no longer dislikes), a student who had liked no
   * longer likes.
   */
  lemma LikeToggles(s: Session, student: Id)
    requires Disjoint(s) && NoRepeats(s)
    ensures student in Liked(s, student).likes <==> student !in s.likes
    ensures student !in Liked(s, student).disLikes || student in s.likes
  {
    var k := Position(s.likes, student);
    if k < |s.likes| {
      RemoveAtDistinct(s.likes, k);
    }
  }

  /**
   * Liking and then unliking does not bring a dislike back: the student
   * ends in neither list, and the likes are as they were.
   */
  lemma LikeThenUnlikeLosesDislike(s: Session, student: Id)
    requires Disjoint(s) && NoRepeats(s) && student in s.disLikes
    ensures var r := Liked(Liked(s, student), student);
            student !in r.likes && student !in r.disLikes && r.likes == s.likes &&
            r.disLikes == Pull(s.disLikes, student) && r.disLikes != s.disLikes
  {
    var once := Liked(s, student);
    assert student !in s.likes;
    var k := Position(once.likes, student);
    assert once.likes[|s.likes|] == student;
    assert k == |s.likes|;
    assert RemoveAt(once.likes, k) == s.likes;
  }

  /**
   * `likeSession`: the session must exist and the student id must parse
   * as an ObjectId; the message says whether the like was added or taken
   * back.
   */
  function Like(sessions: Table<Session>, sessionId: Id, student: Id): (o: Outcome<string, Session>)
    ensures !HasId(sessions, sessionId) ==> o == Outcome(Failure(NotFound(MsgSessionNotFound)), sessions)
    ensures HasId(sessions, sessionId) && !IsValidObjectId(student) ==>
              o == Outcome(Failure(Internal(MsgBadStudentId)), sessions)
    ensures o.result.Success? <==> HasId(sessions, sessionId) && IsValidObjectId(student)
    ensures o.result.Success? ==>
              var s := Find(sessions, sessionId).value;
              o.table == Put(sessions, sessionId, Liked(s, student)) &&
              o.result.value == (if student in s.likes then MsgLikeRemoved else MsgLiked)
  {
    match Find(sessions, sessionId)
    case None => Outcome(Failure(NotFound(MsgSessionNotFound)), sessions)
    case Some(s) =>
      if !IsValidObjectId(student) then Outcome(Failure(Internal(MsgBadStudentId)), sessions)
      else Outcome(Success(if student in s.likes then MsgLikeRemoved else MsgLiked), Put(sessions, sessionId, Liked(s, student)))
  }

  /** `dislikeSession`, the mirror image of `Like`. */
  function Dislike(sessions: Table<Session>, sessionId: Id, student: Id): (o: Outcome<string, Session>)
    ensures !HasId(sessions, sessionId) ==> o == Outcome(Failure(NotFound(MsgSessionNotFound)), sessions)
    ensures HasId(sessions, sessionId) && !IsValidObjectId(student) ==>
              o == Outcome(Failure(Internal(MsgBadStudentId)), sessions)
    ensures o.result.Success? <==> HasId(sessions, sessionId) && IsValidObjectId(student)
    ensures o.result.Success? ==>
              var s := Find(sessions, sessionId).value;
              o.table == Put(sessions, sessionId, Disliked(s, student)) &&
              o.result.value == (if student in s.disLikes then MsgDislikeRemoved else MsgDisliked)
  {
    match Find(sessions, sessionId)
    case None => Outcome(Failure(NotFound(MsgSessionNotFound)), sessions)
    case Some(s) =>
      if !IsValidObjectId(student) then Outcome(Failure(Internal(MsgBadStudentId)), sessions)
      else Outcome(Success(if student in s.disLikes then MsgDislikeRemoved else MsgDisliked),
                   Put(sessions, sessionId, Disliked(s, student)))
  }

  /** Every session is well formed: reactions apart and without repeats. */
  predicate WellFormed(sessions: Table<Session>)
  {
    forall i | 0 <= i < |sessions| :: Disjoint(sessions[i].val) && NoRepeats(sessions[i].val)
  }

  /** Both services keep every session well formed. */
  lemma ReactionsKeepWellFormed(sessions: Table<Session>, sessionId: Id, student: Id)
    requires UniqueIds(sessions) && WellFormed(sessions)
    ensures WellFormed(Like(sessions, sessionId, student).table)
    ensures WellFormed(Dislike(sessions, sessionId, student).table)
  {
    if HasId(sessions, sessionId) {
      var s := Find(sessions, sessionId).value;
      var i :| 0 <= i < |sessions| && sessions[i].id == sessionId;
      assert sessions[i].val == s;
      LikeKeepsInvariants(s, student);
      DislikeKeepsInvariants(s, student);
      PutKeepsWellFormed(sessions, sessionId, Liked(s, student));
      PutKeepsWellFormed(sessions, sessionId, Disliked(s, student));
    }
  }

  lemma PutKeepsWellFormed(sessions: Table<Session>, id: Id, v: Session)
    requires WellFormed(sessions) && Disjoint(v) && NoRepeats(v)
    ensures WellFormed(Put(sessions, id, v))
  {
  }

  /**
   * `likeSession` on the database: the loaded document's arrays are
   * edited step by step, as the service does, and then saved.
   */
  method LikeSession(db: Db, sessionId: Id, student: Id) returns (r: Result<string>)
    modifies db`sessions
    ensures Outcome(r, db.sessions) == Like(old(db.sessions), sessionId, student)
  {
    var found := Find(db.sessions, sessionId);
    if found.None? {
      return Failure(NotFound(MsgSessionNotFound));
    }
    if !IsValidObjectId(student) {
      return Failure(Internal(MsgBadStudentId));
    }
    var session := found.value;
    var k := Position(session.likes, student);
    if k < |session.likes| {
      session := session.(likes := RemoveAt(session.likes, k));
      db.sessions := Put(db.sessions, sessionId, session);
      return Success(MsgLikeRemoved);
    }
    session := session.(disLikes := Pull(session.disLikes, student));
    session := session.(likes := session.likes + [student]);
    db.sessions := Put(db.sessions, sessionId, session);
    r := Success(MsgLiked);
  }

  /** `dislikeSession` on the database, step by step as the service does. */
  method DislikeSession(db: Db, sessionId: Id, student: Id) returns (r: Result<string>)
    modifies db`sessions
    ensures Outcome(r, db.sessions) == Dislike(old(db.sessions), sessionId, student)
  {
    var found := Find(db.sessions, sessionId);
    if found.None? {
      return Failure(NotFound(MsgSessionNotFound));
    }
    if !IsValidObjectId(student) {
      return Failure(Internal(MsgBadStudentId));
    }
    var session := found.value;
    var k := Position(session.disLikes, student);
    if k < |session.disLikes| {
      session := session.(disLikes := RemoveAt(session.disLikes, k));
      db.sessions := Put(db.sessions, sessionId, session);
      return Success(MsgDislikeRemoved);
    }
    session := session.(likes := Pull(session.likes, student));
    session := session.(disLikes := session.disLikes + [student]);
    db.sessions := Put(db.sessions, sessionId, session);
    r := Success(MsgDisliked);
  }

  // ---------------------------------------------------------------------
  // Reading a session

  /** What `getSessionById` returns: the document, possibly without `video` and with `signedVideoUrl`. */
  datatype SessionView = SessionView(
    courseId: Id,
    video: Option<string>,
    likes: seq<Id>,
    disLikes: seq<Id>,
    createdAt: int,
    signedVideoUrl: Option<string>)

  /** `if (sessionObject.video)`: present and not the empty string. */
  predicate HasVideo(s: Session)
  {
    s.video.Some? && s.video.value != ""
  }

  /**
   * `getSessionById`. The storage signer `generateSignedUrl(key, seconds)`
   * is the parameter `sign`.
   */
  function GetSession(sessions: Table<Session>, id: Id, sign: (string, nat) -> string): (r: Result<SessionView>)
    ensures !HasId(sessions, id) ==> r == Failure(NotFound(MsgSessionNotFound))
    ensures r.Success? <==> HasId(sessions, id)
    ensures r.Success? ==>
              var s := Find(sessions, id).value;
              var v := r.value;
              v.courseId == s.courseId && v.likes == s.likes && v.disLikes == s.disLikes && v.createdAt == s.createdAt &&
              (HasVideo(s) ==> v.video.None? && v.signedVideoUrl == Some(sign(s.video.value, SignedUrlSeconds))) &&
              (!HasVideo(s) ==> v.video == s.video && v.signedVideoUrl.None?)
  {
    match Find(sessions, id)
    case None => Failure(NotFound(MsgSessionNotFound))
    case Some(s) =>
      if HasVideo(s) then
        Success(SessionView(s.courseId, None, s.likes, s.disLikes, s.createdAt, Some(sign(s.video.value, SignedUrlSeconds))))
      else Success(SessionView(s.courseId, s.video, s.likes, s.disLikes, s.createdAt, None))
  }

  /** The stored key never leaves the service together with a signed link. */
  lemma KeyOrLinkNotBoth(sessions: Table<Session>, id: Id, sign: (string, nat) -> string)
    requires GetSession(sessions, id, sign).Success?
    ensures var v := GetSession(sessions, id, sign).value;
            !(v.video.Some? && v.video.value != "") && !(v.video.Some? && v.signedVideoUrl.Some?)
  {
  }
}

=== FILE: shuffle.dfy ===
/**
 * The Fisher–Yates shuffle that the question, group and group-bank
 * services each declare as `shuffleArray`. `Math.random()` is the
 * parameter `draw`: `draw(i)` reduced into `0..i` plays the part of
 * `Math.floor(Math.random() * (i + 1))`.
 */
module Shuffle {
  /** The pick for position `i`: some index in `0..i`. */
  function Pick(draw: nat -> nat, i: nat): (j: nat)
    ensures j <= i
  {
    draw(i) % (i + 1)
  }

  function Swap<T>(s: seq<T>, i: nat, j: nat): (r: seq<T>)
    requires i < |s| && j < |s|
    ensures |r| == |s| && r[i] == s[j] && r[j] == s[i]
    ensures forall k | 0 <= k < |s| && k != i && k != j :: r[k] == s[k]
  {
    s[i := s[j]][j := s[i]]
  }

  /** The shuffle as a value: positions `i` down to 1 each swapped with their pick. */
  function FisherYates<T>(s: seq<T>, i: int, draw: nat -> nat): (r: seq<T>)
    requires i < |s|
    decreases i
  {
    if i <= 0 then s
    else FisherYates(Swap(s, i, Pick(draw, i)), i - 1, draw)
  }

  /** A swap only reorders. */
  lemma SwapPermutes<T>(s: seq<T>, i: nat, j: nat)
    requires i < |s| && j < |s|
    ensures multiset(Swap(s, i, j)) == multiset(s)
  {
    if i != j {
      assert s == s[..j] + [s[j]] + s[j + 1..];
      var t := s[i := s[j]];
      assert multiset(t) == multiset(s) - multiset{s[i]} + multiset{s[j]};
      assert multiset(t[j := s[i]]) == multiset(t) - multiset{t[j]} + multiset{s[i]};
    }
  }

  /** Whatever the draws, the shuffle returns a permutation of its input. */
  lemma {:induction false} FisherYatesPermutes<T>(s: seq<T>, i: int, draw: nat -> nat)
    requires i < |s|
    ensures |FisherYates(s, i, draw)| == |s|
    ensures multiset(FisherYates(s, i, draw)) == multiset(s)
    decreases i
  {
    if i > 0 {
      SwapPermutes(s, i, Pick(draw, i));
      FisherYatesPermutes(Swap(s, i, Pick(draw, i)), i - 1, draw);
    }
  }

  /** `shuffleArray` on the array itself: `for (let i = n - 1; i > 0; i--)` with a swap. */
  method ShuffleArray<T>(a: array<T>, draw: nat -> nat)
    modifies a
    ensures a[..] == FisherYates(old(a[..]), a.Length - 1, draw)
  {
    var i := a.Length - 1;
    while i > 0
      invariant -1 <= i < a.Length
      invariant FisherYates(a[..], i, draw) == FisherYates(old(a[..]), a.Length - 1, draw)
      decreases i
    {
      var j := Pick(draw, i);
      ghost var before := a[..];
      a[i], a[j] := a[j], a[i];
      ghost var after := a[..];
      assert after == Swap(before, i, j);
      assert FisherYates(before, i, draw) == FisherYates(after, i - 1, draw);
      i := i - 1;
    }
  }

  /** `this.shuffleArray([...xs])`: shuffle a copy; the result is a permutation of `xs`. */
  method Shuffled<T>(xs: seq<T>, draw: nat -> nat) returns (ys: seq<T>)
    ensures |ys| == |xs|
    ensures multiset(ys) == multiset(xs)
  {
    var a := new T[|xs|](k requires 0 <= k < |xs| => xs[k]);
    assert a[..] == xs;
    ShuffleArray(a, draw);
    FisherYatesPermutes(xs, |xs| - 1, draw);
    ys := a[..];
  }
}

=== FILE: store.dfy ===
/**
 * The database: one table per collection. Service methods take the
 * database and say which of its tables they may change.
 */
module Store {
  import opened Tables
  import opened Records

  class Db {
    var students: Table<Student>
    var teachers: Table<Teacher>
    var admins: Table<Admin>
    var courses: Table<Course>
    var sessions: Table<Session>
    var exams: Table<Exam>
    var tickets: Table<Ticket>
    var paymentCodes: Table<PaymentCode>
    var enrollments: Table<Enrollment>
    var groups: Table<Group>
    var questions: Table<Question>
    var contents: Table<Content>
    var groupBanks: Table<GroupBank>
    var questionBanks: Table<QuestionBank>
    var banks: Table<Bank>
    var versions: Table<Version>

    /** An empty database. */
    constructor ()
      ensures students == [] && teachers == [] && admins == [] && courses == []
      ensures sessions == [] && exams == [] && tickets == [] && paymentCodes == []
      ensures enrollments == [] && groups == [] && questions == [] && contents == []
      ensures groupBanks == [] && questionBanks == [] && banks == [] && versions == []
    {
      students, teachers, admins, courses := [], [], [], [];
      sessions, exams, tickets, paymentCodes := [], [], [], [];
      enrollments, groups, questions, contents := [], [], [], [];
      groupBanks, questionBanks, banks, versions := [], [], [], [];
    }
  }
}

=== FILE: students.dfy ===
/**
 * The student account services: registration with purge of unverified
 * duplicates, activation by OTP, login with device binding, OTP resend,
 * the account guard and the password reset, all over the student table.
 *
 * The request validators live in the student model, which is not part of
 * this model: their verdict is the `valid` parameter. The OTP and the
 * e-mail transport are parameters too: `otpHash` is the bcrypt hash of
 * the generated OTP and `mailSent` says whether sending it succeeded.
 */
module Students {
  import opened Wrappers
  import opened Tables
  import opened Crypto
  import opened Records
  import opened Store
  import opened Accounts

  const MsgPhoneTaken := "phone number already registered"
  const MsgEmailTaken := "e-mail already registered"
  const MsgAccountNotFound := "account not found"
  const MsgOtherDevice := "login from another device; the account is restricted, please contact us"
  const ReasonOtherDevice := "login from another account"

  /** The registration form, after validation. */
  datatype Signup = Signup(
    userName: string,
    universityNumber: int,
    email: string,
    phoneNumber: string,
    password: string,
    deviceId: string)

  /**
   * The record `Student.create` stores: unverified, not suspended, no reset
   * permission, with the OTP hash. The student model's save hook stores the
   * password as its bcrypt hash. A new student has no push token and no
   * notification settings yet.
   */
  function NewStudent(f: Signup, otpHash: string): Student
  {
    Student(f.userName, f.universityNumber,
            Credentials(f.email, f.phoneNumber, BcryptHash(f.password), otpHash, false, false, "", false),
            f.deviceId, [], [], [], [], [], [], None, None)
  }

  function WithEmail(email: string, available: bool): Student -> bool
  {
    (s: Student) => s.cred.email == email && s.cred.available == available
  }

  function WithPhone(phone: string, available: bool): Student -> bool
  {
    (s: Student) => s.cred.phoneNumber == phone && s.cred.available == available
  }

  /** No two student records share an e-mail or a phone number. */
  predicate UniqueContacts(t: Table<Student>)
  {
    forall x, y | x in t && y in t && x.id != y.id ::
      x.val.cred.email != y.val.cred.email && x.val.cred.phoneNumber != y.val.cred.phoneNumber
  }

  /** `findOne(filter)` followed by `findByIdAndDelete` of the match, if there is one. */
  function DeleteFirst(t: Table<Student>, p: Student -> bool): (r: Table<Student>)
    ensures forall x :: x in r ==> x in t
    ensures IndexWhere(t, p).None? ==> r == t
    ensures UniqueIds(t) ==> UniqueIds(r)
  {
    match IndexWhere(t, p)
    case None => t
    case Some(k) =>
      assert UniqueIds(t) ==> UniqueIds(Delete(t, t[k].id)) by {
        if UniqueIds(t) { DeleteUnique(t, t[k].id); }
      }
      Delete(t, t[k].id)
  }

  /** The table after registration has removed an unverified account with the e-mail, then one with the phone. */
  function Purged(t: Table<Student>, f: Signup): Table<Student>
  {
    DeleteFirst(DeleteFirst(t, WithEmail(f.email, false)), WithPhone(f.phoneNumber, false))
  }

  /** `createNewStudent` */
  function Register(t: Table<Student>, valid: bool, f: Signup, otpHash: string, newId: Id, mailSent: bool): (o: Outcome<Id, Student>)
    requires !HasId(t, newId)
    ensures !valid ==> o == Outcome(Failure(BadRequest(MsgInvalid)), t)
    ensures valid ==> o.table == Purged(t, f) || o.table == Purged(t, f) + [Row(newId, NewStudent(f, otpHash))]
    ensures o.result.Success? <==>
              valid && mailSent && !Any(Purged(t, f), WithPhone(f.phoneNumber, true)) &&
              !Any(Purged(t, f), WithEmail(f.email, true))
    ensures o.result.Success? ==> o.result.value == newId && o.table == Purged(t, f) + [Row(newId, NewStudent(f, otpHash))]
    ensures valid && Any(Purged(t, f), WithPhone(f.phoneNumber, true)) ==> o.result == Failure(BadRequest(MsgPhoneTaken))
    ensures valid && !Any(Purged(t, f), WithPhone(f.phoneNumber, true)) && Any(Purged(t, f), WithEmail(f.email, true)) ==>
              o.result == Failure(BadRequest(MsgEmailTaken))
  {
    if !valid then Outcome(Failure(BadRequest(MsgInvalid)), t)
    else
      var purged := Purged(t, f);
      if Any(purged, WithPhone(f.phoneNumber, true)) then Outcome(Failure(BadRequest(MsgPhoneTaken)), purged)
      else if Any(purged, WithEmail(f.email, true)) then Outcome(Failure(BadRequest(MsgEmailTaken)), purged)
      else if !mailSent then Outcome(Failure(Internal(MsgMailFailed)), purged)
      else Outcome(Success(newId), purged + [Row(newId, NewStudent(f, otpHash))])
  }

  /** Rows drawn from a table with unique contacts keep them unique. */
  lemma UniqueContactsSub(t: Table<Student>, r: Table<Student>)
    requires UniqueContacts(t) && forall x :: x in r ==> x in t
    ensures UniqueContacts(r)
  {
  }

  /**
   * Deleting the first unverified account with an e-mail leaves no
   * unverified account with that e-mail, because there was at most one.
   */
  lemma PurgeEmail(t: Table<Student>, email: string)
    requires UniqueContacts(t)
    ensures !Any(DeleteFirst(t, WithEmail(email, false)), WithEmail(email, false))
  {
    var p := WithEmail(email, false);
    var r := DeleteFirst(t, p);
    forall x | x in r ensures x.val.cred.email != email || x.val.cred.available {
      var e := IndexWhere(t, p);
      if e.Some? {
        assert t[e.value] in t;
        assert x.id != t[e.value].id;
      } else {
        var i :| 0 <= i < |t| && t[i] == x;
        assert !p(t[i].val);
      }
    }
    forall i | 0 <= i < |r| ensures !p(r[i].val) { assert r[i] in r; }
  }

  lemma PurgePhone(t: Table<Student>, phone: string)
    requires UniqueContacts(t)
    ensures !Any(DeleteFirst(t, WithPhone(phone, false)), WithPhone(phone, false))
  {
    var p := WithPhone(phone, false);
    var r := DeleteFirst(t, p);
    forall x | x in r ensures x.val.cred.phoneNumber != phone || x.val.cred.available {
      var e := IndexWhere(t, p);
      if e.Some? {
        assert t[e.value] in t;
        assert x.id != t[e.value].id;
      } else {
        var i :| 0 <= i < |t| && t[i] == x;
        assert !p(t[i].val);
      }
    }
    forall i | 0 <= i < |r| ensures !p(r[i].val) { assert r[i] in r; }
  }

  /** After the purge, no record at all carries the e-mail or the phone, unless it is an activated one. */
  lemma PurgedLeavesOnlyActive(t: Table<Student>, f: Signup)
    requires UniqueContacts(t)
    ensures forall x | x in Purged(t, f) && (x.val.cred.email == f.email || x.val.cred.phoneNumber == f.phoneNumber) ::
              x.val.cred.available
  {
    var t1 := DeleteFirst(t, WithEmail(f.email, false));
    var t2 := Purged(t, f);
    PurgeEmail(t, f.email);
    UniqueContactsSub(t, t1);
    PurgePhone(t1, f.phoneNumber);
    NoneLeft(t1, WithEmail(f.email, false));
    NoneLeft(t2, WithPhone(f.phoneNumber, false));
    assert forall x | x in t2 :: x in t1;
  }

  /** No document satisfying `p`: no row whose document satisfies it. */
  lemma NoneLeft(t: Table<Student>, p: Student -> bool)
    requires !Any(t, p)
    ensures forall x | x in t :: !p(x.val)
  {
    forall x | x in t ensures !p(x.val) {
      var i :| 0 <= i < |t| && t[i] == x;
    }
  }

  /** When registration succeeds, no record left after the purge has the new e-mail, phone or id. */
  lemma PurgedIsFree(t: Table<Student>, f: Signup, newId: Id)
    requires !HasId(t, newId) && UniqueContacts(t)
    requires !Any(Purged(t, f), WithPhone(f.phoneNumber, true)) && !Any(Purged(t, f), WithEmail(f.email, true))
    ensures forall x | x in Purged(t, f) ::
              x.val.cred.email != f.email && x.val.cred.phoneNumber != f.phoneNumber && x.id != newId
  {
    var p := Purged(t, f);
    PurgedLeavesOnlyActive(t, f);
    forall x | x in p ensures x.val.cred.email != f.email && x.val.cred.phoneNumber != f.phoneNumber && x.id != newId {
      var i :| 0 <= i < |p| && p[i] == x;
      assert !WithEmail(f.email, true)(p[i].val);
      assert !WithPhone(f.phoneNumber, true)(p[i].val);
      HasIdIn(t, newId);
    }
  }

  /** Appending a record whose id, e-mail and phone are all new keeps both uniqueness properties. */
  lemma AppendFresh(p: Table<Student>, row: Row<Student>)
    requires UniqueIds(p) && UniqueContacts(p)
    requires forall x | x in p ::
               x.val.cred.email != row.val.cred.email && x.val.cred.phoneNumber != row.val.cred.phoneNumber && x.id != row.id
    ensures UniqueIds(p + [row]) && UniqueContacts(p + [row])
  {
    var u := p + [row];
    forall i, j | 0 <= i < j < |u| ensures u[i].id != u[j].id {
      if j == |u| - 1 { assert u[i] in p; } else { assert u[i] == p[i] && u[j] == p[j]; }
    }
  }

  /**
   * Registration keeps student ids unique and keeps every e-mail and every
   * phone number on at most one record, whatever the outcome.
   */
  lemma RegisterKeepsUnique(t: Table<Student>, valid: bool, f: Signup, otpHash: string, newId: Id, mailSent: bool)
    requires !HasId(t, newId) && UniqueIds(t) && UniqueContacts(t)
    ensures var o := Register(t, valid, f, otpHash, newId, mailSent);
            UniqueIds(o.table) && UniqueContacts(o.table)
  {
    var o := Register(t, valid, f, otpHash, newId, mailSent);
    var p := Purged(t, f);
    UniqueContactsSub(t, p);
    if o.result.Success? {
      PurgedIsFree(t, f, newId);
      AppendFresh(p, Row(newId, NewStudent(f, otpHash)));
    }
  }

  /** An activated account with the phone number or the e-mail makes registration fail. */
  lemma RegisterRefusesActiveDuplicate(t: Table<Student>, f: Signup, otpHash: string, newId: Id, mailSent: bool, i: nat)
    requires !HasId(t, newId) && UniqueIds(t)
    requires i < |t| && t[i].val.cred.available
    requires t[i].val.cred.email == f.email || t[i].val.cred.phoneNumber == f.phoneNumber
    ensures Register(t, true, f, otpHash, newId, mailSent).result.Failure?
  {
    var t1 := DeleteFirst(t, WithEmail(f.email, false));
    var p := Purged(t, f);
    assert t[i] in t1 by {
      var e := IndexWhere(t, WithEmail(f.email, false));
      if e.Some? { assert t[e.value].id != t[i].id; }
    }
    assert t[i] in p by {
      var e := IndexWhere(t1, WithPhone(f.phoneNumber, false));
      if e.Some? {
        assert t1[e.value] in t;
        var m :| 0 <= m < |t| && t[m] == t1[e.value];
        assert m != i;
      }
    }
    var k :| 0 <= k < |p| && p[k] == t[i];
    if t[i].val.cred.phoneNumber == f.phoneNumber {
      assert WithPhone(f.phoneNumber, true)(p[k].val);
    } else {
      assert WithEmail(f.email, true)(p[k].val);
    }
  }

  /** `verifyOtp` */
  function VerifyOtp(t: Table<Student>, valid: bool, id: Id, otp: string): (o: Outcome<AuthToken, Student>)
    ensures o.result.Failure? ==> o.table == t
    ensures !valid ==> o.result == Failure(BadRequest(MsgInvalid))
    ensures valid && !HasId(t, id) ==> o.result == Failure(NotFound(MsgAccountNotFound))
    ensures o.result.Success? <==> valid && Find(t, id).Some? && Activate(Find(t, id).value.cred, otp).Success?
    ensures valid && Find(t, id).Some? && Activate(Find(t, id).value.cred, otp).Failure? ==>
              o.result == Failure(Activate(Find(t, id).value.cred, otp).error)
    ensures o.result.Success? ==>
              o.result.value == AuthToken(id, StudentRole) &&
              o.table == Put(t, id, Find(t, id).value.(cred := Activate(Find(t, id).value.cred, otp).value))
  {
    if !valid then Outcome(Failure(BadRequest(MsgInvalid)), t)
    else match Find(t, id)
      case None => Outcome(Failure(NotFound(MsgAccountNotFound)), t)
      case Some(s) =>
        match Activate(s.cred, otp)
        case Failure(e) => Outcome(Failure(e), t)
        case Success(c) => Outcome(Success(AuthToken(id, StudentRole)), Put(t, id, s.(cred := c)))
  }

  /** A freshly registered student activates with the OTP that was mailed, and then cannot activate again. */
  lemma RegisteredStudentActivates(t: Table<Student>, f: Signup, otp: string, newId: Id, again: string)
    requires !HasId(t, newId) && UniqueIds(t)
    requires Register(t, true, f, BcryptHash(otp), newId, true).result.Success?
    ensures var t1 := Register(t, true, f, BcryptHash(otp), newId, true).table;
            var v := VerifyOtp(t1, true, newId, otp);
            v.result == Success(AuthToken(newId, StudentRole)) &&
            Find(v.table, newId).Some? && Find(v.table, newId).value.cred.available &&
            VerifyOtp(v.table, true, newId, again).result == Failure(BadRequest(MsgAlreadyActive))
  {
    var p := Purged(t, f);
    var t1 := p + [Row(newId, NewStudent(f, BcryptHash(otp)))];
    assert !HasId(p, newId) by {
      HasIdIn(t, newId);
      HasIdIn(p, newId);
    }
    FindAppend(p, Row(newId, NewStudent(f, BcryptHash(otp))), newId);
    ActivationOnce(NewStudent(f, BcryptHash(otp)).cred, otp, again);
    var s := NewStudent(f, BcryptHash(otp));
    var s1 := s.(cred := Activate(s.cred, otp).value);
    assert UniqueIds(t1) by {
      forall i, j | 0 <= i < j < |t1| ensures t1[i].id != t1[j].id {
        if j == |t1| - 1 { assert t1[i] in p; HasIdIn(p, newId); }
      }
    }
    FindAfterPut(t1, newId, s1, newId);
  }

  /** A login whose device differs from the stored one: the account is suspended with the reason. */
  function SuspendForDevice(s: Student): Student
  {
    s.(cred := s.cred.(suspended := true, suspensionReason := ReasonOtherDevice))
  }

  /** `loginStudent`: only activated accounts are considered. */
  function Login(t: Table<Student>, valid: bool, email: string, password: string, deviceId: string): (o: Outcome<AuthToken, Student>)
    ensures !valid ==> o == Outcome(Failure(BadRequest(MsgInvalid)), t)
    ensures valid && !Any(t, WithEmail(email, true)) ==> o == Outcome(Failure(NotFound(MsgBadLogin)), t)
    ensures o.result.Success? <==>
              valid && IndexWhere(t, WithEmail(email, true)).Some? &&
              var row := t[IndexWhere(t, WithEmail(email, true)).value];
              BcryptCompare(password, row.val.cred.password) && row.val.deviceId == deviceId
    ensures o.result.Success? ==>
              o.table == t && o.result.value == AuthToken(t[IndexWhere(t, WithEmail(email, true)).value].id, StudentRole)
    ensures valid && IndexWhere(t, WithEmail(email, true)).Some? ==>
              var row := t[IndexWhere(t, WithEmail(email, true)).value];
              (!BcryptCompare(password, row.val.cred.password) ==> o == Outcome(Failure(BadRequest(MsgBadLogin)), t)) &&
              (BcryptCompare(password, row.val.cred.password) && row.val.deviceId != deviceId ==>
                 o == Outcome(Failure(BadRequest(MsgOtherDevice)), Put(t, row.id, SuspendForDevice(row.val))))
  {
    if !valid then Outcome(Failure(BadRequest(MsgInvalid)), t)
    else match IndexWhere(t, WithEmail(email, true))
      case None => Outcome(Failure(NotFound(MsgBadLogin)), t)
      case Some(k) =>
        var row := t[k];
        if !BcryptCompare(password, row.val.cred.password) then Outcome(Failure(BadRequest(MsgBadLogin)), t)
        else if row.val.deviceId != deviceId then
          Outcome(Failure(BadRequest(MsgOtherDevice)), Put(t, row.id, SuspendForDevice(row.val)))
        else Outcome(Success(AuthToken(row.id, StudentRole)), t)
  }

  /**
   * A login from another device locks the account out of every guarded
   * service; its other fields are untouched.
   */
  lemma OtherDeviceLocksAccount(t: Table<Student>, email: string, password: string, deviceId: string)
    requires UniqueIds(t)
    requires Login(t, true, email, password, deviceId).result == Failure(BadRequest(MsgOtherDevice))
    ensures var id := t[IndexWhere(t, WithEmail(email, true)).value].id;
            var t1 := Login(t, true, email, password, deviceId).table;
            Guard(CredOf(t1, id)) == Failure(BadRequest(MsgRestricted)) &&
            Find(t1, id).value.cred.password == Find(t, id).value.cred.password &&
            Find(t1, id).value.enrolledCourses == Find(t, id).value.enrolledCourses
  {
    var k := IndexWhere(t, WithEmail(email, true)).value;
    HasIdIn(t, t[k].id);
    assert t[k] in t;
    FindAfterPut(t, t[k].id, SuspendForDevice(t[k].val), t[k].id);
  }

  /** The credentials of a student, if there is one with that id. */
  function CredOf(t: Table<Student>, id: Id): (r: Option<Credentials>)
    ensures r.Some? <==> HasId(t, id)
  {
    match Find(t, id)
    case None => None
    case Some(s) => Some(s.cred)
  }

  /** `getProfileStudent`: the account guard; the whole record stands for the `select`ed fields. */
  function Profile(t: Table<Student>, id: Id): (r: Result<Student>)
    ensures r.Success? <==> HasId(t, id) && Live(Find(t, id).value.cred)
    ensures r.Success? ==> r == Success(Find(t, id).value)
    ensures r.Failure? ==> r == Failure(Guard(CredOf(t, id)).error)
  {
    match Guard(CredOf(t, id))
    case Failure(e) => Failure(e)
    case Success(_) => Success(Find(t, id).value)
  }

  /** `reSendOtp`: the new OTP hash replaces the old one; a failed e-mail deletes the student. */
  function ResendOtp(t: Table<Student>, valid: bool, id: Id, otpHash: string, mailSent: bool): (o: Outcome<(), Student>)
    ensures !valid ==> o == Outcome(Failure(BadRequest(MsgInvalid)), t)
    ensures valid && !HasId(t, id) ==> o == Outcome(Failure(NotFound(MsgAccountNotFound)), t)
    ensures o.result.Success? <==> valid && HasId(t, id) && mailSent
    ensures valid && HasId(t, id) && !mailSent ==> o == Outcome(Failure(Internal(MsgMailFailed)), Delete(t, id))
    ensures o.result.Success? ==>
              o.table == Put(t, id, Find(t, id).value.(cred := Find(t, id).value.cred.(otp := otpHash)))
  {
    if !valid then Outcome(Failure(BadRequest(MsgInvalid)), t)
    else match Find(t, id)
      case None => Outcome(Failure(NotFound(MsgAccountNotFound)), t)
      case Some(s) =>
        var t1 := Put(t, id, s.(cred := s.cred.(otp := otpHash)));
        if !mailSent then Outcome(Failure(Internal(MsgMailFailed)), DeleteAfterPut(t, id, s.(cred := s.cred.(otp := otpHash))))
        else Outcome(Success(()), t1)
  }

  /** Deleting a record just updated deletes it: the update is lost with it. */
  function DeleteAfterPut(t: Table<Student>, id: Id, v: Student): (r: Table<Student>)
    ensures r == Delete(t, id)
  {
    DeletePut(t, id, v);
    Delete(Put(t, id, v), id)
  }

  lemma {:induction false} DeletePut(t: Table<Student>, id: Id, v: Student)
    ensures Delete(Put(t, id, v), id) == Delete(t, id)
  {
    if |t| > 0 {
      assert Put(t, id, v)[1..] == Put(t[1..], id, v);
      DeletePut(t[1..], id, v);
    }
  }

  /**
   * After a resend, the newly mailed OTP activates a pending account and an
   * earlier OTP no longer does.
   */
  lemma ResendReplacesOtp(t: Table<Student>, id: Id, otp: string, earlier: string)
    requires UniqueIds(t) && HasId(t, id) && !Find(t, id).value.cred.available && BcryptKey(earlier) != BcryptKey(otp)
    ensures var t1 := ResendOtp(t, true, id, BcryptHash(otp), true).table;
            VerifyOtp(t1, true, id, otp).result.Success? &&
            VerifyOtp(t1, true, id, earlier).result == Failure(BadRequest(MsgBadOtp))
  {
    var s := Find(t, id).value;
    FindAfterPut(t, id, s.(cred := s.cred.(otp := BcryptHash(otp))), id);
    BcryptCompareHash(otp, earlier);
  }

  /** `SendEmailForPasswordStudent`: the reset request, addressed by e-mail to an activated account. */
  function RequestPasswordReset(t: Table<Student>, valid: bool, email: string, otpHash: string, mailSent: bool): (o: Outcome<Id, Student>)
    ensures !valid ==> o == Outcome(Failure(BadRequest(MsgInvalid)), t)
    ensures valid && !Any(t, WithEmail(email, true)) ==> o == Outcome(Failure(BadRequest(MsgEmailNotFound)), t)
    ensures o.result.Success? <==>
              valid && IndexWhere(t, WithEmail(email, true)).Some? &&
              !t[IndexWhere(t, WithEmail(email, true)).value].val.cred.suspended && mailSent
    ensures o.result.Success? ==>
              var row := t[IndexWhere(t, WithEmail(email, true)).value];
              o.result.value == row.id &&
              o.table == Put(t, row.id, row.val.(cred := RequestReset(row.val.cred, otpHash)))
    ensures valid && IndexWhere(t, WithEmail(email, true)).Some? ==>
              var row := t[IndexWhere(t, WithEmail(email, true)).value];
              (row.val.cred.suspended ==> o == Outcome(Failure(BadRequest(MsgRestricted)), t)) &&
              (!row.val.cred.suspended && !mailSent ==> o == Outcome(Failure(Internal(MsgMailFailed)), Delete(t, row.id)))
  {
    if !valid then Outcome(Failure(BadRequest(MsgInvalid)), t)
    else match IndexWhere(t, WithEmail(email, true))
      case None => Outcome(Failure(BadRequest(MsgEmailNotFound)), t)
      case Some(k) =>
        var row := t[k];
        match Guard(Some(row.val.cred))
        case Failure(e) => Outcome(Failure(e), t)
        case Success(c) =>
          var s := row.val.(cred := RequestReset(c, otpHash));
          if !mailSent then Outcome(Failure(Internal(MsgMailFailed)), DeleteAfterPut(t, row.id, s))
          else Outcome(Success(row.id), Put(t, row.id, s))
  }

  /** `ForgetPasswordStudent`: the guard, then the OTP check of the reset flow. */
  function VerifyResetOtp(t: Table<Student>, valid: bool, id: Id, otp: string): (o: Outcome<(), Student>)
    ensures o.result.Failure? ==> o.table == t
    ensures !valid ==> o.result == Failure(BadRequest(MsgInvalid))
    ensures valid && Guard(CredOf(t, id)).Failure? ==> o.result == Failure(Guard(CredOf(t, id)).error)
    ensures o.result.Success? <==> valid && Profile(t, id).Success? && BcryptCompare(otp, Find(t, id).value.cred.otp)
    ensures o.result.Success? ==>
              o.table == Put(t, id, Find(t, id).value.(cred := CheckResetOtp(Find(t, id).value.cred, otp).value))
  {
    if !valid then Outcome(Failure(BadRequest(MsgInvalid)), t)
    else match Profile(t, id)
      case Failure(e) => Outcome(Failure(e), t)
      case Success(s) =>
        match CheckResetOtp(s.cred, otp)
        case Failure(e) => Outcome(Failure(e), t)
        case Success(c) => Outcome(Success(()), Put(t, id, s.(cred := c)))
  }

  /** `ChagePasswordStudent`: the guard, then the password change of the reset flow. */
  function ResetPassword(t: Table<Student>, valid: bool, id: Id, password: string): (o: Outcome<(), Student>)
    ensures o.result.Failure? ==> o.table == t
    ensures !valid ==> o.result == Failure(BadRequest(MsgInvalid))
    ensures valid && Guard(CredOf(t, id)).Failure? ==> o.result == Failure(Guard(CredOf(t, id)).error)
    ensures o.result.Success? <==> valid && Profile(t, id).Success? && ChangePassword(Find(t, id).value.cred, password).Success?
    ensures o.result.Success? ==>
              o.table == Put(t, id, Find(t, id).value.(cred := ChangePassword(Find(t, id).value.cred, password).value))
  {
    if !valid then Outcome(Failure(BadRequest(MsgInvalid)), t)
    else match Profile(t, id)
      case Failure(e) => Outcome(Failure(e), t)
      case Success(s) =>
        match ChangePassword(s.cred, password)
        case Failure(e) => Outcome(Failure(e), t)
        case Success(c) => Outcome(Success(()), Put(t, id, s.(cred := c)))
  }

  /** Replacing the record at a position of a table with unique ids is `Put` of its id. */
  lemma PutAt(t: Table<Student>, k: nat, v: Student)
    requires UniqueIds(t) && k < |t|
    ensures Put(t, t[k].id, v) == t[k := Row(t[k].id, v)]
    ensures UniqueIds(t[k := Row(t[k].id, v)])
    ensures Find(t[k := Row(t[k].id, v)], t[k].id) == Some(v)
  {
    var u := t[k := Row(t[k].id, v)];
    assert forall i | 0 <= i < |u| :: u[i].id == t[i].id;
    assert u[k].id == t[k].id;
  }

  lemma RequestStep(t: Table<Student>, email: string, otpHash: string, k: nat)
    requires UniqueIds(t) && IndexWhere(t, WithEmail(email, true)) == Some(k) && !t[k].val.cred.suspended
    ensures RequestPasswordReset(t, true, email, otpHash, true)
            == Outcome(Success(t[k].id), t[k := Row(t[k].id, t[k].val.(cred := RequestReset(t[k].val.cred, otpHash)))])
  {
    PutAt(t, k, t[k].val.(cred := RequestReset(t[k].val.cred, otpHash)));
  }

  lemma OtpStep(t: Table<Student>, k: nat, otp: string)
    requires UniqueIds(t) && k < |t| && Live(t[k].val.cred) && BcryptCompare(otp, t[k].val.cred.otp)
    ensures VerifyResetOtp(t, true, t[k].id, otp)
            == Outcome(Success(()), t[k := Row(t[k].id, t[k].val.(cred := CheckResetOtp(t[k].val.cred, otp).value))])
  {
    PutAt(t, k, t[k].val);
    assert t[k := Row(t[k].id, t[k].val)] == t;
    PutAt(t, k, t[k].val.(cred := CheckResetOtp(t[k].val.cred, otp).value));
  }

  lemma ChangeStep(t: Table<Student>, k: nat, password: string)
    requires UniqueIds(t) && k < |t| && Live(t[k].val.cred) && ChangePassword(t[k].val.cred, password).Success?
    ensures ResetPassword(t, true, t[k].id, password)
            == Outcome(Success(()), t[k := Row(t[k].id, t[k].val.(cred := ChangePassword(t[k].val.cred, password).value))])
  {
    PutAt(t, k, t[k].val);
    assert t[k := Row(t[k].id, t[k].val)] == t;
    PutAt(t, k, t[k].val.(cred := ChangePassword(t[k].val.cred, password).value));
  }

  /**
   * The reset flow end to end on the table: request by e-mail, OTP check,
   * change; afterwards the student logs in with the new password (from
   * the bound device) and not with the previous one.
   */
  lemma ResetFlowThenLogin(t: Table<Student>, email: string, otp: string, previous: string, password: string)
    requires UniqueIds(t) && IndexWhere(t, WithEmail(email, true)).Some?
    requires var row := t[IndexWhere(t, WithEmail(email, true)).value];
             !row.val.cred.suspended && BcryptCompare(previous, row.val.cred.password) &&
             BcryptKey(password) != BcryptKey(previous)
    ensures var row := t[IndexWhere(t, WithEmail(email, true)).value];
            var o1 := RequestPasswordReset(t, true, email, BcryptHash(otp), true);
            var o2 := VerifyResetOtp(o1.table, true, row.id, otp);
            var o3 := ResetPassword(o2.table, true, row.id, password);
            o1.result.Success? && o2.result.Success? && o3.result.Success? &&
            Login(o3.table, true, email, password, row.val.deviceId).result == Success(AuthToken(row.id, StudentRole)) &&
            Login(o3.table, true, email, previous, row.val.deviceId).result == Failure(BadRequest(MsgBadLogin))
  {
    var k := IndexWhere(t, WithEmail(email, true)).value;
    var row := t[k];
    var c := row.val.cred;
    ResetCycle(c, otp, previous, password);
    var s1 := row.val.(cred := RequestReset(c, BcryptHash(otp)));
    RequestStep(t, email, BcryptHash(otp), k);
    var t1 := t[k := Row(row.id, s1)];
    PutAt(t, k, s1);
    var s2 := s1.(cred := CheckResetOtp(s1.cred, otp).value);
    OtpStep(t1, k, otp);
    var t2 := t1[k := Row(row.id, s2)];
    PutAt(t1, k, s2);
    var s3 := s2.(cred := ChangePassword(s2.cred, password).value);
    ChangeStep(t2, k, password);
    var t3 := t2[k := Row(row.id, s3)];
    IndexWhereSame(t, t3, WithEmail(email, true), k);
  }

  lemma {:induction false} IndexWhereSame(t: Table<Student>, u: Table<Student>, p: Student -> bool, k: nat)
    requires |u| == |t| && k < |t| && IndexWhere(t, p) == Some(k)
    requires forall i | 0 <= i < |t| && i != k :: u[i] == t[i]
    requires p(u[k].val)
    ensures IndexWhere(u, p) == Some(k)
    decreases k
  {
    if k > 0 {
      assert u[0] == t[0];
      IndexWhereSame(t[1..], u[1..], p, k - 1);
    }
  }

  method RegisterStudent(db: Db, valid: bool, f: Signup, otpHash: string, newId: Id, mailSent: bool) returns (r: Result<Id>)
    requires !HasId(db.students, newId)
    modifies db`students
    ensures Outcome(r, db.students) == Register(old(db.students), valid, f, otpHash, newId, mailSent)
  {
    var o := Register(db.students, valid, f, otpHash, newId, mailSent);
    db.students := o.table;
    r := o.result;
  }

  method VerifyStudentOtp(db: Db, valid: bool, id: Id, otp: string) returns (r: Result<AuthToken>)
    modifies db`students
    ensures Outcome(r, db.students) == VerifyOtp(old(db.students), valid, id, otp)
  {
    var o := VerifyOtp(db.students, valid, id, otp);
    db.students := o.table;
    r := o.result;
  }

  method LoginStudent(db: Db, valid: bool, email: string, password: string, deviceId: string) returns (r: Result<AuthToken>)
    modifies db`students
    ensures Outcome(r, db.students) == Login(old(db.students), valid, email, password, deviceId)
  {
    var o := Login(db.students, valid, email, password, deviceId);
    db.students := o.table;
    r := o.result;
  }

  method ResendStudentOtp(db: Db, valid: bool, id: Id, otpHash: string, mailSent: bool) returns (r: Result<()>)
    modifies db`students
    ensures Outcome(r, db.students) == ResendOtp(old(db.students), valid, id, otpHash, mailSent)
  {
    var o := ResendOtp(db.students, valid, id, otpHash, mailSent);
    db.students := o.table;
    r := o.result;
  }

  method SendEmailForPasswordStudent(db: Db, valid: bool, email: string, otpHash: string, mailSent: bool) returns (r: Result<Id>)
    modifies db`students
    ensures Outcome(r, db.students) == RequestPasswordReset(old(db.students), valid, email, otpHash, mailSent)
  {
    var o := RequestPasswordReset(db.students, valid, email, otpHash, mailSent);
    db.students := o.table;
    r := o.result;
  }

  method ForgetPasswordStudent(db: Db, valid: bool, id: Id, otp: string) returns (r: Result<()>)
    modifies db`students
    ensures Outcome(r, db.students) == VerifyResetOtp(old(db.students), valid, id, otp)
  {
    var o := VerifyResetOtp(db.students, valid, id, otp);
    db.students := o.table;
    r := o.result;
  }

  method ChangePasswordStudent(db: Db, valid: bool, id: Id, password: string) returns (r: Result<()>)
    modifies db`students
    ensures Outcome(r, db.students) == ResetPassword(old(db.students), valid, id, password)
  {
    var o := ResetPassword(db.students, valid, id, password);
    db.students := o.table;
    r := o.result;
  }
}

=== FILE: tables.dfy ===
/**
 * A MongoDB collection as a sequence of rows in natural (insertion) order.
 * `findOne` is the first matching row, `find` keeps the matching rows in
 * order, `deleteMany` drops them.
 */
module Tables {
  import opened Wrappers

  /** An ObjectId in its 24-character string form. */
  type Id = string

  datatype Row<T> = Row(id: Id, val: T)

  predicate IsHexChar(c: char)
  {
    '0' <= c <= '9' || 'a' <= c <= 'f' || 'A' <= c <= 'F'
  }

  /** `mongoose.Types.ObjectId.isValid(s)` for a string: 24 hexadecimal digits. */
  predicate IsValidObjectId(s: string)
  {
    |s| == 24 && forall i | 0 <= i < |s| :: IsHexChar(s[i])
  }

  type Table<T> = seq<Row<T>>

  predicate HasId<T>(t: Table<T>, id: Id)
  {
    exists i | 0 <= i < |t| :: t[i].id == id
  }

  /** Every document has its own `_id`. */
  predicate UniqueIds<T>(t: Table<T>)
  {
    forall i, j | 0 <= i < j < |t| :: t[i].id != t[j].id
  }

  /** `findById`: the document with that `_id`, if any. */
  function Find<T>(t: Table<T>, id: Id): (r: Option<T>)
    ensures r.Some? <==> HasId(t, id)
    ensures r.Some? ==> Row(id, r.value) in t
    ensures UniqueIds(t) ==> forall i | 0 <= i < |t| && t[i].id == id :: r == Some(t[i].val)
  {
    if |t| == 0 then None
    else if t[0].id == id then Some(t[0].val)
    else
      var r := Find(t[1..], id);
      assert forall i | 1 <= i < |t| :: t[i] == t[1..][i - 1];
      r
  }

  /** Position of the first row whose document satisfies `p` (`findOne`). */
  function IndexWhere<T>(t: Table<T>, p: T -> bool): (r: Option<nat>)
    ensures r.Some? ==> r.value < |t| && p(t[r.value].val)
    ensures r.Some? ==> forall k | 0 <= k < r.value :: !p(t[k].val)
    ensures r.None? ==> forall k | 0 <= k < |t| :: !p(t[k].val)
  {
    if |t| == 0 then None
    else if p(t[0].val) then Some(0)
    else
      match IndexWhere(t[1..], p)
      case None => None
      case Some(k) => Some(k + 1)
  }

  /** The first match is the one a left-to-right scan stops at. */
  lemma {:induction false} FirstIs<T>(t: Table<T>, p: T -> bool, k: nat)
    requires k < |t| && p(t[k].val)
    requires forall i | 0 <= i < k :: !p(t[i].val)
    ensures IndexWhere(t, p) == Some(k)
  {
    if k > 0 {
      FirstIs(t[1..], p, k - 1);
    }
  }

  /** Does some document satisfy `p`? */
  predicate Any<T>(t: Table<T>, p: T -> bool)
  {
    exists i | 0 <= i < |t| :: p(t[i].val)
  }

  /** The rows whose document satisfies `p`, in order (`find`). */
  function Where<T(!new)>(t: Table<T>, p: T -> bool): (r: Table<T>)
    ensures |r| <= |t|
    ensures forall x :: x in r <==> x in t && p(x.val)
    ensures multiset(r) <= multiset(t)
  {
    if |t| == 0 then []
    else
      assert t == [t[0]] + t[1..];
      if p(t[0].val) then [t[0]] + Where(t[1..], p)
      else Where(t[1..], p)
  }

  /** Filtering by a stronger condition after a weaker one is filtering by the stronger one. */
  lemma {:induction false} WhereWhere<T(!new)>(t: Table<T>, p: T -> bool, q: T -> bool)
    requires forall x: T :: q(x) ==> p(x)
    ensures Where(Where(t, p), q) == Where(t, q)
  {
    if |t| > 0 {
      WhereWhere(t[1..], p, q);
    }
  }

  /** Two conditions no document meets together select at most all the rows between them. */
  lemma {:induction false} WhereDisjoint<T(!new)>(t: Table<T>, p: T -> bool, q: T -> bool)
    requires forall x: T :: !(p(x) && q(x))
    ensures |Where(t, p)| + |Where(t, q)| <= |t|
  {
    if |t| > 0 {
      WhereDisjoint(t[1..], p, q);
    }
  }

  /** Filtering a table with one more row at the end. */
  lemma {:induction false} WhereAppend<T(!new)>(t: Table<T>, row: Row<T>, p: T -> bool)
    ensures Where(t + [row], p) == Where(t, p) + (if p(row.val) then [row] else [])
  {
    var u := t + [row];
    if |t| == 0 {
      assert u[1..] == [];
      assert Where(u, p) == (if p(row.val) then [row] + Where(u[1..], p) else Where(u[1..], p));
    } else {
      assert u[0] == t[0] && u[1..] == t[1..] + [row];
      WhereAppend(t[1..], row, p);
      assert Where(u, p) == (if p(t[0].val) then [t[0]] + Where(u[1..], p) else Where(u[1..], p));
      assert Where(t, p) == (if p(t[0].val) then [t[0]] + Where(t[1..], p) else Where(t[1..], p));
    }
  }

  /** The rows whose document does not satisfy `p` (`deleteMany`). */
  function Without<T(!new)>(t: Table<T>, p: T -> bool): (r: Table<T>)
    ensures |r| <= |t|
    ensures forall x :: x in r <==> x in t && !p(x.val)
    ensures multiset(r) <= multiset(t)
  {
    if |t| == 0 then []
    else
      assert t == [t[0]] + t[1..];
      if p(t[0].val) then Without(t[1..], p)
      else [t[0]] + Without(t[1..], p)
  }

  /** `deleteMany` keeps exactly the rows `find` would not return. */
  lemma {:induction false} WhereWithoutSplit<T(!new)>(t: Table<T>, p: T -> bool)
    ensures |Where(t, p)| + |Without(t, p)| == |t|
  {
    if |t| > 0 {
      WhereWithoutSplit(t[1..], p);
    }
  }

  /** After `deleteMany(p)` a `find(p)` returns nothing. */
  lemma {:induction false} WhereAfterWithout<T(!new)>(t: Table<T>, p: T -> bool)
    ensures Where(Without(t, p), p) == []
  {
    if |t| > 0 {
      WhereAfterWithout(t[1..], p);
    }
  }

  /** `findByIdAndDelete` */
  function Delete<T(!new)>(t: Table<T>, id: Id): (r: Table<T>)
    ensures forall x :: x in r <==> x in t && x.id != id
    ensures |r| <= |t|
  {
    if |t| == 0 then []
    else if t[0].id == id then Delete(t[1..], id)
    else [t[0]] + Delete(t[1..], id)
  }

  lemma HasIdIn<T>(t: Table<T>, x: Id)
    ensures HasId(t, x) <==> exists row :: row in t && row.id == x
  {
    if HasId(t, x) {
      var i :| 0 <= i < |t| && t[i].id == x;
      assert t[i] in t;
    }
  }

  /** After deleting, exactly the other ids remain. */
  lemma DeleteIds<T(!new)>(t: Table<T>, id: Id)
    ensures forall x :: HasId(Delete(t, id), x) <==> x != id && HasId(t, x)
  {
    forall x ensures HasId(Delete(t, id), x) <==> x != id && HasId(t, x) {
      HasIdIn(t, x);
      HasIdIn(Delete(t, id), x);
    }
  }

  /** Deleting an absent id changes nothing. */
  lemma {:induction false} DeleteAbsent<T(!new)>(t: Table<T>, id: Id)
    requires !HasId(t, id)
    ensures Delete(t, id) == t
  {
    if |t| > 0 {
      assert t[0].id != id;
      DeleteAbsent(t[1..], id);
      assert t == [t[0]] + t[1..];
    }
  }

  /** The tail of a table with unique ids has unique ids and lacks the head's id. */
  lemma UniqueTail<T>(t: Table<T>)
    requires UniqueIds(t) && |t| > 0
    ensures UniqueIds(t[1..]) && !HasId(t[1..], t[0].id)
  {
    forall i, j | 0 <= i < j < |t[1..]| ensures t[1..][i].id != t[1..][j].id {
      assert t[1..][i] == t[i + 1] && t[1..][j] == t[j + 1];
    }
    forall i | 0 <= i < |t[1..]| ensures t[1..][i].id != t[0].id {
      assert t[1..][i] == t[i + 1];
    }
  }

  /** A row whose id the rest lacks can go in front of a table with unique ids. */
  lemma ConsUnique<T>(row: Row<T>, d: Table<T>)
    requires UniqueIds(d) && !HasId(d, row.id)
    ensures UniqueIds([row] + d)
  {
    var r := [row] + d;
    forall i, j | 0 <= i < j < |r| ensures r[i].id != r[j].id {
      assert r[j] == d[j - 1];
      if i > 0 {
        assert r[i] == d[i - 1];
      }
    }
  }

  /** Deleting a present id from a table with unique ids removes exactly one row and keeps ids unique. */
  lemma {:induction false} DeleteUnique<T(!new)>(t: Table<T>, id: Id)
    requires UniqueIds(t)
    ensures UniqueIds(Delete(t, id))
    ensures HasId(t, id) ==> |Delete(t, id)| == |t| - 1
  {
    if |t| > 0 {
      var d := Delete(t[1..], id);
      UniqueTail(t);
      DeleteUnique(t[1..], id);
      if t[0].id == id {
        DeleteAbsent(t[1..], id);
      } else {
        assert Delete(t, id) == [t[0]] + d;
        DeleteIds(t[1..], id);
        ConsUnique(t[0], d);
        if HasId(t, id) {
          var i :| 0 <= i < |t| && t[i].id == id;
          assert t[1..][i - 1].id == id;
        }
      }
    }
  }

  /** `findByIdAndUpdate`: the document with that `_id` is replaced by `v`. */
  function Put<T>(t: Table<T>, id: Id, v: T): (r: Table<T>)
    ensures |r| == |t|
    ensures forall i | 0 <= i < |t| :: r[i] == (if t[i].id == id then Row(id, v) else t[i])
  {
    seq(|t|, i requires 0 <= i < |t| => if t[i].id == id then Row(id, v) else t[i])
  }

  /** A second write to the same document replaces the first. */
  lemma PutPut<T>(t: Table<T>, id: Id, v: T, w: T)
    ensures Put(Put(t, id, v), id, w) == Put(t, id, w)
  {
  }

  lemma PutKeepsIds<T>(t: Table<T>, id: Id, v: T)
    ensures forall x :: HasId(Put(t, id, v), x) <==> HasId(t, x)
    ensures UniqueIds(t) ==> UniqueIds(Put(t, id, v))
  {
    var r := Put(t, id, v);
    forall x ensures HasId(r, x) <==> HasId(t, x) {
      if HasId(r, x) {
        var i :| 0 <= i < |r| && r[i].id == x;
        assert t[i].id == x;
      }
      if HasId(t, x) {
        var i :| 0 <= i < |t| && t[i].id == x;
        assert r[i].id == x;
      }
    }
  }

  /** After `Put`, `findById` returns the new document; others are unchanged. */
  lemma FindAfterPut<T>(t: Table<T>, id: Id, v: T, other: Id)
    requires UniqueIds(t) && HasId(t, id)
    ensures Find(Put(t, id, v), id) == Some(v)
    ensures other != id ==> Find(Put(t, id, v), other) == Find(t, other)
  {
    PutKeepsIds(t, id, v);
    var r := Put(t, id, v);
    var i :| 0 <= i < |t| && t[i].id == id;
    assert r[i] == Row(id, v);
    if other != id && HasId(t, other) {
      var j :| 0 <= j < |t| && t[j].id == other;
      assert r[j] == t[j];
    }
  }

  /** Writing back what a table with unique ids already holds changes nothing. */
  lemma PutSame<T>(t: Table<T>, id: Id, v: T)
    requires UniqueIds(t) && Find(t, id) == Some(v)
    ensures Put(t, id, v) == t
  {
    forall i | 0 <= i < |t| && t[i].id == id ensures t[i] == Row(id, v) {
    }
  }

  /** After `Put`, the new row is present when the id was, and every row with another id stays. */
  lemma PutHas<T>(t: Table<T>, id: Id, v: T, x: Row<T>)
    requires x in t && x.id != id
    ensures x in Put(t, id, v)
    ensures HasId(t, id) ==> Row(id, v) in Put(t, id, v)
  {
    var r := Put(t, id, v);
    var i :| 0 <= i < |t| && t[i] == x;
    assert r[i] == x;
    if HasId(t, id) {
      var j :| 0 <= j < |t| && t[j].id == id;
      assert r[j] == Row(id, v);
    }
  }

  /** After `Put`, every row is the new one or an untouched row with another id. */
  lemma PutMembers<T>(t: Table<T>, id: Id, v: T)
    ensures forall x :: x in Put(t, id, v) ==> x == Row(id, v) || (x in t && x.id != id)
  {
    var r := Put(t, id, v);
    forall x | x in r ensures x == Row(id, v) || (x in t && x.id != id) {
      var i :| 0 <= i < |r| && r[i] == x;
    }
  }

  /** `create`: append a document with a fresh `_id`. */
  function Insert<T>(t: Table<T>, id: Id, v: T): (r: Table<T>)
    requires !HasId(t, id)
    ensures UniqueIds(t) ==> UniqueIds(r)
    ensures Find(r, id) == Some(v) || !UniqueIds(t)
    ensures forall x | x != id :: Find(r, x) == Find(t, x)
  {
    var r := t + [Row(id, v)];
    assert forall x | x != id :: Find(r, x) == Find(t, x) by {
      forall x | x != id ensures Find(r, x) == Find(t, x) { FindAppend(t, Row(id, v), x); }
    }
    assert UniqueIds(t) ==> Find(r, id) == Some(v) by {
      FindAppend(t, Row(id, v), id);
    }
    r
  }

  lemma {:induction false} FindAppend<T>(t: Table<T>, row: Row<T>, x: Id)
    ensures Find(t + [row], x) == if HasId(t, x) then Find(t, x) else if row.id == x then Some(row.val) else None
  {
    if |t| > 0 {
      assert (t + [row])[1..] == t[1..] + [row];
      FindAppend(t[1..], row, x);
      if t[0].id != x && HasId(t, x) {
        var i :| 0 <= i < |t| && t[i].id == x;
        assert t[1..][i - 1].id == x;
      }
    }
  }
}

=== FILE: teachers.dfy ===
/**
 * Teacher accounts: the model's defaults, password hook and validators,
 * registration with phone and e-mail uniqueness, the login decision, the
 * account guard and reset flow, the suspension update, and the removal of
 * a student from a teacher's course.
 *
 * joi's e-mail grammar is the parameter `joiEmail`; the OTP hash and the
 * e-mail transport are parameters as in the student services.
 */
module Teachers {
  import opened Wrappers
  import opened Text
  import opened Tables
  import opened Crypto
  import opened Records
  import opened Store
  import opened Validators
  import opened Accounts
  import opened Lists

  const MsgPhoneTaken := "phone number already registered"
  const MsgEmailTaken := "e-mail already registered"
  const MsgRestrictedBecause := "your account is restricted. reason: "
  const MsgTeacherNotFound := "teacher not found"
  const MsgCourseNotFound := "course not found"
  const MsgStudentNotFound := "student not found"
  const MsgNotYourCourse := "this course does not belong to this teacher"
  const MsgNotEnrolled := "the student is not enrolled in this course"
  const MsgSchema := "teacher validation failed"

  /** The two values the `gender` field accepts. */
  const Male := "ذكر"
  const Female := "انثى"

  /** The registration form; `None` is a field the client left out. */
  datatype TeacherForm = TeacherForm(
    userName: string,
    phoneNumber: string,
    email: string,
    password: string,
    gender: Option<string>,
    birth: Option<DateValue>,
    about: Option<string>)

  /** One of the two genders the create schema lists. */
  predicate IsGender(g: string)
  {
    g == Male || g == Female
  }

  /**
   * `validateCreateTeacher`: name, phone, e-mail and password rules, a
   * gender of the two listed, a birth date `Date` can read, and an `about`
   * that, when sent, is a string joi does not find empty once trimmed.
   */
  predicate ValidCreate(f: TeacherForm, joiEmail: string -> bool)
  {
    0 < |f.userName| <= 100 && IsPhone(f.phoneNumber) &&
    joiEmail(f.email) && 3 <= |f.email| <= 100 && |f.password| >= 8 &&
    f.gender.Some? && IsGender(f.gender.value) &&
    f.birth.Some? && f.birth.value.readable &&
    (f.about.Some? ==> Trim(f.about.value) != "")
  }

  /**
   * The document `Teacher.create` builds before saving: the schema trims
   * the strings, `about` defaults to "", and `available`, `suspended` and
   * `resetPass` take their default, false. A gender or birth date left out
   * is stored as "" (an unreadable date), which the schema then refuses.
   */
  function Document(f: TeacherForm): (d: Teacher)
    ensures !d.cred.available && !d.cred.suspended && !d.cred.resetPass
    ensures IsPhone(f.phoneNumber) ==> d.cred.phoneNumber == f.phoneNumber
    ensures d.profile.about == if f.about.Some? then Trim(f.about.value) else ""
    ensures f.gender.Some? ==> d.profile.gender == f.gender.value
    ensures f.birth.Some? ==> d.profile.birth == f.birth.value
  {
    assert IsPhone(f.phoneNumber) ==> Trim(f.phoneNumber) == f.phoneNumber by {
      if IsPhone(f.phoneNumber) { PhoneIsTrimmed(f.phoneNumber); }
    }
    var profile := Records.Profile(
      if f.gender.Some? then f.gender.value else "",
      if f.birth.Some? then f.birth.value else DateValue("", false),
      if f.about.Some? then Trim(f.about.value) else "");
    Teacher(Trim(f.userName), profile, Credentials(Trim(f.email), Trim(f.phoneNumber), Trim(f.password), "", false, false, "", false))
  }

  /**
   * The schema's validators, which run on the trimmed document: `userName`
   * required and at most 100 characters, the phone pattern, the e-mail
   * between 3 and 100 characters, the password at least 8, the gender one
   * of the two listed and a birth date.
   */
  predicate SchemaValid(d: Teacher)
  {
    0 < |d.userName| <= 100 && IsPhone(d.cred.phoneNumber) &&
    3 <= |d.cred.email| <= 100 && |d.cred.password| >= 8 &&
    IsGender(d.profile.gender) && d.profile.birth.readable
  }

  /**
   * joi checks the values as sent and the schema checks them trimmed: a
   * form joi accepts passes the schema exactly when trimming leaves a user
   * name, an e-mail of three characters and a password of eight.
   */
  lemma ValidCreateMeetsSchema(f: TeacherForm, joiEmail: string -> bool)
    requires ValidCreate(f, joiEmail)
    ensures SchemaValid(Document(f)) <==>
              Trim(f.userName) != "" && |Trim(f.email)| >= 3 && |Trim(f.password)| >= 8
  {
    assert |TrimStart(TrimEnd(f.userName))| <= |TrimEnd(f.userName)| <= |f.userName|;
    assert |TrimStart(TrimEnd(f.email))| <= |TrimEnd(f.email)| <= |f.email|;
    PhoneIsTrimmed(f.phoneNumber);
  }

  /**
   * A password joi lets through and the schema refuses once trimmed: seven
   * spaces and one letter.
   */
  lemma PaddedPasswordPassesJoi()
    ensures |"       x"| >= 8 && |Trim("       x")| < 8
  {
    var p := "       x";
    assert !IsSpace(p[7]);
    assert TrimEnd(p) == p;
    assert IsSpace(p[0]) && TrimStart(p) == TrimStart(p[1..]);
  }

  /** A user name joi lets through and the schema refuses once trimmed: spaces only. */
  lemma BlankUserNamePassesJoi()
    ensures 0 < |"   "| <= 100 && Trim("   ") == ""
  {
  }

  /**
   * The document `Teacher.create` stores: the trimmed document with its
   * password hashed by the save hook.
   */
  function NewTeacher(f: TeacherForm): (t: Teacher)
    ensures !t.cred.available && !t.cred.suspended && !t.cred.resetPass
    ensures t.cred.phoneNumber == f.phoneNumber || !IsPhone(f.phoneNumber)
    ensures BcryptCompare(Trim(f.password), t.cred.password)
  {
    BcryptCompareHash(Trim(f.password), Trim(f.password));
    SaveHook(Document(f), true)
  }

  /** The pre-save hook: the password is hashed only when it was modified. */
  function SaveHook(doc: Teacher, passwordModified: bool): (r: Teacher)
    ensures passwordModified ==> BcryptCompare(doc.cred.password, r.cred.password)
    ensures !passwordModified ==> r == doc
    ensures r.userName == doc.userName && r.profile == doc.profile
    ensures r.cred.(password := "") == doc.cred.(password := "")
  {
    BcryptCompareHash(doc.cred.password, doc.cred.password);
    if passwordModified then doc.(cred := doc.cred.(password := BcryptHash(doc.cred.password))) else doc
  }

  /** `comparePassword` */
  predicate ComparePassword(t: Teacher, candidate: string)
  {
    BcryptCompare(candidate, t.cred.password)
  }

  /**
   * A save that leaves the password alone (the reset flow saves the OTP and
   * the permission this way) keeps the password working. Hashing again on
   * every save would break it.
   */
  lemma SaveKeepsPassword(doc: Teacher, password: string)
    requires ComparePassword(doc, password)
    ensures ComparePassword(SaveHook(doc, false), password)
    ensures |Utf8(password)| < 72 ==> !ComparePassword(doc.(cred := doc.cred.(password := BcryptHash(doc.cred.password))), password)
  {
    DoubleHashBreaksCompare(password);
  }

  /**
   * `comparePassword` is true exactly for the candidates that share the
   * hashed password's first 72 UTF-8 bytes; for a password shorter than
   * that, only for the password itself.
   */
  lemma ComparePasswordExact(doc: Teacher, candidate: string)
    ensures ComparePassword(SaveHook(doc, true), candidate) <==> BcryptKey(candidate) == BcryptKey(doc.cred.password)
    ensures |Utf8(doc.cred.password)| < 72 ==> (ComparePassword(SaveHook(doc, true), candidate) <==> candidate == doc.cred.password)
  {
    BcryptCompareHash(doc.cred.password, candidate);
    if |Utf8(doc.cred.password)| < 72 {
      KeyExactWithin(doc.cred.password, candidate);
    }
  }

  /**
   * The schema trims the password before hashing it, while the login
   * compares the input as typed: a password chosen with surrounding white
   * space does not log in as typed, only trimmed.
   */
  lemma PaddedPasswordAsTyped(f: TeacherForm, candidate: string)
    requires Trim(f.password) != f.password
    ensures |Utf8(Trim(f.password))| < 72 ==> !BcryptCompare(f.password, NewTeacher(f).cred.password)
    ensures BcryptCompare(candidate, NewTeacher(f).cred.password) <==> BcryptKey(candidate) == BcryptKey(Trim(f.password))
  {
    BcryptCompareHash(Trim(f.password), f.password);
    if |Utf8(Trim(f.password))| < 72 {
      KeyExactWithin(Trim(f.password), f.password);
    }
    BcryptCompareHash(Trim(f.password), candidate);
  }

  function WithEmail(email: string): Teacher -> bool
  {
    (t: Teacher) => t.cred.email == email
  }

  function WithPhone(phone: string): Teacher -> bool
  {
    (t: Teacher) => t.cred.phoneNumber == phone
  }

  function ActiveWithEmail(email: string): Teacher -> bool
  {
    (t: Teacher) => t.cred.email == email && t.cred.available
  }

  /** No two teachers share an e-mail or a phone number. */
  predicate UniqueContacts(t: Table<Teacher>)
  {
    forall x, y | x in t && y in t && x.id != y.id ::
      x.val.cred.email != y.val.cred.email && x.val.cred.phoneNumber != y.val.cred.phoneNumber
  }

  /**
   * `createNewTeacher`: phone, then e-mail, must be unused by any teacher,
   * whatever its state; then `Teacher.create` runs the schema's validators
   * on the trimmed values.
   */
  function Register(t: Table<Teacher>, f: TeacherForm, joiEmail: string -> bool, newId: Id): (o: Outcome<Id, Teacher>)
    requires !HasId(t, newId)
    ensures o.result.Failure? ==> o.table == t
    ensures !ValidCreate(f, joiEmail) ==> o.result == Failure(BadRequest(MsgInvalid))
    ensures ValidCreate(f, joiEmail) && Any(t, WithPhone(f.phoneNumber)) ==> o.result == Failure(BadRequest(MsgPhoneTaken))
    ensures ValidCreate(f, joiEmail) && !Any(t, WithPhone(f.phoneNumber)) && Any(t, WithEmail(f.email)) ==>
              o.result == Failure(BadRequest(MsgEmailTaken))
    ensures (ValidCreate(f, joiEmail) && !Any(t, WithPhone(f.phoneNumber)) && !Any(t, WithEmail(f.email)) &&
             !SchemaValid(Document(f))) ==> o.result == Failure(Internal(MsgSchema))
    ensures o.result.Success? <==>
              ValidCreate(f, joiEmail) && !Any(t, WithPhone(f.phoneNumber)) && !Any(t, WithEmail(f.email)) &&
              SchemaValid(Document(f))
    ensures o.result.Success? ==> o == Outcome(Success(newId), t + [Row(newId, NewTeacher(f))])
  {
    if !ValidCreate(f, joiEmail) then Outcome(Failure(BadRequest(MsgInvalid)), t)
    else if Any(t, WithPhone(f.phoneNumber)) then Outcome(Failure(BadRequest(MsgPhoneTaken)), t)
    else if Any(t, WithEmail(f.email)) then Outcome(Failure(BadRequest(MsgEmailTaken)), t)
    else if !SchemaValid(Document(f)) then Outcome(Failure(Internal(MsgSchema)), t)
    else Outcome(Success(newId), t + [Row(newId, NewTeacher(f))])
  }

  /**
   * A registration joi accepts whose user name trims to nothing, or whose
   * password trims below eight characters, fails at `Teacher.create` and
   * stores no teacher.
   */
  lemma TrimmedValueRefused(t: Table<Teacher>, f: TeacherForm, joiEmail: string -> bool, newId: Id)
    requires !HasId(t, newId) && ValidCreate(f, joiEmail)
    requires !Any(t, WithPhone(f.phoneNumber)) && !Any(t, WithEmail(f.email))
    requires Trim(f.userName) == "" || |Trim(f.password)| < 8
    ensures Register(t, f, joiEmail, newId) == Outcome(Failure(Internal(MsgSchema)), t)
  {
    ValidCreateMeetsSchema(f, joiEmail);
  }

  /**
   * A registered teacher carries the gender and birth date the form sent,
   * both of the kinds the schema lists, and the description trimmed, or ""
   * when none was sent.
   */
  lemma RegisteredProfile(t: Table<Teacher>, f: TeacherForm, joiEmail: string -> bool, newId: Id)
    requires !HasId(t, newId)
    requires Register(t, f, joiEmail, newId).result.Success?
    ensures var p := Register(t, f, joiEmail, newId).table[|t|].val.profile;
            f.gender == Some(p.gender) && IsGender(p.gender) &&
            f.birth == Some(p.birth) && p.birth.readable &&
            p.about == (if f.about.Some? then Trim(f.about.value) else "") &&
            (f.about.Some? ==> p.about != "")
  {
  }

  /** Registration keeps teacher ids, e-mails and phone numbers unique. */
  lemma RegisterKeepsUnique(t: Table<Teacher>, f: TeacherForm, joiEmail: string -> bool, newId: Id)
    requires !HasId(t, newId) && UniqueIds(t) && UniqueContacts(t)
    requires joiEmail(f.email) ==> Trim(f.email) == f.email
    ensures var o := Register(t, f, joiEmail, newId);
            UniqueIds(o.table) && UniqueContacts(o.table)
  {
    var o := Register(t, f, joiEmail, newId);
    if o.result.Success? {
      var row := Row(newId, NewTeacher(f));
      PhoneIsTrimmed(f.phoneNumber);
      forall x | x in t
        ensures x.val.cred.email != row.val.cred.email && x.val.cred.phoneNumber != row.val.cred.phoneNumber && x.id != newId
      {
        var i :| 0 <= i < |t| && t[i] == x;
        assert !WithEmail(f.email)(t[i].val);
        assert !WithPhone(f.phoneNumber)(t[i].val);
        HasIdIn(t, newId);
      }
      AppendFresh(t, row);
    }
  }

  lemma AppendFresh(p: Table<Teacher>, row: Row<Teacher>)
    requires UniqueIds(p) && UniqueContacts(p)
    requires forall x | x in p ::
               x.val.cred.email != row.val.cred.email && x.val.cred.phoneNumber != row.val.cred.phoneNumber && x.id != row.id
    ensures UniqueIds(p + [row]) && UniqueContacts(p + [row])
  {
    var u := p + [row];
    forall i, j | 0 <= i < j < |u| ensures u[i].id != u[j].id {
      if j == |u| - 1 { assert u[i] in p; } else { assert u[i] == p[i] && u[j] == p[j]; }
    }
  }

  /**
   * `loginTeacher`: an unknown e-mail, then a suspension (with its reason,
   * whatever the password), then a wrong password; the first and last give
   * the same text.
   */
  /** `validateLoginTeacher` */
  predicate ValidLogin(email: string, password: string, joiEmail: string -> bool)
  {
    joiEmail(email) && 3 <= |email| <= 100 && |password| >= 8
  }

  function Login(t: Table<Teacher>, joiEmail: string -> bool, email: string, password: string): (r: Result<AuthToken>)
    ensures !ValidLogin(email, password, joiEmail) ==> r == Failure(BadRequest(MsgInvalid))
    ensures ValidLogin(email, password, joiEmail) && !Any(t, WithEmail(email)) ==> r == Failure(NotFound(MsgBadLogin))
    ensures r.Success? <==>
              ValidLogin(email, password, joiEmail) && IndexWhere(t, WithEmail(email)).Some? &&
              var row := t[IndexWhere(t, WithEmail(email)).value];
              !row.val.cred.suspended && ComparePassword(row.val, password)
    ensures r.Success? ==> r.value == AuthToken(t[IndexWhere(t, WithEmail(email)).value].id, TeacherRole)
    ensures ValidLogin(email, password, joiEmail) && IndexWhere(t, WithEmail(email)).Some? ==>
              var row := t[IndexWhere(t, WithEmail(email)).value];
              (row.val.cred.suspended ==> r == Failure(BadRequest(MsgRestrictedBecause + row.val.cred.suspensionReason))) &&
              (!row.val.cred.suspended && !ComparePassword(row.val, password) ==> r == Failure(BadRequest(MsgBadLogin)))
  {
    if !ValidLogin(email, password, joiEmail) then Failure(BadRequest(MsgInvalid))
    else match IndexWhere(t, WithEmail(email))
      case None => Failure(NotFound(MsgBadLogin))
      case Some(k) =>
        var row := t[k];
        if row.val.cred.suspended then Failure(BadRequest(MsgRestrictedBecause + row.val.cred.suspensionReason))
        else if !ComparePassword(row.val, password) then Failure(BadRequest(MsgBadLogin))
        else Success(AuthToken(row.id, TeacherRole))
  }

  /**
   * A newly registered teacher logs in with the (trimmed) password, before
   * any activation: the schema made sure it still has eight characters, as
   * the login validator demands.
   */
  lemma RegisteredTeacherLogsIn(t: Table<Teacher>, f: TeacherForm, joiEmail: string -> bool, newId: Id)
    requires !HasId(t, newId) && Register(t, f, joiEmail, newId).result.Success?
    requires Trim(f.email) == f.email
    ensures Login(Register(t, f, joiEmail, newId).table, joiEmail, f.email, Trim(f.password)) == Success(AuthToken(newId, TeacherRole))
  {
    NewTeacherFound(t, f, joiEmail, newId);
  }

  /** After registration, the login lookup by e-mail stops at the new teacher. */
  lemma NewTeacherFound(t: Table<Teacher>, f: TeacherForm, joiEmail: string -> bool, newId: Id)
    requires !HasId(t, newId) && Register(t, f, joiEmail, newId).result.Success?
    requires Trim(f.email) == f.email
    ensures var u := Register(t, f, joiEmail, newId).table;
            u == t + [Row(newId, NewTeacher(f))] && IndexWhere(u, WithEmail(f.email)) == Some(|t|)
  {
    var u := t + [Row(newId, NewTeacher(f))];
    assert !Any(t, WithEmail(f.email));
    forall i | 0 <= i < |t| ensures !WithEmail(f.email)(u[i].val) {
      assert u[i] == t[i];
      assert !WithEmail(f.email)(t[i].val);
    }
    assert WithEmail(f.email)(u[|t|].val);
    FirstIs(u, WithEmail(f.email), |t|);
  }

  /** A newly registered teacher is not activated, so every guarded service refuses it. */
  lemma RegisteredTeacherIsGuarded(t: Table<Teacher>, f: TeacherForm, joiEmail: string -> bool, newId: Id)
    requires !HasId(t, newId) && UniqueIds(t) && Register(t, f, joiEmail, newId).result.Success?
    ensures Profile(Register(t, f, joiEmail, newId).table, newId) == Failure(BadRequest(MsgNotActivated))
  {
    FindAppend(t, Row(newId, NewTeacher(f)), newId);
  }

  function CredOf(t: Table<Teacher>, id: Id): (r: Option<Credentials>)
    ensures r.Some? <==> HasId(t, id)
  {
    match Find(t, id)
    case None => None
    case Some(x) => Some(x.cred)
  }

  /** `getProfileTeacher`: the account guard; the whole record stands for the `select`ed fields. */
  function Profile(t: Table<Teacher>, id: Id): (r: Result<Teacher>)
    ensures r.Success? <==> HasId(t, id) && Live(Find(t, id).value.cred)
    ensures r.Success? ==> r == Success(Find(t, id).value)
    ensures r.Failure? ==> r == Failure(Guard(CredOf(t, id)).error)
  {
    match Guard(CredOf(t, id))
    case Failure(e) => Failure(e)
    case Success(_) => Success(Find(t, id).value)
  }

  /** `SendEmailForPasswordTeacher` */
  function RequestPasswordReset(t: Table<Teacher>, valid: bool, email: string, otpHash: string, mailSent: bool): (o: Outcome<Id, Teacher>)
    ensures !valid ==> o == Outcome(Failure(BadRequest(MsgInvalid)), t)
    ensures valid && !Any(t, ActiveWithEmail(email)) ==> o == Outcome(Failure(BadRequest(MsgEmailNotFound)), t)
    ensures o.result.Success? <==>
              valid && IndexWhere(t, ActiveWithEmail(email)).Some? &&
              !t[IndexWhere(t, ActiveWithEmail(email)).value].val.cred.suspended && mailSent
    ensures o.result.Success? ==>
              var row := t[IndexWhere(t, ActiveWithEmail(email)).value];
              o.result.value == row.id &&
              o.table == Put(t, row.id, SaveHook(row.val.(cred := RequestReset(row.val.cred, otpHash)), false))
    ensures valid && IndexWhere(t, ActiveWithEmail(email)).Some? ==>
              var row := t[IndexWhere(t, ActiveWithEmail(email)).value];
              (row.val.cred.suspended ==> o == Outcome(Failure(BadRequest(MsgRestricted)), t)) &&
              (!row.val.cred.suspended && !mailSent ==> o == Outcome(Failure(Internal(MsgMailFailed)), Delete(t, row.id)))
  {
    if !valid then Outcome(Failure(BadRequest(MsgInvalid)), t)
    else match IndexWhere(t, ActiveWithEmail(email))
      case None => Outcome(Failure(BadRequest(MsgEmailNotFound)), t)
      case Some(k) =>
        var row := t[k];
        match Guard(Some(row.val.cred))
        case Failure(e) => Outcome(Failure(e), t)
        case Success(c) =>
          var saved := SaveHook(row.val.(cred := RequestReset(c, otpHash)), false);
          if !mailSent then Outcome(Failure(Internal(MsgMailFailed)), DeleteAfterPut(t, row.id, saved))
          else Outcome(Success(row.id), Put(t, row.id, saved))
  }

  function DeleteAfterPut(t: Table<Teacher>, id: Id, v: Teacher): (r: Table<Teacher>)
    ensures r == Delete(t, id)
  {
    DeletePut(t, id, v);
    Delete(Put(t, id, v), id)
  }

  lemma {:induction false} DeletePut(t: Table<Teacher>, id: Id, v: Teacher)
    ensures Delete(Put(t, id, v), id) == Delete(t, id)
  {
    if |t| > 0 {
      assert Put(t, id, v)[1..] == Put(t[1..], id, v);
      DeletePut(t[1..], id, v);
    }
  }

  /** `ForgetPasswordTeacher`: the OTP must be five characters long before anything is looked up. */
  function VerifyResetOtp(t: Table<Teacher>, id: Id, otp: string): (o: Outcome<(), Teacher>)
    ensures o.result.Failure? ==> o.table == t
    ensures !IsOtpInput(otp) ==> o.result == Failure(BadRequest(MsgInvalid))
    ensures IsOtpInput(otp) && Guard(CredOf(t, id)).Failure? ==> o.result == Failure(Guard(CredOf(t, id)).error)
    ensures o.result.Success? <==> IsOtpInput(otp) && Profile(t, id).Success? && BcryptCompare(otp, Find(t, id).value.cred.otp)
    ensures o.result.Success? ==>
              o.table == Put(t, id, SaveHook(Find(t, id).value.(cred := CheckResetOtp(Find(t, id).value.cred, otp).value), false))
  {
    if !IsOtpInput(otp) then Outcome(Failure(BadRequest(MsgInvalid)), t)
    else match Profile(t, id)
      case Failure(e) => Outcome(Failure(e), t)
      case Success(x) =>
        match CheckResetOtp(x.cred, otp)
        case Failure(e) => Outcome(Failure(e), t)
        case Success(c) => Outcome(Success(()), Put(t, id, SaveHook(x.(cred := c), false)))
  }

  /** `ChagePasswordTeacher`: the new password must have at least eight characters. */
  function ResetPassword(t: Table<Teacher>, id: Id, password: string): (o: Outcome<(), Teacher>)
    ensures o.result.Failure? ==> o.table == t
    ensures |password| < 8 ==> o.result == Failure(BadRequest(MsgInvalid))
    ensures |password| >= 8 && Guard(CredOf(t, id)).Failure? ==> o.result == Failure(Guard(CredOf(t, id)).error)
    ensures o.result.Success? <==> |password| >= 8 && Profile(t, id).Success? && ChangePassword(Find(t, id).value.cred, password).Success?
    ensures o.result.Success? ==>
              o.table == Put(t, id, Find(t, id).value.(cred := ChangePassword(Find(t, id).value.cred, password).value))
  {
    if |password| < 8 then Outcome(Failure(BadRequest(MsgInvalid)), t)
    else match Profile(t, id)
      case Failure(e) => Outcome(Failure(e), t)
      case Success(x) =>
        match ChangePassword(x.cred, password)
        case Failure(e) => Outcome(Failure(e), t)
        case Success(c) => Outcome(Success(()), Put(t, id, x.(cred := c)))
  }

  /**
   * The reset request and the OTP check save the document without touching
   * the password, so the current password keeps working until the change.
   */
  lemma ResetStepsKeepPassword(t: Table<Teacher>, email: string, otpHash: string, id: Id, otp: string, password: string)
    requires UniqueIds(t)
    requires RequestPasswordReset(t, true, email, otpHash, true).result == Success(id)
    requires ComparePassword(Find(t, id).value, password)
    ensures var t1 := RequestPasswordReset(t, true, email, otpHash, true).table;
            ComparePassword(Find(t1, id).value, password) &&
            (VerifyResetOtp(t1, id, otp).result.Success? ==>
               ComparePassword(Find(VerifyResetOtp(t1, id, otp).table, id).value, password))
  {
    var k := IndexWhere(t, ActiveWithEmail(email)).value;
    assert t[k] in t;
    HasIdIn(t, id);
    var v := SaveHook(t[k].val.(cred := RequestReset(t[k].val.cred, otpHash)), false);
    assert Find(t, id) == Some(t[k].val);
    FindAfterPut(t, id, v, id);
    PutKeepsIds(t, id, v);
    var t1 := Put(t, id, v);
    if VerifyResetOtp(t1, id, otp).result.Success? {
      var w := SaveHook(v.(cred := CheckResetOtp(v.cred, otp).value), false);
      FindAfterPut(t1, id, w, id);
    }
  }

  /** `UpdateProfileSuspendedTeacher`: behind the guard, so only a live account can be given a suspension state. */
  function SetSuspension(t: Table<Teacher>, valid: bool, id: Id, suspended: bool, reason: string): (o: Outcome<(), Teacher>)
    ensures o.result.Failure? ==> o.table == t
    ensures !valid ==> o.result == Failure(BadRequest(MsgInvalid))
    ensures valid && Guard(CredOf(t, id)).Failure? ==> o.result == Failure(Guard(CredOf(t, id)).error)
    ensures o.result.Success? <==> valid && Profile(t, id).Success?
    ensures o.result.Success? ==>
              o.table == Put(t, id, Find(t, id).value.(cred := Find(t, id).value.cred.(suspended := suspended, suspensionReason := reason)))
  {
    if !valid then Outcome(Failure(BadRequest(MsgInvalid)), t)
    else match Profile(t, id)
      case Failure(e) => Outcome(Failure(e), t)
      case Success(x) => Outcome(Success(()), Put(t, id, x.(cred := x.cred.(suspended := suspended, suspensionReason := reason))))
  }

  /** The suspension update never lifts a suspension: a suspended teacher stays suspended, with the same reason. */
  lemma SuspensionNeverLifted(t: Table<Teacher>, valid: bool, id: Id, suspended: bool, reason: string)
    requires HasId(t, id) && Find(t, id).value.cred.suspended
    ensures SetSuspension(t, valid, id, suspended, reason) ==
            Outcome(Failure(BadRequest(if valid && Find(t, id).value.cred.available then MsgRestricted
                                       else if valid then MsgNotActivated else MsgInvalid)), t)
  {
  }

  /** What the transaction leaves behind: both tables, or neither, changed. */
  datatype Removal = Removal(result: Result<()>, students: Table<Student>, courses: Table<Course>)

  /** `RemoveStudentFromCourse`; the transaction is one atomic step. */
  function RemoveStudent(teachers: Table<Teacher>, students: Table<Student>, courses: Table<Course>,
                         teacherId: Id, courseId: Id, studentId: Id): (o: Removal)
    ensures o.result.Failure? ==> o.students == students && o.courses == courses
    ensures !HasId(teachers, teacherId) ==> o.result == Failure(NotFound(MsgTeacherNotFound))
    ensures HasId(teachers, teacherId) && !HasId(courses, courseId) ==> o.result == Failure(NotFound(MsgCourseNotFound))
    ensures HasId(teachers, teacherId) && HasId(courses, courseId) && !HasId(students, studentId) ==>
              o.result == Failure(NotFound(MsgStudentNotFound))
    ensures o.result.Success? <==>
              HasId(teachers, teacherId) && HasId(courses, courseId) && HasId(students, studentId) &&
              Find(courses, courseId).value.teacher == teacherId && courseId in Find(students, studentId).value.enrolledCourses
    ensures (HasId(teachers, teacherId) && HasId(courses, courseId) && HasId(students, studentId) &&
             Find(courses, courseId).value.teacher != teacherId) ==> o.result == Failure(BadRequest(MsgNotYourCourse))
    ensures o.result.Success? ==>
              var s := Find(students, studentId).value;
              var c := Find(courses, courseId).value;
              o.students == Put(students, studentId, s.(enrolledCourses := Pull(s.enrolledCourses, courseId))) &&
              o.courses == Put(courses, courseId, c.(students := Pull(c.students, studentId)))
  {
    if !HasId(teachers, teacherId) then Removal(Failure(NotFound(MsgTeacherNotFound)), students, courses)
    else match Find(courses, courseId)
      case None => Removal(Failure(NotFound(MsgCourseNotFound)), students, courses)
      case Some(c) =>
        match Find(students, studentId)
        case None => Removal(Failure(NotFound(MsgStudentNotFound)), students, courses)
        case Some(s) =>
          if c.teacher != teacherId then Removal(Failure(BadRequest(MsgNotYourCourse)), students, courses)
          else if courseId !in s.enrolledCourses then Removal(Failure(BadRequest(MsgNotEnrolled)), students, courses)
          else
            Removal(Success(()),
                    Put(students, studentId, s.(enrolledCourses := Pull(s.enrolledCourses, courseId))),
                    Put(courses, courseId, c.(students := Pull(c.students, studentId))))
  }

  /**
   * Removal keeps the two sides of every enrolment in agreement, and
   * afterwards neither side lists the other.
   */
  lemma RemoveStudentKeepsPaired(teachers: Table<Teacher>, students: Table<Student>, courses: Table<Course>,
                                 teacherId: Id, courseId: Id, studentId: Id)
    requires UniqueIds(students) && UniqueIds(courses) && Paired(students, courses)
    ensures var o := RemoveStudent(teachers, students, courses, teacherId, courseId, studentId);
            Paired(o.students, o.courses) &&
            (o.result.Success? ==>
               courseId !in Find(o.students, studentId).value.enrolledCourses &&
               studentId !in Find(o.courses, courseId).value.students)
  {
    var o := RemoveStudent(teachers, students, courses, teacherId, courseId, studentId);
    if o.result.Success? {
      var s := Find(students, studentId).value;
      var c := Find(courses, courseId).value;
      var s' := s.(enrolledCourses := Pull(s.enrolledCourses, courseId));
      var c' := c.(students := Pull(c.students, studentId));
      PutMembers(students, studentId, s');
      PutMembers(courses, courseId, c');
      assert Row(studentId, s) in students;
      assert Row(courseId, c) in courses;
      forall rs, rc | rs in o.students && rc in o.courses
        ensures rc.id in rs.val.enrolledCourses <==> rs.id in rc.val.students
      {
        if rs.id == studentId && rc.id != courseId {
          assert rc in courses;
        } else if rs.id != studentId && rc.id == courseId {
          assert rs in students;
        }
      }
      FindAfterPut(students, studentId, s', studentId);
      FindAfterPut(courses, courseId, c', courseId);
    }
  }

  method CreateNewTeacher(db: Db, f: TeacherForm, joiEmail: string -> bool, newId: Id) returns (r: Result<Id>)
    requires !HasId(db.teachers, newId)
    modifies db`teachers
    ensures Outcome(r, db.teachers) == Register(old(db.teachers), f, joiEmail, newId)
  {
    var o := Register(db.teachers, f, joiEmail, newId);
    db.teachers := o.table;
    r := o.result;
  }

  method SendEmailForPasswordTeacher(db: Db, valid: bool, email: string, otpHash: string, mailSent: bool) returns (r: Result<Id>)
    modifies db`teachers
    ensures Outcome(r, db.teachers) == RequestPasswordReset(old(db.teachers), valid, email, otpHash, mailSent)
  {
    var o := RequestPasswordReset(db.teachers, valid, email, otpHash, mailSent);
    db.teachers := o.table;
    r := o.result;
  }

  method ForgetPasswordTeacher(db: Db, id: Id, otp: string) returns (r: Result<()>)
    modifies db`teachers
    ensures Outcome(r, db.teachers) == VerifyResetOtp(old(db.teachers), id, otp)
  {
    var o := VerifyResetOtp(db.teachers, id, otp);
    db.teachers := o.table;
    r := o.result;
  }

  method ChangePasswordTeacher(db: Db, id: Id, password: string) returns (r: Result<()>)
    modifies db`teachers
    ensures Outcome(r, db.teachers) == ResetPassword(old(db.teachers), id, password)
  {
    var o := ResetPassword(db.teachers, id, password);
    db.teachers := o.table;
    r := o.result;
  }

  method UpdateProfileSuspendedTeacher(db: Db, valid: bool, id: Id, suspended: bool, reason: string) returns (r: Result<()>)
    modifies db`teachers
    ensures Outcome(r, db.teachers) == SetSuspension(old(db.teachers), valid, id, suspended, reason)
  {
    var o := SetSuspension(db.teachers, valid, id, suspended, reason);
    db.teachers := o.table;
    r := o.result;
  }

  method RemoveStudentFromCourse(db: Db, teacherId: Id, courseId: Id, studentId: Id) returns (r: Result<()>)
    modifies db`students, db`courses
    ensures Removal(r, db.students, db.courses) ==
            RemoveStudent(db.teachers, old(db.students), old(db.courses), teacherId, courseId, studentId)
  {
    var o := RemoveStudent(db.teachers, db.students, db.courses, teacherId, courseId, studentId);
    db.students, db.courses := o.students, o.courses;
    r := o.result;
  }
}

=== FILE: text.dfy ===
/** Character classes and string helpers with JavaScript semantics. */
module Text {

  predicate IsDigit(c: char) { '0' <= c <= '9' }

  predicate AllDigits(s: string) { forall i | 0 <= i < |s| :: IsDigit(s[i]) }

  function DigitChar(d: nat): (c: char)
    requires d < 10
    ensures IsDigit(c) && DigitValue(c) == d
  {
    (d + '0' as int) as char
  }

  function DigitValue(c: char): nat
    requires IsDigit(c)
  {
    c as int - '0' as int
  }

  /** Value of a string of decimal digits (the empty string reads as 0). */
  function ParseDecimal(s: string): nat
    requires AllDigits(s)
  {
    if |s| == 0 then 0 else ParseDecimal(s[..|s| - 1]) * 10 + DigitValue(s[|s| - 1])
  }

  /** `n.toString()` for a non-negative integer: canonical decimal digits. */
  function Decimal(n: nat): (s: string)
    ensures 0 < |s| && AllDigits(s)
    ensures ParseDecimal(s) == n
    ensures 1 < |s| ==> s[0] != '0'
    ensures n < 10 <==> |s| == 1
  {
    if n < 10 then [DigitChar(n)]
    else
      var s := Decimal(n / 10) + [DigitChar(n % 10)];
      assert s[..|s| - 1] == Decimal(n / 10);
      s
  }

  /** Two canonical decimal strings are equal only for equal numbers. */
  lemma DecimalInjective(m: nat, n: nat)
    requires Decimal(m) == Decimal(n)
    ensures m == n
  {
  }

  /** `String(n).padStart(2, "0")` for a non-negative integer. */
  function PadTwo(n: nat): (s: string)
    ensures |s| >= 2 && AllDigits(s) && ParseDecimal(s) == n
    ensures n < 100 ==> |s| == 2
  {
    if n < 10 then "0" + Decimal(n) else Decimal(n)
  }

  function HexDigit(d: nat): (c: char)
    requires d < 16
    ensures IsHexDigit(c)
  {
    if d < 10 then DigitChar(d) else (d - 10 + 'a' as int) as char
  }

  predicate IsHexDigit(c: char) { IsDigit(c) || 'a' <= c <= 'f' }

  /** `buffer.toString("hex")`: two lower-case hex digits per byte. */
  function Hex(bytes: seq<bv8>): (s: string)
    ensures |s| == 2 * |bytes|
    ensures forall i | 0 <= i < |s| :: IsHexDigit(s[i])
  {
    if |bytes| == 0 then ""
    else [HexDigit(bytes[0] as nat / 16), HexDigit(bytes[0] as nat % 16)] + Hex(bytes[1..])
  }

  predicate StartsWith(s: string, prefix: string)
  {
    |prefix| <= |s| && s[..|prefix|] == prefix
  }

  predicate EndsWith(s: string, suffix: string)
  {
    |suffix| <= |s| && s[|s| - |suffix|..] == suffix
  }

  /** ECMAScript LineTerminator: LF, CR, LS and PS. */
  predicate IsLineTerminator(c: char)
  {
    c == '\n' || c == '\r' || c as int == 0x2028 || c as int == 0x2029
  }

  /**
   * ECMAScript WhiteSpace or LineTerminator: the class `\s` of a regular
   * expression and the characters `String.prototype.trim` removes.
   */
  predicate IsSpace(c: char)
  {
    IsLineTerminator(c) || c == '\t' || c as int == 0x0B || c as int == 0x0C || c == ' '
    || c as int == 0xA0 || c as int == 0x1680 || (0x2000 <= c as int <= 0x200A)
    || c as int == 0x202F || c as int == 0x205F || c as int == 0x3000 || c as int == 0xFEFF
  }

  predicate AllSpace(s: string) { forall i | 0 <= i < |s| :: IsSpace(s[i]) }

  /** `s.trimEnd()` */
  function TrimEnd(s: string): (r: string)
    ensures |r| <= |s| && r == s[..|r|]
    ensures AllSpace(s[|r|..])
    ensures |r| > 0 ==> !IsSpace(r[|r| - 1])
  {
    if |s| > 0 && IsSpace(s[|s| - 1]) then
      var r := TrimEnd(s[..|s| - 1]);
      assert s[..|r|] == s[..|s| - 1][..|r|];
      assert s[|r|..] == s[..|s| - 1][|r|..] + [s[|s| - 1]];
      r
    else s
  }

  /** `s.trimStart()` */
  function TrimStart(s: string): (r: string)
    ensures |r| <= |s| && r == s[|s| - |r|..]
    ensures AllSpace(s[..|s| - |r|])
    ensures |r| > 0 ==> !IsSpace(r[0])
  {
    if |s| > 0 && IsSpace(s[0]) then TrimStart(s[1..]) else s
  }

  /** `s.trim()` */
  function Trim(s: string): string { TrimStart(TrimEnd(s)) }

  /** A trimmed text has nothing more to trim. */
  lemma TrimTwice(s: string)
    ensures Trim(Trim(s)) == Trim(s)
  {
    var e := TrimEnd(s);
    var r := TrimStart(e);
    if |r| > 0 {
      assert r[|r| - 1] == e[|e| - 1];
      assert TrimEnd(r) == r;
    }
  }

  /** A text that neither starts nor ends with white space is its own trim. */
  lemma TrimmedAlready(s: string)
    requires |s| > 0 && !IsSpace(s[0]) && !IsSpace(s[|s| - 1])
    ensures Trim(s) == s
  {
    assert TrimEnd(s) == s;
  }

  lemma {:induction false} TrimEndCons(c: char, s: string)
    ensures TrimEnd([c] + s) == if TrimEnd(s) == "" && IsSpace(c) then "" else [c] + TrimEnd(s)
    decreases |s|
  {
    var cs := [c] + s;
    if |s| > 0 {
      assert cs[..|cs| - 1] == [c] + s[..|s| - 1];
      assert cs[|cs| - 1] == s[|s| - 1];
      if IsSpace(s[|s| - 1]) {
        TrimEndCons(c, s[..|s| - 1]);
      }
    } else {
      assert cs == [c];
      assert [c][..0] == [];
    }
  }

  /** White space before a text does not change its trim. */
  lemma TrimLeading(c: char, s: string)
    requires IsSpace(c)
    ensures Trim([c] + s) == Trim(s)
  {
    TrimEndCons(c, s);
    if TrimEnd(s) != "" {
      assert TrimStart([c] + TrimEnd(s)) == TrimStart(([c] + TrimEnd(s))[1..]);
      assert ([c] + TrimEnd(s))[1..] == TrimEnd(s);
    }
  }

  /** White space after a text does not change its trim. */
  lemma TrimTrailing(s: string, d: char)
    requires IsSpace(d)
    ensures Trim(s + [d]) == Trim(s)
  {
    assert (s + [d])[..|s + [d]| - 1] == s;
  }

  /** A non-empty run of digits has nothing to trim. */
  lemma DigitsTrimmed(s: string)
    requires 0 < |s| && AllDigits(s)
    ensures Trim(s) == s
  {
    assert !IsSpace(s[|s| - 1]);
    assert TrimEnd(s) == s;
    assert !IsSpace(s[0]);
  }

  /** `parts.join(sep)` */
  function Join(parts: seq<string>, sep: string): string
  {
    if |parts| == 0 then ""
    else if |parts| == 1 then parts[0]
    else parts[0] + sep + Join(parts[1..], sep)
  }

  /** `s.split(sep)` for a one-character separator. */
  function Split(s: string, sep: char): (parts: seq<string>)
    ensures |parts| >= 1
    ensures forall k | 0 <= k < |parts| :: !Contains(parts[k], sep)
    decreases |s|
  {
    if |s| == 0 then [""]
    else if s[0] == sep then [""] + Split(s[1..], sep)
    else
      var rest := Split(s[1..], sep);
      [[s[0]] + rest[0]] + rest[1..]
  }

  /** Joining the pieces of a split with the separator gives the string back. */
  lemma {:induction false} SplitJoin(s: string, sep: char)
    ensures Join(Split(s, sep), [sep]) == s
    decreases |s|
  {
    if |s| > 0 {
      SplitJoin(s[1..], sep);
      if s[0] == sep {
        SplitJoinAtSep(s, sep);
      } else {
        SplitJoinInPiece(s, sep);
      }
    }
  }

  /** A leading separator closes an empty first piece. */
  lemma SplitJoinAtSep(s: string, sep: char)
    requires |s| > 0 && s[0] == sep
    requires Join(Split(s[1..], sep), [sep]) == s[1..]
    ensures Join(Split(s, sep), [sep]) == s
  {
    var rest := Split(s[1..], sep);
    var parts := [""] + rest;
    assert Split(s, sep) == parts;
    assert parts[1..] == rest;
    calc {
      Join(parts, [sep]);
      "" + [sep] + Join(rest, [sep]);
      [sep] + s[1..];
      s;
    }
  }

  /** Any other first character joins the first piece. */
  lemma SplitJoinInPiece(s: string, sep: char)
    requires |s| > 0 && s[0] != sep
    requires Join(Split(s[1..], sep), [sep]) == s[1..]
    ensures Join(Split(s, sep), [sep]) == s
  {
    var rest := Split(s[1..], sep);
    var parts := [[s[0]] + rest[0]] + rest[1..];
    assert Split(s, sep) == parts;
    JoinExtendFirst(s[0], rest, [sep]);
    assert [s[0]] + s[1..] == s;
  }

  /** Putting a character before the first piece puts it before the joined text. */
  lemma JoinExtendFirst(c: char, rest: seq<string>, sep: string)
    requires |rest| >= 1
    ensures Join([[c] + rest[0]] + rest[1..], sep) == [c] + Join(rest, sep)
  {
    var parts := [[c] + rest[0]] + rest[1..];
    if |rest| > 1 {
      calc {
        Join(parts, sep);
        { assert |parts| >= 2 && parts[0] == [c] + rest[0] && parts[1..] == rest[1..]; }
        ([c] + rest[0]) + sep + Join(rest[1..], sep);
        { Regroup([c], rest[0], sep, Join(rest[1..], sep)); }
        [c] + (rest[0] + sep + Join(rest[1..], sep));
        [c] + Join(rest, sep);
      }
    }
  }

  lemma Regroup(a: string, b: string, c: string, d: string)
    ensures a + b + c + d == a + (b + c + d)
  {
    assert |a + b + c + d| == |a + (b + c + d)|;
    forall i | 0 <= i < |a + b + c + d| ensures (a + b + c + d)[i] == (a + (b + c + d))[i] {
      if i >= |a| { assert (a + (b + c + d))[i] == (b + c + d)[i - |a|]; }
    }
  }

  /** A string without the separator splits into itself. */
  lemma {:induction false} SplitNoSep(a: string, sep: char)
    requires !Contains(a, sep)
    ensures Split(a, sep) == [a]
    decreases |a|
  {
    if |a| > 0 {
      assert a[0] != sep;
      assert !Contains(a[1..], sep) by {
        forall i | 0 <= i < |a[1..]| ensures a[1..][i] != sep { assert a[1..][i] == a[i + 1]; }
      }
      SplitNoSep(a[1..], sep);
      assert a == [a[0]] + a[1..];
    }
  }

  /** A separator-free head before a separator splits off as the first piece. */
  lemma {:induction false} SplitCons(a: string, t: string, sep: char)
    requires !Contains(a, sep)
    ensures Split(a + [sep] + t, sep) == [a] + Split(t, sep)
    decreases |a|
  {
    var s := a + [sep] + t;
    if |a| == 0 {
      assert s[0] == sep && s[1..] == t;
    } else {
      assert a[0] != sep;
      assert !Contains(a[1..], sep) by {
        forall i | 0 <= i < |a[1..]| ensures a[1..][i] != sep { assert a[1..][i] == a[i + 1]; }
      }
      assert s[0] == a[0] && s[1..] == a[1..] + [sep] + t;
      SplitCons(a[1..], t, sep);
      assert a == [a[0]] + a[1..];
    }
  }

  /** Splitting a join of separator-free pieces gives the pieces back. */
  lemma {:induction false} JoinSplit(parts: seq<string>, sep: char)
    requires |parts| >= 1
    requires forall k | 0 <= k < |parts| :: !Contains(parts[k], sep)
    ensures Split(Join(parts, [sep]), sep) == parts
  {
    if |parts| == 1 {
      SplitNoSep(parts[0], sep);
    } else {
      JoinSplit(parts[1..], sep);
      SplitCons(parts[0], Join(parts[1..], [sep]), sep);
      assert parts == [parts[0]] + parts[1..];
    }
  }

  /** `parts.filter(Boolean)` on strings: drops the empty ones. */
  function NonEmpty(parts: seq<string>): (r: seq<string>)
    ensures forall i | 0 <= i < |r| :: r[i] != ""
    ensures forall i | 0 <= i < |r| :: r[i] in parts
    ensures |r| <= |parts|
  {
    if |parts| == 0 then []
    else if parts[0] == "" then NonEmpty(parts[1..])
    else [parts[0]] + NonEmpty(parts[1..])
  }

  predicate Contains(s: string, c: char) { exists i | 0 <= i < |s| :: s[i] == c }
}

=== FILE: validators.dfy ===
/**
 * Field validators shared by the account and content schemas: the Syrian
 * mobile-number pattern, the e-mail pattern, the `H:MM[:SS]` duration
 * grammar, the five-character OTP input and the normalisation Mongoose
 * applies (`trim`, `lowercase`) before a validator sees a value.
 */
module Validators {
  import opened Text

  // ---------------------------------------------------------------------
  // Phone numbers: /^09[0-9]{8}$/

  /** `/^09[0-9]{8}$/.test(v)` */
  predicate IsPhone(v: string)
  {
    |v| == 10 && v[0] == '0' && v[1] == '9' && AllDigits(v[2..])
  }

  /** The phone path is trimmed before validation; a valid number has nothing to trim. */
  lemma {:induction false} PhoneIsTrimmed(v: string)
    requires IsPhone(v)
    ensures Trim(v) == v
  {
    assert !IsSpace(v[|v| - 1]) by { assert v[|v| - 1] == v[2..][7]; }
    assert TrimEnd(v) == v;
    assert !IsSpace(v[0]);
  }

  /** The valid numbers are exactly "09" followed by eight digits. */
  lemma PhoneShape(v: string)
    ensures IsPhone(v) <==> exists d | |d| == 8 && AllDigits(d) :: v == "09" + d
  {
    if IsPhone(v) {
      assert v == "09" + v[2..];
    }
  }

  // ---------------------------------------------------------------------
  // E-mail addresses: /^[^\s@]+@[^\s@]+\.[^\s@]+$/

  /** A character of `[^\s@]`. */
  predicate Plain(c: char)
  {
    !IsSpace(c) && c != '@'
  }

  predicate NoSpaceOrAt(s: string)
  {
    forall i | 0 <= i < |s| :: Plain(s[i])
  }

  /**
   * The language of the pattern: a non-empty local part, `@`, a non-empty
   * run, a dot, a non-empty run, where no part holds white space or `@`
   * (the middle run may hold further dots).
   */
  ghost predicate EmailShape(v: string)
  {
    exists i: nat, j: nat :: EmailSplit(v, i, j)
  }

  /** `v` read as local part `v[..i]`, `@`, run `v[i+1..j]`, `.`, run `v[j+1..]`. */
  predicate EmailSplit(v: string, i: nat, j: nat)
  {
    0 < i && i + 1 < j && j + 1 < |v|
    && v[i] == '@' && v[j] == '.' && NoSpaceOrAt(v[..i]) && NoSpaceOrAt(v[i + 1..j]) && NoSpaceOrAt(v[j + 1..])
  }

  /** Index of the first `c` in `s`, or `|s|` when there is none. */
  function IndexOf(s: string, c: char): (k: nat)
    ensures k <= |s|
    ensures forall i | 0 <= i < k :: s[i] != c
    ensures k < |s| ==> s[k] == c
  {
    if |s| == 0 || s[0] == c then 0 else 1 + IndexOf(s[1..], c)
  }

  /**
   * `/^[^\s@]+@[^\s@]+\.[^\s@]+$/.test(v)`, decided left to right: the
   * first `@`, no white space or second `@` on either side, and a dot in
   * the domain that is neither its first nor its last character.
   */
  function IsEmail(v: string): (b: bool)
    ensures b <==> EmailShape(v)
  {
    var i := IndexOf(v, '@');
    var b := 0 < i && i + 3 < |v| && NoSpaceOrAt(v[..i]) && NoSpaceOrAt(v[i + 1..])
             && IndexOf(v[i + 2..|v| - 1], '.') < |v| - i - 3;
    EmailDecision(v, i, b);
    b
  }

  lemma EmailDecision(v: string, i: nat, b: bool)
    requires i == IndexOf(v, '@')
    requires b == (0 < i && i + 3 < |v| && NoSpaceOrAt(v[..i]) && NoSpaceOrAt(v[i + 1..])
                   && IndexOf(v[i + 2..|v| - 1], '.') < |v| - i - 3)
    ensures b <==> EmailShape(v)
  {
    if b {
      EmailWitness(v, i);
    }
    if EmailShape(v) {
      var i': nat, j: nat :| EmailSplit(v, i', j);
      EmailDecided(v, i', j);
    }
  }

  /** The left-to-right decision finds a split the pattern accepts. */
  lemma EmailWitness(v: string, i: nat)
    requires i == IndexOf(v, '@')
    requires 0 < i && i + 3 < |v| && NoSpaceOrAt(v[..i]) && NoSpaceOrAt(v[i + 1..])
    requires IndexOf(v[i + 2..|v| - 1], '.') < |v| - i - 3
    ensures EmailShape(v)
  {
    var j := i + 2 + IndexOf(v[i + 2..|v| - 1], '.');
    DotAt(v, i);
    NoSpaceOrAtAround(v, i + 1, j);
    assert EmailSplit(v, i, j);
  }

  lemma DotAt(v: string, i: nat)
    requires i + 3 < |v| && IndexOf(v[i + 2..|v| - 1], '.') < |v| - i - 3
    ensures v[i + 2 + IndexOf(v[i + 2..|v| - 1], '.')] == '.'
  {
    var d := v[i + 2..|v| - 1];
    assert v[i + 2 + IndexOf(d, '.')] == d[IndexOf(d, '.')];
  }

  /** Both sides of a position in a run of plain characters are plain. */
  lemma NoSpaceOrAtAround(v: string, a: nat, j: nat)
    requires a <= j < |v| && NoSpaceOrAt(v[a..])
    ensures NoSpaceOrAt(v[a..j]) && NoSpaceOrAt(v[j + 1..])
  {
    assert v[a..][0..j - a] == v[a..j];
    NoSpaceOrAtSlice(v[a..], 0, j - a);
    assert v[a..][j - a + 1..|v| - a] == v[j + 1..];
    NoSpaceOrAtSlice(v[a..], j - a + 1, |v| - a);
  }

  /** Any split the pattern accepts is found by the left-to-right decision. */
  lemma EmailDecided(v: string, i: nat, j: nat)
    requires EmailSplit(v, i, j)
    ensures IndexOf(v, '@') == i && NoSpaceOrAt(v[i + 1..]) && IndexOf(v[i + 2..|v| - 1], '.') < |v| - i - 3
  {
    AtIsFirst(v, i, j);
    RunAfterAt(v, i, j);
    DotFound(v, i, j);
  }

  lemma AtIsFirst(v: string, i: nat, j: nat)
    requires EmailSplit(v, i, j)
    ensures IndexOf(v, '@') == i
  {
    forall k | 0 <= k < i ensures v[k] != '@' { assert v[k] == v[..i][k]; }
    FirstIndex(v, '@', i);
  }

  lemma RunAfterAt(v: string, i: nat, j: nat)
    requires EmailSplit(v, i, j)
    ensures NoSpaceOrAt(v[i + 1..])
  {
    assert v[i + 1..] == v[i + 1..j] + [v[j]] + v[j + 1..];
    NoSpaceOrAtJoin(v[i + 1..j], v[j], v[j + 1..]);
  }

  lemma DotFound(v: string, i: nat, j: nat)
    requires EmailSplit(v, i, j)
    ensures IndexOf(v[i + 2..|v| - 1], '.') < |v| - i - 3
  {
    var d := v[i + 2..|v| - 1];
    assert d[j - i - 2] == '.';
    FirstIndexBound(d, '.', j - i - 2);
  }

  lemma {:induction false} FirstIndex(s: string, c: char, k: nat)
    requires k < |s| && s[k] == c && forall m | 0 <= m < k :: s[m] != c
    ensures IndexOf(s, c) == k
  {
    if k > 0 {
      FirstIndex(s[1..], c, k - 1);
    }
  }

  lemma {:induction false} FirstIndexBound(s: string, c: char, k: nat)
    requires k < |s| && s[k] == c
    ensures IndexOf(s, c) <= k
  {
    if k > 0 && s[0] != c {
      FirstIndexBound(s[1..], c, k - 1);
    }
  }

  lemma NoSpaceOrAtJoin(a: string, c: char, b: string)
    requires NoSpaceOrAt(a) && NoSpaceOrAt(b) && Plain(c)
    ensures NoSpaceOrAt(a + [c] + b)
  {
    var s := a + [c] + b;
    forall k | 0 <= k < |s| ensures Plain(s[k]) {
      if k < |a| { assert s[k] == a[k]; }
      else if k > |a| { assert s[k] == b[k - |a| - 1]; }
    }
  }

  lemma NoSpaceOrAtSlice(s: string, a: nat, b: nat)
    requires a <= b <= |s| && NoSpaceOrAt(s)
    ensures NoSpaceOrAt(s[a..b])
  {
    forall k | 0 <= k < b - a ensures Plain(s[a..b][k]) {
      assert s[a..b][k] == s[a + k];
    }
  }

  // ---------------------------------------------------------------------
  // Normalisation applied by the schemas before validation

  /** `toLowerCase()` on ASCII letters; other characters are left alone. */
  function LowerChar(c: char): char
  {
    if 'A' <= c <= 'Z' then (c as int + 32) as char else c
  }

  function Lower(s: string): (r: string)
    ensures |r| == |s|
    ensures forall i | 0 <= i < |s| :: r[i] == LowerChar(s[i])
  {
    if |s| == 0 then [] else [LowerChar(s[0])] + Lower(s[1..])
  }

  /** Lowercasing twice is lowercasing once, so a stored e-mail is a fixed point. */
  lemma LowerIdempotent(s: string)
    ensures Lower(Lower(s)) == Lower(s)
  {
  }

  /** The stored form of an e-mail under `trim: true, lowercase: true`. */
  function NormalEmail(v: string): (r: string)
    ensures forall i | 0 <= i < |r| :: !('A' <= r[i] <= 'Z')
  {
    Lower(Trim(v))
  }

  /** Lowercasing changes neither white space nor `@`, so it keeps a valid address valid. */
  lemma LowerKeepsEmail(v: string)
    requires IsEmail(v)
    ensures IsEmail(Lower(v))
  {
    var i: nat, j: nat :| EmailSplit(v, i, j);
    var w := Lower(v);
    LowerKeepsParts(v[..i], w[..i]);
    LowerKeepsParts(v[i + 1..j], w[i + 1..j]);
    LowerKeepsParts(v[j + 1..], w[j + 1..]);
    assert w[i] == '@' && w[j] == '.';
    assert EmailSplit(w, i, j);
  }

  lemma LowerKeepsParts(x: string, y: string)
    requires |x| == |y| && NoSpaceOrAt(x)
    requires forall k | 0 <= k < |x| :: y[k] == LowerChar(x[k])
    ensures NoSpaceOrAt(y)
  {
  }

  // ---------------------------------------------------------------------
  // Durations: /^([0-1]?[0-9]|2[0-3]):[0-5][0-9](:[0-5][0-9])?$/

  /** `[0-1]?[0-9]|2[0-3]` */
  predicate IsHourText(h: string)
  {
    (|h| == 1 && IsDigit(h[0]))
    || (|h| == 2 && '0' <= h[0] <= '1' && IsDigit(h[1]))
    || (|h| == 2 && h[0] == '2' && '0' <= h[1] <= '3')
  }

  /** `[0-5][0-9]` */
  predicate IsSixtyText(m: string)
  {
    |m| == 2 && '0' <= m[0] <= '5' && IsDigit(m[1])
  }

  lemma TwoDigitValue(h: string)
    requires |h| == 2 && AllDigits(h)
    ensures ParseDecimal(h) == DigitValue(h[0]) * 10 + DigitValue(h[1])
  {
    assert h[..1][..0] == [] && h[..1][0] == h[0];
    assert ParseDecimal(h[..1]) == DigitValue(h[0]);
  }

  /** The hour alternatives are exactly the one- or two-digit numerals of 0 to 23. */
  lemma HourTextValue(h: string)
    ensures IsHourText(h) <==> 1 <= |h| <= 2 && AllDigits(h) && ParseDecimal(h) <= 23
  {
    if |h| == 2 && AllDigits(h) {
      TwoDigitValue(h);
    }
    if |h| == 1 && AllDigits(h) {
      assert h[..0] == [];
    }
  }

  /** The minute and second fields are exactly the two-digit numerals of 0 to 59. */
  lemma SixtyTextValue(m: string)
    ensures IsSixtyText(m) <==> |m| == 2 && AllDigits(m) && ParseDecimal(m) <= 59
  {
    if |m| == 2 && AllDigits(m) {
      TwoDigitValue(m);
    }
  }

  /**
   * The duration pattern, read left to right: the hour takes one character
   * when the second is `:`, else two.
   */
  predicate IsDuration(v: string)
  {
    var k := if 2 <= |v| && v[1] == ':' then 1 else 2;
    k + 3 <= |v| && IsHourText(v[..k]) && v[k] == ':' && IsSixtyText(v[k + 1..k + 3])
    && (|v| == k + 3 || (|v| == k + 6 && v[k + 3] == ':' && IsSixtyText(v[k + 4..])))
  }

  /** The language of the pattern: hour `:` minutes, optionally `:` seconds. */
  ghost predicate DurationShape(v: string)
  {
    (exists h, m | IsHourText(h) && IsSixtyText(m) :: v == h + ":" + m)
    || (exists h, m, s | IsHourText(h) && IsSixtyText(m) && IsSixtyText(s) :: v == h + ":" + m + ":" + s)
  }

  lemma DurationDecision(v: string)
    ensures IsDuration(v) <==> DurationShape(v)
  {
    if IsDuration(v) {
      DurationHasShape(v);
    }
    if DurationShape(v) {
      ShapeIsDuration(v);
    }
  }

  lemma DurationHasShape(v: string)
    requires IsDuration(v)
    ensures DurationShape(v)
  {
    var k := if 2 <= |v| && v[1] == ':' then 1 else 2;
    var h, m := v[..k], v[k + 1..k + 3];
    if |v| == k + 3 {
      assert v == h + ":" + m;
    } else {
      var s := v[k + 4..];
      assert v == h + ":" + m + ":" + s;
    }
  }

  lemma ShapeIsDuration(v: string)
    requires DurationShape(v)
    ensures IsDuration(v)
  {
    if h, m :| IsHourText(h) && IsSixtyText(m) && v == h + ":" + m {
      DurationOf(v, h, m);
      assert v[..|h| + 3] == v;
    } else {
      var h, m, s :| IsHourText(h) && IsSixtyText(m) && IsSixtyText(s) && v == h + ":" + m + ":" + s;
      LongDuration(v, h, m, s);
    }
  }

  lemma LongDuration(v: string, h: string, m: string, s: string)
    requires IsHourText(h) && IsSixtyText(m) && IsSixtyText(s) && v == h + ":" + m + ":" + s
    ensures IsDuration(v)
  {
    assert v[..|h| + 3] == h + ":" + m;
    DurationOf(v, h, m);
    assert v[|h| + 3] == ':' && v[|h| + 4..] == s;
  }

  lemma DurationOf(v: string, h: string, m: string)
    requires IsHourText(h) && IsSixtyText(m)
    requires |v| >= |h| + 3 && v[..|h| + 3] == h + ":" + m
    ensures var k := if 2 <= |v| && v[1] == ':' then 1 else 2;
            k == |h| && v[..k] == h && v[k] == ':' && v[k + 1..k + 3] == m
  {
    assert v[..|h| + 3][1] == v[1];
    assert v[..|h| + 3][|h|] == v[|h|];
    assert v[..|h|] == v[..|h| + 3][..|h|];
    assert v[|h| + 1..|h| + 3] == v[..|h| + 3][|h| + 1..];
  }

  /** A clock reading of at most 23:59:59, written with minutes and seconds padded, is a valid duration. */
  lemma ClockReadingIsDuration(h: nat, m: nat, s: nat)
    requires h <= 23 && m <= 59 && s <= 59
    ensures IsDuration(Decimal(h) + ":" + PadTwo(m))
    ensures IsDuration(PadTwo(h) + ":" + PadTwo(m) + ":" + PadTwo(s))
  {
    HourTextValue(Decimal(h));
    HourTextValue(PadTwo(h));
    SixtyTextValue(PadTwo(m));
    SixtyTextValue(PadTwo(s));
    DurationDecision(Decimal(h) + ":" + PadTwo(m));
    DurationDecision(PadTwo(h) + ":" + PadTwo(m) + ":" + PadTwo(s));
  }

  /** A valid duration names an hour of at most 23 and minutes of at most 59. */
  lemma DurationFields(v: string)
    requires IsDuration(v)
    ensures var k := if v[1] == ':' then 1 else 2;
            AllDigits(v[..k]) && ParseDecimal(v[..k]) <= 23
            && AllDigits(v[k + 1..k + 3]) && ParseDecimal(v[k + 1..k + 3]) <= 59
  {
    var k := if v[1] == ':' then 1 else 2;
    HourTextValue(v[..k]);
    SixtyTextValue(v[k + 1..k + 3]);
  }

  /** "24:00" and "1:5" are rejected; "9:05" and "23:59:59" are accepted. */
  lemma DurationExamples()
    ensures !IsDuration("24:00") && !IsDuration("1:5")
    ensures IsDuration("9:05") && IsDuration("23:59:59")
  {
    assert "9:05"[..1] == "9" && "9:05"[2..4] == "05";
    assert "23:59:59"[..2] == "23" && "23:59:59"[3..5] == "59" && "23:59:59"[6..] == "59";
    assert "24:00"[..2] == "24";
  }

  // ---------------------------------------------------------------------
  // OTP input: joi.string().length(5).required()

  predicate IsOtpInput(otp: string)
  {
    |otp| == 5
  }
}

=== FILE: version.dfy ===
/**
 * The application versions: the joi validators, creation and update with
 * a unique version string, the paginated listing with its flags, lookup
 * of the latest version and deletion with the count of what remains.
 */
module Versions {
  import opened Wrappers
  import opened Tables
  import opened Records
  import opened Store
  import opened Paging
  import opened Accounts

  const MsgNoVersion := "no version has been added"
  const MsgVersionTaken := "the version number already exists"
  const MsgBadVersionId := "invalid version id"
  const MsgVersionNotFound := "version not found"

  /** A request body as joi sees it; `None` is a missing key. */
  datatype VersionBody = VersionBody(version: Option<string>, url: Option<string>)

  /**
   * `validateCreateVersion`: `version` is a required non-empty string and
   * no other key is allowed, so a body carrying `url` is refused.
   */
  predicate ValidCreate(b: VersionBody)
  {
    b.version.Some? && b.version.value != "" && b.url.None?
  }

  /** `validateUpdateVersion`: `version` optional but never empty; no other key. */
  predicate ValidUpdate(b: VersionBody)
  {
    (b.version.None? || b.version.value != "") && b.url.None?
  }

  /** `Version.findOne({ version })` finds something. */
  predicate Taken(t: Table<Version>, v: string)
  {
    exists row | row in t :: row.val.version == v
  }

  /** `Version.findOne({ version, _id: { $ne: id } })` finds something. */
  predicate TakenElsewhere(t: Table<Version>, v: string, id: Id)
  {
    exists row | row in t :: row.val.version == v && row.id != id
  }

  /** No two version documents carry the same version string. */
  predicate UniqueVersions(t: Table<Version>)
  {
    forall x, y | x in t && y in t && x.id != y.id :: x.val.version != y.val.version
  }

  // ---------------------------------------------------------------- create

  /**
   * `createVersion`: the body, then the version string must be new. The
   * schema has no `url` path, so only the version and the creation time
   * are stored.
   */
  function Create(t: Table<Version>, b: VersionBody, now: int, newId: Id): (o: Outcome<(), Version>)
    ensures o.result.Failure? ==> o.table == t
    ensures !ValidCreate(b) ==> o.result == Failure(BadRequest(MsgInvalid))
    ensures ValidCreate(b) && Taken(t, b.version.value) ==> o.result == Failure(BadRequest(MsgVersionTaken))
    ensures o.result.Success? <==> ValidCreate(b) && !Taken(t, b.version.value)
    ensures o.result.Success? ==> o.table == t + [Row(newId, Version(b.version.value, now))]
  {
    if !ValidCreate(b) then Outcome(Failure(BadRequest(MsgInvalid)), t)
    else if Taken(t, b.version.value) then Outcome(Failure(BadRequest(MsgVersionTaken)), t)
    else Outcome(Success(()), t + [Row(newId, Version(b.version.value, now))])
  }

  /** Creation with a fresh id keeps ids and version strings unique. */
  lemma CreateKeepsUnique(t: Table<Version>, b: VersionBody, now: int, newId: Id)
    requires !HasId(t, newId) && UniqueIds(t) && UniqueVersions(t)
    ensures var o := Create(t, b, now, newId);
            UniqueIds(o.table) && UniqueVersions(o.table)
  {
    var o := Create(t, b, now, newId);
    if o.result.Success? {
      var row := Row(newId, Version(b.version.value, now));
      var u := t + [row];
      forall i, j | 0 <= i < j < |u| ensures u[i].id != u[j].id {
        if j == |u| - 1 {
          assert u[i] == t[i];
        } else {
          assert u[i] == t[i] && u[j] == t[j];
        }
      }
      forall x, y | x in u && y in u && x.id != y.id ensures x.val.version != y.val.version {
        if x == row {
          assert y in t;
        } else if y == row {
          assert x in t;
        }
      }
    }
  }

  // ---------------------------------------------------------------- update

  /** The document after the update: a new version string when one is sent. */
  function Patched(v: Version, b: VersionBody): (w: Version)
    ensures w.createdAt == v.createdAt
    ensures w.version == if b.version.Some? then b.version.value else v.version
  {
    match b.version
    case None => v
    case Some(s) => v.(version := s)
  }

  /**
   * `updateVersion`: the body, then the id, then (when a version string is
   * sent) that no other document holds it, and only then whether the
   * document exists.
   */
  function Update(t: Table<Version>, b: VersionBody, id: Id): (o: Outcome<Version, Version>)
    ensures o.result.Failure? ==> o.table == t
    ensures !ValidUpdate(b) ==> o.result == Failure(BadRequest(MsgInvalid))
    ensures ValidUpdate(b) && !IsValidObjectId(id) ==> o.result == Failure(BadRequest(MsgBadVersionId))
    ensures ValidUpdate(b) && IsValidObjectId(id) && b.version.Some? && TakenElsewhere(t, b.version.value, id) ==>
              o.result == Failure(BadRequest(MsgVersionTaken))
    ensures o.result.Success? <==>
              ValidUpdate(b) && IsValidObjectId(id) && HasId(t, id) &&
              (b.version.None? || !TakenElsewhere(t, b.version.value, id))
    ensures o.result.Success? ==>
              o.result.value == Patched(Find(t, id).value, b) && o.table == Put(t, id, o.result.value)
  {
    if !ValidUpdate(b) then Outcome(Failure(BadRequest(MsgInvalid)), t)
    else if !IsValidObjectId(id) then Outcome(Failure(BadRequest(MsgBadVersionId)), t)
    else if b.version.Some? && TakenElsewhere(t, b.version.value, id) then Outcome(Failure(BadRequest(MsgVersionTaken)), t)
    else match Find(t, id)
      case None => Outcome(Failure(NotFound(MsgVersionNotFound)), t)
      case Some(v) =>
        var w := Patched(v, b);
        Outcome(Success(w), Put(t, id, w))
  }

  /** An update keeps ids and version strings unique. */
  lemma UpdateKeepsUnique(t: Table<Version>, b: VersionBody, id: Id)
    requires UniqueIds(t) && UniqueVersions(t)
    ensures var o := Update(t, b, id);
            UniqueIds(o.table) && UniqueVersions(o.table)
  {
    var o := Update(t, b, id);
    if o.result.Success? {
      var v := Find(t, id).value;
      var w := o.result.value;
      PutKeepsIds(t, id, w);
      PutMembers(t, id, w);
      assert Row(id, v) in t;
      forall x, y | x in o.table && y in o.table && x.id != y.id ensures x.val.version != y.val.version {
        if x == Row(id, w) {
          assert y in t && y.id != id;
        } else if y == Row(id, w) {
          assert x in t && x.id != id;
        }
      }
    }
  }

  /** Sending a document's own version string back is accepted and changes nothing. */
  lemma UpdateToOwnVersion(t: Table<Version>, id: Id)
    requires UniqueIds(t) && UniqueVersions(t) && IsValidObjectId(id) && HasId(t, id)
    requires Find(t, id).value.version != ""
    ensures var o := Update(t, VersionBody(Some(Find(t, id).value.version), None), id);
            o.result == Success(Find(t, id).value) && o.table == t
  {
    var v := Find(t, id).value;
    assert Row(id, v) in t;
    PutSame(t, id, v);
  }

  /**
   * The uniqueness check comes before the existence check: an unknown id
   * with a version string some document holds is refused as a duplicate,
   * not reported missing.
   */
  lemma DuplicateBeforeMissing(t: Table<Version>, s: string, id: Id)
    requires IsValidObjectId(id) && !HasId(t, id) && s != "" && Taken(t, s)
    ensures Update(t, VersionBody(Some(s), None), id).result == Failure(BadRequest(MsgVersionTaken))
  {
    var row :| row in t && row.val.version == s;
    HasIdIn(t, row.id);
  }

  // ---------------------------------------------------------------- reads

  /** `findOne().sort({ createdAt: -1 })`: the first of the newest documents. */
  function Latest(t: Table<Version>): (r: Row<Version>)
    requires |t| > 0
    ensures r in t
    ensures forall x | x in t :: x.val.createdAt <= r.val.createdAt
  {
    if |t| == 1 then t[0]
    else
      var l := Latest(t[1..]);
      assert forall x | x in t :: x == t[0] || x in t[1..];
      if t[0].val.createdAt >= l.val.createdAt then t[0] else l
  }

  /** `getCurrentVersion` */
  function GetCurrent(t: Table<Version>): (r: Result<Row<Version>>)
    ensures r.Failure? <==> t == []
    ensures r.Failure? ==> r == Failure(NotFound(MsgNoVersion))
    ensures r.Success? ==> r.value in t && forall x | x in t :: x.val.createdAt <= r.value.val.createdAt
  {
    if t == [] then Failure(NotFound(MsgNoVersion)) else Success(Latest(t))
  }

  /** A version created later than every stored one becomes the current version. */
  lemma CreatedIsCurrent(t: Table<Version>, b: VersionBody, now: int, newId: Id)
    requires Create(t, b, now, newId).result.Success?
    requires forall x | x in t :: x.val.createdAt < now
    ensures GetCurrent(Create(t, b, now, newId).table) == Success(Row(newId, Version(b.version.value, now)))
  {
    var u := Create(t, b, now, newId).table;
    assert u[|u| - 1] in u;
  }

  /** `getVersionById` */
  function GetById(t: Table<Version>, id: Id): (r: Result<Version>)
    ensures !IsValidObjectId(id) ==> r == Failure(BadRequest(MsgBadVersionId))
    ensures IsValidObjectId(id) && !HasId(t, id) ==> r == Failure(NotFound(MsgVersionNotFound))
    ensures r.Success? <==> IsValidObjectId(id) && HasId(t, id)
    ensures r.Success? ==> Row(id, r.value) in t
  {
    if !IsValidObjectId(id) then Failure(BadRequest(MsgBadVersionId))
    else match Find(t, id)
      case None => Failure(NotFound(MsgVersionNotFound))
      case Some(v) => Success(v)
  }

  // ---------------------------------------------------------------- listing

  datatype Pagination = Pagination(currentPage: int, totalPages: Option<int>, totalCount: nat,
                                   hasNext: bool, hasPrev: bool, limit: int)

  datatype VersionPage = VersionPage(versions: seq<Row<Version>>, pagination: Pagination)

  /**
   * `page < totalPages` in JavaScript. With a zero limit the page count is
   * `Infinity` when there is something to count and `NaN` otherwise.
   */
  function Below(page: int, pages: Option<int>, total: nat): bool
  {
    match pages
    case Some(p) => page < p
    case None => total > 0
  }

  /**
   * `getAllVersions` over the documents already in the requested sort
   * order: one window of them and the pagination block.
   */
  function GetAll(sorted: Table<Version>, page: int, limit: int): (r: Result<VersionPage>)
    ensures r.Failure? <==> (page - 1) * limit < 0
    ensures r.Failure? ==> r == Failure(Internal(MsgBadPage))
    ensures r.Success? ==>
              var p := r.value.pagination;
              r.value.versions == Window(sorted, page, limit).value &&
              p.totalCount == |sorted| && p.totalPages == Pages(|sorted|, limit) &&
              p.currentPage == page && p.limit == limit &&
              (p.hasPrev <==> page > 1) &&
              (limit > 0 ==> (p.hasNext <==> page < Pages(|sorted|, limit).value))
  {
    match Window(sorted, page, limit)
    case None => Failure(Internal(MsgBadPage))
    case Some(w) =>
      var pages := Pages(|sorted|, limit);
      Success(VersionPage(w, Pagination(page, pages, |sorted|, Below(page, pages, |sorted|), page > 1, limit)))
  }

  /** With a positive limit, `hasNext` holds exactly when the next page has documents on it. */
  lemma HasNextIffNextPageNonEmpty(sorted: Table<Version>, page: int, limit: int)
    requires limit > 0 && page >= 1
    ensures GetAll(sorted, page, limit).Success? && Window(sorted, page + 1, limit).Some?
    ensures GetAll(sorted, page, limit).value.pagination.hasNext <==> Window(sorted, page + 1, limit).value != []
  {
    MulLe(0, page - 1, limit);
    MulLe(0, page, limit);
    LaterPageExists(|sorted|, limit, page);
    WindowNonEmpty(sorted, page + 1, limit);
    assert page + 1 - 1 == page;
  }

  /** An earlier page than the reported count is full. */
  lemma HasPrevMeansFullPage(sorted: Table<Version>, page: int, limit: int)
    requires limit > 0 && page > 1 && page <= Pages(|sorted|, limit).value
    ensures GetAll(sorted, page, limit).Success? && GetAll(sorted, page, limit).value.pagination.hasPrev
    ensures Window(sorted, page - 1, limit).Some? && |Window(sorted, page - 1, limit).value| == limit
  {
    MulLe(0, page - 2, limit);
    LaterPageExists(|sorted|, limit, page - 1);
    FullWindow(sorted, page - 1, limit);
  }

  // ---------------------------------------------------------------- delete

  datatype DeleteReport = DeleteReport(remainingVersions: nat, isLastVersion: bool)

  /** `deleteVersion`: the id, then the document must exist; then what remains is counted. */
  function Remove(t: Table<Version>, id: Id): (o: Outcome<DeleteReport, Version>)
    ensures o.result.Failure? ==> o.table == t
    ensures !IsValidObjectId(id) ==> o.result == Failure(BadRequest(MsgBadVersionId))
    ensures IsValidObjectId(id) && !HasId(t, id) ==> o.result == Failure(NotFound(MsgVersionNotFound))
    ensures o.result.Success? <==> IsValidObjectId(id) && HasId(t, id)
    ensures o.result.Success? ==>
              o.table == Delete(t, id) && o.result.value.remainingVersions == |o.table| &&
              (o.result.value.isLastVersion <==> forall x | x in t :: x.id == id)
  {
    if !IsValidObjectId(id) then Outcome(Failure(BadRequest(MsgBadVersionId)), t)
    else if !HasId(t, id) then Outcome(Failure(NotFound(MsgVersionNotFound)), t)
    else
      var d := Delete(t, id);
      assert d != [] ==> d[0] in d;
      Outcome(Success(DeleteReport(|d|, |d| == 0)), d)
  }

  /** With unique ids, a deletion removes one document: the last one goes exactly when one was left. */
  lemma RemoveCountsDown(t: Table<Version>, id: Id)
    requires UniqueIds(t) && IsValidObjectId(id) && HasId(t, id)
    ensures var o := Remove(t, id);
            o.result.value.remainingVersions == |t| - 1 &&
            (o.result.value.isLastVersion <==> |t| == 1) &&
            UniqueIds(o.table) && !HasId(o.table, id)
  {
    DeleteUnique(t, id);
    DeleteIds(t, id);
  }

  // ---------------------------------------------------------------- the collection

  method CreateVersion(db: Db, b: VersionBody, now: int, newId: Id) returns (r: Result<()>)
    modifies db`versions
    ensures Outcome(r, db.versions) == Create(old(db.versions), b, now, newId)
  {
    var o := Create(db.versions, b, now, newId);
    db.versions := o.table;
    r := o.result;
  }

  method UpdateVersion(db: Db, b: VersionBody, id: Id) returns (r: Result<Version>)
    modifies db`versions
    ensures Outcome(r, db.versions) == Update(old(db.versions), b, id)
  {
    var o := Update(db.versions, b, id);
    db.versions := o.table;
    r := o.result;
  }

  method DeleteVersion(db: Db, id: Id) returns (r: Result<DeleteReport>)
    modifies db`versions
    ensures Outcome(r, db.versions) == Remove(old(db.versions), id)
  {
    var o := Remove(db.versions, id);
    db.versions := o.table;
    r := o.result;
  }
}

=== FILE: video_ticket.dfy ===
/**
 * One-time video tickets. Creating a ticket stores the Bunny library and
 * video ids behind a random token and hands out a proxy URL carrying only
 * the token; redeeming the token once, before it expires, marks the ticket
 * used and returns a freshly signed Bunny player link.
 *
 * The ticket document is modelled with the session reference the service
 * writes (`sessionId`); the schema as declared names that path `id`, which
 * `SchemaAsDeclared` captures.
 */
module VideoTickets {
  import opened Wrappers
  import opened Text
  import opened Tables
  import opened Records
  import opened Store
  import opened BunnySigner

  const ProxyBase := "https://hackerha.cloud/api/video/play/"
  /** The schema default of `expiresAt`: 24 hours after creation. */
  const TicketLifetimeMs := 86_400_000

  const MsgBadSessionId := "invalid session id"
  const MsgBadTicketId := "invalid token id"
  const MsgBadToken := "invalid token"
  const MsgTicketNotFound := "token not found or expired"
  const MsgUsed := "this link has already been used"
  const MsgExpired := "this link has expired"
  const MsgNoSuchTicket := "token not found"
  const MsgValidation := "VideoToken validation failed"
  const MsgDuplicateKey := "E11000 duplicate key error"

  // ---------------------------------------------------------------------
  // The ticket document

  /** A ticket as `VideoToken.create` stores it, with the schema defaults `used` and `expiresAt`. */
  function NewTicket(videoId: string, libraryId: string, token: string, sessionId: Id, userId: Option<Id>, nowMs: int): (t: Ticket)
    ensures !t.used && t.expiresAt == nowMs + 86_400_000 && t.createdAt == nowMs
    ensures t.videoId == videoId && t.libraryId == libraryId && t.token == token && t.sessionId == sessionId && t.userId == userId
  {
    Ticket(videoId, libraryId, token, false, sessionId, userId, nowMs + TicketLifetimeMs, nowMs)
  }

  /** The fields the service passes to `VideoToken.create`; a missing path segment is `undefined`. */
  datatype TicketData = TicketData(videoId: Option<string>, libraryId: Option<string>, token: string, sessionId: Id, userId: Option<Id>)

  /** The names of the paths the data gives a value to. */
  function SuppliedPaths(d: TicketData): set<string>
  {
    {"token", "sessionId", "userId"}
    + (if d.videoId.Some? then {"videoId"} else {})
    + (if d.libraryId.Some? then {"libraryId"} else {})
  }

  /** A schema: the paths it declares (others are dropped) and the ones it requires. */
  datatype Schema = Schema(declared: set<string>, required: set<string>)

  /** The schema as declared: the session reference is a required path named `id`. */
  const SchemaAsDeclared := Schema({"videoId", "libraryId", "token", "used", "id", "userId", "expiresAt"},
                                   {"videoId", "libraryId", "token", "id"})

  /** The schema the service is written against: the session reference is `sessionId`. */
  const TicketSchema := Schema({"videoId", "libraryId", "token", "used", "sessionId", "userId", "expiresAt"},
                               {"videoId", "libraryId", "token", "sessionId"})

  /** Mongoose validation under a strict schema: every required path must survive with a value. */
  predicate Validates(schema: Schema, d: TicketData)
  {
    schema.required <= SuppliedPaths(d) * schema.declared
  }

  /** Under the schema as declared, every ticket the service creates fails validation. */
  lemma DeclaredSchemaRejectsEveryTicket(d: TicketData)
    ensures !Validates(SchemaAsDeclared, d)
  {
    assert "id" in SchemaAsDeclared.required;
    assert "id" !in SuppliedPaths(d);
  }

  /** Under the intended schema, a ticket validates exactly when the URL had a library and a video segment. */
  lemma TicketSchemaAcceptsCompleteTickets(d: TicketData)
    ensures Validates(TicketSchema, d) <==> d.videoId.Some? && d.libraryId.Some?
  {
    if !d.videoId.Some? {
      assert "videoId" !in SuppliedPaths(d);
    }
    if !d.libraryId.Some? {
      assert "libraryId" !in SuppliedPaths(d);
    }
  }

  /** Validation of ticket data under the intended schema, decided on the two path segments. */
  function AcceptsTicket(d: TicketData): (b: bool)
    ensures b == Validates(TicketSchema, d)
  {
    TicketSchemaAcceptsCompleteTickets(d);
    d.videoId.Some? && d.libraryId.Some?
  }

  function HasToken(token: string): Ticket -> bool
  {
    (t: Ticket) => t.token == token
  }

  function InSession(sessionId: Id): Ticket -> bool
  {
    (t: Ticket) => t.sessionId == sessionId
  }

  /** The unique index on `token`. */
  predicate UniqueTokens(t: Table<Ticket>)
  {
    forall i, j | 0 <= i < j < |t| :: t[i].val.token != t[j].val.token
  }

  /** Tickets appear in the order of their creation time. */
  predicate Chronological(t: Table<Ticket>)
  {
    forall i, j | 0 <= i < j < |t| :: t[i].val.createdAt <= t[j].val.createdAt
  }

  // ---------------------------------------------------------------------
  // createVideoToken

  /** Segment `i` of the provider URL's path, if there is one. */
  function SegmentAt(segs: seq<string>, i: nat): Option<string>
  {
    if i < |segs| then Some(segs[i]) else None
  }

  datatype Created = Created(result: Result<string>, tickets: Table<Ticket>)

  /** The optional user reference: an empty `userId` is not stored. */
  function UserRef(userId: string): Option<Id>
  {
    if userId == "" then None else Some(userId)
  }

  /** The optional `userId` path is an ObjectId: a value that does not cast fails validation. */
  predicate UserCasts(userId: string)
  {
    userId == "" || IsValidObjectId(userId)
  }

  /**
   * The ticket stored for a provider URL with path segments `segs`:
   * library id second, video id third, and the token through the schema's
   * `trim` setter.
   */
  function Stored(segs: seq<string>, token: string, sessionId: Id, userId: string, nowMs: int): Ticket
    requires |segs| >= 3
  {
    NewTicket(segs[2], segs[1], Trim(token), sessionId, UserRef(userId), nowMs)
  }

  /** `createVideoToken(sessionId, videoUrl, userId)` with the new `_id` given;
   * `token` is the hex rendering of the 32 random bytes, which `CreateVideoToken` draws.
   * The schema trims the token before its `required` check and its unique index. */
  function Create(t: Table<Ticket>, sessionId: Id, videoUrl: string, userId: string, token: string,
                  ticketId: Id, nowMs: int): (c: Created)
    requires !HasId(t, ticketId)
    ensures c.result.Failure? ==> c.tickets == t
    ensures Pathname(videoUrl).None? ==> c.result == Failure(Internal(MsgInvalidUrl))
    ensures Pathname(videoUrl).Some? && !IsValidObjectId(sessionId) ==> c.result == Failure(BadRequest(MsgBadSessionId))
    ensures c.result.Success? <==>
              Pathname(videoUrl).Some? && IsValidObjectId(sessionId)
              && |Segments(Pathname(videoUrl).value)| >= 3 && UserCasts(userId) && Trim(token) != ""
              && !Any(t, HasToken(Trim(token)))
    ensures c.result.Success? ==>
              c.result.value == ProxyBase + token
              && c.tickets == t + [Row(ticketId, Stored(Segments(Pathname(videoUrl).value), token, sessionId, userId, nowMs))]
  {
    match Pathname(videoUrl)
    case None => Created(Failure(Internal(MsgInvalidUrl)), t)
    case Some(path) =>
      var segs := Segments(path);
      var data := TicketData(SegmentAt(segs, 2), SegmentAt(segs, 1), token, sessionId, UserRef(userId));
      if !IsValidObjectId(sessionId) then Created(Failure(BadRequest(MsgBadSessionId)), t)
      else if !AcceptsTicket(data) || !UserCasts(userId) || Trim(token) == "" then Created(Failure(Internal(MsgValidation)), t)
      else if Any(t, HasToken(Trim(token))) then Created(Failure(Internal(MsgDuplicateKey)), t)
      else Created(Success(ProxyBase + token), t + [Row(ticketId, Stored(segs, token, sessionId, userId, nowMs))])
  }

  /** Creation keeps the unique index on `token`. */
  lemma CreateKeepsUniqueTokens(t: Table<Ticket>, sessionId: Id, videoUrl: string, userId: string, token: string,
                                ticketId: Id, nowMs: int)
    requires !HasId(t, ticketId) && UniqueTokens(t)
    ensures UniqueTokens(Create(t, sessionId, videoUrl, userId, token, ticketId, nowMs).tickets)
  {
    var c := Create(t, sessionId, videoUrl, userId, token, ticketId, nowMs);
    if c.result.Success? {
      var t' := c.tickets;
      forall i, j | 0 <= i < j < |t'| ensures t'[i].val.token != t'[j].val.token {
        if j == |t| { assert !HasToken(Trim(token))(t[i].val); }
        else { assert t'[i] == t[i] && t'[j] == t[j]; }
      }
    }
  }

  method CreateVideoToken(db: Db, sessionId: Id, videoUrl: string, userId: string, random: seq<bv8>,
                          ticketId: Id, nowMs: int) returns (r: Result<string>)
    requires !HasId(db.tickets, ticketId)
    modifies db`tickets
    ensures Created(r, db.tickets) == Create(old(db.tickets), sessionId, videoUrl, userId, Hex(random), ticketId, nowMs)
  {
    var path := Pathname(videoUrl);
    if path.None? {
      return Failure(Internal(MsgInvalidUrl));
    }
    var segs := Segments(path.value);
    var token := Hex(random);
    var data := TicketData(SegmentAt(segs, 2), SegmentAt(segs, 1), token, sessionId, UserRef(userId));
    if !IsValidObjectId(sessionId) {
      return Failure(BadRequest(MsgBadSessionId));
    }
    if !AcceptsTicket(data) || !UserCasts(userId) || Trim(token) == "" {
      return Failure(Internal(MsgValidation));
    }
    if Any(db.tickets, HasToken(Trim(token))) {
      return Failure(Internal(MsgDuplicateKey));
    }
    db.tickets := db.tickets + [Row(ticketId, Stored(segs, token, sessionId, userId, nowMs))];
    r := Success(ProxyBase + token);
  }

  /** With a clock that does not run backwards, creation keeps the tickets in creation order. */
  lemma CreateKeepsChronological(t: Table<Ticket>, sessionId: Id, videoUrl: string, userId: string, token: string,
                                 ticketId: Id, nowMs: int)
    requires !HasId(t, ticketId) && Chronological(t)
    requires forall i | 0 <= i < |t| :: t[i].val.createdAt <= nowMs
    ensures Chronological(Create(t, sessionId, videoUrl, userId, token, ticketId, nowMs).tickets)
  {
    var c := Create(t, sessionId, videoUrl, userId, token, ticketId, nowMs);
    if c.result.Success? {
      var row := Row(ticketId, Stored(Segments(Pathname(videoUrl).value), token, sessionId, userId, nowMs));
      assert c.tickets == t + [row] && row.val.createdAt == nowMs;
    }
  }

  // ---------------------------------------------------------------------
  // verifyAndUseToken

  datatype Redeemed = Redeemed(videoUrl: string, sessionId: Id)

  datatype Redemption = Redemption(result: Result<Redeemed>, tickets: Table<Ticket>)

  /** The provider's player URL of a stored ticket. */
  function PlayUrl(tk: Ticket): string
  {
    PlayBase + tk.libraryId + "/" + tk.videoId
  }

  /**
   * `verifyAndUseToken(token)` at clock `nowMs`, signing with `key`. The
   * emptiness check is on the token as sent; `findOne({ token })` casts
   * the filter through the schema, whose `trim` setter trims it.
   */
  function Redeem(t: Table<Ticket>, token: string, nowMs: nat, key: Option<string>, sha256Hex: string -> string): (r: Redemption)
    ensures r.result.Failure? ==> r.tickets == t
    ensures token == "" ==> r.result == Failure(BadRequest(MsgBadToken))
    ensures token != "" && IndexWhere(t, HasToken(Trim(token))).None? ==> r.result == Failure(NotFound(MsgTicketNotFound))
    ensures r.result.Success? <==>
              token != "" && IndexWhere(t, HasToken(Trim(token))).Some?
              && !t[IndexWhere(t, HasToken(Trim(token))).value].val.used
              && nowMs <= t[IndexWhere(t, HasToken(Trim(token))).value].val.expiresAt
    ensures r.result.Success? ==>
              var k := IndexWhere(t, HasToken(Trim(token))).value;
              var tk := t[k].val;
              r.tickets == t[k := Row(t[k].id, tk.(used := true))]
              && SignedIframeUrl(PlayUrl(tk), key, nowMs, sha256Hex).Success?
              && r.result.value == Redeemed(SignedIframeUrl(PlayUrl(tk), key, nowMs, sha256Hex).value, tk.sessionId)
  {
    if token == "" then Redemption(Failure(BadRequest(MsgBadToken)), t)
    else match IndexWhere(t, HasToken(Trim(token)))
      case None => Redemption(Failure(NotFound(MsgTicketNotFound)), t)
      case Some(k) =>
        var tk := t[k].val;
        if tk.used then Redemption(Failure(BadRequest(MsgUsed)), t)
        else if nowMs > tk.expiresAt then Redemption(Failure(BadRequest(MsgExpired)), t)
        else
          PlayUrlParses(tk.libraryId, tk.videoId);
          Redemption(Success(Redeemed(SignedIframeUrl(PlayUrl(tk), key, nowMs, sha256Hex).value, tk.sessionId)),
                     t[k := Row(t[k].id, tk.(used := true))])
  }

  method VerifyAndUseToken(db: Db, token: string, nowMs: nat, key: Option<string>, sha256Hex: string -> string)
    returns (r: Result<Redeemed>)
    modifies db`tickets
    ensures Redemption(r, db.tickets) == Redeem(old(db.tickets), token, nowMs, key, sha256Hex)
  {
    if token == "" {
      return Failure(BadRequest(MsgBadToken));
    }
    var k := IndexWhere(db.tickets, HasToken(Trim(token)));
    if k.None? {
      return Failure(NotFound(MsgTicketNotFound));
    }
    var row := db.tickets[k.value];
    if row.val.used {
      return Failure(BadRequest(MsgUsed));
    }
    if nowMs > row.val.expiresAt {
      return Failure(BadRequest(MsgExpired));
    }
    db.tickets := db.tickets[k.value := Row(row.id, row.val.(used := true))];
    PlayUrlParses(row.val.libraryId, row.val.videoId);
    var signed := SignedIframeUrl(PlayUrl(row.val), key, nowMs, sha256Hex);
    r := Success(Redeemed(signed.value, row.val.sessionId));
  }

  /** Marking a ticket used keeps every token where it was, so `findOne({ token })` finds the same ticket. */
  lemma {:induction false} IndexWhereAfterMark(t: Table<Ticket>, k: nat, token: string, x: string)
    requires k < |t|
    ensures IndexWhere(t[k := Row(t[k].id, t[k].val.(used := true))], HasToken(x)) == IndexWhere(t, HasToken(x))
  {
    var u := t[k := Row(t[k].id, t[k].val.(used := true))];
    if k > 0 {
      assert u[1..] == t[1..][k - 1 := Row(t[k].id, t[k].val.(used := true))];
      IndexWhereAfterMark(t[1..], k - 1, token, x);
    } else {
      assert u[1..] == t[1..];
    }
  }

  /** A ticket is good for one view: once redeemed, the same token is refused as used, at any later time. */
  lemma RedeemOnce(t: Table<Ticket>, token: string, now1: nat, now2: nat, key: Option<string>, sha256Hex: string -> string)
    requires Redeem(t, token, now1, key, sha256Hex).result.Success?
    ensures Redeem(Redeem(t, token, now1, key, sha256Hex).tickets, token, now2, key, sha256Hex).result == Failure(BadRequest(MsgUsed))
  {
    var k := IndexWhere(t, HasToken(Trim(token))).value;
    IndexWhereAfterMark(t, k, Trim(token), Trim(token));
  }

  /** Redemption signs the player link of the stored library and video ids, never anything from the request. */
  lemma RedeemSignsStoredVideo(t: Table<Ticket>, token: string, nowMs: nat, key: Option<string>, sha256Hex: string -> string)
    requires Redeem(t, token, nowMs, key, sha256Hex).result.Success?
    requires var tk := t[IndexWhere(t, HasToken(Trim(token))).value].val; PathSafe(tk.libraryId) && PathSafe(tk.videoId)
    ensures var tk := t[IndexWhere(t, HasToken(Trim(token))).value].val;
            var exp := Decimal(Expires(nowMs));
            Redeem(t, token, nowMs, key, sha256Hex).result.value.videoUrl
              == PlayBase + tk.libraryId + "/" + tk.videoId + "?expires=" + exp + "&token=" + sha256Hex(KeyText(key) + tk.videoId + exp)
  {
    var tk := t[IndexWhere(t, HasToken(Trim(token))).value].val;
    SignPlayUrl(tk.libraryId, tk.videoId, key, nowMs, sha256Hex);
  }

  /** A token sent with white space around it redeems like the bare token, as `findOne` trims the filter. */
  lemma PaddedTokenRedeemsAlike(t: Table<Ticket>, token: string, c: char, d: char, nowMs: nat,
                                key: Option<string>, sha256Hex: string -> string)
    requires token != "" && IsSpace(c) && IsSpace(d)
    ensures Redeem(t, [c] + token + [d], nowMs, key, sha256Hex) == Redeem(t, token, nowMs, key, sha256Hex)
  {
    PaddedTrim(token, c, d);
    SameTrimRedeemsAlike(t, [c] + token + [d], token, nowMs, key, sha256Hex);
  }

  /** Redemption reads a non-empty token only through its trim. */
  lemma SameTrimRedeemsAlike(t: Table<Ticket>, a: string, b: string, nowMs: nat,
                             key: Option<string>, sha256Hex: string -> string)
    requires a != "" && b != "" && Trim(a) == Trim(b)
    ensures Redeem(t, a, nowMs, key, sha256Hex) == Redeem(t, b, nowMs, key, sha256Hex)
  {
    match IndexWhere(t, HasToken(Trim(a)))
    case None =>
    case Some(k) =>
  }

  lemma PaddedTrim(s: string, c: char, d: char)
    requires IsSpace(c) && IsSpace(d)
    ensures Trim([c] + s + [d]) == Trim(s)
  {
    assert [c] + s + [d] == [c] + (s + [d]);
    TrimLeading(c, s + [d]);
    TrimTrailing(s, d);
  }

  /** Redemption changes no token, so the unique index is kept. */
  lemma RedeemKeepsUniqueTokens(t: Table<Ticket>, token: string, nowMs: nat, key: Option<string>, sha256Hex: string -> string)
    requires UniqueTokens(t)
    ensures UniqueTokens(Redeem(t, token, nowMs, key, sha256Hex).tickets)
  {
  }

  /** A freshly created ticket can be redeemed with its token until it expires, and gives back its session. */
  lemma CreatedTicketRedeems(t: Table<Ticket>, sessionId: Id, videoUrl: string, userId: string, token: string,
                             ticketId: Id, createdAt: int, nowMs: nat, key: Option<string>, sha256Hex: string -> string)
    requires !HasId(t, ticketId)
    requires Create(t, sessionId, videoUrl, userId, token, ticketId, createdAt).result.Success?
    requires nowMs <= createdAt + TicketLifetimeMs
    ensures var r := Redeem(Create(t, sessionId, videoUrl, userId, token, ticketId, createdAt).tickets, token, nowMs, key, sha256Hex);
            r.result.Success? && r.result.value.sessionId == sessionId
  {
    RedeemAppended(t, Row(ticketId, Stored(Segments(Pathname(videoUrl).value), token, sessionId, userId, createdAt)),
                   token, nowMs, key, sha256Hex);
  }

  /**
   * A ticket appended under a token no other ticket has is found and
   * redeemed, with any text that trims to that token, while unused and unexpired.
   */
  lemma RedeemAppended(t: Table<Ticket>, row: Row<Ticket>, token: string, nowMs: nat, key: Option<string>, sha256Hex: string -> string)
    requires row.val.token != "" && row.val.token == Trim(token) && !Any(t, HasToken(row.val.token))
    requires !row.val.used && nowMs <= row.val.expiresAt
    ensures var r := Redeem(t + [row], token, nowMs, key, sha256Hex);
            r.result.Success? && r.result.value.sessionId == row.val.sessionId
  {
    IndexAfterAppend(t, row, row.val.token);
    assert (t + [row])[|t|] == row;
  }

  lemma {:induction false} IndexAfterAppend(t: Table<Ticket>, row: Row<Ticket>, token: string)
    requires !Any(t, HasToken(token)) && row.val.token == token
    ensures IndexWhere(t + [row], HasToken(token)) == Some(|t|)
  {
    if |t| > 0 {
      assert (t + [row])[1..] == t[1..] + [row];
      assert !Any(t[1..], HasToken(token)) by {
        forall i | 0 <= i < |t[1..]| ensures !HasToken(token)(t[1..][i].val) {
          assert t[1..][i] == t[i + 1];
        }
      }
      IndexAfterAppend(t[1..], row, token);
    }
  }

  // ---------------------------------------------------------------------
  // Listing and housekeeping

  function Reverse<T(!new)>(s: seq<T>): (r: seq<T>)
    ensures |r| == |s| && forall i | 0 <= i < |s| :: r[i] == s[|s| - 1 - i]
    ensures multiset(r) == multiset(s)
    ensures forall x :: x in r <==> x in s
  {
    if |s| == 0 then []
    else
      assert s == s[..|s| - 1] + [s[|s| - 1]];
      [s[|s| - 1]] + Reverse(s[..|s| - 1])
  }

  /** `find({ sessionId }).sort({ createdAt: -1 })`, newest first. */
  function TokensBySession(t: Table<Ticket>, sessionId: Id): (r: Result<Table<Ticket>>)
    ensures !IsValidObjectId(sessionId) <==> r == Failure(BadRequest(MsgBadSessionId))
    ensures r.Success? ==> forall x :: x in r.value <==> x in t && x.val.sessionId == sessionId
    ensures r.Success? ==> multiset(r.value) == multiset(Where(t, InSession(sessionId)))
  {
    if !IsValidObjectId(sessionId) then Failure(BadRequest(MsgBadSessionId))
    else Success(Reverse(Where(t, InSession(sessionId))))
  }

  lemma ChronologicalTail(t: Table<Ticket>)
    requires |t| > 0 && Chronological(t)
    ensures Chronological(t[1..])
  {
    forall i, j | 0 <= i < j < |t[1..]| ensures t[1..][i].val.createdAt <= t[1..][j].val.createdAt {
      assert t[1..][i] == t[i + 1] && t[1..][j] == t[j + 1];
    }
  }

  lemma ChronologicalCons(h: Row<Ticket>, w: Table<Ticket>)
    requires Chronological(w)
    requires forall x | x in w :: h.val.createdAt <= x.val.createdAt
    ensures Chronological([h] + w)
  {
    var r := [h] + w;
    forall i, j | 0 <= i < j < |r| ensures r[i].val.createdAt <= r[j].val.createdAt {
      assert r[j] == w[j - 1];
      if i > 0 { assert r[i] == w[i - 1]; }
    }
  }

  /** Rows of a subsequence keep their relative order. */
  lemma {:induction false} WhereKeepsOrder(t: Table<Ticket>, p: Ticket -> bool)
    requires Chronological(t)
    ensures Chronological(Where(t, p))
  {
    if |t| > 0 {
      ChronologicalTail(t);
      WhereKeepsOrder(t[1..], p);
      if p(t[0].val) {
        var w := Where(t[1..], p);
        forall x | x in w ensures t[0].val.createdAt <= x.val.createdAt {
          var j :| 0 <= j < |t[1..]| && t[1..][j] == x;
          assert t[j + 1] == x;
        }
        ChronologicalCons(t[0], w);
      }
    }
  }

  /** When tickets are stored in creation order, the listing is newest first. */
  lemma TokensBySessionNewestFirst(t: Table<Ticket>, sessionId: Id)
    requires Chronological(t) && IsValidObjectId(sessionId)
    ensures var r := TokensBySession(t, sessionId).value;
            forall i, j | 0 <= i < j < |r| :: r[i].val.createdAt >= r[j].val.createdAt
  {
    WhereKeepsOrder(t, InSession(sessionId));
  }

  /** `deleteToken(id)` */
  method DeleteToken(db: Db, id: Id) returns (r: Result<()>)
    modifies db`tickets
    ensures !IsValidObjectId(id) ==> r == Failure(BadRequest(MsgBadTicketId)) && db.tickets == old(db.tickets)
    ensures IsValidObjectId(id) && !HasId(old(db.tickets), id) ==> r == Failure(NotFound(MsgNoSuchTicket)) && db.tickets == old(db.tickets)
    ensures r.Success? <==> IsValidObjectId(id) && HasId(old(db.tickets), id)
    ensures r.Success? ==> db.tickets == Delete(old(db.tickets), id)
    ensures forall x :: HasId(db.tickets, x) <==> HasId(old(db.tickets), x) && (r.Failure? || x != id)
  {
    if !IsValidObjectId(id) {
      return Failure(BadRequest(MsgBadTicketId));
    }
    if !HasId(db.tickets, id) {
      return Failure(NotFound(MsgNoSuchTicket));
    }
    DeleteIds(db.tickets, id);
    db.tickets := Delete(db.tickets, id);
    r := Success(());
  }

  /** `deleteTokensBySessionId(sessionId)`: removes exactly that session's tickets and reports how many. */
  method DeleteTokensBySessionId(db: Db, sessionId: Id) returns (r: Result<nat>)
    modifies db`tickets
    ensures !IsValidObjectId(sessionId) <==> r == Failure(BadRequest(MsgBadSessionId))
    ensures r.Failure? ==> db.tickets == old(db.tickets)
    ensures r.Success? ==> db.tickets == Without(old(db.tickets), InSession(sessionId))
    ensures r.Success? ==> forall x :: x in db.tickets <==> x in old(db.tickets) && x.val.sessionId != sessionId
    ensures r.Success? ==> r.value == |Where(old(db.tickets), InSession(sessionId))| == |old(db.tickets)| - |db.tickets|
  {
    if !IsValidObjectId(sessionId) {
      return Failure(BadRequest(MsgBadSessionId));
    }
    var count := |Where(db.tickets, InSession(sessionId))|;
    WhereWithoutSplit(db.tickets, InSession(sessionId));
    db.tickets := Without(db.tickets, InSession(sessionId));
    r := Success(count);
  }
}

=== FILE: wrappers.dfy ===
/** Optional values, results and the error classes the services throw. */
module Wrappers {
  datatype Option<T> = None | Some(value: T)

  /**
   * The error classes of the service layer: the four HTTP error classes,
   * a jsonwebtoken error that is let through unchanged, and any other
   * thrown `Error` (mail transport, database driver, URL parser).
   */
  datatype Error =
    | BadRequest(msg: string)
    | NotFound(msg: string)
    | Forbidden(msg: string)
    | Unauthorized(msg: string)
    | TokenRejected(msg: string)
    | Internal(msg: string)

  datatype Result<T> = Success(value: T) | Failure(error: Error)
}
